=== FILE: README.md ===
# gpui-component UI controllers in Dafny

This project models the deterministic controller logic behind the
gpui-component examples and widgets. What is modelled is the state each
view keeps and the way user actions and agent events change it. How the
state is drawn is not modelled. The components are:

- **Multi-file and single-file diff views**: numbering the lines of a diff,
  folding unchanged context into collapsed blocks, pairing removed and added
  lines into side-by-side rows, statistics, unified line-number gutters, and
  scroll synchronisation.
- **Codex chat session**:
  - the per-session state, with streaming messages, thoughts, tool calls and
    the size cache of the virtual list;
  - the view that routes agent events and user actions;
  - the bridge that answers permission requests;
  - the sidebar labels and project grouping;
  - the tool-call line builders.
- **Collapsible list widget** and its story.
- **Markdown state cache**.
- **Input-group addon alignment**.
- **WYSIWYG markdown editor**: block editing and inline emphasis parsing.
- **Git history table**: the file tree of uncommitted changes and the
  expandable row.
- **Mixed virtual list**.
- **Presentation preview**.
- **Workspace sidebar**.
- **NotebookLM story**.
- **Skills page**.
- **WeChat login window**.
- **Knowledge hub**.

Everything is a pure function over immutable datatypes. Some pieces are
computed outside the component, and each becomes a parameter of the model:

| piece | source | becomes |
|---|---|---|
| text diff | `similar` crate | the sequence of change tags |
| markdown parse | `markdown` crate | block spans |
| JSON parse and pretty-print | `serde_json` | a `Json` datatype and a `format` function |
| element layout | gpui | a `measure` function |
| merging a tool-call update into a tool call | the agent-client-protocol crate | a `merge` function |
| environment variables | process environment | booleans |
| whether a command reached the agent thread | channel send | a boolean |

Pixels are natural numbers. The presentation zoom is kept in integer
tenths.

## Model

| member | source | states |
|---|---|---|
| DiffLines.NumberedLines | crates/story/examples/diff.rs:79-123 | one diff line per change, in order |
| DiffLines.ComputeDiff | crates/story/examples/multi_file_diff.rs:301-345 | the loop that numbers old and new lines computes exactly the recursive numbering |
| DiffLines.NumberedLinesNumbers | crates/story/examples/diff.rs:79-123 | each line keeps its text. An old number is present unless the line was inserted, and is one more than the old lines before it. Likewise for new numbers, unless the line was deleted |
| DiffLines.NumberedLinesWellFormed | crates/story/examples/diff.rs:79-123 | every numbered line carries exactly the numbers its kind calls for |
| DiffLines.NumberedLinesPrefix | crates/story/examples/diff.rs:79-123 | numbering is incremental: the lines for a prefix of the changes are the prefix of the lines |
| DiffLines.OldNumbersRun | crates/story/examples/diff.rs:79-123 | the old line numbers read off the diff are exactly 1, 2, …, n for the n old lines |
| DiffLines.NewNumbersRun | crates/story/examples/diff.rs:79-123 | the new line numbers read off the diff are exactly 1, 2, …, m for the m new lines |
| DiffLines.ComputeStats | crates/story/examples/diff.rs:202-213 | the counted additions and removals are the numbers of added and removed lines, and together never exceed the line count |
| DiffLines.KindCountMatchesTags | crates/story/examples/multi_file_diff.rs:625-636 | the lines of each kind are as many as the changes with the matching tag |
| DiffLines.StatsMatchTags | crates/story/examples/diff.rs:202-213 | the statistics equal the insert, delete and equal tag counts of the underlying diff |
| DiffLines.UnifiedTextPrefix | crates/story/examples/diff.rs:374-387 | the unified text of a prefix of the lines is a prefix of the unified text |
| DiffLines.UnifiedText | crates/story/examples/diff.rs:374-387 | the unified text is the `join("")` of the lines' segments, each segment being the two-character marker of the line's kind followed by its text. It has at least two characters per line |
| DiffLines.UnifiedTextSegment | crates/story/examples/diff.rs:374-387 | line i occupies its own slice of the unified text: the two-character prefix of its kind, then its text. Segments are joined with nothing between them |
| DiffLines.GutterCell | crates/story/examples/multi_file_diff.rs:726-737 | at least four characters. A missing number gives four blanks. A present number ends the cell, right-aligned after blanks |
| DiffLines.UnifiedLineNumbers | crates/story/examples/multi_file_diff.rs:726-737 | the unified gutter is at least 11 characters. Its exact columns are stated by `DiffLines.UnifiedLineNumbersColumns` |
| DiffLines.GutterCellRoundTrip | crates/story/examples/multi_file_diff.rs:726-737 | a gutter cell is four characters. A missing number is blank, and a present number parses back from the cell |
| DiffLines.UnifiedLineNumbersColumns | crates/story/examples/multi_file_diff.rs:726-737 | the unified gutter is 11 characters, and both line numbers are recovered from their fixed columns |
| ContextCollapse.ContextLineNumbers | crates/story/examples/multi_file_diff.rs:510-515 | a well-formed unchanged line yields both its numbers. A line missing either number yields none |
| ContextCollapse.FoldCovers | crates/story/examples/multi_file_diff.rs:403-412 | a run of unchanged lines folds into at most one collapsed block that covers exactly that run |
| ContextCollapse.MiddleCovers | crates/story/examples/multi_file_diff.rs:386-423 | the context kept around a run between two changes, together with its fold, covers the run exactly once and in order |
| ContextCollapse.MiddleFolds | crates/story/examples/multi_file_diff.rs:389-418 | a run between changes of at least 2·ctx+1 lines, whose fold start is not expanded, folds all but ctx lines on each side into one block. Otherwise nothing in it is folded |
| ContextCollapse.LeadingCovers | crates/story/examples/multi_file_diff.rs:424-461 | when edge blocks are shown or the run is short, the lines before the first change are all accounted for. Otherwise only the last ctx of them appear |
| ContextCollapse.TrailingCovers | crates/story/examples/multi_file_diff.rs:472-505 | the run after the last change is covered exactly |
| ContextCollapse.NextChange | crates/story/examples/multi_file_diff.rs:378-383 | finds the next changed line, with no change skipped |
| ContextCollapse.LastEnd | crates/story/examples/multi_file_diff.rs:472-474 | the end of the last change. Nothing after it is a change |
| ContextCollapse.GapCovers | crates/story/examples/multi_file_diff.rs:384-464 | each buffer flush covers exactly the unchanged lines it was handed |
| ContextCollapse.ScanCovers | crates/story/examples/multi_file_diff.rs:378-470 | the walk over all changes covers the visible range exactly once, in order |
| ContextCollapse.PlanCovers | crates/story/examples/multi_file_diff.rs:347-508 | the whole plan covers the visible window of the file |
| ContextCollapse.Plan | crates/story/examples/multi_file_diff.rs:347-508 | every piece of the plan is in range, and a folded piece stands for unchanged lines whose first one has both numbers. With "show all" on, or with nothing changed, every line is shown as it is, in order |
| ContextCollapse.ApplyContextCollapsing | crates/story/examples/multi_file_diff.rs:347-508 | every line is shown as it is when "show all" is on or nothing changed. A collapsed block stands for at least one unchanged line, in range, and carries the numbers of its first line |
| ContextCollapse.WeightOfRender | crates/story/examples/multi_file_diff.rs:347-508 | rendering a plan keeps the line count: each shown line counts one and each collapsed block counts its lines |
| ContextCollapse.CollapsingAccountsForEveryLine | crates/story/examples/multi_file_diff.rs:347-508 | with edge collapsing on, the display accounts for every line of the file exactly once |
| ContextCollapse.CollapsingShowsChanges | crates/story/examples/multi_file_diff.rs:347-508 | every changed line appears as a line of the display: changes are never folded |
| ContextCollapse.ScanShowsChanges | crates/story/examples/multi_file_diff.rs:378-470 | the walk shows every change at or after its start |
| ContextCollapse.ExpandedBlocksStayOpen | crates/story/examples/multi_file_diff.rs:347-508 | no collapsed block starts at an index the user expanded |
| ContextCollapse.ScanKeepsExpanded | crates/story/examples/multi_file_diff.rs:378-470 | the walk never folds a block starting at an expanded index |
| SideBySide.RowsOfLines | crates/story/examples/diff.rs:137-195 | never more rows than lines, and at least one row for a non-empty diff |
| SideBySide.RowsOfLinesRoundTrip | crates/story/examples/diff.rs:137-195 | reading the lines back off the rows gives the diff again: every line lands in exactly one row, in order |
| SideBySide.RowsOfLinesCount | crates/story/examples/diff.rs:137-195 | rows = lines − pairs of a removed line with the added line that follows it |
| SideBySide.UnchangedRowsAgree | crates/story/examples/diff.rs:137-195 | an unchanged row shows the same text on both sides, with both line numbers |
| SideBySide.RowsOfItems | crates/story/examples/multi_file_diff.rs:540-618 | never more rows than display items |
| SideBySide.RowsOfItemsRoundTrip | crates/story/examples/multi_file_diff.rs:540-618 | collapsed blocks pass through as rows of their own, and every line lands in exactly one row, in order |
| SideBySide.RowsAgree | crates/story/examples/multi_file_diff.rs:540-618 | without collapsed blocks, the multi-file pairing equals the single-file pairing of diff.rs |
| ScrollSync.SyncScroll | crates/story/examples/diff.rs:355-371 | the pane that moved drags the other to its offset. The old pane wins when both moved. When neither pane moved since the last sync, or the panes already agree, nothing changes |
| ScrollSync.SyncKeepsAnOffset | crates/story/examples/diff.rs:355-371 | both panes end at one of the two incoming offsets |
| ScrollSync.SyncIdempotent | crates/story/examples/diff.rs:355-371 | synchronising twice is the same as once |
| ScrollSync.SyncLeavesEqualPanes | crates/story/examples/diff.rs:355-371 | equal offsets are never touched |
| MultiFileDiff.Recompute | crates/story/examples/multi_file_diff.rs:289-299 | the display items and rows are rebuilt from the lines for the context setting, and nothing else changes |
| MultiFileDiff.NewFile | crates/story/examples/multi_file_diff.rs:258-287 | a new file diff numbers its changes, expands nothing, and is consistent with its setting |
| MultiFileDiff.NewExample | crates/story/examples/multi_file_diff.rs:747-771 | one file per spec, with the initial context, edge collapsing on, and the side-by-side view |
| MultiFileDiff.NewExampleCannotCollapse | crates/story/examples/multi_file_diff.rs:934-950 | the "collapse all" control is disabled on a fresh example |
| MultiFileDiff.ToggleFile | crates/story/examples/multi_file_diff.rs:773-778 | flips whether one file is open, and every other file is unchanged. An out-of-range index does nothing |
| MultiFileDiff.ToggleFileTwice | crates/story/examples/multi_file_diff.rs:773-778 | toggling a file twice restores the example |
| MultiFileDiff.ExpandCollapsed | crates/story/examples/multi_file_diff.rs:780-787 | opens one collapsed block of one file and turns its `show_all` off. That file keeps its path, lines and open flag, and every other file, the context, the edge setting and the view mode are unchanged |
| MultiFileDiff.ExpandCollapsedOpensBlock | crates/story/examples/multi_file_diff.rs:780-787 | after expanding, no collapsed block of that file starts at the expanded index |
| MultiFileDiff.ExpandAll | crates/story/examples/multi_file_diff.rs:789-796 | every file gets `show_all` on and its expansions cleared, and is recomputed. Paths, lines, open flags, the context, the edge setting and the view mode are kept. No file shows a collapsed block afterwards |
| MultiFileDiff.ExpandAllShowsEveryLine | crates/story/examples/multi_file_diff.rs:789-796 | after "expand all" each file displays every one of its lines, in order, and nothing folded |
| MultiFileDiff.CollapseAll | crates/story/examples/multi_file_diff.rs:798-805 | every file gets `show_all` off and its expansions cleared, and is recomputed. Paths, lines, open flags, the context, the edge setting and the view mode are kept. Afterwards there is nothing left to collapse |
| MultiFileDiff.SetContextLines | crates/story/examples/multi_file_diff.rs:807-815 | the context becomes the new setting. Every file gets `show_all` off and its expansions cleared, and is recomputed for that setting. Paths, lines, open flags, the edge setting and the view mode are kept |
| MultiFileDiff.ResetDetermined | crates/story/examples/multi_file_diff.rs:789-815 | what the three resets promise fixes the result: two consistent views that reset the same view the same way are equal |
| MultiFileDiff.DecreaseContext | crates/story/examples/multi_file_diff.rs:934-950 | the "−" button lowers the context by one, not below zero |
| MultiFileDiff.IncreaseContext | crates/story/examples/multi_file_diff.rs:934-950 | the "+" button raises the context by one, up to the maximum of 10 |
| MultiFileDiff.CollapseUndoesExpandAll | crates/story/examples/multi_file_diff.rs:789-805 | "collapse all" after "expand all" is the same as "collapse all" alone |
| MultiFileDiff.CollapseUndoesExpandCollapsed | crates/story/examples/multi_file_diff.rs:780-805 | "collapse all" forgets a single expanded block |
| MultiFileDiff.NewExampleIsCollapsed | crates/story/examples/multi_file_diff.rs:747-805 | a fresh example is already fully collapsed |
| MultiFileDiff.ContextButtonsRoundTrip | crates/story/examples/multi_file_diff.rs:934-950 | "+" then "−" restores the context and collapses every file |
| MultiFileDiff.TotalStats | crates/story/examples/multi_file_diff.rs:817-826 | the totals are the added and removed lines over all files together |
| CollapsibleList.NewItem | crates/ui/src/collapsible_list.rs:87-98 | a new item has a 36 px header and 100 px content, and is collapsed and enabled |
| CollapsibleList.TotalHeight | crates/ui/src/collapsible_list.rs:138-144 | the height is at least the header, and exceeds it exactly when the item is expanded with content |
| CollapsibleList.Toggle | crates/ui/src/collapsible_list.rs:147-150 | flips only the expanded flag |
| CollapsibleList.ToggleTwice | crates/ui/src/collapsible_list.rs:485-498 | toggling twice restores the item, and the height changes by exactly the content height |
| CollapsibleList.BuilderExample | crates/ui/src/collapsible_list.rs:468-483 | the builder example keeps its id and label, is expanded and enabled, and yields 40 + 200 = 240 px. Collapsing it leaves the 40 px header |
| CollapsibleList.NewListState | crates/ui/src/collapsible_list.rs:170-180 | no items and no selection |
| CollapsibleList.SetItems | crates/ui/src/collapsible_list.rs:188-192 | replaces the items and clears the selection |
| CollapsibleList.SelectedItem | crates/ui/src/collapsible_list.rs:221-223 | the selected item when the selection names one, and otherwise none |
| CollapsibleList.ToggleExpand | crates/ui/src/collapsible_list.rs:226-233 | toggles an enabled item in range, and leaves the list unchanged for a disabled or missing one |
| CollapsibleList.Expand | crates/ui/src/collapsible_list.rs:236-243 | expands an enabled item in range, and nothing else |
| CollapsibleList.Collapse | crates/ui/src/collapsible_list.rs:246-251 | collapses an item in range even when it is disabled |
| CollapsibleList.ExpandAll | crates/ui/src/collapsible_list.rs:254-261 | every enabled item is expanded, and disabled items keep their state |
| CollapsibleList.CollapseAll | crates/ui/src/collapsible_list.rs:264-269 | every item is collapsed |
| CollapsibleList.OnItemClick | crates/ui/src/collapsible_list.rs:294-297 | a click selects the row and toggles it |
| CollapsibleList.ItemSizes | crates/ui/src/collapsible_list.rs:282-292 | one size per item, equal to its total height |
| CollapsibleList.ToggleExpandTwice | crates/ui/src/collapsible_list.rs:226-233 | toggling a row twice restores the list |
| CollapsibleList.AllActions | crates/ui/src/collapsible_list.rs:254-269 | "expand all" and "collapse all" do what they say, and each is idempotent |
| CollapsibleList.ListStateScenario | crates/ui/src/collapsible_list.rs:500-537 | the state test: selection, toggle, expand all, then collapse all |
| CollapsibleStory.Section | crates/story/src/stories/collapsible_list_story.rs:41-49 | a section is expanded when its index is a multiple of 10, and disabled when its index is 25 mod 50 |
| CollapsibleStory.StoryState | crates/story/src/stories/collapsible_list_story.rs:39-57 | the story starts with its sections and no selection |
| CollapsibleStory.SectionsWellFormed | crates/story/src/stories/collapsible_list_story.rs:41-49 | no section is both expanded and disabled, and section ids are distinct |
| CollapsibleStory.OnButtonsClick | crates/story/src/stories/collapsible_list_story.rs:87-97 | button 0 expands all, and button 1 collapses all |
| CollapsibleStory.ExpandAllOnStory | crates/story/src/stories/collapsible_list_story.rs:87-97 | on the story, "expand all" opens exactly the enabled sections |
| MarkdownCache.NewState | crates/ui/src/text/markdown_view.rs:62-66 | a new state holds the given text |
| MarkdownCache.SetText | crates/ui/src/text/markdown_view.rs:70-75 | the text is replaced |
| MarkdownCache.PushStr | crates/ui/src/text/markdown_view.rs:77-82 | the text is the old text followed by the pushed text |
| MarkdownCache.PushStrAssociates | crates/ui/src/text/markdown_view.rs:70-82 | two pushes are one push of both. A set discards earlier pushes |
| MarkdownCache.GetOrCreate | crates/ui/src/text/markdown_view.rs:292-305 | an existing state is returned untouched. A missing key gets a state with the text |
| MarkdownCache.Update | crates/ui/src/text/markdown_view.rs:307-311 | only the named state changes, and a missing key is not added |
| MarkdownCache.Remove | crates/ui/src/text/markdown_view.rs:313-315 | drops one key, and every other entry is kept |
| MarkdownCache.Clear | crates/ui/src/text/markdown_view.rs:317-319 | the cache is empty |
| MarkdownCache.GetOrCreateStable | crates/ui/src/text/markdown_view.rs:292-305 | a second lookup returns the first state and ignores its text |
| MarkdownCache.LookupAfterUpdateAndRemove | crates/ui/src/text/markdown_view.rs:292-319 | a lookup after an update sees the new text. A lookup after a removal creates afresh |
| InputGroup.PaddingOf | crates/ui/src/input/input_group.rs:31-49 | which of the four sides get addon padding, for each alignment |
| InputGroup.PaddingDeterminesAlign | crates/ui/src/input/input_group.rs:31-55 | "full width" means padded on both inline sides, and the padding identifies the alignment |
| InputGroup.NewAddon | crates/ui/src/input/input_group.rs:230-236 | a new addon is aligned inline-start, has no children, and is not full width |
| InputGroup.WithAlign | crates/ui/src/input/input_group.rs:239-244 | sets the alignment and keeps the children |
| InputGroup.BlockEndOf | crates/ui/src/input/input_group.rs:246-250 | `block_end` is the block-end alignment |
| InputGroup.BlockStartOf | crates/ui/src/input/input_group.rs:252-256 | `block_start` is the block-start alignment |
| InputGroup.InlineEndOf | crates/ui/src/input/input_group.rs:258-262 | `inline_end` is the inline-end alignment |
| InputGroup.InlineStartOf | crates/ui/src/input/input_group.rs:264-267 | `inline_start` is the inline-start alignment |
| InputGroup.LastAlignWins | crates/ui/src/input/input_group.rs:239-274 | the last alignment call wins, and inline-start is the default |
| InputGroup.NewGroup | crates/ui/src/input/input_group.rs:98-105 | a new group is enabled and empty |
| InputGroup.SetDisabled | crates/ui/src/input/input_group.rs:120-125 | sets the flag, and keeps the children |
| WysiwygEditor.StartEditing | examples/wysiwyg_editor/src/main.rs:194-204 | editing block i loads its source into the input. An index out of range does nothing |
| WysiwygEditor.FinishEditing | examples/wysiwyg_editor/src/main.rs:206-222 | the edited block's span is replaced by the input and the document is re-parsed. Without an edit, nothing changes but the editing flag |
| WysiwygEditor.FinishWithoutEditKeepsSource | examples/wysiwyg_editor/src/main.rs:194-222 | starting and finishing an edit without typing keeps the document |
| WysiwygEditor.EditReplacesBlock | examples/wysiwyg_editor/src/main.rs:194-222 | the new document is the text before the block, then the typed text, then the text after it |
| WysiwygEditor.CodeBody | examples/wysiwyg_editor/src/main.rs:385-391 | a source of at most two lines is shown as it is |
| WysiwygEditor.FencesAreStripped | examples/wysiwyg_editor/src/main.rs:385-391 | a fenced block shows exactly its body, without the fence lines |
| InlineMarkdown.Flush | examples/wysiwyg_editor/src/main.rs:578-582 | a non-empty buffer becomes one segment in the current style, and an empty one is dropped |
| InlineMarkdown.NonEmpty | examples/wysiwyg_editor/src/main.rs:661 | keeps exactly the segments with text |
| InlineMarkdown.ParseInlineSegments | examples/wysiwyg_editor/src/main.rs:568-671 | at least one segment, and either the whole text as plain or only non-empty segments |
| InlineMarkdown.PlainTextIsOneSegment | examples/wysiwyg_editor/src/main.rs:650-668 | text without markers parses to itself as one plain segment |
| InlineMarkdown.DoubleMarkerTogglesBold | examples/wysiwyg_editor/src/main.rs:576-584 | `**` or `__` flushes the buffer and toggles bold |
| InlineMarkdown.SingleMarkerTogglesItalic | examples/wysiwyg_editor/src/main.rs:585-592 | a lone `*` or `_` flushes the buffer and toggles italic |
| InlineMarkdown.TildeRules | examples/wysiwyg_editor/src/main.rs:602-610 | `~~` toggles strikethrough, and a lone `~` is literal text |
| InlineMarkdown.LinkSegment | examples/wysiwyg_editor/src/main.rs:611-641 | `[caption](url)` becomes one link segment with the current style |
| InlineMarkdown.ReadLink | examples/wysiwyg_editor/src/main.rs:618-641 | reading a link consumes exactly the caption, the url and the brackets |
| InlineMarkdown.BracketWithoutUrlIsLiteral | examples/wysiwyg_editor/src/main.rs:642-647 | `[caption]` not followed by `(` stays literal text, brackets included |
| InlineMarkdown.UnclosedBracketIsLiteral | examples/wysiwyg_editor/src/main.rs:642-659 | an unclosed `[` keeps the rest as literal text |
| InlineMarkdown.BoldExample | examples/wysiwyg_editor/src/main.rs:568-671 | "a **b**" gives a plain "a " then a bold "b" |
| InlineMarkdown.FallbackExample | examples/wysiwyg_editor/src/main.rs:663-668 | "**" leaves no text, so the whole input comes back as one plain segment |
| GitTree.Insert | crates/story/examples/git_history.rs:114-120 | inserting a node keeps the children sorted (folders first, then by name) and is a permutation |
| GitTree.Sort | crates/story/examples/git_history.rs:114-120 | the children are sorted and are a permutation of the input |
| GitTree.Heads | crates/story/examples/git_history.rs:99-107 | the distinct first path components, each once |
| GitTree.WithHead | crates/story/examples/git_history.rs:99-107 | exactly the entries under one first component |
| GitTree.Tails | crates/story/examples/git_history.rs:101-106 | the entries one level down, with their first component removed, and none lost |
| GitTree.BuildNode | crates/story/examples/git_history.rs:82-123 | a node is a file exactly when all its entries are single components. A file carries its counts. A folder's children are sorted and named by the next components |
| GitTree.Group | crates/story/examples/git_history.rs:52-80 | one sorted node per distinct first component |
| GitTree.EntriesOf | crates/story/examples/git_history.rs:52-80 | each file path is split at '/' |
| GitTree.BuildFileTree | crates/story/examples/git_history.rs:52-80 | the top level is sorted and named by the first component of each path |
| GitTree.RowOf | crates/story/examples/git_history.rs:309-341 | a flat row keeps the name and depth, and folders show no counts |
| GitTree.Flatten | crates/story/examples/git_history.rs:309-341 | the first row is the first node at the given depth |
| GitTree.FlattenShape | crates/story/examples/git_history.rs:309-341 | one row per node of the tree, none shallower than the starting depth |
| GitTree.EndOfBlock | crates/story/examples/git_history.rs:309-341 | finds where the rows below a folder end |
| GitTree.UnflattenFlatten | crates/story/examples/git_history.rs:309-341 | flattening loses nothing: the tree is rebuilt from its rows |
| GitHistory.NewCommit | crates/story/examples/git_history.rs:138-155 | the short id is the first 7 characters of the id, and the commit is not the uncommitted row |
| GitHistory.UncommittedCommit | crates/story/examples/git_history.rs:157-169 | the uncommitted row has no id, author "*", and a description that counts its files |
| GitHistory.UncommittedCountReadable | crates/story/examples/git_history.rs:157-169 | the file count is read back from the description |
| GitHistory.NewDelegate | crates/story/examples/git_history.rs:351-368 | no row is expanded and nothing is cached |
| GitHistory.TreeRows | crates/story/examples/git_history.rs:370-384 | the cached rows are the flattened tree of the commit's files, and rebuild it |
| GitHistory.ToggleRow | crates/story/examples/git_history.rs:370-384 | clicking the expanded row closes it. Another uncommitted row opens with its tree cached. A committed row opens and keeps the old cache |
| GitHistory.ToggleKeepsCache | crates/story/examples/git_history.rs:370-384 | the cache always matches the expanded row, and opening then closing a row restores the table |
| GitHistory.ExpandedRowCount | crates/story/examples/git_history.rs:386-393 | the extra rows are the node count of the expanded tree, and zero when nothing is expanded |
| GitHistory.RowsCount | crates/story/examples/git_history.rs:400-402 | the commits plus the expanded tree rows |
| GitHistory.RowTarget | crates/story/examples/git_history.rs:431-445 | a row is a tree row exactly when it lies in the expanded commit's tree. Tree rows count from one past the expanded row. Commit rows after the tree are shifted back by its size, and earlier ones are not shifted |
| GitHistory.RowFor | crates/story/examples/git_history.rs:431-445 | a tree node's row comes after the expanded row. A commit up to the expanded one keeps its index as its row, and a later commit is shifted down by the tree's size |
| GitHistory.RowTargetInRange | crates/story/examples/git_history.rs:431-445 | every table row maps to a commit or to a tree row, and back to itself |
| GitHistory.RowForInRange | crates/story/examples/git_history.rs:431-445 | every commit and tree row has a table row in range that maps back to it |
| ChatTypes.EstimatedHeight | examples/chat_session/src/types.rs:86-112 | at least a base and one line, and at least 20 px per content line and 28 px per tool call over the base |
| ChatTypes.EstimateParts | examples/chat_session/src/types.rs:86-112 | an empty message is 80 px. Each content line after the first adds 20 px. The first attachment adds 70 px and further ones nothing. Each tool call adds 28 px, and a thought adds 28 px |
| ChatTypes.EstimateGrowsWithContent | examples/chat_session/src/types.rs:86-112 | appending text never shrinks the estimate |
| ChatSession.NewSession | examples/chat_session/src/session.rs:29-45 | a fresh session is empty, unmeasured, idle and well-formed |
| ChatSession.ClearStreamState | examples/chat_session/src/session.rs:47-53 | forgets the streaming role, the active messages and the tool-call maps, and nothing else |
| ChatSession.ClearStreamStateIdempotent | examples/chat_session/src/session.rs:47-53 | clearing twice is clearing once, and keeps the session invariant |
| ChatSession.BuildMessage | examples/chat_session/src/view/state.rs:63-79 | the user is "You" without a badge. The agent is "codex" with the "ACP" badge |
| ChatSession.AddPending | examples/chat_session/src/view/events.rs:310-333 | queues an index for re-measurement once, keeping the queue's order |
| ChatSession.PushMessage | examples/chat_session/src/view/events.rs:270-308 | appends the message with its estimated size. An assistant message gets a markdown state under its index |
| ChatSession.AppendToMessage | examples/chat_session/src/view/events.rs:310-333 | extends one message's text, queues it for re-measurement, and leaves every other item alone |
| ChatSession.CreateStreamingMessage | examples/chat_session/src/view/events.rs:156-176 | pushes an empty message for the role and makes it the active one. A new assistant message starts fresh tool-call maps |
| ChatSession.AppendMessageChunk | examples/chat_session/src/view/events.rs:124-154 | a chunk extends the role's active message while that role streams, and otherwise starts a new message |
| ChatSession.EnsureAssistant | examples/chat_session/src/view/events.rs:190-208 | the active assistant message, or a new one that becomes active |
| ChatSession.AppendThoughtChunk | examples/chat_session/src/view/events.rs:178-188 | the text extends the thinking of the assistant message |
| ChatSession.UpdateToolCallUi | examples/chat_session/src/view/events.rs:241-268 | in the assistant message, a call with an indexed id is replaced at its position, or left alone if the index is past the end. A new id is appended and indexed at its position. The item is queued for re-measurement. Every other item, the rest of the message and every other field are kept |
| ChatSession.UpsertToolCall | examples/chat_session/src/view/events.rs:210-217 | shows the call as above: replaced at its indexed position, or appended for a new id. The cache holds the call afterwards, unless no assistant message was active: making one clears the cache |
| ChatSession.ApplyToolCallUpdate | examples/chat_session/src/view/events.rs:219-239 | the cached call (or none), merged with the update, is shown: replaced at its indexed position, or appended for a new id. The cache holds the merged call afterwards, unless making an assistant message cleared it |
| ChatSession.PushKeepsWf | examples/chat_session/src/view/events.rs:270-308 | pushing keeps the session invariant: ids are positions, sizes match, markdown mirrors assistant text |
| ChatSession.AppendToMessageKeepsWf | examples/chat_session/src/view/events.rs:310-333 | appending keeps the session invariant |
| ChatSession.CreateStreamingKeepsWf | examples/chat_session/src/view/events.rs:156-176 | starting a streaming message keeps the session invariant |
| ChatSession.AppendMessageChunkKeepsWf | examples/chat_session/src/view/events.rs:124-154 | chunks keep the session invariant |
| ChatSession.EnsureAssistantKeepsWf | examples/chat_session/src/view/events.rs:190-208 | keeps the invariant, and the index it returns names an item |
| ChatSession.AppendThoughtChunkKeepsWf | examples/chat_session/src/view/events.rs:178-188 | thoughts keep the session invariant |
| ChatSession.UpdateToolCallUiKeepsWf | examples/chat_session/src/view/events.rs:241-268 | tool-call display keeps the session invariant |
| ChatSession.UpsertToolCallKeepsWf | examples/chat_session/src/view/events.rs:210-217 | a new tool call keeps the session invariant |
| ChatSession.ApplyToolCallUpdateKeepsWf | examples/chat_session/src/view/events.rs:219-239 | a tool-call update keeps the session invariant |
| ChatSession.UpsertShowsCallOnce | examples/chat_session/src/view/events.rs:210-268 | in a well-formed session the started call is shown exactly once, at the position its index gives |
| ChatSession.ApplyUpdateShowsMergedOnce | examples/chat_session/src/view/events.rs:219-268 | in a well-formed session the merged call is shown exactly once, at the position its index gives |
| ChatSession.MeasureAll | examples/chat_session/src/view/measure.rs:12-33 | one laid-out size per item at the width, and the session is marked measured at that width |
| ChatSession.RemeasureItem | examples/chat_session/src/view/measure.rs:35-49 | replaces the size of one item only |
| ChatSession.RemeasureEach | examples/chat_session/src/view/measure.rs:35-49 | the queued items are re-measured, and every other size is kept |
| ChatSession.RenderSession | examples/chat_session/src/view/render.rs:39-69 | after rendering, the session is measured at the width, the queue is empty, and the sizes match the items |
| ChatSession.RenderSessionMeasures | examples/chat_session/src/view/render.rs:39-69 | a size is re-measured exactly when the width changed or its item was queued, and every other size is kept |
| ChatSession.RenderSessionKeepsWf | examples/chat_session/src/view/render.rs:39-69 | rendering keeps the session invariant |
| ChatUtils.TruncateLabel | examples/chat_session/src/utils.rs:10-21 | a short label is kept. A long one is cut to the limit with "..." at the end |
| ChatUtils.TruncateLabelIdempotent | examples/chat_session/src/utils.rs:10-21 | with a limit of at least 3, the result fits and truncating again changes nothing |
| ChatUtils.MapToolStatus | examples/chat_session/src/utils.rs:44-51 | completed is success, failed is failed, and anything else is running |
| ChatUtils.ContentBlockToText | examples/chat_session/src/utils.rs:83-98 | text gives its text. An image or audio block gives "[image: mime]" or "[audio: mime]", a link gives "name (uri)", a text resource gives its text, and a blob gives "[resource: uri]". An unknown block or resource gives nothing. The result is empty exactly for these or for empty text |
| ChatUtils.DescriptionsReadBack | examples/chat_session/src/utils.rs:83-98 | the media type, the blob URI, and the name and URI of a link whose name has no "(" are read back from the description |
| ChatUtils.Block | examples/chat_session/src/utils.rs:59-80 | a non-empty chunk is pushed followed by a newline, and an empty chunk adds nothing |
| ChatUtils.AccumulateIsBlocks | examples/chat_session/src/utils.rs:59-80 | the loop's output is the blocks of all chunks in order |
| ChatUtils.ContentText | examples/chat_session/src/utils.rs:59-80 | the blocks with trailing whitespace trimmed, so the text never ends in whitespace |
| ChatUtils.ContentTextExamples | examples/chat_session/src/utils.rs:59-80 | a single text item gives its text, and unsupported content gives nothing |
| ChatUtils.MapToolCall | examples/chat_session/src/utils.rs:24-41 | keeps the id, title and status. Args are the raw input when present and the content text otherwise. Output is the raw output or empty |
| ChatBridge.FirstAllow | examples/chat_session/src/bridge.rs:55-74 | the first option that allows, if any |
| ChatBridge.RequestPermission | examples/chat_session/src/bridge.rs:55-74 | cancelled exactly when there are no options. Otherwise it picks the first allow option, or the first option when none allows |
| ChatBridge.SessionNotification | examples/chat_session/src/bridge.rs:76-82 | a notification is forwarded as an update event for its session |
| ChatBridge.AuthMethod | examples/chat_session/src/bridge.rs:184-190 | a Codex key wins, then an OpenAI key, and otherwise ChatGPT login |
| ChatBridge.RunCommand | examples/chat_session/src/bridge.rs:237-307 | the events of a prompt always end in its "finished" event. A failed prompt reports "Prompt failed: " and the error, then finishes as cancelled. Every other command answers with exactly one event. A failure reports "Failed to list sessions: ", "Failed to create session: " or "Failed to load session: " and the error |
| ChatController.NewView | examples/chat_session/src/main.rs:58-91 | no sessions, no selection, status "Connecting to Codex ACP..." |
| ChatController.EnsureSession | examples/chat_session/src/view/state.rs:11-15 | a missing session gets a fresh "Ready" state, and an existing one is untouched |
| ChatController.StateOf | examples/chat_session/src/view/state.rs:11-15 | the state a handler works on: the stored one or a fresh "Ready" state |
| ChatController.WithState | examples/chat_session/src/view/state.rs:11-15 | writes one session's state, and every other session is kept |
| ChatController.FindSession | examples/chat_session/src/view/state.rs:17-22 | the first listed entry for the id, and none exactly when it is unlisted |
| ChatController.SessionCwd | examples/chat_session/src/view/state.rs:17-22 | the working directory of the listed session, and none exactly when it is unlisted |
| ChatController.NextMessageId | examples/chat_session/src/view/state.rs:56-61 | the next id is the number of items, so ids are positions |
| ChatController.UpdateSessionList | examples/chat_session/src/view/state.rs:31-54 | an active session missing from the new list is put back in front. Without an active session, the first listed one becomes active. The active session is always listed |
| ChatController.Without | examples/chat_session/src/view/events.rs:34-46 | removes exactly the entries of one session, keeping the others |
| ChatController.WithoutUnlisted | examples/chat_session/src/view/events.rs:34-46 | removing an unlisted session changes nothing |
| ChatController.CreatedList | examples/chat_session/src/view/events.rs:34-46 | the new session is first, named "New session", and listed once |
| ChatController.CreatedListTwice | examples/chat_session/src/view/events.rs:34-46 | a repeated "session created" event leaves the list as it was |
| ChatController.ApplySessionUpdate | examples/chat_session/src/view/events.rs:61-99 | empty chunks are ignored. Each other update goes to the matching session operation. Other sessions, the list and the selection are kept, and the invariant is kept |
| ChatController.WithStatus | examples/chat_session/src/view/events.rs:16-59 | only the status line and the generating flag change |
| ChatController.HandleEvent | examples/chat_session/src/view/events.rs:16-59 | a session update goes to that session. "Finished" stops generating with "Completed: reason". A listing goes to the session-list update. A created session gets "Ready", becomes active and goes first in the list. A loaded one gets "Session loaded" and becomes active. A system message sets the app status. Each event changes nothing else |
| Acp.StopReasonName | examples/chat_session/src/view/events.rs:27 | the debug spelling of a stop reason reads back as that reason, so no two reasons are spelt alike |
| ChatController.HandleAll | examples/chat_session/src/view/events.rs:16-59 | any event stream keeps every session well-formed |
| ChatController.HandleAllLast | examples/chat_session/src/view/events.rs:16-59 | after a stream ending in "finished", that session is idle |
| ChatController.PromptAlwaysFinishes | examples/chat_session/src/bridge.rs:237-307 | whatever the agent answers to a prompt, handling the resulting events leaves the session idle |
| ChatController.Submit | examples/chat_session/src/view/actions.rs:9-52 | the user message is appended with the next id and the stream is reset. The status and the generating flag say whether the prompt reached the agent |
| ChatController.SendMessage | examples/chat_session/src/view/actions.rs:9-52 | nothing happens without an active session, while it generates, or for blank input. Otherwise the trimmed input is submitted, the box is cleared, and a prompt command for that session is issued |
| ChatController.Reselect | examples/chat_session/src/view/actions.rs:64-86 | the stream is reset and generation stops. The status is "Loading session..." when the cwd is known and "Missing session cwd" otherwise |
| ChatController.SelectSession | examples/chat_session/src/view/actions.rs:64-86 | re-selecting the active session does nothing. Another session becomes active, and a load command is issued only when its cwd is listed |
| ChatController.SelectSessionTwice | examples/chat_session/src/view/actions.rs:64-86 | selecting the same session twice is selecting it once |
| ChatRender.MeasureWidth | examples/chat_session/src/view/render.rs:29-37 | the content width never exceeds 640. It is the reported list width minus the gutter when known, and otherwise the viewport minus the sidebar, padding and gutter |
| ChatRender.MeasureWidthMonotone | examples/chat_session/src/view/render.rs:29-37 | a wider window or list never gives a narrower content width |
| ChatRender.ReportedWidthWins | examples/chat_session/src/view/render.rs:29-37 | once the list width is known, the viewport no longer matters |
| ChatRender.RenderState | examples/chat_session/src/view/render.rs:39-69 | without an active session: no sizes and the app status. With one: that session rendered at the width |
| ChatRender.ViewRenderState | examples/chat_session/src/view/render.rs:39-69 | renders at the measured content width |
| ChatRender.LegacyRenderState | examples/chat_session/src/main.rs:646-670 | the older view renders at the fixed 640 px width |
| ChatRender.RendersAgreeWhenWide | examples/chat_session/src/main.rs:646-670 | when the list is wide enough, both views render identically |
| ChatRender.RenderTwice | examples/chat_session/src/view/render.rs:39-69 | rendering twice at one width equals rendering once |
| ChatRender.RenderStateSettled | examples/chat_session/src/view/render.rs:39-69 | a settled session renders without change |
| ChatRender.RenderSettled | examples/chat_session/src/view/render.rs:39-69 | rendering a measured session with an empty queue at the same width changes nothing |
| ChatRender.OnPrepaint | examples/chat_session/src/view/render.rs:443-448 | records the list width, and asks for a redraw exactly when it changed |
| ChatRender.PrepaintSettles | examples/chat_session/src/view/render.rs:443-448 | a second prepaint at the same width is quiet, and the recorded width drives the measurement |
| ChatRender.Lookup | examples/chat_session/src/view/render.rs:71-78 | a project without a group has no sessions |
| ChatRender.Filter | examples/chat_session/src/view/render.rs:71-78 | the listed sessions of one project, in order |
| ChatRender.InsertSession | examples/chat_session/src/view/render.rs:71-78 | inserting into the ordered map keeps groups sorted by name and adds the project |
| ChatRender.ProjectNames | examples/chat_session/src/view/render.rs:71-78 | exactly the project names of the listed sessions |
| ChatRender.Grouped | examples/chat_session/src/view/render.rs:71-78 | groups are sorted by project name, one per project |
| ChatRender.LookupAt | examples/chat_session/src/view/render.rs:71-78 | names are unique, so looking a group's name up finds that group |
| ChatRender.InsertLookup | examples/chat_session/src/view/render.rs:71-78 | inserting appends to one project's group only |
| ChatRender.GroupedLookup | examples/chat_session/src/view/render.rs:71-78 | each group holds exactly its project's sessions, in list order |
| ChatRender.GroupedSessions | examples/chat_session/src/view/render.rs:71-78 | the grouping is sorted, and every group is non-empty and correct |
| ChatUi.ShortSessionId | examples/chat_session/src/ui/mod.rs:12-14 | the first 8 characters of the id |
| ChatUi.SessionTitle | examples/chat_session/src/ui/mod.rs:17-24 | the title, or "Session " and the short id |
| ChatUi.Components | examples/chat_session/src/ui/mod.rs:50-54 | the named path components in order, skipping empty and "." pieces |
| ChatUi.FileName | examples/chat_session/src/ui/mod.rs:50-54 | the last named component unless it is "..". None for the root or the empty path |
| ChatUi.ProjectGroupName | examples/chat_session/src/ui/mod.rs:50-54 | the file name of the cwd, or the whole path when it has none |
| ChatUi.SessionSubtitle | examples/chat_session/src/ui/mod.rs:27-39 | the project name, then " · " and the update time when known |
| ChatUi.FormatElapsedTime | examples/chat_session/src/ui/mod.rs:43-47 | the update time or nothing |
| ChatUi.FileNameOfJoin | examples/chat_session/src/ui/mod.rs:50-54 | `dir/name` is grouped under `name`, whatever the directory |
| ChatUi.GroupNameOfRoot | examples/chat_session/src/ui/mod.rs:50-54 | "/" and "" name themselves |
| ChatUi.GroupNameOfParent | examples/chat_session/src/ui/mod.rs:50-54 | a path ending in ".." names itself |
| ChatUi.GroupNameOfTrailingSlash | examples/chat_session/src/ui/mod.rs:50-54 | a trailing slash is ignored |
| ChatBuilders.Get | examples/chat_session/src/ui/builders.rs:87-98 | a field is found exactly when the object has the key, and the value found is that of the key's last occurrence, as a parsed object keeps it |
| ChatBuilders.FirstStringField | examples/chat_session/src/ui/builders.rs:87-98 | the first key, in priority order, whose value is a string |
| ChatBuilders.ExtractField | examples/chat_session/src/ui/builders.rs:87-112 | arguments that are not a JSON object give nothing. An object gives the first string field of the keys |
| ChatBuilders.ExtractFilePath | examples/chat_session/src/ui/builders.rs:86-98 | a found path is the string under one of "path", "file_path", "file", "filename", "target" and "uri", with no earlier of these holding a string. Nothing is found when the arguments are not an object or no key holds a string |
| ChatBuilders.ExtractCommand | examples/chat_session/src/ui/builders.rs:100-112 | the same for "command", "cmd", "shell" and "run" |
| ChatBuilders.PathKeyOrder | examples/chat_session/src/ui/builders.rs:87-98 | "path" is preferred to "uri", and a non-string path falls back to "uri" |
| ChatBuilders.BoundaryIndex | examples/chat_session/src/ui/builders.rs:115-121 | a byte offset maps to the character index where the UTF-8 prefix has that length |
| ChatBuilders.BoundaryIndexComplete | examples/chat_session/src/ui/builders.rs:115-121 | every character boundary's byte offset is found |
| ChatBuilders.TruncatePathAsWritten | examples/chat_session/src/ui/builders.rs:115-121 | short paths are kept. A long path is "..." and a byte tail of exactly the limit in bytes. It fails off a character boundary, and, as a debug build does, when the limit is under 3 |
| ChatBuilders.TruncatePathPanics | examples/chat_session/src/ui/builders.rs:115-121 | 21 × 'é' (42 bytes) with limit 40 cuts inside a character |
| ChatBuilders.TailWithin | examples/chat_session/src/ui/builders.rs:115-121 | the longest tail within the byte budget |
| ChatBuilders.TruncatePath | examples/chat_session/src/ui/builders.rs:115-121 | short paths are kept. A long path is "..." and a tail of it, within the limit when the limit is at least 3, and "..." alone below that |
| ChatBuilders.TruncatePathKeepsLongestTail | examples/chat_session/src/ui/builders.rs:115-121 | the kept tail is the longest one that fits in limit − 3 bytes and starts on a character boundary |
| ChatBuilders.TruncatePathAgrees | examples/chat_session/src/ui/builders.rs:115-121 | wherever the written code succeeds, the corrected one gives the same text |
| ChatBuilders.FirstRule | examples/chat_session/src/ui/builders.rs:47-84 | the kind of the first rule that mentions a keyword, or "other" |
| ChatBuilders.KindOf | examples/chat_session/src/ui/builders.rs:47-84 | the kind is "other" exactly when the lower-cased name contains none of the rule words. Any other kind is one whose own words the name contains. Which rule wins is stated by `ChatBuilders.KindOfFollowsRules` |
| ChatBuilders.IconOf | examples/chat_session/src/ui/builders.rs:47-84 | one icon per kind, so the kind reads back from its icon |
| ChatBuilders.KindOfFollowsRules | examples/chat_session/src/ui/builders.rs:47-84 | the tool kind is decided by the keyword rules in order, on the lower-cased name |
| ChatBuilders.ThoughtBeatsRead | examples/chat_session/src/ui/builders.rs:47-84 | "think" is tested before "read" |
| ChatBuilders.ReadIgnoresCase | examples/chat_session/src/ui/builders.rs:47-84 | "READ" in any case makes a read-file call |
| ChatBuilders.IconAndAction | examples/chat_session/src/ui/builders.rs:47-84 | the kind is the first rule of the rule table whose words the lower-cased name contains, and the icon is that kind's. The action text follows the kind's entry in the action table: a fixed word, the tool name, or the verb with the path or command found under the kind's keys, cut to 40 bytes. Without a target it is the fallback text |
| ChatBuilders.ActionLabel | examples/chat_session/src/ui/builders.rs:53-83 | each branch of the name tests gives the action text its kind's table entry calls for |
| ChatBuilders.IconAndActionAsWritten | examples/chat_session/src/ui/builders.rs:47-121 | with the cut as written, the labelling panics exactly when a shown path or command is cut inside a character |
| ChatBuilders.IconAndActionAgrees | examples/chat_session/src/ui/builders.rs:47-121 | wherever the written labelling does not panic, it gives the corrected icon and text |
| ChatBuilders.LayoutOf | examples/chat_session/src/ui/builders.rs:220-239 | user messages are bubbles, and everything else uses the assistant layout |
| MixedList.LineCount | examples/mixed_virtual_list/src/main.rs:67-89 | at least one line, and exactly one for single-line text |
| MixedList.EstimatedHeight | examples/mixed_virtual_list/src/main.rs:67-89 | the fixed estimate of each content type |
| MixedList.EstimateSizes | examples/mixed_virtual_list/src/main.rs:181-189 | one estimated size per item |
| MixedList.SampleItem | examples/mixed_virtual_list/src/main.rs:262-331 | the kind cycles with i mod 7, and collapsibles start expanded when i is a multiple of 14 |
| MixedList.SampleData | examples/mixed_virtual_list/src/main.rs:262-331 | 100 items, item i being sample i |
| MixedList.SampleHeights | examples/mixed_virtual_list/src/main.rs:67-89 | the estimated heights of the fixed-size samples |
| MixedList.MarkdownKeys | examples/mixed_virtual_list/src/main.rs:153-166 | every markdown item has a state keyed by its index |
| MixedList.MarkdownKeysOnly | examples/mixed_virtual_list/src/main.rs:153-166 | only markdown items have states |
| MixedList.StateIffMarkdown | examples/mixed_virtual_list/src/main.rs:153-166 | an index has a markdown state exactly when its item is markdown |
| MixedList.MarkdownStates | examples/mixed_virtual_list/src/main.rs:153-166 | the loop creates a state for exactly the markdown items, holding their source |
| MixedList.NewListView | examples/mixed_virtual_list/src/main.rs:145-177 | the sample data with estimated sizes, unmeasured, and states mirroring the markdown items |
| MixedList.ToggleCollapsible | examples/mixed_virtual_list/src/main.rs:333-344 | flips a collapsible and queues it once. Other kinds are left alone. Sizes, markdown states, the measured flag, the last width and the markdown re-measure flag are kept |
| MixedList.ToggleTwice | examples/mixed_virtual_list/src/main.rs:333-344 | toggling twice restores the items, and the queue holds the index once |
| MixedList.Remeasure | examples/mixed_virtual_list/src/main.rs:227-259 | the listed items are re-measured, and every other size is kept |
| MixedList.MarkdownIndices | examples/mixed_virtual_list/src/main.rs:358-382 | exactly the indices of markdown items |
| MixedList.Render | examples/mixed_virtual_list/src/main.rs:347-384 | everything is measured at 800 px when the width changed. Otherwise only queued items and, when flagged, markdown items are re-measured. The queue ends empty |
| MixedList.RenderSettles | examples/mixed_virtual_list/src/main.rs:347-384 | rendering twice is rendering once |
| Presentation.NewPreview | crates/story/examples/presentation_preview.rs:209-227 | the first slide, 100% zoom, no feedback |
| Presentation.SelectSlide | crates/story/examples/presentation_preview.rs:229-237 | selects an existing slide, and ignores an index out of range |
| Presentation.Next | crates/story/examples/presentation_preview.rs:239-243 | moves forward and stops at the last slide. An empty deck underflows |
| Presentation.Prev | crates/story/examples/presentation_preview.rs:244-247 | moves back and stops at the first slide, also from one past the end. An empty deck, or a selection further out, is left alone |
| Presentation.Zoom | crates/story/examples/presentation_preview.rs:249-262 | zoom steps by 10% within 50%..200%, and reset returns to 100% |
| Presentation.Apply | crates/story/examples/presentation_preview.rs:781-802 | only "next" on an empty deck fails. First and last jump to the ends. The slides and feedback are kept |
| Presentation.SetFeedback | crates/story/examples/presentation_preview.rs:264-267 | records the vote, and nothing else |
| Presentation.KeyAction | crates/story/examples/presentation_preview.rs:44-52 | down/right go next, up/left go back, "=" zooms in, "-" zooms out, "0" resets the zoom, and home/end jump. Every other key is unbound |
| Presentation.Nav | crates/story/examples/presentation_preview.rs:568-603 | "previous" is disabled on the first slide and "next" on the last. The indicator reads "n / total" |
| Presentation.ApplyKeepsWf | crates/story/examples/presentation_preview.rs:781-802 | on a non-empty deck every action succeeds and keeps the selection and zoom in range |
| Presentation.Run | crates/story/examples/presentation_preview.rs:781-802 | any sequence of actions keeps the preview valid, the slides and the feedback |
| Presentation.NextPrevInverse | crates/story/examples/presentation_preview.rs:239-247 | away from the ends, next and previous undo each other |
| Presentation.DisabledIffNoMove | crates/story/examples/presentation_preview.rs:379-380 | a button is disabled exactly when pressing it would not move |
| Presentation.ZoomInverse | crates/story/examples/presentation_preview.rs:249-262 | away from the limits, zooming in and out undo each other |
| Presentation.NextReachesLast | crates/story/examples/presentation_preview.rs:239-243 | enough "next" presses reach the last slide and stay there |
| WorkspaceSidebar.NewSidebar | crates/story/examples/workspace_sidebar.rs:189-196 | worktree "1-1" selected, tree view |
| WorkspaceSidebar.FindProject | crates/story/examples/workspace_sidebar.rs:198-203 | the first project with the id |
| WorkspaceSidebar.ToggleProject | crates/story/examples/workspace_sidebar.rs:198-203 | flips the first project with the id, and an unknown id changes nothing |
| WorkspaceSidebar.ToggleTwice | crates/story/examples/workspace_sidebar.rs:198-203 | toggling a project twice restores the sidebar |
| WorkspaceSidebar.ClickHeader | crates/story/examples/workspace_sidebar.rs:314-335 | a header toggles its project only when it can expand |
| WorkspaceSidebar.EmptyProjectFoldsOnce | crates/story/examples/workspace_sidebar.rs:314-335 | an open project without worktrees can be closed but not reopened |
| WorkspaceSidebar.SelectWorktree | crates/story/examples/workspace_sidebar.rs:205-208 | selects the worktree, and nothing else |
| WorkspaceSidebar.SetViewMode | crates/story/examples/workspace_sidebar.rs:210-213 | sets the view mode, and nothing else |
| WorkspaceSidebar.GitStats | crates/story/examples/workspace_sidebar.rs:520-533 | "+n" for additions and "−n" for deletions, each only when non-zero |
| WorkspaceSidebar.StatusText | crates/story/examples/workspace_sidebar.rs:535-565 | a badge for every status but none |
| WorkspaceSidebar.Keep | crates/story/examples/workspace_sidebar.rs:577-587 | keeps exactly the worktrees of one side of "today", in their timeline order: the result is a subsequence of the entries |
| WorkspaceSidebar.IsToday | crates/story/examples/workspace_sidebar.rs:712-723 | today exactly when there is no label, or when the ASCII-lower-cased label contains "min", "hour", "分钟" or "小时" |
| WorkspaceSidebar.AllWorktrees | crates/story/examples/workspace_sidebar.rs:569-576 | one entry per worktree of every project, and an entry is listed exactly when its worktree belongs to a project of that name |
| WorkspaceSidebar.AllWorktreesAt | crates/story/examples/workspace_sidebar.rs:569-576 | worktree i of project j comes right after the worktrees of the earlier projects and the first i of its own: project by project, each in its own order |
| WorkspaceSidebar.TodayGroup | crates/story/examples/workspace_sidebar.rs:578-581 | exactly the listed worktrees that are from today, in timeline order |
| WorkspaceSidebar.OlderGroup | crates/story/examples/workspace_sidebar.rs:583-586 | exactly the listed worktrees that are not from today, in timeline order |
| WorkspaceSidebar.KeepPartitions | crates/story/examples/workspace_sidebar.rs:567-587 | the two filters split the entries: same count, same multiset |
| WorkspaceSidebar.TimelinePartition | crates/story/examples/workspace_sidebar.rs:567-587 | every worktree is in exactly one of "today" and "older" |
| WorkspaceSidebar.FiltersComplement | crates/story/examples/workspace_sidebar.rs:567-587 | the two filter conditions are complements |
| WorkspaceSidebar.MinutesAreToday | crates/story/examples/workspace_sidebar.rs:712-723 | "5 MIN ago" counts as today, whatever the case |
| WorkspaceSidebar.OlderWithoutTimeWords | crates/story/examples/workspace_sidebar.rs:712-723 | text without minute or hour words is older |
| NotebookLm.Label | crates/story/examples/notebook_lm.rs:52-58 | the tab captions |
| NotebookLm.TabLabelsAreLabels | crates/story/examples/notebook_lm.rs:226-243 | the tab bar shows the captions of the three filters in order |
| NotebookLm.NewStory | crates/story/examples/notebook_lm.rs:145-152 | grid view, first tab |
| NotebookLm.SetViewMode | crates/story/examples/notebook_lm.rs:154-157 | sets the view mode only |
| NotebookLm.SetActiveTab | crates/story/examples/notebook_lm.rs:159-162 | sets the active tab only |
| NotebookLm.Section | crates/story/examples/notebook_lm.rs:290-294 | exactly the notebooks with the given featured flag |
| NotebookLm.FeaturedSection | crates/story/examples/notebook_lm.rs:288-294 | exactly the featured notebooks, in their order |
| NotebookLm.RecentSection | crates/story/examples/notebook_lm.rs:454-460 | exactly the notebooks that are not featured, in their order |
| NotebookLm.SectionsPartition | crates/story/examples/notebook_lm.rs:456-460 | the featured and recent sections split the notebooks |
| NotebookLm.SectionKeepsOrder | crates/story/examples/notebook_lm.rs:290-294 | a section lists its notebooks in their original order |
| NotebookLm.SwitchesKeepSections | crates/story/examples/notebook_lm.rs:154-162 | changing view or tab does not change the sections |
| SkillsPage.NewPage | crates/story/examples/skills_page.rs:240-253 | agent-studio open, teleagent closed, menu closed |
| SkillsPage.ClickFolder | crates/story/examples/skills_page.rs:407-414 | a click flips its own folder, and other names do nothing |
| SkillsPage.ClickTwice | crates/story/examples/skills_page.rs:407-414 | two clicks restore the page |
| SkillsPage.SetMenuOpen | crates/story/examples/skills_page.rs:511-514 | opens or closes the user menu only |
| SkillsPage.FolderThreads | crates/story/examples/skills_page.rs:436 | a folder lists threads only when it is open and has them |
| SkillsPage.ThreadsSection | crates/story/examples/skills_page.rs:367-377 | agent-studio lists the threads when open, and teleagent lists none |
| SkillsPage.TeleagentNeverListsThreads | crates/story/examples/skills_page.rs:367-377 | opening teleagent shows no threads and leaves agent-studio alone |
| SkillsPage.RecommendedRows | crates/story/examples/skills_page.rs:905-916 | cards two per row, with a spacer exactly in a one-card row |
| SkillsPage.RowsKeepOrder | crates/story/examples/skills_page.rs:905-916 | reading the rows gives the skills back, in order |
| SkillsPage.SpacerOnlyLast | crates/story/examples/skills_page.rs:905-916 | only the last row can hold a spacer, and it does for an odd count |
| Wechat.PageOf | examples/wechat/src/main.rs:436-440 | the network page shows exactly when it is open |
| Wechat.ConfirmMargin | examples/wechat/src/main.rs:412 | 24 px with the proxy on, and 41 px off |
| Wechat.OnClick | examples/wechat/src/main.rs:102-110 | the settings button opens the network page, back closes it, and the switch sets the proxy. The window is resized to fit |
| Wechat.Fit | examples/wechat/src/main.rs:25-31 | 283×440 only for the network page with the proxy on, and 283×379 otherwise |
| Wechat.Step | examples/wechat/src/main.rs:102-110 | clicks on a closed window or on another page do nothing |
| Wechat.StepKeepsFit | examples/wechat/src/main.rs:362-370 | after a click, an open window has the size its content needs |
| Wechat.AlwaysFits | examples/wechat/src/main.rs:102-370 | any click sequence keeps the window sized to its content |
| Wechat.InitialFits | examples/wechat/src/main.rs:750-770 | the window opens at the login page's size |
| Wechat.SettingsThenBack | examples/wechat/src/main.rs:303-307 | settings then back returns to the login page at the compact size |
| KnowledgeHub.NewRecentList | crates/story/examples/knowledge_hub.rs:47-53 | the items, nothing selected |
| KnowledgeHub.ItemsCount | crates/story/examples/knowledge_hub.rs:142-144 | one row per recent item |
| KnowledgeHub.RenderItem | crates/story/examples/knowledge_hub.rs:146-155 | a row renders its item exactly when it is in range |
| KnowledgeHub.SetSelectedIndex | crates/story/examples/knowledge_hub.rs:157-164 | records the selection and keeps the items |
| KnowledgeHub.RowsRender | crates/story/examples/knowledge_hub.rs:142-164 | every counted row renders, and selection does not change rendering |
| KnowledgeHub.ListHeight | crates/story/examples/knowledge_hub.rs:401-403 | 64 px per item, and at least one row |
| KnowledgeHub.TileRows | crates/story/examples/knowledge_hub.rs:339-344 | half the tiles' count of rows, rounded up, of one or two tiles each, and every row but the last holds two |
| KnowledgeHub.TileRowsAreChunks | crates/story/examples/knowledge_hub.rs:339-344 | row i holds exactly tiles 2i and 2i+1, or tile 2i alone when it is the last tile, as `chunks(2)` does |
| KnowledgeHub.TileRowsKeepOrder | crates/story/examples/knowledge_hub.rs:339-344 | reading the rows gives the tiles back, in order |

## Left out

- Line diffing: the Patience diff of the `similar` crate is not modelled. Its output is taken as the input sequence of change tags.
- Markdown parsing: the `markdown` crate's parser and the mdast walk are not modelled; the parsed blocks are a parameter. `parse_blocks`, `node_to_block` and the block renderers other than code-block body extraction are left out.
- JSON: `serde_json` parsing and pretty-printing are left out. JSON is a datatype and formatting is a function parameter. Duplicate keys resolve to the last occurrence, as serde does.
- The gpui runtime is left out: `notify`, `observe`, spawned tasks, `Rc`/`Entity` sharing, focus, scroll handles, element trees, themes and colours. Layout is a `measure` parameter.
- Floating-point pixels are left out. Sizes are natural numbers, and the presentation zoom is integer tenths (0.5..2.0 as 5..20).
- The bridge is left out: its threads, the tokio runtime, the child process, config loading and every I/O path. Only the decisions it makes are modelled, with the agent's replies as an input.
- Context files are not part of this model: examples/chat_session/src/view/mod.rs, examples/chat_session/src/ui/components.rs, crates/story/examples/markdown.rs, crates/story/examples/diff-code.rs and crates/story/src/stories/input_group_story.rs.
- Mock data generators are left out where the view takes its data as given: `mock_git_data`, `mock_slides`, and the mock projects, notebooks, skills and tiles. They become parameters. The working directory read at start-up becomes the `cwd` parameter of `ChatController.NewView`.
- examples/chat_session/src/main.rs groups sessions in a `HashMap`, whose order is unspecified. Only the ordered `BTreeMap` grouping of view/render.rs is modelled.
- The `unstable_session_info_update` feature path (`apply_session_info_update`) is left out.
- The WeChat chat window opened after login is left out. Opening it is the `OpenChat` effect, which carries the 900×640 size the window is centred at.
- WorkspaceSidebar.IsToday: `to_lowercase` is Unicode lower-casing. The model lower-cases ASCII only, which agrees on the ASCII keywords "min" and "hour", while the Chinese keywords have no case.
- ChatBuilders.KindOf: the same ASCII lower-casing as above stands in for `to_lowercase`.
- MixedList.Render: the markdown items to re-measure come from the items themselves, not from parsing the keys of the state map. The two agree because the states mirror the markdown items (`MixedList.StateIffMarkdown`).
- Presentation.Next: on an empty deck, `len - 1` underflows a `usize`, which panics in a debug build. The model returns an error there. The story always builds the preview from its non-empty mock deck.
- ChatBuilders.TruncatePathAsWritten: a limit under 3 with a longer path underflows `max_len - 3`. The model returns an error there, as a debug build panics. A release build wraps instead and returns "..." and the whole path. Every call site (builders.rs:57, 62, 76) passes 40.
- ChatTypes.EstimatedHeight: its contract gives lower bounds. The exact increments of each part are stated by `ChatTypes.EstimateParts`.
- InlineMarkdown.ParseInlineSegments: its own contract states only the fallback and the non-empty segments. The parsing rules are lemmas about the walk (bold, italic, strikethrough, links, literal brackets).
- GitTree.Flatten: its own contract states only the first row. The full shape is in `GitTree.FlattenShape` and `GitTree.UnflattenFlatten`.
- DiffLines.UnifiedLineNumbers: its own contract gives only the width. The column layout and the read-back of both numbers are stated by `DiffLines.UnifiedLineNumbersColumns`.
- WysiwygEditor.FinishEditing: block spans are modelled as character indices into the source. The source's spans are UTF-8 byte offsets, which agree with character indices on ASCII text, or wherever character and byte positions match.
- The inline `code` toggle (a backquote) is modelled in the walk, but no lemma is stated about it.

## Findings

| source | as written | input that shows it | evidently intended | confidence | as-written member | corrected member |
|---|---|---|---|---|---|---|
| examples/chat_session/src/ui/builders.rs:115-121 | `truncate_path` slices the path at the byte offset `len - (max_len - 3)`. Slicing a `str` off a character boundary panics. Separately, `max_len < 3` with a longer path underflows `max_len - 3`: a debug build panics, and a release build wraps, so the result is "..." followed by the whole path. Every call site (builders.rs:57, 62, 76) passes 40, so only the boundary panic is reachable | a path of 21 × 'é' (42 bytes) with `max_len` 40: the cut falls at byte 5, inside the third 'é' | keep the longest tail that fits and starts on a character boundary, after "..." | not executed | ChatBuilders.TruncatePathAsWritten | ChatBuilders.TruncatePath |

=== FILE: acp.dfy ===
/** The part of the Agent Client Protocol's data types that the chat session
    example reads, as plain datatypes. The protocol crate itself is not part
    of this model; JSON values stay uninterpreted except for the object keys
    the tool-call labels look up. */
module Acp {
  import opened Wrappers

  /** A JSON value, as serde_json parses one. */
  datatype Json =
    | JNull
    | JBool(b: bool)
    | JNumber(n: int)
    | JString(s: string)
    | JArray(elems: seq<Json>)
    | JObject(fields: seq<(string, Json)>)

  datatype EmbeddedResource =
    | TextResource(text: string)
    | BlobResource(uri: string)
    | OtherResource

  datatype ContentBlock =
    | TextBlock(text: string)
    | ImageBlock(mimeType: string)
    | AudioBlock(mimeType: string)
    | ResourceLink(name: string, uri: string)
    | Resource(resource: EmbeddedResource)
    | OtherBlock

  datatype ToolCallStatus = Pending | InProgress | Completed | Failed | OtherStatus

  datatype ToolCallContent =
    | ContentItem(content: ContentBlock)
    | DiffItem(path: string, newText: string)
    | TerminalItem(terminalId: string)
    | OtherContent

  datatype ToolCall = ToolCall(
    id: string,
    title: string,
    status: ToolCallStatus,
    rawInput: Option<Json>,
    rawOutput: Option<Json>,
    content: seq<ToolCallContent>)

  /** A partial update of a tool call. How its fields are merged into an
      existing call (`ToolCall::update`) belongs to the protocol crate and is
      a parameter of the operations that use it. */
  datatype ToolCallUpdate = ToolCallUpdate(id: string, fields: seq<(string, Json)>)

  datatype SessionInfo = SessionInfo(sessionId: string, cwd: string, title: Option<string>, updatedAt: Option<string>)

  datatype StopReason = EndTurn | MaxTokens | MaxTurnRequests | Refusal | Cancelled

  /** The stop reason a `Debug` spelling names, if any. */
  function StopReasonNamed(s: string): Option<StopReason> {
    if s == "EndTurn" then Some(EndTurn)
    else if s == "MaxTokens" then Some(MaxTokens)
    else if s == "MaxTurnRequests" then Some(MaxTurnRequests)
    else if s == "Refusal" then Some(Refusal)
    else if s == "Cancelled" then Some(Cancelled)
    else None
  }

  /** The `Debug` spelling of a stop reason: a name that reads back as the
      reason, so no two reasons are spelt alike. */
  function StopReasonName(reason: StopReason): (r: string)
    ensures StopReasonNamed(r) == Some(reason)
  {
    match reason
    case EndTurn => "EndTurn"
    case MaxTokens => "MaxTokens"
    case MaxTurnRequests => "MaxTurnRequests"
    case Refusal => "Refusal"
    case Cancelled => "Cancelled"
  }

  datatype PermissionOptionKind = AllowOnce | AllowAlways | RejectOnce | RejectAlways

  datatype PermissionOption = PermissionOption(optionId: string, name: string, kind: PermissionOptionKind)

  datatype SessionUpdate =
    | UserMessageChunk(content: ContentBlock)
    | AgentMessageChunk(content: ContentBlock)
    | AgentThoughtChunk(content: ContentBlock)
    | ToolCallStarted(toolCall: ToolCall)
    | ToolCallUpdated(update: ToolCallUpdate)
    | OtherUpdate
}

=== FILE: chat_bridge.dfy ===
/** The pure rules of the bridge between the chat UI and the Codex agent
    (examples/chat_session/src/bridge.rs): which permission option is
    chosen, which authentication method is used, and which UI events each
    command produces. Threads, runtimes and channels are not modelled; the
    agent's reply to a command is an input. */
module ChatBridge {
  import opened Wrappers
  import opened Acp

  /** Commands the UI sends to the agent. */
  datatype CodexCommand =
    | Prompt(sessionId: string, text: string)
    | ListSessions
    | NewSession(cwd: string)
    | LoadSession(sessionId: string, cwd: string)

  /** Events the bridge sends to the UI. */
  datatype UiEvent =
    | SessionUpdateEvent(sessionId: string, update: SessionUpdate)
    | PromptFinished(sessionId: string, stopReason: StopReason)
    | SessionsListed(sessions: seq<SessionInfo>)
    | SessionCreated(sessionId: string, cwd: string)
    | SessionLoaded(sessionId: string)
    | SystemMessage(text: string)

  predicate IsAllow(o: PermissionOption) {
    o.kind == AllowOnce || o.kind == AllowAlways
  }

  /** Position of the first allowing option. */
  function FirstAllow(options: seq<PermissionOption>): (k: Option<nat>)
    ensures k.Some? ==> k.value < |options| && IsAllow(options[k.value])
    ensures k.Some? ==> forall j :: 0 <= j < k.value ==> !IsAllow(options[j])
    ensures k.None? ==> forall j :: 0 <= j < |options| ==> !IsAllow(options[j])
  {
    if options == [] then None
    else if IsAllow(options[0]) then Some(0)
    else match FirstAllow(options[1..])
      case Some(k) => Some(k + 1)
      case None => None
  }

  datatype PermissionOutcome = Selected(optionId: string) | PermissionCancelled

  /** `UiClient::request_permission`: the first allowing option, else the
      first option, else cancelled. */
  function RequestPermission(options: seq<PermissionOption>): (r: PermissionOutcome)
    ensures r.PermissionCancelled? <==> options == []
    ensures (exists j :: 0 <= j < |options| && IsAllow(options[j])) ==>
      exists k :: 0 <= k < |options| && IsAllow(options[k]) && r == Selected(options[k].optionId)
        && forall j :: 0 <= j < k ==> !IsAllow(options[j])
    ensures options != [] && (forall j :: 0 <= j < |options| ==> !IsAllow(options[j])) ==>
      r == Selected(options[0].optionId)
  {
    match FirstAllow(options)
    case Some(k) => Selected(options[k].optionId)
    case None => if options == [] then PermissionCancelled else Selected(options[0].optionId)
  }

  /** `UiClient::session_notification`: the update is forwarded unchanged
      for its session. */
  function SessionNotification(sessionId: string, update: SessionUpdate): (e: UiEvent)
    ensures e.SessionUpdateEvent? && e.sessionId == sessionId && e.update == update
  {
    SessionUpdateEvent(sessionId, update)
  }

  /** The authentication method: the Codex key wins over the OpenAI key,
      and without either the ChatGPT login is used. The two flags say
      whether the environment variables are set. */
  function AuthMethod(codexKeySet: bool, openaiKeySet: bool): (m: string)
    ensures codexKeySet ==> m == "codex-api-key"
    ensures !codexKeySet && openaiKeySet ==> m == "openai-api-key"
    ensures !codexKeySet && !openaiKeySet ==> m == "chatgpt"
  {
    if codexKeySet then "codex-api-key" else if openaiKeySet then "openai-api-key" else "chatgpt"
  }

  /** The agent's answer to a command. `error` is the debug text of a failure. */
  datatype Reply =
    | Failed(error: string)
    | Stopped(reason: StopReason)
    | Listed(sessions: seq<SessionInfo>)
    | Created(sessionId: string)
    | Loaded

  /** A successful reply has the shape its command asks for. */
  predicate ReplyFits(cmd: CodexCommand, reply: Reply) {
    reply.Failed? ||
    match cmd
    case Prompt(_, _) => reply.Stopped?
    case ListSessions => reply.Listed?
    case NewSession(_) => reply.Created?
    case LoadSession(_, _) => reply.Loaded?
  }

  /** One round of the command loop: the events a command produces. */
  function RunCommand(cmd: CodexCommand, reply: Reply): (events: seq<UiEvent>)
    requires ReplyFits(cmd, reply)
    ensures cmd.Prompt? ==>
      |events| >= 1 && events[|events| - 1].PromptFinished? && events[|events| - 1].sessionId == cmd.sessionId
    ensures cmd.Prompt? && reply.Stopped? ==> events == [PromptFinished(cmd.sessionId, reply.reason)]
    ensures cmd.Prompt? && reply.Failed? ==>
      events == [SystemMessage("Prompt failed: " + reply.error), PromptFinished(cmd.sessionId, Cancelled)]
    ensures !cmd.Prompt? ==> |events| == 1
    ensures cmd.ListSessions? && reply.Failed? ==> events == [SystemMessage("Failed to list sessions: " + reply.error)]
    ensures cmd.NewSession? && reply.Failed? ==> events == [SystemMessage("Failed to create session: " + reply.error)]
    ensures cmd.LoadSession? && reply.Failed? ==> events == [SystemMessage("Failed to load session: " + reply.error)]
    ensures cmd.ListSessions? && reply.Listed? ==> events == [SessionsListed(reply.sessions)]
    ensures cmd.NewSession? && reply.Created? ==> events == [SessionCreated(reply.sessionId, cmd.cwd)]
    ensures cmd.LoadSession? && reply.Loaded? ==> events == [SessionLoaded(cmd.sessionId)]
  {
    match cmd
    case Prompt(sid, _) =>
      if reply.Failed? then [SystemMessage("Prompt failed: " + reply.error), PromptFinished(sid, Cancelled)]
      else [PromptFinished(sid, reply.reason)]
    case ListSessions =>
      if reply.Failed? then [SystemMessage("Failed to list sessions: " + reply.error)]
      else [SessionsListed(reply.sessions)]
    case NewSession(cwd) =>
      if reply.Failed? then [SystemMessage("Failed to create session: " + reply.error)]
      else [SessionCreated(reply.sessionId, cwd)]
    case LoadSession(sid, _) =>
      if reply.Failed? then [SystemMessage("Failed to load session: " + reply.error)]
      else [SessionLoaded(sid)]
  }
}

=== FILE: chat_builders.dfy ===
/** The one-line summary of a tool call in the chat
    (examples/chat_session/src/ui/builders.rs, `tool_call_icon_and_action`
    and its helpers): an icon and an action text chosen from the tool's
    name, with the file path or command taken from its JSON arguments and
    cut to 40 bytes. Parsing the argument text is an input; a parsed
    object keeps the last value of a repeated key, as `serde_json` does. */
module ChatBuilders {
  import opened Wrappers
  import opened Text
  import opened Acp
  import opened ChatTypes

  datatype Icon = LoaderCircle | Eye | File | Search | SquareTerminal | Loader | LayoutDashboard

  // ---------------------------------------------------------------------------
  // Arguments
  // ---------------------------------------------------------------------------

  /** `obj.get(key)` on a parsed object: the last field with that key. */
  function Get(fields: seq<(string, Json)>, key: string): (r: Option<Json>)
    ensures r.Some? <==> exists i :: 0 <= i < |fields| && fields[i].0 == key
    ensures r.Some? ==> exists i :: 0 <= i < |fields| && fields[i] == (key, r.value) && LastWithKey(fields, key, i)
  {
    if fields == [] then None
    else
      var last := fields[|fields| - 1];
      if last.0 == key then
        assert fields[|fields| - 1] == (key, last.1) && LastWithKey(fields, key, |fields| - 1);
        Some(last.1)
      else
        var r := Get(fields[..|fields| - 1], key);
        assert forall i :: 0 <= i < |fields| - 1 ==> fields[..|fields| - 1][i] == fields[i];
        if r.Some? then
          var i :| 0 <= i < |fields| - 1 && fields[..|fields| - 1][i] == (key, r.value) && LastWithKey(fields[..|fields| - 1], key, i);
          assert fields[i] == (key, r.value) && LastWithKey(fields, key, i);
          r
        else r
  }

  /** No field after position `i` has the key. */
  predicate LastWithKey(fields: seq<(string, Json)>, key: string, i: nat) {
    forall j :: i < j < |fields| ==> fields[j].0 != key
  }

  /** The text of the field `key` when it is a JSON string. */
  function StringField(fields: seq<(string, Json)>, key: string): Option<string> {
    match Get(fields, key)
    case Some(JString(s)) => Some(s)
    case _ => None
  }

  /** No key before position `i` has a string field. */
  predicate FirstWithString(fields: seq<(string, Json)>, keys: seq<string>, i: nat) {
    forall j :: 0 <= j < i && j < |keys| ==> StringField(fields, keys[j]).None?
  }

  /** The first key, in the given order, whose field is a string. */
  function FirstStringField(fields: seq<(string, Json)>, keys: seq<string>): (r: Option<string>)
    ensures r.None? <==> forall i :: 0 <= i < |keys| ==> StringField(fields, keys[i]).None?
    ensures r.Some? ==> exists i :: 0 <= i < |keys| && StringField(fields, keys[i]) == r && FirstWithString(fields, keys, i)
  {
    if keys == [] then None
    else match StringField(fields, keys[0])
      case Some(s) => assert StringField(fields, keys[0]) == Some(s); Some(s)
      case None =>
        var r := FirstStringField(fields, keys[1..]);
        assert forall i :: 1 <= i < |keys| ==> keys[1..][i - 1] == keys[i];
        if r.Some? then
          var i :| 0 <= i < |keys[1..]| && StringField(fields, keys[1..][i]) == r && FirstWithString(fields, keys[1..], i);
          assert StringField(fields, keys[i + 1]) == r;
          assert FirstWithString(fields, keys, i + 1);
          r
        else r
  }

  const PathKeys: seq<string> := ["path", "file_path", "file", "filename", "target", "uri"]
  const CommandKeys: seq<string> := ["command", "cmd", "shell", "run"]

  /** The first of `keys` with a string value, when the arguments parse to
      an object; nothing otherwise. */
  function ExtractField(args: string, parse: string -> Option<Json>, keys: seq<string>): (r: Option<string>)
    ensures !(parse(args).Some? && parse(args).value.JObject?) ==> r.None?
    ensures parse(args).Some? && parse(args).value.JObject? ==> r == FirstStringField(parse(args).value.fields, keys)
  {
    match parse(args)
    case Some(JObject(fields)) => FirstStringField(fields, keys)
    case _ => None
  }

  /** `s` is the string under one of `keys`, and no earlier key holds a string. */
  predicate FoundUnder(fields: seq<(string, Json)>, keys: seq<string>, s: string) {
    exists i :: 0 <= i < |keys| && StringField(fields, keys[i]) == Some(s) && FirstWithString(fields, keys, i)
  }

  /** None of `keys` holds a string. */
  predicate NoneUnder(fields: seq<(string, Json)>, keys: seq<string>) {
    forall i :: 0 <= i < |keys| ==> StringField(fields, keys[i]).None?
  }

  /** `extract_file_path`: the first path-like key with a string value. */
  function ExtractFilePath(args: string, parse: string -> Option<Json>): (r: Option<string>)
    ensures r.Some? ==> parse(args).Some? && parse(args).value.JObject? && FoundUnder(parse(args).value.fields, PathKeys, r.value)
    ensures r.None? ==> !(parse(args).Some? && parse(args).value.JObject?) || NoneUnder(parse(args).value.fields, PathKeys)
  {
    ExtractField(args, parse, PathKeys)
  }

  /** `extract_command`: the first command-like key with a string value. */
  function ExtractCommand(args: string, parse: string -> Option<Json>): (r: Option<string>)
    ensures r.Some? ==> parse(args).Some? && parse(args).value.JObject? && FoundUnder(parse(args).value.fields, CommandKeys, r.value)
    ensures r.None? ==> !(parse(args).Some? && parse(args).value.JObject?) || NoneUnder(parse(args).value.fields, CommandKeys)
  {
    ExtractField(args, parse, CommandKeys)
  }

  /** "path" is looked at before "file" and "uri": with both present the
      path wins; with only a non-string path, the uri is used. */
  lemma PathKeyOrder(p: string, u: string)
    ensures FirstStringField([("uri", JString(u)), ("path", JString(p))], PathKeys) == Some(p)
    ensures FirstStringField([("path", JNumber(1)), ("uri", JString(u))], PathKeys) == Some(u)
  {
    var f1: seq<(string, Json)> := [("uri", JString(u)), ("path", JString(p))];
    assert StringField(f1, "path") == Some(p);
    NonStringPathFallsBack(u);
  }

  /** A key without a string field is passed over. */
  lemma SkipKey(fields: seq<(string, Json)>, keys: seq<string>)
    requires keys != [] && StringField(fields, keys[0]).None?
    ensures FirstStringField(fields, keys) == FirstStringField(fields, keys[1..])
  {
  }

  /** Looking a key up in two fields: the later field wins. */
  lemma GetPair(a: (string, Json), b: (string, Json), key: string)
    ensures Get([a, b], key) == if b.0 == key then Some(b.1) else if a.0 == key then Some(a.1) else None
  {
    assert [a, b][..1] == [a];
    assert [a][..0] == [];
  }

  lemma NonStringPathFallsBack(u: string)
    ensures FirstStringField([("path", JNumber(1)), ("uri", JString(u))], PathKeys) == Some(u)
  {
    var x, y := ("path", JNumber(1)), ("uri", JString(u));
    var f: seq<(string, Json)> := [x, y];
    GetPair(x, y, "path");
    SkipKey(f, PathKeys);
    var ks := PathKeys[1..];
    assert ks == ["file_path", "file", "filename", "target", "uri"];
    GetPair(x, y, "file_path");
    SkipKey(f, ks);
    ks := ks[1..];
    assert ks == ["file", "filename", "target", "uri"];
    assert "file"[0] != "path"[0];
    GetPair(x, y, "file");
    SkipKey(f, ks);
    ks := ks[1..];
    assert ks == ["filename", "target", "uri"];
    GetPair(x, y, "filename");
    SkipKey(f, ks);
    ks := ks[1..];
    assert ks == ["target", "uri"];
    GetPair(x, y, "target");
    SkipKey(f, ks);
    ks := ks[1..];
    assert ks == ["uri"];
    GetPair(x, y, "uri");
  }

  // ---------------------------------------------------------------------------
  // Cutting to a byte budget
  // ---------------------------------------------------------------------------

  /** The character index at which byte offset `b` of `s` starts, when `b`
      falls on a character boundary. */
  function BoundaryIndex(s: string, b: nat): (r: Option<nat>)
    ensures r.Some? ==> r.value <= |s| && ByteLen(s[..r.value]) == b
    decreases |s|
  {
    if b == 0 then assert s[..0] == []; Some(0)
    else if s == [] || b < Utf8Width(s[0]) then None
    else match BoundaryIndex(s[1..], b - Utf8Width(s[0]))
      case None => None
      case Some(i) =>
        assert s[..i + 1] == [s[0]] + s[1..][..i];
        ByteLenAppend([s[0]], s[1..][..i]);
        Some(i + 1)
  }

  /** Every character boundary is found. */
  lemma {:induction false} BoundaryIndexComplete(s: string, i: nat)
    requires i <= |s|
    ensures BoundaryIndex(s, ByteLen(s[..i])) == Some(i)
    decreases i
  {
    if i == 0 {
      assert s[..0] == [];
    } else {
      var t, w := s[1..], Utf8Width(s[0]);
      assert s[..i] == [s[0]] + t[..i - 1];
      ByteLenAppend([s[0]], t[..i - 1]);
      assert ByteLen([s[0]]) == w;
      BoundaryIndexComplete(t, i - 1);
      BoundaryIndexStep(s, ByteLen(s[..i]), i - 1);
    }
  }

  /** One character further on: a boundary of the rest is one of `s`. */
  lemma BoundaryIndexStep(s: string, b: nat, k: nat)
    requires s != [] && 0 < b && Utf8Width(s[0]) <= b
    requires BoundaryIndex(s[1..], b - Utf8Width(s[0])) == Some(k)
    ensures BoundaryIndex(s, b) == Some(k + 1)
  {
  }

  /** `truncate_path` as written: a path of at most `maxLen` bytes is kept;
      a longer one keeps its last `maxLen - 3` bytes behind "...". The cut
      is a byte slice, which panics (`Err`) when it falls inside a
      character; so does `maxLen - 3` below zero. */
  function TruncatePathAsWritten(path: string, maxLen: nat): (r: Result<string, string>)
    ensures ByteLen(path) <= maxLen ==> r == Ok(path)
    ensures ByteLen(path) > maxLen && maxLen < 3 ==> r.Err?
    ensures ByteLen(path) > maxLen && maxLen >= 3 ==>
      (r.Ok? <==> BoundaryIndex(path, ByteLen(path) - (maxLen - 3)).Some?)
    ensures r.Ok? && ByteLen(path) > maxLen ==> StartsWith(r.value, "...") && EndsWith(path, r.value[3..])
    ensures r.Ok? && ByteLen(path) > maxLen ==> ByteLen(r.value) == maxLen
  {
    if ByteLen(path) <= maxLen then Ok(path)
    else if maxLen < 3 then Err("attempt to subtract with overflow")
    else
      var cut := ByteLen(path) - (maxLen - 3);
      match BoundaryIndex(path, cut)
      case None => Err("byte index is not a char boundary")
      case Some(i) =>
        assert path == path[..i] + path[i..];
        ByteLenAppend(path[..i], path[i..]);
        ByteLenAppend("...", path[i..]);
        ByteLenAscii("...");
        Ok("..." + path[i..])
  }

  /** The longest tail of `s` that fits in `budget` bytes. */
  function TailWithin(s: string, budget: nat): (r: string)
    ensures EndsWith(s, r) && ByteLen(r) <= budget
    ensures r != s ==> ByteLen(s[|s| - |r| - 1..]) > budget
    decreases |s|
  {
    if ByteLen(s) <= budget then s
    else
      var r := TailWithin(s[1..], budget);
      assert s[1..][|s[1..]| - |r|..] == s[|s| - |r|..];
      if r == s[1..] then r
      else
        assert s[1..][|s[1..]| - |r| - 1..] == s[|s| - |r| - 1..];
        r
  }

  /** `truncate_path` as evidently intended: the same cut moved forward to
      the next character boundary, so the result never exceeds `maxLen`
      bytes (for `maxLen` of at least 3) and never panics. */
  function TruncatePath(path: string, maxLen: nat): (r: string)
    ensures ByteLen(path) <= maxLen ==> r == path
    ensures ByteLen(path) > maxLen ==> StartsWith(r, "...") && EndsWith(path, r[3..])
    ensures maxLen >= 3 ==> ByteLen(r) <= maxLen
    ensures ByteLen(path) > maxLen && maxLen < 3 ==> r == "..."
  {
    if ByteLen(path) <= maxLen then path
    else
      var tail := TailWithin(path, if maxLen < 3 then 0 else maxLen - 3);
      ByteLenAppend("...", tail);
      ByteLenAscii("...");
      "..." + tail
  }

  /** A path over the budget keeps, behind "...", its longest tail that
      fits in `maxLen - 3` bytes and starts on a character boundary. */
  lemma TruncatePathKeepsLongestTail(path: string, maxLen: nat)
    requires 3 <= maxLen < ByteLen(path)
    ensures var r := TruncatePath(path, maxLen);
      |r| >= 3 && r[..3] == "..." && LongestTail(path, r[3..], maxLen - 3)
  {
    var tail := TailWithin(path, maxLen - 3);
    TailWithinIsLongest(path, maxLen - 3);
    assert TruncatePath(path, maxLen) == "..." + tail;
    assert ("..." + tail)[3..] == tail;
  }

  /** `tail` is a tail of `s` within `budget` bytes, and the tail one
      character longer is not: no longer tail that starts on a character
      boundary fits. */
  predicate LongestTail(s: string, tail: string, budget: nat) {
    && |tail| < |s| && EndsWith(s, tail) && ByteLen(tail) <= budget
    && ByteLen(s[|s| - |tail| - 1..]) > budget
  }

  /** A text longer than the budget is cut to its longest tail that fits. */
  lemma TailWithinIsLongest(s: string, budget: nat)
    requires ByteLen(s) > budget
    ensures LongestTail(s, TailWithin(s, budget), budget)
  {
    var r := TailWithin(s, budget);
    assert r != s;
  }

  /** Wherever the written code does not panic, the corrected one gives the
      same text. */
  lemma TruncatePathAgrees(path: string, maxLen: nat)
    requires TruncatePathAsWritten(path, maxLen).Ok?
    ensures TruncatePath(path, maxLen) == TruncatePathAsWritten(path, maxLen).value
  {
    if ByteLen(path) > maxLen {
      assert maxLen >= 3;
      var i := BoundaryIndex(path, ByteLen(path) - (maxLen - 3)).value;
      assert TruncatePathAsWritten(path, maxLen).value == "..." + path[i..];
      CutAtBoundary(path, maxLen, i);
    }
  }

  /** Where the written cut falls on a boundary, the corrected cut keeps
      the same tail. */
  lemma CutAtBoundary(path: string, maxLen: nat, i: nat)
    requires 3 <= maxLen < ByteLen(path)
    requires i <= |path| && ByteLen(path[..i]) == ByteLen(path) - (maxLen - 3)
    ensures TruncatePath(path, maxLen) == "..." + path[i..]
  {
    var tail := TailWithin(path, maxLen - 3);
    TailAtBoundary(path, maxLen - 3, i);
    assert tail == path[i..];
    assert TruncatePath(path, maxLen) == "..." + tail;
  }

  /** The longest tail that fits starts at the first position whose tail
      fits. */
  lemma {:induction false} TailWithinAt(s: string, budget: nat, i: nat)
    requires i <= |s| && ByteLen(s[i..]) <= budget
    requires forall j :: 0 <= j < i ==> ByteLen(s[j..]) > budget
    ensures TailWithin(s, budget) == s[i..]
    decreases |s|
  {
    if i > 0 {
      assert ByteLen(s[0..]) > budget && s[0..] == s;
      forall j | 0 <= j < i - 1 ensures ByteLen(s[1..][j..]) > budget {
        assert s[1..][j..] == s[j + 1..];
      }
      assert s[1..][i - 1..] == s[i..];
      TailWithinAt(s[1..], budget, i - 1);
    }
  }

  /** When the tail of exactly `budget` bytes starts at a character
      boundary, it is the longest tail that fits. */
  lemma TailAtBoundary(s: string, budget: nat, i: nat)
    requires i <= |s| && ByteLen(s[..i]) + budget == ByteLen(s)
    ensures TailWithin(s, budget) == s[i..]
  {
    assert s == s[..i] + s[i..];
    ByteLenAppend(s[..i], s[i..]);
    forall j | 0 <= j < i ensures ByteLen(s[j..]) > budget {
      assert s[j..] == s[j..i] + s[i..];
      ByteLenAppend(s[j..i], s[i..]);
    }
    TailWithinAt(s, budget, i);
  }

  /** A path of 21 two-byte characters (42 bytes) cut to 40 bytes: the
      written code slices at byte 5, inside the third character, and
      panics; the corrected cut keeps the last 18 characters (36 bytes). */
  lemma TruncatePathPanics()
    ensures var path := seq(21, _ => 'é');
      && TruncatePathAsWritten(path, 40).Err?
      && TruncatePath(path, 40) == "..." + seq(18, _ => 'é')
  {
    var path := seq(21, _ => 'é');
    TwoByteLen(path);
    BoundaryOfTwoByte(path, 5);
    var tail := seq(18, _ => 'é');
    assert path[3..] == tail;
    forall j | 0 <= j < 3 ensures ByteLen(path[j..]) > 37 {
      TwoByteLen(path[j..]);
    }
    TwoByteLen(tail);
    TailWithinAt(path, 37, 3);
  }

  /** A text of two-byte characters has twice as many bytes. */
  lemma {:induction false} TwoByteLen(s: string)
    requires forall i :: 0 <= i < |s| ==> s[i] == 'é'
    ensures ByteLen(s) == 2 * |s|
    decreases |s|
  {
    if s != [] {
      TwoByteLen(s[1..]);
    }
  }

  /** In such a text no odd byte offset is a boundary. */
  lemma {:induction false} BoundaryOfTwoByte(s: string, b: nat)
    requires forall i :: 0 <= i < |s| ==> s[i] == 'é'
    requires b % 2 == 1
    ensures BoundaryIndex(s, b).None?
    decreases |s|
  {
    if s != [] && b >= 2 {
      BoundaryOfTwoByte(s[1..], b - 2);
    }
  }

  // ---------------------------------------------------------------------------
  // Icon and action
  // ---------------------------------------------------------------------------

  /** The seven outcomes of `tool_call_icon_and_action`, in priority order. */
  datatype ToolKind = Thought | ReadFile | EditFile | Explore | RunCommand | Task | Other

  /** `tool_call_icon_and_action`'s chain of `contains` tests on the
      lower-cased name. */
  function KindOf(name: string): (k: ToolKind)
    ensures k == Other <==> forall i :: 0 <= i < |Rules| ==> !MentionsAny(LowerAscii(name), Rules[i].0)
    ensures k != Other ==> exists i :: 0 <= i < |Rules| && Rules[i].1 == k && MentionsAny(LowerAscii(name), Rules[i].0)
  {
    var n := LowerAscii(name);
    Mentions2(n, "thought", "think");
    Mentions1(n, "read");
    Mentions2(n, "edit", "write");
    Mentions4(n, "glob", "grep", "search", "explore");
    Mentions3(n, "bash", "command", "terminal");
    Mentions1(n, "task");
    assert |Rules| == 6;
    assert Rules[0] == (["thought", "think"], Thought) && Rules[1] == (["read"], ReadFile);
    assert Rules[2] == (["edit", "write"], EditFile) && Rules[3] == (["glob", "grep", "search", "explore"], Explore);
    assert Rules[4] == (["bash", "command", "terminal"], RunCommand) && Rules[5] == (["task"], Task);
    if Contains(n, "thought") || Contains(n, "think") then Thought
    else if Contains(n, "read") then ReadFile
    else if Contains(n, "edit") || Contains(n, "write") then EditFile
    else if Contains(n, "glob") || Contains(n, "grep") || Contains(n, "search") || Contains(n, "explore") then Explore
    else if Contains(n, "bash") || Contains(n, "command") || Contains(n, "terminal") then RunCommand
    else if Contains(n, "task") then Task
    else Other
  }

  /** The same rules as a table: each kind with the words that select it. */
  const Rules: seq<(seq<string>, ToolKind)> := [
    (["thought", "think"], Thought),
    (["read"], ReadFile),
    (["edit", "write"], EditFile),
    (["glob", "grep", "search", "explore"], Explore),
    (["bash", "command", "terminal"], RunCommand),
    (["task"], Task)]

  predicate MentionsAny(n: string, words: seq<string>) {
    exists i :: 0 <= i < |words| && Contains(n, words[i])
  }

  /** The kind of the first rule with a word the name contains. */
  function FirstRule(n: string, rules: seq<(seq<string>, ToolKind)>): (k: ToolKind)
    ensures k == Other || exists i :: 0 <= i < |rules| && rules[i].1 == k && MentionsAny(n, rules[i].0)
  {
    if rules == [] then Other
    else if MentionsAny(n, rules[0].0) then rules[0].1
    else
      var k := FirstRule(n, rules[1..]);
      if k == Other then k
      else
        var i :| 0 <= i < |rules[1..]| && rules[1..][i].1 == k && MentionsAny(n, rules[1..][i].0);
        assert rules[i + 1] == rules[1..][i];
        k
  }

  /** The kind an icon stands for. */
  function KindOfIcon(i: Icon): ToolKind {
    match i
    case LoaderCircle => Thought
    case Eye => ReadFile
    case File => EditFile
    case Search => Explore
    case SquareTerminal => RunCommand
    case Loader => Task
    case LayoutDashboard => Other
  }

  /** The icon of a tool kind, one per kind: the kind reads back from it. */
  function IconOf(k: ToolKind): (i: Icon)
    ensures KindOfIcon(i) == k
  {
    match k
    case Thought => LoaderCircle
    case ReadFile => Eye
    case EditFile => File
    case Explore => Search
    case RunCommand => SquareTerminal
    case Task => Loader
    case Other => LayoutDashboard
  }

  /** How a kind words its action: a fixed text, the tool's own name, or a
      verb with the target found under `keys`, and the text shown when
      there is none. */
  datatype ActionText = Fixed(text: string) | ToolName | Targeted(verb: string, keys: seq<string>, fallback: string)

  /** The action text of each kind, as a table. */
  function ActionOf(k: ToolKind): ActionText {
    match k
    case Thought => Fixed("Thought")
    case ReadFile => Targeted("Read", PathKeys, "Read")
    case EditFile => Targeted("Edited", PathKeys, "Edited")
    case Explore => Fixed("Explored")
    case RunCommand => Targeted("Ran", CommandKeys, "Ran command")
    case Task => Fixed("Task")
    case Other => ToolName
  }

  /** `tool_call_icon_and_action`: the icon of the kind, and the action
      text, with the path or command cut to 40 bytes where the kind shows
      one. The cut is the corrected one; `IconAndActionAsWritten` keeps
      the written one. */
  function IconAndAction(name: string, args: string, parse: string -> Option<Json>): (r: (Icon, string))
    ensures var k := FirstRule(LowerAscii(name), Rules);
      && r.0 == IconOf(k)
      && match ActionOf(k)
         case Fixed(text) => r.1 == text
         case ToolName => r.1 == name
         case Targeted(verb, keys, fallback) =>
           match ExtractField(args, parse, keys)
           case None => r.1 == fallback
           case Some(target) => r.1 == verb + " " + TruncatePath(target, 40)
  {
    KindOfFollowsRules(name);
    var k := KindOf(name);
    (IconOf(k), ActionLabel(k, name, args, parse))
  }

  /** The action text of `tool_call_icon_and_action`, branch by branch. */
  function ActionLabel(k: ToolKind, name: string, args: string, parse: string -> Option<Json>): (text: string)
    ensures match ActionOf(k)
      case Fixed(t) => text == t
      case ToolName => text == name
      case Targeted(verb, keys, fallback) =>
        match ExtractField(args, parse, keys)
        case None => text == fallback
        case Some(target) => text == verb + " " + TruncatePath(target, 40)
  {
    match k
    case Thought => "Thought"
    case ReadFile => (match ExtractFilePath(args, parse) case Some(p) => "Read " + TruncatePath(p, 40) case None => "Read")
    case EditFile => (match ExtractFilePath(args, parse) case Some(p) => "Edited " + TruncatePath(p, 40) case None => "Edited")
    case Explore => "Explored"
    case RunCommand => (match ExtractCommand(args, parse) case Some(c) => "Ran " + TruncatePath(c, 40) case None => "Ran command")
    case Task => "Task"
    case Other => name
  }

  /** The target a kind shows, if it shows one and the arguments hold it. */
  function TargetOf(k: ToolKind, args: string, parse: string -> Option<Json>): Option<string> {
    match ActionOf(k)
    case Targeted(_, keys, _) => ExtractField(args, parse, keys)
    case _ => None
  }

  /** `tool_call_icon_and_action` with `truncate_path` as written: it
      panics (`Err`) exactly when the shown target is cut inside a
      character. */
  function IconAndActionAsWritten(name: string, args: string, parse: string -> Option<Json>): (r: Result<(Icon, string), string>)
    ensures var t := TargetOf(KindOf(name), args, parse);
      r.Err? <==> t.Some? && TruncatePathAsWritten(t.value, 40).Err?
  {
    var k := KindOf(name);
    match TargetOf(k, args, parse)
    case None => Ok(IconAndAction(name, args, parse))
    case Some(target) =>
      match TruncatePathAsWritten(target, 40)
      case Err(msg) => Err(msg)
      case Ok(cut) => Ok((IconOf(k), ActionOf(k).verb + " " + cut))
  }

  /** Wherever the written code does not panic, it shows what the
      corrected one shows. */
  lemma IconAndActionAgrees(name: string, args: string, parse: string -> Option<Json>)
    requires IconAndActionAsWritten(name, args, parse).Ok?
    ensures IconAndActionAsWritten(name, args, parse).value == IconAndAction(name, args, parse)
  {
    KindOfFollowsRules(name);
    var t := TargetOf(KindOf(name), args, parse);
    if t.Some? {
      TruncatePathAgrees(t.value, 40);
    }
  }

  /** The chain of tests is the rule table read top to bottom. */
  lemma KindOfFollowsRules(name: string)
    ensures KindOf(name) == FirstRule(LowerAscii(name), Rules)
  {
    var n := LowerAscii(name);
    var r0 := Rules;
    var r1 := [(["read"], ReadFile), (["edit", "write"], EditFile),
      (["glob", "grep", "search", "explore"], Explore), (["bash", "command", "terminal"], RunCommand), (["task"], Task)];
    var r2 := r1[1..];
    var r3 := r2[1..];
    var r4 := r3[1..];
    var r5 := r4[1..];
    assert r0[1..] == r1;
    assert FirstRule(n, r5) == if Contains(n, "task") then Task else Other by {
      Mentions1(n, "task");
      assert r5 == [(["task"], Task)];
      assert r5[1..] == [];
    }
    assert FirstRule(n, r4) == if Contains(n, "bash") || Contains(n, "command") || Contains(n, "terminal") then RunCommand else FirstRule(n, r5) by {
      Mentions3(n, "bash", "command", "terminal");
    }
    assert FirstRule(n, r3) == if Contains(n, "glob") || Contains(n, "grep") || Contains(n, "search") || Contains(n, "explore") then Explore else FirstRule(n, r4) by {
      Mentions4(n, "glob", "grep", "search", "explore");
    }
    assert FirstRule(n, r2) == if Contains(n, "edit") || Contains(n, "write") then EditFile else FirstRule(n, r3) by {
      Mentions2(n, "edit", "write");
    }
    assert FirstRule(n, r1) == if Contains(n, "read") then ReadFile else FirstRule(n, r2) by {
      Mentions1(n, "read");
    }
    assert FirstRule(n, r0) == if Contains(n, "thought") || Contains(n, "think") then Thought else FirstRule(n, r1) by {
      Mentions2(n, "thought", "think");
    }
  }

  lemma Mentions1(n: string, a: string)
    ensures MentionsAny(n, [a]) <==> Contains(n, a)
  {
    if Contains(n, a) { assert [a][0] == a; }
  }

  lemma Mentions2(n: string, a: string, b: string)
    ensures MentionsAny(n, [a, b]) <==> Contains(n, a) || Contains(n, b)
  {
    if Contains(n, a) { assert [a, b][0] == a; }
    if Contains(n, b) { assert [a, b][1] == b; }
  }

  lemma Mentions3(n: string, a: string, b: string, c: string)
    ensures MentionsAny(n, [a, b, c]) <==> Contains(n, a) || Contains(n, b) || Contains(n, c)
  {
    if Contains(n, a) { assert [a, b, c][0] == a; }
    if Contains(n, b) { assert [a, b, c][1] == b; }
    if Contains(n, c) { assert [a, b, c][2] == c; }
  }

  lemma Mentions4(n: string, a: string, b: string, c: string, d: string)
    ensures MentionsAny(n, [a, b, c, d]) <==> Contains(n, a) || Contains(n, b) || Contains(n, c) || Contains(n, d)
  {
    if Contains(n, a) { assert [a, b, c, d][0] == a; }
    if Contains(n, b) { assert [a, b, c, d][1] == b; }
    if Contains(n, c) { assert [a, b, c, d][2] == c; }
    if Contains(n, d) { assert [a, b, c, d][3] == d; }
  }

  /** The thought rule comes first: a name mentioning both "read" and
      "think" is a thought. */
  lemma ThoughtBeatsRead(name: string)
    requires Contains(LowerAscii(name), "read") && Contains(LowerAscii(name), "think")
    ensures KindOf(name) == Thought
  {
  }

  /** The test ignores ASCII case: a name with "READ" in it is a read. */
  lemma ReadIgnoresCase(name: string, i: nat)
    requires i + 4 <= |name| && name[i..i + 4] == "READ"
    requires !Contains(LowerAscii(name), "thought") && !Contains(LowerAscii(name), "think")
    ensures KindOf(name) == ReadFile
  {
    var n := LowerAscii(name);
    assert n[i..i + 4] == "read" by {
      forall k | 0 <= k < 4 ensures n[i..i + 4][k] == "read"[k] {
        assert name[i..i + 4][k] == name[i + k];
        assert n[i + k] == LowerChar("READ"[k]);
        assert LowerChar('R') == 'r' && LowerChar('E') == 'e' && LowerChar('A') == 'a' && LowerChar('D') == 'd';
      }
    }
    assert OccursAt(n, "read", i);
    ContainsIff(n, "read");
  }

  // ---------------------------------------------------------------------------
  // Message element
  // ---------------------------------------------------------------------------

  /** The two message layouts: the right-aligned user bubble, and the
      assistant layout with thinking, tool lines and markdown. */
  datatype Layout = UserBubble | AssistantLayout

  /** `build_chat_item_element`: the user builder for user messages, the
      assistant builder for every other role. */
  function LayoutOf(m: ChatMessage): (l: Layout)
    ensures l == UserBubble <==> m.role == User
  {
    if m.role == User then UserBubble else AssistantLayout
  }
}

=== FILE: chat_controller.dfy ===
/** The chat session controller (examples/chat_session/src/view/state.rs,
    view/events.rs and view/actions.rs; examples/chat_session/src/main.rs
    holds an older copy of the same logic): a map of per-session states,
    the session list shown in the sidebar, the active session, and the
    reactions to agent events and user actions. Sending a command is
    reported as the command; whether the channel accepted it is an input. */
module ChatController {
  import opened Wrappers
  import opened Text
  import opened Acp
  import opened ChatTypes
  import opened ChatUtils
  import opened ChatSession
  import opened ChatBridge

  datatype View = View(
    sessions: map<string, SessionState>,
    sessionList: seq<SessionInfo>,
    active: Option<string>,
    appStatus: string,
    cwd: string,
    listContentWidth: Option<nat>)

  /** `ChatSessionView::new`: no sessions yet, connecting. */
  function NewView(cwd: string): (v: View)
    ensures v.sessions == map[] && v.sessionList == [] && v.active.None? && v.listContentWidth.None?
    ensures v.appStatus == "Connecting to Codex ACP..." && v.cwd == cwd
    ensures ViewWf(v)
  {
    View(map[], [], None, "Connecting to Codex ACP...", cwd, None)
  }

  /** Every session state keeps the session invariant. */
  predicate ViewWf(v: View) {
    forall k :: k in v.sessions ==> Wf(v.sessions[k])
  }

  /** `ensure_session_state`: a missing session gets a fresh "Ready" state;
      an existing one is left as it is. */
  function EnsureSession(v: View, sid: string): (r: View)
    ensures sid in r.sessions && r.sessions.Keys == v.sessions.Keys + {sid}
    ensures sid in v.sessions ==> r == v
    ensures sid !in v.sessions ==> r == v.(sessions := v.sessions[sid := ChatSession.NewSession("Ready")])
    ensures ViewWf(v) ==> ViewWf(r)
  {
    if sid in v.sessions then v else v.(sessions := v.sessions[sid := ChatSession.NewSession("Ready")])
  }

  /** The state of `sid` after `ensure_session_state`. */
  function StateOf(v: View, sid: string): (s: SessionState)
    ensures sid in v.sessions ==> s == v.sessions[sid]
    ensures sid !in v.sessions ==> s == ChatSession.NewSession("Ready")
    ensures ViewWf(v) ==> Wf(s)
  {
    EnsureSession(v, sid).sessions[sid]
  }

  /** Replaces the state of `sid`. */
  function WithState(v: View, sid: string, s: SessionState): (r: View)
    ensures sid in r.sessions && r.sessions[sid] == s
    ensures r.sessions.Keys == v.sessions.Keys + {sid}
    ensures forall k :: k in v.sessions && k != sid ==> r.sessions[k] == v.sessions[k]
    ensures ViewWf(v) && Wf(s) ==> ViewWf(r)
    ensures r.sessionList == v.sessionList && r.active == v.active && r.appStatus == v.appStatus
  {
    v.(sessions := v.sessions[sid := s])
  }

  /** A session with this id is listed. */
  predicate Listed(list: seq<SessionInfo>, sid: string) {
    exists i :: 0 <= i < |list| && list[i].sessionId == sid
  }

  /** The first listed session with this id. */
  function FindSession(list: seq<SessionInfo>, sid: string): (r: Option<nat>)
    ensures r.Some? ==> r.value < |list| && list[r.value].sessionId == sid
    ensures r.Some? ==> forall j :: 0 <= j < r.value ==> list[j].sessionId != sid
    ensures r.None? <==> !Listed(list, sid)
  {
    if list == [] then None
    else if list[0].sessionId == sid then Some(0)
    else match FindSession(list[1..], sid)
      case Some(k) => Some(k + 1)
      case None => assert forall i :: 1 <= i < |list| ==> list[i] == list[1..][i - 1]; None
  }

  /** `session_cwd`: the working directory of the first listed entry. */
  function SessionCwd(v: View, sid: string): (r: Option<string>)
    ensures r.None? <==> !Listed(v.sessionList, sid)
    ensures r.Some? ==> exists i :: 0 <= i < |v.sessionList| && v.sessionList[i].sessionId == sid && v.sessionList[i].cwd == r.value
  {
    match FindSession(v.sessionList, sid)
    case Some(k) => Some(v.sessionList[k].cwd)
    case None => None
  }

  /** `next_message_id`: the number of items of the session, 0 when unknown. */
  function NextMessageId(v: View, sid: string): (n: nat)
    ensures sid in v.sessions ==> n == |v.sessions[sid].items|
    ensures sid !in v.sessions ==> n == 0
    ensures n == |StateOf(v, sid).items|
  {
    if sid in v.sessions then |v.sessions[sid].items| else 0
  }

  /** `update_session_list`: takes the new list; an active session missing
      from it is put back in front as "Current session" in the view's
      working directory; without an active session the first listed one
      becomes active and gets a state. */
  function UpdateSessionList(v: View, list: seq<SessionInfo>): (r: View)
    ensures v.active.Some? ==> r.active == v.active
    ensures v.active.Some? && Listed(list, v.active.value) ==> r.sessionList == list
    ensures v.active.Some? && !Listed(list, v.active.value) ==>
      r.sessionList == [SessionInfo(v.active.value, v.cwd, Some("Current session"), None)] + list
    ensures v.active.None? ==> r.sessionList == list
    ensures v.active.None? && list != [] ==> r.active == Some(list[0].sessionId) && list[0].sessionId in r.sessions
    ensures v.active.None? && list == [] ==> r.active.None?
    ensures r.active.Some? ==> Listed(r.sessionList, r.active.value)
    ensures ViewWf(v) ==> ViewWf(r)
  {
    match v.active
    case Some(id) =>
      if Listed(list, id) then v.(sessionList := list)
      else
        var shown := [SessionInfo(id, v.cwd, Some("Current session"), None)] + list;
        assert shown[0].sessionId == id;
        v.(sessionList := shown)
    case None =>
      if list == [] then v.(sessionList := list)
      else
        assert list[0].sessionId == list[0].sessionId;
        EnsureSession(v.(sessionList := list, active := Some(list[0].sessionId)), list[0].sessionId)
  }

  /** `retain`: the list without entries for `sid`, in order. */
  function Without(list: seq<SessionInfo>, sid: string): (r: seq<SessionInfo>)
    ensures |r| <= |list| && !Listed(r, sid)
    ensures forall e :: e in r <==> e in list && e.sessionId != sid
  {
    if list == [] then []
    else if list[0].sessionId == sid then Without(list[1..], sid)
    else [list[0]] + Without(list[1..], sid)
  }

  // ---------------------------------------------------------------------------
  // Agent events
  // ---------------------------------------------------------------------------

  /** A message or thought chunk with its text: empty text is ignored, and
      other text goes to the session's streaming message or thinking. */
  function ApplyChunk(v: View, sid: string, u: SessionUpdate, text: string): (r: View)
    requires ViewWf(v) && (u.UserMessageChunk? || u.AgentMessageChunk? || u.AgentThoughtChunk?)
    ensures text == [] ==> r == v
    ensures u.UserMessageChunk? && text != [] ==>
      sid in r.sessions && r.sessions[sid] == AppendMessageChunk(StateOf(v, sid), User, text)
    ensures u.AgentMessageChunk? && text != [] ==>
      sid in r.sessions && r.sessions[sid] == AppendMessageChunk(StateOf(v, sid), Assistant, text)
    ensures u.AgentThoughtChunk? && text != [] ==>
      sid in r.sessions && r.sessions[sid] == AppendThoughtChunk(StateOf(v, sid), text)
    ensures forall k :: k in v.sessions && k != sid ==> k in r.sessions && r.sessions[k] == v.sessions[k]
    ensures r.sessionList == v.sessionList && r.active == v.active && r.appStatus == v.appStatus
    ensures ViewWf(r)
  {
    var s := StateOf(v, sid);
    if text == [] then v
    else if u.UserMessageChunk? then
      AppendMessageChunkKeepsWf(s, User, text); WithState(v, sid, AppendMessageChunk(s, User, text))
    else if u.AgentMessageChunk? then
      AppendMessageChunkKeepsWf(s, Assistant, text); WithState(v, sid, AppendMessageChunk(s, Assistant, text))
    else
      AppendThoughtChunkKeepsWf(s, text); WithState(v, sid, AppendThoughtChunk(s, text))
  }

  /** `apply_session_update`: chunks with empty text are ignored; others go
      to the session's streaming messages and tool calls. */
  function ApplySessionUpdate(v: View, sid: string, u: SessionUpdate,
                              merge: (Option<ToolCall>, ToolCallUpdate) -> ToolCall,
                              format: Json -> string): (r: View)
    requires ViewWf(v)
    ensures (u.UserMessageChunk? || u.AgentMessageChunk? || u.AgentThoughtChunk?) && ContentBlockToText(u.content) == [] ==> r == v
    ensures u.OtherUpdate? ==> r == v
    ensures u.UserMessageChunk? && ContentBlockToText(u.content) != [] ==>
      sid in r.sessions && r.sessions[sid] == AppendMessageChunk(StateOf(v, sid), User, ContentBlockToText(u.content))
    ensures u.AgentMessageChunk? && ContentBlockToText(u.content) != [] ==>
      sid in r.sessions && r.sessions[sid] == AppendMessageChunk(StateOf(v, sid), Assistant, ContentBlockToText(u.content))
    ensures u.AgentThoughtChunk? && ContentBlockToText(u.content) != [] ==>
      sid in r.sessions && r.sessions[sid] == AppendThoughtChunk(StateOf(v, sid), ContentBlockToText(u.content))
    ensures u.ToolCallStarted? ==> sid in r.sessions && r.sessions[sid] == UpsertToolCall(StateOf(v, sid), u.toolCall, format)
    ensures u.ToolCallUpdated? ==> sid in r.sessions && r.sessions[sid] == ApplyToolCallUpdate(StateOf(v, sid), u.update, merge, format)
    ensures forall k :: k in v.sessions && k != sid ==> k in r.sessions && r.sessions[k] == v.sessions[k]
    ensures r.sessionList == v.sessionList && r.active == v.active && r.appStatus == v.appStatus
    ensures ViewWf(r)
  {
    var s := StateOf(v, sid);
    match u
    case UserMessageChunk(c) => ApplyChunk(v, sid, u, ContentBlockToText(c))
    case AgentMessageChunk(c) => ApplyChunk(v, sid, u, ContentBlockToText(c))
    case AgentThoughtChunk(c) => ApplyChunk(v, sid, u, ContentBlockToText(c))
    case ToolCallStarted(tc) =>
      UpsertToolCallKeepsWf(s, tc, format); WithState(v, sid, UpsertToolCall(s, tc, format))
    case ToolCallUpdated(upd) =>
      ApplyToolCallUpdateKeepsWf(s, upd, merge, format); WithState(v, sid, ApplyToolCallUpdate(s, upd, merge, format))
    case OtherUpdate => v
  }

  /** A session with a new status line and generating flag; nothing else changes. */
  function WithStatus(s: SessionState, status: string, generating: bool): (r: SessionState)
    requires Wf(s)
    ensures r.statusLine == status && r.isGenerating == generating
    ensures r.items == s.items && r.streamingRole == s.streamingRole && r.toolCallIndex == s.toolCallIndex
    ensures Wf(r)
  {
    s.(statusLine := status, isGenerating := generating)
  }

  /** The session list after `SessionCreated`: the new session in front,
      every other entry after it in order. */
  function CreatedList(list: seq<SessionInfo>, sid: string, cwd: string): (r: seq<SessionInfo>)
    ensures |r| >= 1 && r[0] == SessionInfo(sid, cwd, Some("New session"), None)
    ensures r[1..] == Without(list, sid) && !Listed(r[1..], sid)
  {
    [SessionInfo(sid, cwd, Some("New session"), None)] + Without(list, sid)
  }

  /** `handle_codex_event`. */
  function HandleEvent(v: View, e: UiEvent,
                       merge: (Option<ToolCall>, ToolCallUpdate) -> ToolCall,
                       format: Json -> string): (r: View)
    requires ViewWf(v)
    ensures e.SessionUpdateEvent? ==> r == ApplySessionUpdate(v, e.sessionId, e.update, merge, format)
    ensures e.PromptFinished? ==>
      r == v.(sessions := v.sessions[e.sessionId :=
        StateOf(v, e.sessionId).(isGenerating := false, statusLine := "Completed: " + StopReasonName(e.stopReason))])
    ensures e.SessionsListed? ==> r == UpdateSessionList(v, e.sessions)
    ensures e.SessionCreated? ==>
      r == v.(sessions := v.sessions[e.sessionId := StateOf(v, e.sessionId).(statusLine := "Ready")],
              active := Some(e.sessionId), sessionList := CreatedList(v.sessionList, e.sessionId, e.cwd))
    ensures e.SessionLoaded? ==>
      r == v.(sessions := v.sessions[e.sessionId := StateOf(v, e.sessionId).(statusLine := "Session loaded")],
              active := Some(e.sessionId))
    ensures e.SystemMessage? ==> r == v.(appStatus := e.text)
    ensures ViewWf(r)
  {
    match e
    case SessionUpdateEvent(sid, u) => ApplySessionUpdate(v, sid, u, merge, format)
    case PromptFinished(sid, stop) =>
      WithState(v, sid, WithStatus(StateOf(v, sid), "Completed: " + StopReasonName(stop), false))
    case SessionsListed(list) => UpdateSessionList(v, list)
    case SessionCreated(sid, cwd) =>
      var s := StateOf(v, sid);
      WithState(v, sid, WithStatus(s, "Ready", s.isGenerating)).(active := Some(sid), sessionList := CreatedList(v.sessionList, sid, cwd))
    case SessionLoaded(sid) =>
      var s := StateOf(v, sid);
      WithState(v, sid, WithStatus(s, "Session loaded", s.isGenerating)).(active := Some(sid))
    case SystemMessage(text) => v.(appStatus := text)
  }

  // ---------------------------------------------------------------------------
  // User actions
  // ---------------------------------------------------------------------------

  datatype Sent = Sent(view: View, input: string, command: Option<CodexCommand>)

  /** Why `send_message` does nothing: no active session, the session is
      still generating, or the trimmed input is empty. */
  predicate SendRefused(v: View, input: string) {
    || v.active.None?
    || (v.active.value in v.sessions && v.sessions[v.active.value].isGenerating)
    || Trim(input) == []
  }

  /** What `send_message` does to the session it sends from. */
  function Submit(s: SessionState, content: string, accepted: bool): (r: SessionState)
    requires Wf(s)
    ensures r.items == s.items + [Message(BuildMessage(|s.items|, User, content))]
    ensures r.isGenerating == accepted
    ensures r.statusLine == (if accepted then "Sending to Codex..." else "Failed to send prompt to Codex")
    ensures r.streamingRole.None? && r.activeUser.None? && r.activeAssistant.None?
    ensures r.toolCallIndex == map[] && r.toolCallCache == map[]
    ensures Wf(r)
  {
    var m := BuildMessage(|s.items|, User, content);
    PushKeepsWf(s, m);
    var t := PushMessage(s, m).state.(statusLine := "Sending to Codex...", isGenerating := true);
    ClearStreamStateIdempotent(t);
    var t := ClearStreamState(t);
    if accepted then t else t.(statusLine := "Failed to send prompt to Codex", isGenerating := false)
  }

  /** `send_message`: appends the trimmed input as a user message, clears
      the input, marks the session generating with a fresh stream, and sends
      the prompt; when the channel refuses it (`accepted` false) the session
      stops generating and says so. */
  function SendMessage(v: View, input: string, accepted: bool): (r: Sent)
    requires ViewWf(v)
    ensures SendRefused(v, input) ==> r == Sent(v, input, None)
    ensures !SendRefused(v, input) ==>
      && r.view == WithState(v, v.active.value, Submit(StateOf(v, v.active.value), Trim(input), accepted))
      && r.input == [] && r.command == Some(Prompt(v.active.value, Trim(input)))
    ensures ViewWf(r.view)
  {
    if SendRefused(v, input) then Sent(v, input, None)
    else
      var sid := v.active.value;
      var content := Trim(input);
      assert NextMessageId(v, sid) == |StateOf(v, sid).items|;
      Sent(WithState(v, sid, Submit(StateOf(v, sid), content, accepted)), [], Some(Prompt(sid, content)))
  }

  /** What `select_session` does to the session it switches to. */
  function Reselect(s: SessionState, cwdKnown: bool): (r: SessionState)
    requires Wf(s)
    ensures r.items == s.items && !r.isGenerating
    ensures r.statusLine == (if cwdKnown then "Loading session..." else "Missing session cwd")
    ensures r.streamingRole.None? && r.activeUser.None? && r.activeAssistant.None?
    ensures r.toolCallIndex == map[] && r.toolCallCache == map[]
    ensures Wf(r)
  {
    var t := s.(statusLine := "Loading session...", isGenerating := false);
    ClearStreamStateIdempotent(t);
    var t := ClearStreamState(t);
    if cwdKnown then t else t.(statusLine := "Missing session cwd")
  }

  /** `select_session`: the active session is left alone; another one is
      activated with a fresh stream and loaded from its listed working
      directory, or marked "Missing session cwd" when it is not listed. */
  function SelectSession(v: View, sid: string): (r: Sent)
    requires ViewWf(v)
    ensures v.active == Some(sid) ==> r.view == v && r.command.None?
    ensures v.active != Some(sid) ==>
      r.view == WithState(v, sid, Reselect(StateOf(v, sid), Listed(v.sessionList, sid))).(active := Some(sid))
    ensures v.active != Some(sid) && Listed(v.sessionList, sid) ==>
      r.command == Some(LoadSession(sid, SessionCwd(v, sid).value))
    ensures v.active != Some(sid) && !Listed(v.sessionList, sid) ==> r.command.None?
    ensures ViewWf(r.view)
  {
    if v.active == Some(sid) then Sent(v, "", None)
    else
      var w := WithState(v, sid, Reselect(StateOf(v, sid), Listed(v.sessionList, sid))).(active := Some(sid));
      match SessionCwd(v, sid)
      case Some(cwd) => Sent(w, "", Some(LoadSession(sid, cwd)))
      case None => Sent(w, "", None)
  }

  // ---------------------------------------------------------------------------
  // Properties across steps
  // ---------------------------------------------------------------------------

  /** Whatever the agent answers to a prompt, handling the events the
      bridge produces for it leaves the session no longer generating. */
  lemma PromptAlwaysFinishes(v: View, sid: string, text: string, reply: Reply,
                             merge: (Option<ToolCall>, ToolCallUpdate) -> ToolCall, format: Json -> string)
    requires ViewWf(v) && ReplyFits(Prompt(sid, text), reply)
    ensures var events := RunCommand(Prompt(sid, text), reply);
      var r := HandleAll(v, events, merge, format);
      sid in r.sessions && !r.sessions[sid].isGenerating
  {
    var events := RunCommand(Prompt(sid, text), reply);
    HandleAllLast(v, events, merge, format);
  }

  /** Handles a sequence of events in order. */
  function HandleAll(v: View, events: seq<UiEvent>,
                     merge: (Option<ToolCall>, ToolCallUpdate) -> ToolCall, format: Json -> string): (r: View)
    requires ViewWf(v)
    ensures ViewWf(r)
    decreases |events|
  {
    if events == [] then v else HandleAll(HandleEvent(v, events[0], merge, format), events[1..], merge, format)
  }

  /** The last event handled decides the outcome of a finished prompt. */
  lemma {:induction false} HandleAllLast(v: View, events: seq<UiEvent>,
                                          merge: (Option<ToolCall>, ToolCallUpdate) -> ToolCall, format: Json -> string)
    requires ViewWf(v) && events != [] && events[|events| - 1].PromptFinished?
    ensures var r := HandleAll(v, events, merge, format);
      events[|events| - 1].sessionId in r.sessions && !r.sessions[events[|events| - 1].sessionId].isGenerating
    decreases |events|
  {
    if |events| > 1 {
      var w := HandleEvent(v, events[0], merge, format);
      assert events[1..][|events[1..]| - 1] == events[|events| - 1];
      HandleAllLast(w, events[1..], merge, format);
    } else {
      assert HandleAll(HandleEvent(v, events[0], merge, format), events[1..], merge, format) == HandleEvent(v, events[0], merge, format);
    }
  }

  /** Selecting a session twice is selecting it once. */
  lemma SelectSessionTwice(v: View, sid: string)
    requires ViewWf(v)
    ensures SelectSession(SelectSession(v, sid).view, sid).view == SelectSession(v, sid).view
  {
  }

  /** An unlisted id filters out nothing. */
  lemma {:induction false} WithoutUnlisted(list: seq<SessionInfo>, sid: string)
    requires !Listed(list, sid)
    ensures Without(list, sid) == list
    decreases |list|
  {
    if list != [] {
      assert list[0].sessionId != sid;
      assert !Listed(list[1..], sid) by {
        forall i | 0 <= i < |list[1..]| ensures list[1..][i].sessionId != sid {
          assert list[1..][i] == list[i + 1];
        }
      }
      WithoutUnlisted(list[1..], sid);
    }
  }

  /** A session announced twice is listed once, in front. */
  lemma CreatedListTwice(list: seq<SessionInfo>, sid: string, cwd: string)
    ensures CreatedList(CreatedList(list, sid, cwd), sid, cwd) == CreatedList(list, sid, cwd)
  {
    var once := CreatedList(list, sid, cwd);
    WithoutUnlisted(once[1..], sid);
    assert once == [once[0]] + once[1..];
  }
}

=== FILE: chat_render.dfy ===
/** The render-side state of the chat view (examples/chat_session/src/view/render.rs;
    the older copy in examples/chat_session/src/main.rs renders at a fixed
    width and groups with a hash map): the width items are measured at, the
    sizes and status line handed to the list, the sidebar's grouping of
    sessions by project, and the width a painted row reports back. Pixels
    are whole numbers here. */
module ChatRender {
  import opened Wrappers
  import opened Text
  import opened Acp
  import opened ChatTypes
  import opened MarkdownCache
  import opened ChatSession
  import opened Geometry
  import opened ChatUi
  import opened ChatController

  const SidebarWidth := 260
  const ListPadding := 32
  const ScrollGutter := 12
  const MaxChatWidth := 640

  /** `measure_width`: the width the list reported, or else the viewport
      less the sidebar and padding (not below 0); less the scroll gutter,
      clamped to [0, 640]. */
  function MeasureWidth(listContentWidth: Option<int>, viewport: int): (w: nat)
    ensures w <= MaxChatWidth
    ensures listContentWidth.Some? && ScrollGutter <= listContentWidth.value <= MaxChatWidth + ScrollGutter ==>
      w + ScrollGutter == listContentWidth.value
    ensures listContentWidth.None? && SidebarWidth + ListPadding + ScrollGutter <= viewport <= SidebarWidth + ListPadding + ScrollGutter + MaxChatWidth ==>
      w + SidebarWidth + ListPadding + ScrollGutter == viewport
  {
    var base := match listContentWidth
      case Some(x) => x
      case None => if viewport - SidebarWidth - ListPadding < 0 then 0 else viewport - SidebarWidth - ListPadding;
    var w := base - ScrollGutter;
    if w < 0 then 0 else if w > MaxChatWidth then MaxChatWidth else w
  }

  /** A wider window never measures narrower. */
  lemma MeasureWidthMonotone(a: int, b: int)
    requires a <= b
    ensures MeasureWidth(None, a) <= MeasureWidth(None, b)
    ensures MeasureWidth(Some(a), 0) <= MeasureWidth(Some(b), 0)
  {
  }

  /** Once the list has reported a width, the viewport no longer matters. */
  lemma ReportedWidthWins(x: int, v1: int, v2: int)
    ensures MeasureWidth(Some(x), v1) == MeasureWidth(Some(x), v2)
  {
  }

  datatype Rendered = Rendered(view: View, sizes: seq<Size>, status: string, active: Option<string>)

  /** `session_render_state`: with an active session, measure it at `width`
      (all items when it is unmeasured or the width changed, then the
      pending ones) and hand out its sizes and status line; otherwise no
      sizes and the application status. */
  function RenderState(v: View, width: nat, measure: (ChatItem, Option<MarkdownState>, nat) -> Size): (r: Rendered)
    requires ViewWf(v)
    ensures r.active == v.active
    ensures v.active.None? ==> r == Rendered(v, [], v.appStatus, None)
    ensures v.active.Some? ==>
      var sid := v.active.value;
      && sid in r.view.sessions
      && r.view == WithState(v, sid, RenderSession(StateOf(v, sid), width, measure))
      && r.sizes == r.view.sessions[sid].itemSizes
      && |r.sizes| == |StateOf(v, sid).items|
      && r.status == StateOf(v, sid).statusLine
    ensures ViewWf(r.view)
  {
    match v.active
    case None => Rendered(v, [], v.appStatus, None)
    case Some(sid) =>
      var s := StateOf(v, sid);
      RenderSessionKeepsWf(s, width, measure);
      var t := RenderSession(s, width, measure);
      Rendered(WithState(v, sid, t), t.itemSizes, t.statusLine, Some(sid))
  }

  /** The view's render: measured at `MeasureWidth`. */
  function ViewRenderState(v: View, viewport: int, measure: (ChatItem, Option<MarkdownState>, nat) -> Size): (r: Rendered)
    requires ViewWf(v)
    ensures r == RenderState(v, MeasureWidth(v.listContentWidth, viewport), measure)
  {
    RenderState(v, MeasureWidth(v.listContentWidth, viewport), measure)
  }

  /** The older render in main.rs: always measured at 640. */
  function LegacyRenderState(v: View, measure: (ChatItem, Option<MarkdownState>, nat) -> Size): (r: Rendered)
    requires ViewWf(v)
    ensures r == RenderState(v, MaxChatWidth, measure)
  {
    RenderState(v, MaxChatWidth, measure)
  }

  /** The two renders agree once the list is at least 652 wide. */
  lemma RendersAgreeWhenWide(v: View, viewport: int, measure: (ChatItem, Option<MarkdownState>, nat) -> Size)
    requires ViewWf(v) && v.listContentWidth.Some? && v.listContentWidth.value >= MaxChatWidth + ScrollGutter
    ensures ViewRenderState(v, viewport, measure) == LegacyRenderState(v, measure)
  {
  }

  /** Rendering again at the same width measures nothing and changes nothing. */
  lemma RenderTwice(v: View, width: nat, measure: (ChatItem, Option<MarkdownState>, nat) -> Size)
    requires ViewWf(v)
    ensures var once := RenderState(v, width, measure);
      RenderState(once.view, width, measure) == once
  {
    var once := RenderState(v, width, measure);
    if v.active.Some? {
      RenderStateSettled(once.view, width, measure);
    }
  }

  /** A view whose active session is measured at `width` with nothing
      pending renders as itself. */
  lemma RenderStateSettled(v: View, width: nat, measure: (ChatItem, Option<MarkdownState>, nat) -> Size)
    requires ViewWf(v) && v.active.Some? && v.active.value in v.sessions
    requires var t := v.sessions[v.active.value]; t.measured && t.lastWidth == Some(width) && t.pending == []
    ensures RenderState(v, width, measure) == Rendered(v, v.sessions[v.active.value].itemSizes, v.sessions[v.active.value].statusLine, v.active)
  {
    var sid := v.active.value;
    var t := v.sessions[sid];
    RenderSettled(t, width, measure);
    assert v.sessions[sid := t] == v.sessions;
  }

  /** A session measured at `width` with nothing pending renders as itself. */
  lemma RenderSettled(t: SessionState, width: nat, measure: (ChatItem, Option<MarkdownState>, nat) -> Size)
    requires Wf(t) && t.measured && t.lastWidth == Some(width) && t.pending == []
    ensures RenderSession(t, width, measure) == t
  {
  }

  // ---------------------------------------------------------------------------
  // Prepaint
  // ---------------------------------------------------------------------------

  datatype Prepainted = Prepainted(view: View, notify: bool)

  /** The row's prepaint callback: stores the painted width and asks for a
      new frame only when it differs from the stored one. */
  function OnPrepaint(v: View, width: nat): (r: Prepainted)
    ensures r.view == v.(listContentWidth := Some(width))
    ensures r.notify <==> v.listContentWidth != Some(width)
  {
    if v.listContentWidth != Some(width) then Prepainted(v.(listContentWidth := Some(width)), true)
    else Prepainted(v, false)
  }

  /** A second paint at the same width settles: no new frame is requested,
      and the next frame measures at the painted width less the gutter. */
  lemma PrepaintSettles(v: View, width: nat, viewport: int)
    requires ScrollGutter <= width <= MaxChatWidth + ScrollGutter
    ensures !OnPrepaint(OnPrepaint(v, width).view, width).notify
    ensures MeasureWidth(OnPrepaint(v, width).view.listContentWidth, viewport) + ScrollGutter == width
  {
  }

  // ---------------------------------------------------------------------------
  // Sidebar groups
  // ---------------------------------------------------------------------------

  datatype Group = Group(name: string, sessions: seq<SessionInfo>)

  /** Group names strictly ascending, as the keys of a `BTreeMap`. */
  predicate Sorted(gs: seq<Group>) {
    forall i, j :: 0 <= i < j < |gs| ==> LexLt(gs[i].name, gs[j].name)
  }

  function NameSet(gs: seq<Group>): set<string> {
    set i | 0 <= i < |gs| :: gs[i].name
  }

  /** The sessions of the group called `name`, none when there is none. */
  function Lookup(gs: seq<Group>, name: string): (r: seq<SessionInfo>)
    ensures name !in NameSet(gs) ==> r == []
  {
    if gs == [] then []
    else if gs[0].name == name then gs[0].sessions
    else
      assert NameSet(gs[1..]) <= NameSet(gs) by {
        forall n | n in NameSet(gs[1..]) ensures n in NameSet(gs) {
          var i :| 0 <= i < |gs[1..]| && gs[1..][i].name == n;
          assert gs[i + 1].name == n;
        }
      }
      Lookup(gs[1..], name)
  }

  /** The sessions of `list` in the project `name`, in list order. */
  function Filter(list: seq<SessionInfo>, name: string): (r: seq<SessionInfo>)
    ensures |r| <= |list|
    ensures forall k :: 0 <= k < |r| ==> r[k] in list && ProjectGroupName(r[k].cwd) == name
  {
    if list == [] then []
    else
      var rest := Filter(list[..|list| - 1], name);
      var last := list[|list| - 1];
      if ProjectGroupName(last.cwd) == name then rest + [last] else rest
  }

  /** The names of a group in front of others. */
  lemma NameSetCons(g: Group, gs: seq<Group>)
    ensures NameSet([g] + gs) == {g.name} + NameSet(gs)
  {
    var r := [g] + gs;
    forall n | n in NameSet(r) ensures n in {g.name} + NameSet(gs) {
      var i :| 0 <= i < |r| && r[i].name == n;
      if i == 0 {
        assert n == g.name;
      } else {
        assert r[i] == gs[i - 1];
        assert n in NameSet(gs);
      }
    }
    forall n | n in NameSet(gs) ensures n in NameSet(r) {
      var i :| 0 <= i < |gs| && gs[i].name == n;
      assert r[i + 1] == gs[i];
    }
    assert r[0] == g;
  }

  /** A group in front of sorted groups whose names all sort after it. */
  lemma SortedCons(g: Group, gs: seq<Group>)
    requires Sorted(gs) && forall j :: 0 <= j < |gs| ==> LexLt(g.name, gs[j].name)
    ensures Sorted([g] + gs)
  {
    var r := [g] + gs;
    forall i, j | 0 <= i < j < |r| ensures LexLt(r[i].name, r[j].name) {
      assert r[j] == gs[j - 1];
      if i > 0 { assert r[i] == gs[i - 1]; }
    }
  }

  /** A name sorting before the first of sorted groups sorts before all of
      them, so no group has it. */
  lemma BelowFirst(gs: seq<Group>, name: string)
    requires Sorted(gs) && gs != [] && LexLt(name, gs[0].name)
    ensures forall j :: 0 <= j < |gs| ==> LexLt(name, gs[j].name)
    ensures name !in NameSet(gs)
  {
    forall j | 0 <= j < |gs| ensures LexLt(name, gs[j].name) {
      if j > 0 {
        LexLeTransitive(name, gs[0].name, gs[j].name);
        if name == gs[j].name {
          LexLeAntisymmetric(gs[0].name, gs[j].name);
        }
      }
    }
  }

  /** `entry(name).or_default().push(s)` on sorted groups: appended to the
      group called `name`, or a new group inserted where its name sorts. */
  function InsertSession(gs: seq<Group>, name: string, s: SessionInfo): (r: seq<Group>)
    requires Sorted(gs)
    ensures Sorted(r)
    ensures NameSet(r) == NameSet(gs) + {name}
    decreases |gs|
  {
    if gs == [] then
      assert NameSet([Group(name, [s])]) == {name} by {
        assert [Group(name, [s])][0].name == name;
      }
      [Group(name, [s])]
    else if gs[0].name == name then
      NameSetCons(gs[0], gs[1..]);
      NameSetCons(gs[0].(sessions := gs[0].sessions + [s]), gs[1..]);
      assert gs == [gs[0]] + gs[1..];
      var r := [gs[0].(sessions := gs[0].sessions + [s])] + gs[1..];
      assert forall i :: 0 <= i < |r| ==> r[i].name == gs[i].name;
      r
    else if LexLe(name, gs[0].name) then
      BelowFirst(gs, name);
      NameSetCons(Group(name, [s]), gs);
      SortedCons(Group(name, [s]), gs);
      [Group(name, [s])] + gs
    else
      LexLeTotal(name, gs[0].name);
      var rest := InsertSession(gs[1..], name, s);
      NameSetCons(gs[0], gs[1..]);
      NameSetCons(gs[0], rest);
      assert gs == [gs[0]] + gs[1..];
      forall j | 0 <= j < |rest| ensures LexLt(gs[0].name, rest[j].name) {
        assert rest[j].name in NameSet(rest);
        if rest[j].name != name {
          var i :| 0 <= i < |gs[1..]| && gs[1..][i].name == rest[j].name;
          assert gs[i + 1].name == rest[j].name;
        }
      }
      SortedCons(gs[0], rest);
      [gs[0]] + rest
  }

  /** The projects of the listed sessions. */
  function ProjectNames(list: seq<SessionInfo>): (r: set<string>)
    ensures forall k :: 0 <= k < |list| ==> ProjectGroupName(list[k].cwd) in r
    ensures forall n :: n in r ==> exists k :: 0 <= k < |list| && ProjectGroupName(list[k].cwd) == n
  {
    set k | 0 <= k < |list| :: ProjectGroupName(list[k].cwd)
  }

  /** One more session adds its project and nothing else. */
  lemma ProjectNamesSnoc(list: seq<SessionInfo>)
    requires list != []
    ensures ProjectNames(list) == ProjectNames(list[..|list| - 1]) + {ProjectGroupName(list[|list| - 1].cwd)}
  {
    ProjectNamesSnocWithin(list);
    ProjectNamesSnocCovers(list);
  }

  lemma ProjectNamesSnocWithin(list: seq<SessionInfo>)
    requires list != []
    ensures ProjectNames(list) <= ProjectNames(list[..|list| - 1]) + {ProjectGroupName(list[|list| - 1].cwd)}
  {
    var init := list[..|list| - 1];
    forall n | n in ProjectNames(list) ensures n in ProjectNames(init) + {ProjectGroupName(list[|list| - 1].cwd)} {
      var k :| 0 <= k < |list| && ProjectGroupName(list[k].cwd) == n;
      if k < |init| {
        assert init[k] == list[k];
        assert ProjectGroupName(init[k].cwd) in ProjectNames(init);
      } else {
        assert list[k] == list[|list| - 1];
      }
    }
  }

  lemma ProjectNamesSnocCovers(list: seq<SessionInfo>)
    requires list != []
    ensures ProjectNames(list[..|list| - 1]) + {ProjectGroupName(list[|list| - 1].cwd)} <= ProjectNames(list)
  {
    var init := list[..|list| - 1];
    forall n | n in ProjectNames(init) ensures n in ProjectNames(list) {
      var k :| 0 <= k < |init| && ProjectGroupName(init[k].cwd) == n;
      assert init[k] == list[k];
    }
  }

  /** The sidebar's `grouped_sessions`: every session of the list pushed,
      in list order, into the group of its project. */
  function Grouped(list: seq<SessionInfo>): (gs: seq<Group>)
    ensures Sorted(gs)
    ensures NameSet(gs) == ProjectNames(list)
  {
    if list == [] then
      assert NameSet([]) == {};
      []
    else
      var last := list[|list| - 1];
      ProjectNamesSnoc(list);
      InsertSession(Grouped(list[..|list| - 1]), ProjectGroupName(last.cwd), last)
  }

  /** In sorted groups, looking a group's name up finds that group. */
  lemma {:induction false} LookupAt(gs: seq<Group>, i: nat)
    requires Sorted(gs) && i < |gs|
    ensures Lookup(gs, gs[i].name) == gs[i].sessions
    decreases i
  {
    if i > 0 {
      assert gs[0].name != gs[i].name;
      assert gs[1..][i - 1] == gs[i];
      LookupAt(gs[1..], i - 1);
    }
  }

  /** Inserting a session adds it to the end of its own group and to no other. */
  lemma {:induction false} InsertLookup(gs: seq<Group>, name: string, s: SessionInfo, n: string)
    requires Sorted(gs)
    ensures Lookup(InsertSession(gs, name, s), n) == if n == name then Lookup(gs, n) + [s] else Lookup(gs, n)
    decreases |gs|
  {
    var r := InsertSession(gs, name, s);
    if gs == [] {
    } else if gs[0].name == name {
      assert r[1..] == gs[1..];
    } else if LexLe(name, gs[0].name) {
      BelowFirst(gs, name);
      assert r[1..] == gs;
    } else {
      InsertLookup(gs[1..], name, s, n);
      assert r[1..] == InsertSession(gs[1..], name, s);
    }
  }

  /** The group called `name` holds exactly the sessions of the list in
      that project, in list order. */
  lemma {:induction false} GroupedLookup(list: seq<SessionInfo>, n: string)
    ensures Lookup(Grouped(list), n) == Filter(list, n)
  {
    if list != [] {
      var init := list[..|list| - 1];
      var last := list[|list| - 1];
      GroupedLookup(init, n);
      InsertLookup(Grouped(init), ProjectGroupName(last.cwd), last, n);
    }
  }

  /** What the sidebar shows: groups in ascending name order, one per
      project of the listed sessions, each holding exactly that project's
      sessions in list order, none empty. */
  lemma GroupedSessions(list: seq<SessionInfo>)
    ensures var gs := Grouped(list);
      forall i :: 0 <= i < |gs| ==> gs[i].sessions == Filter(list, gs[i].name) && gs[i].sessions != []
  {
    var gs := Grouped(list);
    forall i | 0 <= i < |gs| ensures gs[i].sessions == Filter(list, gs[i].name) && gs[i].sessions != [] {
      LookupAt(gs, i);
      GroupedLookup(list, gs[i].name);
      assert gs[i].name in NameSet(gs);
      var k :| 0 <= k < |list| && ProjectGroupName(list[k].cwd) == gs[i].name;
      FilterHas(list, gs[i].name, k);
    }
  }

  /** A session of the project makes its filter non-empty. */
  lemma {:induction false} FilterHas(list: seq<SessionInfo>, name: string, k: nat)
    requires k < |list| && ProjectGroupName(list[k].cwd) == name
    ensures Filter(list, name) != []
    decreases |list|
  {
    if k < |list| - 1 {
      assert list[..|list| - 1][k] == list[k];
      FilterHas(list[..|list| - 1], name, k);
    }
  }
}

=== FILE: chat_session.dfy ===
/** The state of one chat session (examples/chat_session/src/session.rs) and
    the per-session steps of the controller: pushing and streaming messages,
    tool-call upserts and re-measurement (examples/chat_session/src/view/events.rs
    and view/measure.rs; the older copy in examples/chat_session/src/main.rs
    does the same). Layout is the `measure` parameter; a markdown state is
    the text it holds. */
module ChatSession {
  import opened Wrappers
  import opened Text
  import opened Acp
  import opened ChatTypes
  import opened ChatUtils
  import opened MarkdownCache
  import opened Geometry

  datatype SessionState = SessionState(
    items: seq<ChatItem>,
    itemSizes: seq<Size>,
    measured: bool,
    lastWidth: Option<nat>,
    pending: seq<nat>,
    markdownStates: map<string, MarkdownState>,
    statusLine: string,
    isGenerating: bool,
    streamingRole: Option<ChatRole>,
    activeUser: Option<nat>,
    activeAssistant: Option<nat>,
    toolCallIndex: map<string, nat>,
    toolCallCache: map<string, ToolCall>)

  /** `SessionState::new`. */
  function NewSession(status: string): (s: SessionState)
    ensures s.items == [] && s.itemSizes == [] && s.pending == [] && s.markdownStates == map[]
    ensures !s.measured && s.lastWidth.None? && !s.isGenerating && s.statusLine == status
    ensures s.streamingRole.None? && s.activeUser.None? && s.activeAssistant.None?
    ensures s.toolCallIndex == map[] && s.toolCallCache == map[]
    ensures Wf(s)
  {
    SessionState([], [], false, None, [], map[], status, false, None, None, None, map[], map[])
  }

  /** `clear_stream_state`: forgets the streaming role, both active
      messages and the tool calls of the active turn. */
  function ClearStreamState(s: SessionState): (r: SessionState)
    ensures r.streamingRole.None? && r.activeUser.None? && r.activeAssistant.None?
    ensures r.toolCallIndex == map[] && r.toolCallCache == map[]
    ensures r.items == s.items && r.itemSizes == s.itemSizes && r.pending == s.pending
    ensures r.statusLine == s.statusLine && r.isGenerating == s.isGenerating
    ensures r.measured == s.measured && r.lastWidth == s.lastWidth && r.markdownStates == s.markdownStates
  {
    s.(streamingRole := None, activeUser := None, activeAssistant := None,
       toolCallIndex := map[], toolCallCache := map[])
  }

  lemma ClearStreamStateIdempotent(s: SessionState)
    ensures ClearStreamState(ClearStreamState(s)) == ClearStreamState(s)
    ensures Wf(s) ==> Wf(ClearStreamState(s))
  {
  }

  // ---------------------------------------------------------------------------
  // The invariant the controller keeps
  // ---------------------------------------------------------------------------

  predicate NoDup(xs: seq<nat>) {
    forall j, k :: 0 <= j < k < |xs| ==> xs[j] != xs[k]
  }

  /** One size per item. */
  predicate SizesMatch(s: SessionState) {
    |s.itemSizes| == |s.items|
  }

  /** A message's id is its position in the list. */
  predicate IdsArePositions(s: SessionState) {
    forall i :: 0 <= i < |s.items| ==> s.items[i].message.id == i
  }

  /** The active messages exist and have the role they are active for. */
  predicate ActiveInRange(s: SessionState) {
    && (s.activeUser.Some? ==> s.activeUser.value < |s.items| && s.items[s.activeUser.value].message.role == User)
    && (s.activeAssistant.Some? ==> s.activeAssistant.value < |s.items| && s.items[s.activeAssistant.value].message.role == Assistant)
  }

  /** Pending re-measurements name existing items, each at most once. */
  predicate PendingOk(s: SessionState) {
    (forall k :: 0 <= k < |s.pending| ==> s.pending[k] < |s.items|) && NoDup(s.pending)
  }

  /** The tool calls shown in the active assistant message and the index
      from tool-call id to position agree both ways, so each id is shown once. */
  predicate ToolIndexOk(s: SessionState) {
    match s.activeAssistant
    case None => s.toolCallIndex == map[]
    case Some(a) =>
      a < |s.items| &&
      var calls := s.items[a].message.toolCalls;
      && (forall id :: id in s.toolCallIndex ==> s.toolCallIndex[id] < |calls| && calls[s.toolCallIndex[id]].id == id)
      && (forall k :: 0 <= k < |calls| ==> calls[k].id in s.toolCallIndex && s.toolCallIndex[calls[k].id] == k)
  }

  /** Each assistant message has a markdown state, keyed by its position,
      holding its content. */
  predicate MarkdownMirrors(s: SessionState) {
    forall i :: 0 <= i < |s.items| && s.items[i].message.role == Assistant ==>
      NatToString(i) in s.markdownStates && s.markdownStates[NatToString(i)].text == s.items[i].message.content
  }

  predicate Wf(s: SessionState) {
    SizesMatch(s) && IdsArePositions(s) && ActiveInRange(s) && PendingOk(s) && ToolIndexOk(s) && MarkdownMirrors(s)
  }

  // ---------------------------------------------------------------------------
  // Messages
  // ---------------------------------------------------------------------------

  /** `build_message`: the user is "You" without a badge; the assistant is
      "codex" with the badge "ACP". */
  function BuildMessage(id: nat, role: ChatRole, content: string): (m: ChatMessage)
    ensures m.id == id && m.role == role && m.content == content
    ensures m.author == (if role == User then "You" else "codex")
    ensures m.badge == (if role == User then None else Some("ACP"))
    ensures m.thinking.None? && m.toolCalls == [] && m.attachments == []
  {
    ChatMessage(id, role, if role == User then "You" else "codex", if role == User then None else Some("ACP"),
                content, None, [], [])
  }

  /** Adds `ix` to the pending re-measurements unless it is there already. */
  function AddPending(pending: seq<nat>, ix: nat): (r: seq<nat>)
    ensures ix in r && forall x :: x in r <==> x in pending || x == ix
    ensures NoDup(pending) ==> NoDup(r)
    ensures |pending| <= |r| && r[..|pending|] == pending
  {
    if ix in pending then pending else pending + [ix]
  }

  datatype Pushed = Pushed(state: SessionState, index: nat)

  /** `push_message`: appends the item and its estimated size, marks the
      list unmeasured, gives an assistant message a markdown state, and
      returns the new item's index. */
  function PushMessage(s: SessionState, m: ChatMessage): (p: Pushed)
    ensures p.index == |s.items|
    ensures p.state.items == s.items + [Message(m)]
    ensures p.state.itemSizes == s.itemSizes + [Size(0, EstimatedHeight(Message(m)))]
    ensures !p.state.measured
    ensures m.role == Assistant ==> p.state.markdownStates == s.markdownStates[NatToString(p.index) := NewState(m.content)]
    ensures m.role == User ==> p.state.markdownStates == s.markdownStates
    ensures p.state.pending == s.pending && p.state.activeUser == s.activeUser && p.state.activeAssistant == s.activeAssistant
    ensures p.state.toolCallIndex == s.toolCallIndex && p.state.streamingRole == s.streamingRole
  {
    var index := |s.items|;
    var md := if m.role == Assistant then s.markdownStates[NatToString(index) := NewState(m.content)] else s.markdownStates;
    Pushed(s.(items := s.items + [Message(m)], itemSizes := s.itemSizes + [Size(0, EstimatedHeight(Message(m)))],
              measured := false, markdownStates := md), index)
  }

  /** `append_to_message`: the text is appended to the message at `index`
      and, for an assistant message, to its markdown state; the item is
      queued for re-measurement. Indexing requires `index` to exist. */
  function AppendToMessage(s: SessionState, index: nat, text: string): (r: SessionState)
    requires index < |s.items|
    ensures |r.items| == |s.items| && r.items[index].message.content == s.items[index].message.content + text
    ensures forall i :: 0 <= i < |s.items| && i != index ==> r.items[i] == s.items[i]
    ensures r.items[index] == Message(s.items[index].message.(content := r.items[index].message.content))
    ensures index in r.pending
  {
    var m := s.items[index].message;
    var key := NatToString(index);
    var md := if m.role == Assistant && key in s.markdownStates
      then s.markdownStates[key := PushStr(s.markdownStates[key], text)] else s.markdownStates;
    s.(items := s.items[index := Message(m.(content := m.content + text))], markdownStates := md,
       pending := AddPending(s.pending, index))
  }

  /** `create_new_streaming_message`: pushes an empty message for `role` and
      makes it the active one for that role; a new assistant message starts
      with no tool calls. */
  function CreateStreamingMessage(s: SessionState, role: ChatRole): (p: Pushed)
    ensures p.index == |s.items| && |p.state.items| == |s.items| + 1
    ensures p.state.items[p.index].message == BuildMessage(|s.items|, role, "")
    ensures p.state.streamingRole == Some(role)
    ensures role == User ==> p.state.activeUser == Some(p.index) && p.state.activeAssistant == s.activeAssistant
    ensures role == User ==> p.state.toolCallIndex == s.toolCallIndex
    ensures role == Assistant ==> p.state.activeAssistant == Some(p.index) && p.state.activeUser == s.activeUser
    ensures role == Assistant ==> p.state.toolCallIndex == map[] && p.state.toolCallCache == map[]
  {
    var pushed := PushMessage(s, BuildMessage(|s.items|, role, ""));
    var t := pushed.state.(streamingRole := Some(role));
    var t := if role == User then t.(activeUser := Some(pushed.index))
      else t.(activeAssistant := Some(pushed.index), toolCallIndex := map[], toolCallCache := map[]);
    Pushed(t, pushed.index)
  }

  /** The message a chunk for `role` goes to: the role's active message
      while that role is streaming, otherwise none yet. */
  function ChunkTarget(s: SessionState, role: ChatRole): Option<nat> {
    var target := if role == User then s.activeUser else s.activeAssistant;
    if s.streamingRole == Some(role) && target.Some? then target else None
  }

  /** `append_message_chunk`: while `role` is streaming with an active
      message, the chunk extends it; otherwise a new message for `role` is
      created at the end and receives the chunk. */
  function AppendMessageChunk(s: SessionState, role: ChatRole, text: string): (r: SessionState)
    requires ActiveInRange(s)
    ensures ChunkTarget(s, role).Some? ==>
      && |r.items| == |s.items|
      && r.items[ChunkTarget(s, role).value].message.content == s.items[ChunkTarget(s, role).value].message.content + text
    ensures ChunkTarget(s, role).None? ==>
      && |r.items| == |s.items| + 1
      && r.items[|s.items|].message == BuildMessage(|s.items|, role, text)
      && r.streamingRole == Some(role)
  {
    match ChunkTarget(s, role)
    case Some(idx) => AppendToMessage(s, idx, text)
    case None =>
      var created := CreateStreamingMessage(s, role);
      AppendToMessage(created.state, created.index, text)
  }

  /** `ensure_assistant_message`: the active assistant message, or a new
      empty one made active (with the tool calls of the turn forgotten). */
  function EnsureAssistant(s: SessionState): (p: Pushed)
    ensures s.activeAssistant.Some? ==> p == Pushed(s, s.activeAssistant.value)
    ensures s.activeAssistant.None? ==>
      && p.index == |s.items| && p.state.items == s.items + [Message(BuildMessage(|s.items|, Assistant, ""))]
      && p.state.streamingRole == Some(Assistant) && p.state.toolCallIndex == map[] && p.state.toolCallCache == map[]
    ensures p.state.activeAssistant == Some(p.index)
  {
    if s.activeAssistant.Some? then Pushed(s, s.activeAssistant.value)
    else
      var pushed := PushMessage(s, BuildMessage(|s.items|, Assistant, ""));
      Pushed(pushed.state.(activeAssistant := Some(pushed.index), streamingRole := Some(Assistant),
                           toolCallIndex := map[], toolCallCache := map[]), pushed.index)
  }

  /** `append_thought_chunk`: the text extends the thinking of the assistant
      message. */
  function AppendThoughtChunk(s: SessionState, text: string): (r: SessionState)
    requires ActiveInRange(s)
    ensures var ix := EnsureAssistant(s).index;
      && ix < |r.items| && r.items[ix].message.thinking == Some(EnsureAssistant(s).state.items[ix].message.thinking.UnwrapOr("") + text)
      && ix in r.pending
  {
    var p := EnsureAssistant(s);
    var t := p.state;
    var m := t.items[p.index].message;
    t.(items := t.items[p.index := Message(m.(thinking := Some(m.thinking.UnwrapOr("") + text)))],
       pending := AddPending(t.pending, p.index))
  }

  /** What showing the call `ui` under `id` in the message `p` picked does:
      a call whose id is indexed is replaced at its position (an index past
      the end changes nothing), a new id is appended and indexed at its
      position, the item is queued for re-measurement, and every other item
      and the rest of the message are kept. */
  predicate ShowsCall(p: Pushed, r: SessionState, id: string, ui: ChatToolCall) {
    && p.index < |p.state.items| && |r.items| == |p.state.items|
    && var before := p.state.items[p.index].message.toolCalls;
    && var idx := p.state.toolCallIndex;
    && (forall i :: 0 <= i < |r.items| && i != p.index ==> r.items[i] == p.state.items[i])
    && r.items[p.index] == Message(p.state.items[p.index].message.(toolCalls := r.items[p.index].message.toolCalls))
    && (id in idx && idx[id] < |before| ==> r.items[p.index].message.toolCalls == before[idx[id] := ui])
    && (id in idx && idx[id] >= |before| ==> r.items[p.index].message.toolCalls == before)
    && (id in idx ==> r.toolCallIndex == idx)
    && (id !in idx ==> r.items[p.index].message.toolCalls == before + [ui] && r.toolCallIndex == idx[id := |before|])
    && r.pending == AddPending(p.state.pending, p.index)
    && r.activeAssistant == Some(p.index)
  }

  /** `update_tool_call_ui`: in the assistant message, a tool call whose id
      is indexed is replaced in place; a new id is appended and indexed at
      its position. */
  function UpdateToolCallUi(s: SessionState, id: string, tc: ToolCall, format: Json -> string): (r: SessionState)
    requires ActiveInRange(s)
    ensures ShowsCall(EnsureAssistant(s), r, id, MapToolCall(id, tc, format))
    ensures r == EnsureAssistant(s).state.(items := r.items, toolCallIndex := r.toolCallIndex, pending := r.pending)
  {
    var p := EnsureAssistant(s);
    var t := p.state;
    var m := t.items[p.index].message;
    var ui := MapToolCall(id, tc, format);
    var t := if id in t.toolCallIndex then
        (if t.toolCallIndex[id] < |m.toolCalls|
         then t.(items := t.items[p.index := Message(m.(toolCalls := m.toolCalls[t.toolCallIndex[id] := ui]))])
         else t)
      else t.(items := t.items[p.index := Message(m.(toolCalls := m.toolCalls + [ui]))],
              toolCallIndex := t.toolCallIndex[id := |m.toolCalls|]);
    t.(pending := AddPending(t.pending, p.index))
  }

  /** `upsert_tool_call`: caches the call under its id, then shows it. When
      no assistant message is active, making one clears the cache again, so
      the call is shown but not cached. */
  function UpsertToolCall(s: SessionState, tc: ToolCall, format: Json -> string): (r: SessionState)
    requires ActiveInRange(s)
    ensures ShowsCall(EnsureAssistant(s), r, tc.id, MapToolCall(tc.id, tc, format))
    ensures r.toolCallCache == if s.activeAssistant.Some? then s.toolCallCache[tc.id := tc] else map[]
  {
    var c := s.toolCallCache[tc.id := tc];
    var r := UpdateToolCallUi(s.(toolCallCache := c), tc.id, tc, format);
    CachedBeforeShowing(s, c, r, tc.id, MapToolCall(tc.id, tc, format));
    r
  }

  /** `apply_tool_call_update`: the cached call (if any) merged with the
      update replaces the cache entry and is shown. Merging and building a
      call from a bare update belong to the protocol crate: `merge`. */
  function ApplyToolCallUpdate(s: SessionState, u: ToolCallUpdate,
                               merge: (Option<ToolCall>, ToolCallUpdate) -> ToolCall,
                               format: Json -> string): (r: SessionState)
    requires ActiveInRange(s)
    ensures var prev := if u.id in s.toolCallCache then Some(s.toolCallCache[u.id]) else None;
      && ShowsCall(EnsureAssistant(s), r, u.id, MapToolCall(u.id, merge(prev, u), format))
      && r.toolCallCache == if s.activeAssistant.Some? then s.toolCallCache[u.id := merge(prev, u)] else map[]
  {
    var prev := if u.id in s.toolCallCache then Some(s.toolCallCache[u.id]) else None;
    var updated := merge(prev, u);
    var c := s.toolCallCache[u.id := updated];
    var r := UpdateToolCallUi(s.(toolCallCache := c), u.id, updated, format);
    CachedBeforeShowing(s, c, r, u.id, MapToolCall(u.id, updated, format));
    r
  }

  /** Caching before showing changes nothing but the cache: the message
      picked and what is shown in it are those for `s`, and the cache
      survives unless a new assistant message clears it. */
  lemma CachedBeforeShowing(s: SessionState, c: map<string, ToolCall>, r: SessionState, id: string, ui: ChatToolCall)
    requires ActiveInRange(s)
    requires ShowsCall(EnsureAssistant(s.(toolCallCache := c)), r, id, ui)
    requires r == EnsureAssistant(s.(toolCallCache := c)).state.(items := r.items, toolCallIndex := r.toolCallIndex, pending := r.pending)
    ensures ShowsCall(EnsureAssistant(s), r, id, ui)
    ensures r.toolCallCache == if s.activeAssistant.Some? then c else map[]
  {
    var p, q := EnsureAssistant(s.(toolCallCache := c)), EnsureAssistant(s);
    assert p.index == q.index && p.state.items == q.state.items && p.state.toolCallIndex == q.state.toolCallIndex;
    assert p.state.pending == q.state.pending;
  }

  // ---------------------------------------------------------------------------
  // Every step keeps the invariant
  // ---------------------------------------------------------------------------

  /** Keys of distinct positions are distinct. */
  lemma KeysDiffer(i: nat, j: nat)
    requires i != j
    ensures NatToString(i) != NatToString(j)
  {
    NatToStringInjective(i, j);
  }

  lemma PushKeepsWf(s: SessionState, m: ChatMessage)
    requires Wf(s) && m.id == |s.items|
    ensures Wf(PushMessage(s, m).state)
  {
    var r := PushMessage(s, m).state;
    var n := |s.items|;
    forall i | 0 <= i < |r.items| && r.items[i].message.role == Assistant
      ensures NatToString(i) in r.markdownStates && r.markdownStates[NatToString(i)].text == r.items[i].message.content
    {
      if i < n && m.role == Assistant {
        KeysDiffer(i, n);
      }
    }
  }

  lemma AppendToMessageKeepsWf(s: SessionState, index: nat, text: string)
    requires Wf(s) && index < |s.items|
    ensures Wf(AppendToMessage(s, index, text))
  {
    var r := AppendToMessage(s, index, text);
    forall i | 0 <= i < |r.items| && r.items[i].message.role == Assistant
      ensures NatToString(i) in r.markdownStates && r.markdownStates[NatToString(i)].text == r.items[i].message.content
    {
      if i != index {
        KeysDiffer(i, index);
      }
    }
    assert ToolIndexOk(r) by {
      if s.activeAssistant.Some? {
        assert r.items[s.activeAssistant.value].message.toolCalls == s.items[s.activeAssistant.value].message.toolCalls;
      }
    }
  }

  lemma CreateStreamingKeepsWf(s: SessionState, role: ChatRole)
    requires Wf(s)
    ensures Wf(CreateStreamingMessage(s, role).state)
  {
    PushKeepsWf(s, BuildMessage(|s.items|, role, ""));
  }

  lemma AppendMessageChunkKeepsWf(s: SessionState, role: ChatRole, text: string)
    requires Wf(s)
    ensures Wf(AppendMessageChunk(s, role, text))
  {
    match ChunkTarget(s, role)
    case Some(idx) => AppendToMessageKeepsWf(s, idx, text);
    case None =>
      var created := CreateStreamingMessage(s, role);
      CreateStreamingKeepsWf(s, role);
      AppendToMessageKeepsWf(created.state, created.index, text);
  }

  lemma EnsureAssistantKeepsWf(s: SessionState)
    requires Wf(s)
    ensures Wf(EnsureAssistant(s).state)
    ensures EnsureAssistant(s).index < |EnsureAssistant(s).state.items|
  {
    if s.activeAssistant.None? {
      PushKeepsWf(s, BuildMessage(|s.items|, Assistant, ""));
    }
  }

  lemma AppendThoughtChunkKeepsWf(s: SessionState, text: string)
    requires Wf(s)
    ensures Wf(AppendThoughtChunk(s, text))
  {
    EnsureAssistantKeepsWf(s);
    var p := EnsureAssistant(s);
    var m := p.state.items[p.index].message;
    ReplaceMessageKeepsWf(p.state, p.index, m.(thinking := Some(m.thinking.UnwrapOr("") + text)), p.state.toolCallIndex);
  }

  /** Replacing one message by one with the same id, role and content, and
      queueing it, keeps the invariant when the tool-call index still fits. */
  lemma ReplaceMessageKeepsWf(t: SessionState, ix: nat, m: ChatMessage, index: map<string, nat>)
    requires Wf(t) && ix < |t.items|
    requires m.id == t.items[ix].message.id && m.role == t.items[ix].message.role
    requires m.content == t.items[ix].message.content
    requires ToolIndexOk(t.(items := t.items[ix := Message(m)], toolCallIndex := index))
    ensures Wf(t.(items := t.items[ix := Message(m)], toolCallIndex := index, pending := AddPending(t.pending, ix)))
  {
  }

  lemma UpdateToolCallUiKeepsWf(s: SessionState, id: string, tc: ToolCall, format: Json -> string)
    requires Wf(s)
    ensures Wf(UpdateToolCallUi(s, id, tc, format))
  {
    EnsureAssistantKeepsWf(s);
    var p := EnsureAssistant(s);
    var t := p.state;
    var a := p.index;
    var m := t.items[a].message;
    var ui := MapToolCall(id, tc, format);
    if id in t.toolCallIndex {
      var calls := if t.toolCallIndex[id] < |m.toolCalls| then m.toolCalls[t.toolCallIndex[id] := ui] else m.toolCalls;
      ToolIndexAfterUpdate(t, a, id, ui, t.(items := t.items[a := Message(m.(toolCalls := calls))]));
      ReplaceMessageKeepsWf(t, a, m.(toolCalls := calls), t.toolCallIndex);
    } else {
      var calls := m.toolCalls + [ui];
      var index := t.toolCallIndex[id := |m.toolCalls|];
      ToolIndexAfterUpdate(t, a, id, ui, t.(items := t.items[a := Message(m.(toolCalls := calls))], toolCallIndex := index));
      ReplaceMessageKeepsWf(t, a, m.(toolCalls := calls), index);
    }
  }

  /** The index stays exact when a call is replaced at its indexed position
      or appended under a new id. */
  lemma ToolIndexAfterUpdate(t: SessionState, a: nat, id: string, ui: ChatToolCall, r: SessionState)
    requires Wf(t) && t.activeAssistant == Some(a) && a < |t.items| && ui.id == id
    requires r.activeAssistant == Some(a) && |r.items| == |t.items|
    requires var calls := t.items[a].message.toolCalls;
      if id in t.toolCallIndex then
        r.toolCallIndex == t.toolCallIndex &&
        r.items[a].message.toolCalls == (if t.toolCallIndex[id] < |calls| then calls[t.toolCallIndex[id] := ui] else calls)
      else
        r.toolCallIndex == t.toolCallIndex[id := |calls|] && r.items[a].message.toolCalls == calls + [ui]
    ensures ToolIndexOk(r)
  {
  }

  lemma UpsertToolCallKeepsWf(s: SessionState, tc: ToolCall, format: Json -> string)
    requires Wf(s)
    ensures Wf(UpsertToolCall(s, tc, format))
  {
    UpdateToolCallUiKeepsWf(s.(toolCallCache := s.toolCallCache[tc.id := tc]), tc.id, tc, format);
  }

  lemma ApplyToolCallUpdateKeepsWf(s: SessionState, u: ToolCallUpdate,
                                   merge: (Option<ToolCall>, ToolCallUpdate) -> ToolCall, format: Json -> string)
    requires Wf(s)
    ensures Wf(ApplyToolCallUpdate(s, u, merge, format))
  {
    var prev := if u.id in s.toolCallCache then Some(s.toolCallCache[u.id]) else None;
    var updated := merge(prev, u);
    UpdateToolCallUiKeepsWf(s.(toolCallCache := s.toolCallCache[u.id := updated]), u.id, updated, format);
  }

  /** After a call is shown in a well-formed session, the index points at
      it and no other call of the message carries its id. */
  lemma ShownCallIsIndexed(p: Pushed, r: SessionState, id: string, ui: ChatToolCall)
    requires Wf(p.state) && p.state.activeAssistant == Some(p.index)
    requires ShowsCall(p, r, id, ui) && ui.id == id && ToolIndexOk(r)
    ensures var calls := r.items[p.index].message.toolCalls;
      && id in r.toolCallIndex && r.toolCallIndex[id] < |calls| && calls[r.toolCallIndex[id]] == ui
      && forall k :: 0 <= k < |calls| && calls[k].id == id ==> k == r.toolCallIndex[id]
  {
    var before := p.state.items[p.index].message.toolCalls;
    if id in p.state.toolCallIndex {
      assert p.state.toolCallIndex[id] < |before|;
    } else {
      assert r.items[p.index].message.toolCalls[|before|] == ui;
    }
  }

  /** A started tool call is shown exactly once, where the index says. */
  lemma UpsertShowsCallOnce(s: SessionState, tc: ToolCall, format: Json -> string)
    requires Wf(s)
    ensures var r := UpsertToolCall(s, tc, format);
      var calls := r.items[EnsureAssistant(s).index].message.toolCalls;
      && tc.id in r.toolCallIndex && r.toolCallIndex[tc.id] < |calls|
      && calls[r.toolCallIndex[tc.id]] == MapToolCall(tc.id, tc, format)
      && forall k :: 0 <= k < |calls| && calls[k].id == tc.id ==> k == r.toolCallIndex[tc.id]
  {
    EnsureAssistantKeepsWf(s);
    UpsertToolCallKeepsWf(s, tc, format);
    ShownCallIsIndexed(EnsureAssistant(s), UpsertToolCall(s, tc, format), tc.id, MapToolCall(tc.id, tc, format));
  }

  /** An updated tool call is shown exactly once, merged with what was
      cached for it, where the index says. */
  lemma ApplyUpdateShowsMergedOnce(s: SessionState, u: ToolCallUpdate,
                                   merge: (Option<ToolCall>, ToolCallUpdate) -> ToolCall, format: Json -> string)
    requires Wf(s)
    ensures var prev := if u.id in s.toolCallCache then Some(s.toolCallCache[u.id]) else None;
      var r := ApplyToolCallUpdate(s, u, merge, format);
      var calls := r.items[EnsureAssistant(s).index].message.toolCalls;
      && u.id in r.toolCallIndex && r.toolCallIndex[u.id] < |calls|
      && calls[r.toolCallIndex[u.id]] == MapToolCall(u.id, merge(prev, u), format)
      && forall k :: 0 <= k < |calls| && calls[k].id == u.id ==> k == r.toolCallIndex[u.id]
  {
    var prev := if u.id in s.toolCallCache then Some(s.toolCallCache[u.id]) else None;
    EnsureAssistantKeepsWf(s);
    ApplyToolCallUpdateKeepsWf(s, u, merge, format);
    ShownCallIsIndexed(EnsureAssistant(s), ApplyToolCallUpdate(s, u, merge, format), u.id, MapToolCall(u.id, merge(prev, u), format));
  }

  // ---------------------------------------------------------------------------
  // Measurement (view/measure.rs and the render step)
  // ---------------------------------------------------------------------------

  /** The markdown state of item `ix`, looked up by its position. */
  function MarkdownOf(s: SessionState, ix: nat): Option<MarkdownState> {
    if NatToString(ix) in s.markdownStates then Some(s.markdownStates[NatToString(ix)]) else None
  }

  /** `measure_all_items`: one laid-out size per item, at `width`. */
  function MeasureAll(s: SessionState, width: nat, measure: (ChatItem, Option<MarkdownState>, nat) -> Size): (r: SessionState)
    ensures |r.itemSizes| == |s.items| && r.measured && r.lastWidth == Some(width)
    ensures forall i :: 0 <= i < |s.items| ==> r.itemSizes[i] == measure(s.items[i], MarkdownOf(s, i), width)
    ensures r == s.(itemSizes := r.itemSizes, measured := true, lastWidth := Some(width))
  {
    s.(itemSizes := seq(|s.items|, i requires 0 <= i < |s.items| => measure(s.items[i], MarkdownOf(s, i), width)),
       measured := true, lastWidth := Some(width))
  }

  /** `remeasure_item`: replaces the size of item `ix` only. Indexing needs
      `ix` to name an item and a size. */
  function RemeasureItem(s: SessionState, ix: nat, width: nat, measure: (ChatItem, Option<MarkdownState>, nat) -> Size): (r: SessionState)
    requires ix < |s.items| && ix < |s.itemSizes|
    ensures |r.itemSizes| == |s.itemSizes| && r.itemSizes[ix] == measure(s.items[ix], MarkdownOf(s, ix), width)
    ensures forall j :: 0 <= j < |s.itemSizes| && j != ix ==> r.itemSizes[j] == s.itemSizes[j]
    ensures r == s.(itemSizes := r.itemSizes)
  {
    s.(itemSizes := s.itemSizes[ix := measure(s.items[ix], MarkdownOf(s, ix), width)])
  }

  /** The drain loop: re-measures each index in turn. */
  function RemeasureEach(s: SessionState, indices: seq<nat>, width: nat,
                         measure: (ChatItem, Option<MarkdownState>, nat) -> Size): (r: SessionState)
    requires SizesMatch(s) && forall k :: 0 <= k < |indices| ==> indices[k] < |s.items|
    ensures |r.itemSizes| == |s.itemSizes| && r == s.(itemSizes := r.itemSizes)
    ensures forall j :: 0 <= j < |s.itemSizes| ==>
      r.itemSizes[j] == if j in indices then measure(s.items[j], MarkdownOf(s, j), width) else s.itemSizes[j]
    decreases |indices|
  {
    if indices == [] then s
    else RemeasureEach(RemeasureItem(s, indices[0], width, measure), indices[1..], width, measure)
  }

  /** The per-session half of the render step: measure everything when the
      list is unmeasured or the width changed, then drain the pending
      indices and re-measure each at the last width (which by then is
      `width`). */
  function RenderSession(s: SessionState, width: nat, measure: (ChatItem, Option<MarkdownState>, nat) -> Size): (r: SessionState)
    requires PendingOk(s) && (s.measured && s.lastWidth == Some(width) ==> SizesMatch(s))
    ensures r == s.(itemSizes := r.itemSizes, measured := true, lastWidth := Some(width), pending := [])
    ensures SizesMatch(r)
  {
    var t := if !s.measured || s.lastWidth != Some(width) then MeasureAll(s, width, measure) else s;
    var indices := t.pending;
    var t := t.(pending := []);
    if indices == [] then t else RemeasureEach(t, indices, width, measure)
  }

  /** After rendering, every item that was pending, and every item when the
      list was unmeasured or the width changed, has its freshly measured
      size; every other size is left alone. */
  lemma RenderSessionMeasures(s: SessionState, width: nat, measure: (ChatItem, Option<MarkdownState>, nat) -> Size)
    requires PendingOk(s) && (s.measured && s.lastWidth == Some(width) ==> SizesMatch(s))
    ensures var r := RenderSession(s, width, measure);
      forall i :: 0 <= i < |s.items| && (i in s.pending || !s.measured || s.lastWidth != Some(width)) ==>
        r.itemSizes[i] == measure(s.items[i], MarkdownOf(s, i), width)
    ensures var r := RenderSession(s, width, measure);
      s.measured && s.lastWidth == Some(width) ==>
        forall i :: 0 <= i < |s.items| && i !in s.pending ==> r.itemSizes[i] == s.itemSizes[i]
  {
    var t := if !s.measured || s.lastWidth != Some(width) then MeasureAll(s, width, measure) else s;
    assert t.items == s.items && t.markdownStates == s.markdownStates && t.pending == s.pending;
    assert forall i :: 0 <= i < |s.items| ==> MarkdownOf(t, i) == MarkdownOf(s, i);
  }

  /** Rendering keeps the invariant. */
  lemma RenderSessionKeepsWf(s: SessionState, width: nat, measure: (ChatItem, Option<MarkdownState>, nat) -> Size)
    requires Wf(s)
    ensures Wf(RenderSession(s, width, measure))
  {
  }
}

=== FILE: chat_types.dfy ===
/** Chat datatypes (examples/chat_session/src/types.rs) and the height
    estimate the virtual list starts from. Heights are whole pixels. */
module ChatTypes {
  import opened Wrappers
  import opened Text

  datatype ChatRole = User | Assistant

  datatype ToolStatus = Running | Success | Failed

  datatype ChatToolCall = ChatToolCall(id: string, name: string, status: ToolStatus, duration: string, args: string, output: string)

  datatype FileAttachment = FileAttachment(name: string, size: string, kind: string)

  datatype ChatMessage = ChatMessage(
    id: nat,
    role: ChatRole,
    author: string,
    badge: Option<string>,
    content: string,
    thinking: Option<string>,
    toolCalls: seq<ChatToolCall>,
    attachments: seq<FileAttachment>)

  /** The single kind of list item: every item is a message. */
  datatype ChatItem = Message(message: ChatMessage)

  /** Height of one text line, of one tool-call line and of the thinking
      line, and the extra height of an attachment row. */
  const LineHeight: nat := 20
  const ToolLineHeight: nat := 28
  const AttachmentsHeight: nat := 70
  const BaseHeight: nat := 60

  /** `ChatItem::estimated_height`: a base of 60, 20 per content line (at
      least one), 70 for attachments, 28 per tool call and 28 for thinking. */
  function EstimatedHeight(item: ChatItem): (h: nat)
    ensures h >= BaseHeight + LineHeight
    ensures h >= BaseHeight + LineHeight * |Lines(item.message.content)|
    ensures h >= BaseHeight + LineHeight + ToolLineHeight * |item.message.toolCalls|
  {
    var m := item.message;
    var lineCount := if |Lines(m.content)| > 1 then |Lines(m.content)| else 1;
    var h := BaseHeight + LineHeight * lineCount;
    var h := if m.attachments != [] then h + AttachmentsHeight else h;
    var h := if m.toolCalls != [] then h + ToolLineHeight * |m.toolCalls| else h;
    if m.thinking.Some? then h + ToolLineHeight else h
  }

  /** What each part of a message adds to its estimate: 80 for a message
      with nothing in it, 20 for each content line after the first, 70 for
      the first attachment and nothing for further ones, 28 for each tool
      call and 28 for the thinking line. */
  lemma EstimateParts(m: ChatMessage, tc: ChatToolCall, f: FileAttachment, t: string)
    ensures EstimatedHeight(Message(m.(content := "", toolCalls := [], attachments := [], thinking := None))) == 80
    ensures EstimatedHeight(Message(m)) ==
      EstimatedHeight(Message(m.(content := ""))) + LineHeight * (if |Lines(m.content)| > 1 then |Lines(m.content)| - 1 else 0)
    ensures m.attachments == [] ==>
      EstimatedHeight(Message(m.(attachments := [f]))) == EstimatedHeight(Message(m)) + AttachmentsHeight
    ensures m.attachments != [] ==>
      EstimatedHeight(Message(m.(attachments := m.attachments + [f]))) == EstimatedHeight(Message(m))
    ensures EstimatedHeight(Message(m.(toolCalls := m.toolCalls + [tc]))) == EstimatedHeight(Message(m)) + ToolLineHeight
    ensures m.thinking.None? ==> EstimatedHeight(Message(m.(thinking := Some(t)))) == EstimatedHeight(Message(m)) + ToolLineHeight
  {
  }

  /** Appending text never lowers the line count of a text. */
  lemma LinesGrow(a: string, b: string)
    ensures |Lines(a + b)| >= |Lines(a)|
  {
    LinesCount(a);
    LinesCount(a + b);
    CountAppend(a, b, '\n');
    if b == [] {
      assert a + b == a;
    } else if b[|b| - 1] == '\n' {
      EndingNewlineCounts(b);
    } else {
      assert (a + b)[|a + b| - 1] == b[|b| - 1];
    }
  }

  /** A text that ends with a line break holds at least one. */
  lemma EndingNewlineCounts(b: string)
    requires b != [] && b[|b| - 1] == '\n'
    ensures Count(b, '\n') >= 1
  {
    assert b == b[..|b| - 1] + ['\n'];
    CountAppend(b[..|b| - 1], ['\n'], '\n');
    assert Count(['\n'], '\n') == 1;
  }

  /** Streaming text into a message never lowers its estimate. */
  lemma EstimateGrowsWithContent(m: ChatMessage, text: string)
    ensures EstimatedHeight(Message(m.(content := m.content + text))) >= EstimatedHeight(Message(m))
  {
    LinesGrow(m.content, text);
  }
}

=== FILE: chat_ui.dfy ===
/** Session labels of the chat sidebar (examples/chat_session/src/ui/mod.rs):
    short ids, titles, subtitles and the project a working directory
    belongs to. A working directory is a Unix path held as text; its last
    component follows the rules of Rust's `Path::file_name`. */
module ChatUi {
  import opened Wrappers
  import opened Text
  import opened Acp

  /** `short_session_id`: the first 8 characters. */
  function ShortSessionId(id: string): (r: string)
    ensures |r| == if |id| < 8 then |id| else 8
    ensures StartsWith(id, r)
  {
    TakeChars(id, 8)
  }

  /** `session_title`: the title when there is one, otherwise "Session "
      and the short id. */
  function SessionTitle(info: SessionInfo): (r: string)
    ensures info.title.Some? ==> r == info.title.value
    ensures info.title.None? ==> StartsWith(r, "Session ") && r[8..] == ShortSessionId(info.sessionId)
  {
    match info.title
    case Some(t) => t
    case None => "Session " + ShortSessionId(info.sessionId)
  }

  // ---------------------------------------------------------------------------
  // Path components
  // ---------------------------------------------------------------------------

  /** A component that names something: not empty (a repeated or trailing
      separator), not "." (the current directory, which `Path::components`
      drops after the first position and `file_name` never returns). */
  predicate Named(part: string) {
    part != [] && part != "."
  }

  /** The pieces of a path between separators that name something, in order. */
  function Components(parts: seq<string>): (r: seq<string>)
    ensures |r| <= |parts|
    ensures forall i :: 0 <= i < |r| ==> Named(r[i]) && r[i] in parts
  {
    if parts == [] then []
    else if Named(parts[0]) then [parts[0]] + Components(parts[1..])
    else Components(parts[1..])
  }

  /** `Path::file_name`: the last named component, unless it is "..";
      `None` for the root, the empty path or a path of only "." pieces. */
  function FileName(path: string): (r: Option<string>)
    ensures r.Some? ==> Named(r.value) && r.value != ".." && '/' !in r.value
    ensures r.Some? ==> r.value in Split(path, '/')
    ensures r.None? <==> Components(Split(path, '/')) == [] || Components(Split(path, '/'))[|Components(Split(path, '/'))| - 1] == ".."
  {
    var comps := Components(Split(path, '/'));
    if comps == [] then None
    else if comps[|comps| - 1] == ".." then None
    else Some(comps[|comps| - 1])
  }

  /** `project_group_name`: the last component, or the whole path when it
      has none. */
  function ProjectGroupName(cwd: string): (r: string)
    ensures FileName(cwd).Some? ==> r == FileName(cwd).value && '/' !in r
    ensures FileName(cwd).None? ==> r == cwd
  {
    FileName(cwd).UnwrapOr(cwd)
  }

  /** `session_subtitle`: the project name, then " · " and the update time
      when the session has one. */
  function SessionSubtitle(info: SessionInfo): (r: string)
    ensures info.updatedAt.None? ==> r == ProjectGroupName(info.cwd)
    ensures info.updatedAt.Some? ==>
      r == ProjectGroupName(info.cwd) + " · " + info.updatedAt.value
  {
    var name := ProjectGroupName(info.cwd);
    match info.updatedAt
    case Some(u) => name + " · " + u
    case None => name
  }

  /** `format_elapsed_time`: the raw update time, or nothing. */
  function FormatElapsedTime(updatedAt: Option<string>): (r: string)
    ensures updatedAt.Some? ==> r == updatedAt.value
    ensures updatedAt.None? ==> r == []
  {
    updatedAt.UnwrapOr("")
  }

  // ---------------------------------------------------------------------------
  // Properties
  // ---------------------------------------------------------------------------

  /** One step of `Split`. */
  lemma SplitStep(s: string, c: char)
    ensures IndexOf(s, c) == |s| ==> Split(s, c) == [s]
    ensures IndexOf(s, c) < |s| ==> Split(s, c) == [s[..IndexOf(s, c)]] + Split(s[IndexOf(s, c) + 1..], c)
  {
  }

  /** The first separator of `a + [c] + b` is the first one of `a`, or the
      one added after it. */
  lemma SeparatorOfConcat(a: string, b: string, c: char)
    ensures IndexOf(a + [c] + b, c) == IndexOf(a, c)
  {
    var t := [c] + b;
    assert a + [c] + b == a + t;
    assert IndexOf(t, c) == 0 by { assert t[0] == c; }
    IndexOfPrefix(a, t, c);
  }

  /** The slices of `a + [c] + b` around position `k` of `a`. */
  lemma SlicesOfConcat(a: string, b: string, c: char, k: nat)
    requires k <= |a|
    ensures (a + [c] + b)[..k] == a[..k]
    ensures k < |a| ==> (a + [c] + b)[k + 1..] == a[k + 1..] + [c] + b
    ensures (a + [c] + b)[|a| + 1..] == b
  {
  }

  /** The first piece of `a + [c] + b` when `a` holds no separator. */
  lemma SplitConcatPlain(a: string, b: string, c: char)
    requires IndexOf(a, c) == |a|
    ensures Split(a + [c] + b, c) == [a] + Split(b, c)
  {
    SeparatorOfConcat(a, b, c);
    SplitStep(a + [c] + b, c);
    SlicesOfConcat(a, b, c, |a|);
    assert a[..|a|] == a;
  }

  /** The first piece of `a + [c] + b` when `a` holds a separator at `k`. */
  lemma SplitConcatAt(a: string, b: string, c: char, k: nat)
    requires k == IndexOf(a, c) < |a|
    ensures Split(a + [c] + b, c) == [a[..k]] + Split(a[k + 1..] + [c] + b, c)
  {
    SeparatorOfConcat(a, b, c);
    SplitStep(a + [c] + b, c);
    SlicesOfConcat(a, b, c, k);
  }

  /** Splitting at a separator splits the pieces on either side. */
  lemma {:induction false} SplitConcat(a: string, b: string, c: char)
    ensures Split(a + [c] + b, c) == Split(a, c) + Split(b, c)
    decreases |a|
  {
    var k := IndexOf(a, c);
    SplitStep(a, c);
    if k == |a| {
      SplitConcatPlain(a, b, c);
    } else {
      SplitConcatAt(a, b, c, k);
      SplitConcat(a[k + 1..], b, c);
      ConsAppend(a[..k], Split(a[k + 1..], c), Split(b, c));
    }
  }

  /** Putting a piece in front commutes with appending pieces behind. */
  lemma ConsAppend(x: string, ys: seq<string>, zs: seq<string>)
    ensures [x] + (ys + zs) == ([x] + ys) + zs
  {
  }

  /** The first separator of `a + t` is the first one of `a` when `a` has one,
      and otherwise comes after `a`. */
  lemma {:induction false} IndexOfPrefix(a: string, t: string, c: char)
    ensures IndexOf(a, c) < |a| ==> IndexOf(a + t, c) == IndexOf(a, c)
    ensures IndexOf(a, c) == |a| ==> IndexOf(a + t, c) == |a| + IndexOf(t, c)
    decreases |a|
  {
    if a != [] {
      assert (a + t)[1..] == a[1..] + t;
      IndexOfPrefix(a[1..], t, c);
    } else {
      assert a + t == t;
    }
  }

  /** The named pieces of two runs of pieces are those of each, in order. */
  lemma {:induction false} ComponentsAppend(x: seq<string>, y: seq<string>)
    ensures Components(x + y) == Components(x) + Components(y)
    decreases |x|
  {
    if x != [] {
      assert (x + y)[1..] == x[1..] + y;
      ComponentsAppend(x[1..], y);
    } else {
      assert x + y == y;
    }
  }

  /** A path ending in a named component that is not ".." has that
      component as its file name, whatever the directory in front. */
  lemma FileNameOfJoin(dir: string, name: string)
    requires Named(name) && name != ".." && '/' !in name
    ensures FileName(dir + "/" + name) == Some(name)
    ensures ProjectGroupName(dir + "/" + name) == name
  {
    SplitConcat(dir, name, '/');
    assert IndexOf(name, '/') == |name|;
    assert Split(name, '/') == [name];
    var pa := Split(dir, '/');
    var parts := pa[..|pa| - 1] + [pa[|pa| - 1]] + [name];
    assert Split(dir + "/" + name, '/') == parts;
    ComponentsAppend(pa[..|pa| - 1] + [pa[|pa| - 1]], [name]);
    assert Components([name]) == [name];
  }

  /** The root and the empty path have no file name: their project name is
      the path itself. */
  lemma GroupNameOfRoot()
    ensures ProjectGroupName("/") == "/"
    ensures ProjectGroupName("") == ""
  {
    assert Split("/", '/') == ["", ""] by {
      assert IndexOf("/", '/') == 0;
      assert "/"[1..] == "";
    }
    assert Split("", '/') == [""];
  }

  /** A path ending in ".." has no file name either. */
  lemma GroupNameOfParent(dir: string)
    ensures ProjectGroupName(dir + "/..") == dir + "/.."
  {
    SplitConcat(dir, "..", '/');
    assert IndexOf("..", '/') == 2;
    assert Split("..", '/') == [".."];
    var pa := Split(dir, '/');
    assert dir + "/.." == dir + ['/'] + "..";
    assert Split(dir + "/..", '/') == pa + [".."];
    ComponentsAppend(pa, [".."]);
    assert Components([".."]) == [".."];
  }

  /** A trailing separator is ignored. */
  lemma GroupNameOfTrailingSlash(dir: string, name: string)
    requires Named(name) && name != ".." && '/' !in name
    ensures ProjectGroupName(dir + "/" + name + "/") == name
  {
    SplitConcat(dir + "/" + name, "", '/');
    assert Split("", '/') == [""];
    SplitConcat(dir, name, '/');
    assert IndexOf(name, '/') == |name|;
    assert Split(name, '/') == [name];
    var pa := Split(dir, '/');
    assert Split(dir + "/" + name + "/", '/') == pa + [name] + [""] by {
      assert dir + "/" + name + "/" == (dir + "/" + name) + ['/'] + "";
    }
    ComponentsAppend(pa + [name], [""]);
    ComponentsAppend(pa, [name]);
  }
}

=== FILE: chat_utils.dfy ===
/** Conversions from protocol data to chat data
    (examples/chat_session/src/utils.rs). */
module ChatUtils {
  import opened Wrappers
  import opened Text
  import opened Acp
  import opened ChatTypes

  /** `truncate_label`: labels of at most `maxChars` characters are kept;
      longer ones keep their first `maxChars - 3` characters (none when
      `maxChars < 3`) followed by "...". */
  function TruncateLabel(name: string, maxChars: nat): (r: string)
    ensures |name| <= maxChars ==> r == name
    ensures |name| > maxChars ==>
      && |r| == (if maxChars >= 3 then maxChars else 3)
      && EndsWith(r, "...")
      && StartsWith(name, r[..|r| - 3])
  {
    if |name| <= maxChars then name
    else
      var keep := if maxChars >= 3 then maxChars - 3 else 0;
      TakeChars(name, keep) + "..."
  }

  /** With room for the ellipsis, a truncated name is short enough to be
      kept as it is by a second truncation. */
  lemma TruncateLabelIdempotent(name: string, maxChars: nat)
    requires maxChars >= 3
    ensures |TruncateLabel(name, maxChars)| <= maxChars
    ensures TruncateLabel(TruncateLabel(name, maxChars), maxChars) == TruncateLabel(name, maxChars)
  {
  }

  /** `map_tool_status`. */
  function MapToolStatus(s: ToolCallStatus): (r: ToolStatus)
    ensures r == Success <==> s == Completed
    ensures r == ToolStatus.Failed <==> s == ToolCallStatus.Failed
    ensures r == Running <==> s in {Pending, InProgress, OtherStatus}
  {
    match s
    case Pending => Running
    case InProgress => Running
    case Completed => Success
    case Failed => ToolStatus.Failed
    case OtherStatus => Running
  }

  /** `content_block_to_text`. */
  function ContentBlockToText(b: ContentBlock): (r: string)
    ensures r == [] <==>
      || (b.TextBlock? && b.text == [])
      || (b.Resource? && b.resource.TextResource? && b.resource.text == [])
      || (b.Resource? && b.resource.OtherResource?)
      || b.OtherBlock?
    ensures b.TextBlock? ==> r == b.text
    ensures b.ImageBlock? ==> r == "[image: " + b.mimeType + "]"
    ensures b.AudioBlock? ==> r == "[audio: " + b.mimeType + "]"
    ensures b.ResourceLink? ==> r == b.name + " (" + b.uri + ")"
    ensures b.Resource? && b.resource.TextResource? ==> r == b.resource.text
    ensures b.Resource? && b.resource.BlobResource? ==> r == "[resource: " + b.resource.uri + "]"
    ensures b.OtherBlock? || (b.Resource? && b.resource.OtherResource?) ==> r == ""
  {
    match b
    case TextBlock(t) => t
    case ImageBlock(mime) => "[image: " + mime + "]"
    case AudioBlock(mime) => "[audio: " + mime + "]"
    case ResourceLink(name, uri) => name + " (" + uri + ")"
    case Resource(res) =>
      (match res
       case TextResource(t) => t
       case BlobResource(uri) => "[resource: " + uri + "]"
       case OtherResource => "")
    case OtherBlock => ""
  }

  /** Reads a description of the form "[tag: value]" back into its tag and
      value, splitting at the first colon. */
  function ReadTagged(s: string): (r: Option<(string, string)>)
    ensures r.Some? ==> "[" + r.value.0 + ": " + r.value.1 + "]" == s
  {
    var k := IndexOf(s, ':');
    if |s| >= 2 && s[0] == '[' && s[|s| - 1] == ']' && 1 <= k && k + 2 <= |s| - 1 && s[k + 1] == ' ' then
      assert s == "[" + s[1..k] + ": " + s[k + 2..|s| - 1] + "]";
      Some((s[1..k], s[k + 2..|s| - 1]))
    else None
  }

  /** Reads a description of the form "name (uri)" back, splitting at the
      first opening parenthesis. */
  function ReadLinked(s: string): (r: Option<(string, string)>)
    ensures r.Some? ==> r.value.0 + " (" + r.value.1 + ")" == s
  {
    var k := IndexOf(s, '(');
    if 1 <= k && k + 2 <= |s| && s[k - 1] == ' ' && s[|s| - 1] == ')' then
      assert s == s[..k - 1] + " (" + s[k + 1..|s| - 1] + ")";
      Some((s[..k - 1], s[k + 1..|s| - 1]))
    else None
  }

  /** The descriptions of images, audio, blobs and links name what they
      describe recoverably: the media type, the URI, and (for a name
      without an opening parenthesis) the link's name and URI read back. */
  lemma DescriptionsReadBack(b: ContentBlock)
    ensures b.ImageBlock? ==> ReadTagged(ContentBlockToText(b)) == Some(("image", b.mimeType))
    ensures b.AudioBlock? ==> ReadTagged(ContentBlockToText(b)) == Some(("audio", b.mimeType))
    ensures b.Resource? && b.resource.BlobResource? ==>
      ReadTagged(ContentBlockToText(b)) == Some(("resource", b.resource.uri))
    ensures b.ResourceLink? && '(' !in b.name ==> ReadLinked(ContentBlockToText(b)) == Some((b.name, b.uri))
  {
    match b
    case ImageBlock(m) =>
      assert "[image: " + m + "]" == "[" + "image" + ": " + m + "]";
      TaggedReadBack("image", m);
    case AudioBlock(m) =>
      assert "[audio: " + m + "]" == "[" + "audio" + ": " + m + "]";
      TaggedReadBack("audio", m);
    case Resource(res) =>
      if res.BlobResource? {
        assert "[resource: " + res.uri + "]" == "[" + "resource" + ": " + res.uri + "]";
        TaggedReadBack("resource", res.uri);
      }
    case ResourceLink(name, uri) =>
      if '(' !in name {
        var s := name + " (" + uri + ")";
        assert forall i :: 0 <= i < |name + " "| ==> (name + " ")[i] != '(' by {
          forall i | 0 <= i < |name + " "| ensures (name + " ")[i] != '(' {
            if i < |name| { assert (name + " ")[i] == name[i]; }
          }
        }
        IndexOfAfter(name + " ", "(" + uri + ")", '(');
        assert name + " (" + uri + ")" == (name + " ") + ("(" + uri + ")");
        assert s[..|name|] == name && s[|name| + 2..|s| - 1] == uri;
      }
    case _ =>
  }

  /** A tag without a colon is read back from its description. */
  lemma TaggedReadBack(tag: string, value: string)
    requires |tag| > 0 && ':' !in tag
    ensures ReadTagged("[" + tag + ": " + value + "]") == Some((tag, value))
  {
    var s := "[" + tag + ": " + value + "]";
    IndexOfAfter("[" + tag, ": " + value + "]", ':');
    assert s == ("[" + tag) + (": " + value + "]");
    assert s[1..|tag| + 1] == tag && s[|tag| + 3..|s| - 1] == value;
  }

  /** The first `c` after a prefix without one. */
  lemma {:induction false} IndexOfAfter(p: string, s: string, c: char)
    requires c !in p
    ensures IndexOf(p + s, c) == |p| + IndexOf(s, c)
  {
    if p == [] {
      assert p + s == s;
    } else {
      assert (p + s)[0] == p[0] != c;
      assert (p + s)[1..] == p[1..] + s;
      IndexOfAfter(p[1..], s, c);
    }
  }

  /** The text one tool-call content item contributes. A diff reports the
      byte length of its new text. */
  function ChunkText(item: ToolCallContent): string {
    match item
    case ContentItem(c) => ContentBlockToText(c)
    case DiffItem(path, newText) => "Diff: " + path + " (" + NatToString(ByteLen(newText)) + " chars)"
    case TerminalItem(id) => "Terminal: " + id
    case OtherContent => ""
  }

  /** A kept chunk as it ends up in the output: on a line of its own. */
  function Block(chunk: string): (r: string)
    ensures chunk == [] ==> r == []
    ensures chunk != [] ==> StartsWith(r, chunk) && r[|r| - 1] == '\n' && |r| <= |chunk| + 1
  {
    if chunk == [] then [] else if chunk[|chunk| - 1] == '\n' then chunk else chunk + "\n"
  }

  /** The chunk of every content item, in order. */
  function Chunks(items: seq<ToolCallContent>): (cs: seq<string>)
    ensures |cs| == |items| && forall i :: 0 <= i < |items| ==> cs[i] == ChunkText(items[i])
  {
    seq(|items|, i requires 0 <= i < |items| => ChunkText(items[i]))
  }

  /** The reference reading: the blocks of all chunks, one after another. */
  function Blocks(chunks: seq<string>): string {
    if chunks == [] then [] else Block(chunks[0]) + Blocks(chunks[1..])
  }

  /** The loop of `tool_call_content_to_text`: push each non-empty chunk,
      then a line break unless the output already ends with one. */
  function Accumulate(out: string, chunks: seq<string>): string
    decreases |chunks|
  {
    if chunks == [] then out
    else
      var chunk := chunks[0];
      var out := if chunk == [] then out
        else if (out + chunk)[|out + chunk| - 1] == '\n' then out + chunk
        else out + chunk + "\n";
      Accumulate(out, chunks[1..])
  }

  /** The loop appends exactly the blocks: whether the output ends with a
      line break depends only on the chunk just pushed. */
  lemma {:induction false} AccumulateIsBlocks(out: string, chunks: seq<string>)
    ensures Accumulate(out, chunks) == out + Blocks(chunks)
    decreases |chunks|
  {
    if chunks == [] {
      assert out + [] == out;
    } else {
      var b := Block(chunks[0]);
      var rest := Blocks(chunks[1..]);
      AccumulateStep(out, chunks);
      AccumulateIsBlocks(out + b, chunks[1..]);
      assert (out + b) + rest == out + (b + rest);
    }
  }

  /** One round of the loop pushes the block of the first chunk. */
  lemma AccumulateStep(out: string, chunks: seq<string>)
    requires chunks != []
    ensures Accumulate(out, chunks) == Accumulate(out + Block(chunks[0]), chunks[1..])
  {
    var chunk := chunks[0];
    if chunk != [] {
      assert (out + chunk)[|out + chunk| - 1] == chunk[|chunk| - 1];
      assert out + chunk + "\n" == out + (chunk + "\n");
    } else {
      assert out + Block(chunk) == out;
    }
  }

  /** `tool_call_content_to_text`: the kept chunks, each on its own line,
      with trailing whitespace trimmed. */
  function ContentText(items: seq<ToolCallContent>): (r: string)
    ensures r == TrimEnd(Blocks(Chunks(items)))
    ensures r == [] || !IsWhitespace(r[|r| - 1])
  {
    AccumulateIsBlocks([], Chunks(items));
    assert [] + Blocks(Chunks(items)) == Blocks(Chunks(items));
    TrimEnd(Accumulate([], Chunks(items)))
  }

  /** A single text chunk that does not end in whitespace comes back
      unchanged; content without text gives the empty string. */
  lemma ContentTextExamples(t: string)
    requires t != [] && !IsWhitespace(t[|t| - 1])
    ensures ContentText([ContentItem(TextBlock(t))]) == t
    ensures ContentText([OtherContent, ContentItem(TextBlock(""))]) == ""
  {
    var cs := Chunks([ContentItem(TextBlock(t))]);
    assert cs == [t];
    assert Blocks(cs[1..]) == [];
    if t[|t| - 1] != '\n' {
      assert Blocks(cs) == t + "\n";
      assert (t + "\n")[..|t|] == t;
      assert TrimEnd((t + "\n")[..|t|]) == t;
    }
    var empty := Chunks([OtherContent, ContentItem(TextBlock(""))]);
    assert empty == ["", ""];
    assert Blocks(empty[1..][1..]) == [];
  }

  /** `map_tool_call`: the id is the one given; the name is the title; the
      arguments are the formatted raw input or else the content text; the
      output is the formatted raw output or else empty. Pretty-printing JSON
      is the `format` parameter. */
  function MapToolCall(id: string, tc: ToolCall, format: Json -> string): (r: ChatToolCall)
    ensures r.id == id && r.name == tc.title && r.status == MapToolStatus(tc.status)
    ensures tc.rawInput.None? ==> r.args == ContentText(tc.content)
    ensures tc.rawInput.Some? ==> r.args == format(tc.rawInput.value)
    ensures r.output == if tc.rawOutput.Some? then format(tc.rawOutput.value) else ""
  {
    ChatToolCall(
      id, tc.title, MapToolStatus(tc.status), DurationPlaceholder,
      if tc.rawInput.Some? then format(tc.rawInput.value) else ContentText(tc.content),
      if tc.rawOutput.Some? then format(tc.rawOutput.value) else "")
  }

  /** The duration shown for every tool call: the three characters the
      source file spells (an em dash decoded as Windows-1252). */
  const DurationPlaceholder: string := "\U{00E2}\U{20AC}\U{201D}"
}

=== FILE: collapsible_list.dfy ===
/** The collapsible list component (crates/ui/src/collapsible_list.rs): items
    with a header and a content height that can be expanded, collapsed or
    disabled, and the list state that selects and toggles them. Heights are
    whole pixels. Each item owns its flags (the source shares them through a
    reference-counted cell between clones of one item). */
module CollapsibleList {
  import opened Wrappers

  datatype Item = Item(id: string, caption: string, headerHeight: nat, contentHeight: nat, expanded: bool, disabled: bool)

  /** `CollapsibleListItem::new`: a 36 px header, 100 px of content,
      collapsed and enabled. */
  function NewItem(id: string, caption: string): (it: Item)
    ensures it.id == id && it.caption == caption
    ensures it.headerHeight == 36 && it.contentHeight == 100
    ensures !it.expanded && !it.disabled
  {
    Item(id, caption, 36, 100, false, false)
  }

  /** `total_height`: the header, plus the content when expanded. */
  function TotalHeight(it: Item): (h: nat)
    ensures h >= it.headerHeight
    ensures h > it.headerHeight <==> it.expanded && it.contentHeight > 0
  {
    if it.expanded then it.headerHeight + it.contentHeight else it.headerHeight
  }

  /** `toggle`: flips the expanded flag and nothing else. */
  function Toggle(it: Item): (r: Item)
    ensures r.expanded != it.expanded && r.(expanded := it.expanded) == it
  {
    it.(expanded := !it.expanded)
  }

  /** Toggling twice restores the item; each toggle moves the height by the
      content height. */
  lemma ToggleTwice(it: Item)
    ensures Toggle(Toggle(it)) == it
    ensures TotalHeight(Toggle(it)) + (if it.expanded then it.contentHeight else 0)
      == TotalHeight(it) + (if it.expanded then 0 else it.contentHeight)
  {
  }

  /** The builder chain of the item unit test: 40 px header, 200 px content,
      expanded, enabled, 240 px in all. */
  lemma BuilderExample()
    ensures var it := NewItem("test-id", "Test Label").(headerHeight := 40, contentHeight := 200, expanded := true, disabled := false);
      && it.id == "test-id" && it.caption == "Test Label" && it.expanded && !it.disabled
      && TotalHeight(it) == 240 && TotalHeight(Toggle(it)) == 40
  {
  }

  // ---------------------------------------------------------------------------
  // The list state
  // ---------------------------------------------------------------------------

  datatype ListState = ListState(items: seq<Item>, selected: Option<nat>)

  /** `CollapsibleListState::new`: no items, nothing selected. */
  function NewListState(): (s: ListState)
    ensures s.items == [] && s.selected.None?
  {
    ListState([], None)
  }

  /** `set_items`: replaces the items and clears the selection. */
  function SetItems(s: ListState, items: seq<Item>): (r: ListState)
    ensures r.items == items && r.selected.None?
  {
    ListState(items, None)
  }

  /** `selected_item`: the selected item, when the index is in range. */
  function SelectedItem(s: ListState): (r: Option<Item>)
    ensures r.Some? <==> s.selected.Some? && s.selected.value < |s.items|
    ensures r.Some? ==> r.value == s.items[s.selected.value]
  {
    match s.selected
    case None => None
    case Some(ix) => if ix < |s.items| then Some(s.items[ix]) else None
  }

  /** An item that responds to toggle and expand. */
  predicate Enabled(s: ListState, ix: nat) {
    ix < |s.items| && !s.items[ix].disabled
  }

  /** `toggle_expand`: flips an enabled item; a disabled item or an index out
      of range changes nothing. */
  function ToggleExpand(s: ListState, ix: nat): (r: ListState)
    ensures !Enabled(s, ix) ==> r == s
    ensures Enabled(s, ix) ==> r.items == s.items[ix := Toggle(s.items[ix])] && r.selected == s.selected
  {
    if Enabled(s, ix) then s.(items := s.items[ix := Toggle(s.items[ix])]) else s
  }

  /** `expand`: expands an enabled item. */
  function Expand(s: ListState, ix: nat): (r: ListState)
    ensures !Enabled(s, ix) ==> r == s
    ensures Enabled(s, ix) ==> r.items == s.items[ix := s.items[ix].(expanded := true)] && r.selected == s.selected
  {
    if Enabled(s, ix) then s.(items := s.items[ix := s.items[ix].(expanded := true)]) else s
  }

  /** `collapse`: collapses the item whether or not it is disabled. */
  function Collapse(s: ListState, ix: nat): (r: ListState)
    ensures ix >= |s.items| ==> r == s
    ensures ix < |s.items| ==> r.items == s.items[ix := s.items[ix].(expanded := false)] && r.selected == s.selected
  {
    if ix < |s.items| then s.(items := s.items[ix := s.items[ix].(expanded := false)]) else s
  }

  /** `expand_all`: expands every enabled item; disabled items stay as they are. */
  function ExpandAll(s: ListState): (r: ListState)
    ensures |r.items| == |s.items| && r.selected == s.selected
    ensures forall i :: 0 <= i < |s.items| ==>
      r.items[i] == if s.items[i].disabled then s.items[i] else s.items[i].(expanded := true)
  {
    s.(items := seq(|s.items|, i requires 0 <= i < |s.items| =>
      if s.items[i].disabled then s.items[i] else s.items[i].(expanded := true)))
  }

  /** `collapse_all`: collapses every item, disabled ones included. */
  function CollapseAll(s: ListState): (r: ListState)
    ensures |r.items| == |s.items| && r.selected == s.selected
    ensures forall i :: 0 <= i < |s.items| ==> r.items[i] == s.items[i].(expanded := false)
  {
    s.(items := seq(|s.items|, i requires 0 <= i < |s.items| => s.items[i].(expanded := false)))
  }

  /** `on_item_click`: selects the index, then toggles it. */
  function OnItemClick(s: ListState, ix: nat): (r: ListState)
    ensures r.selected == Some(ix)
    ensures r.items == ToggleExpand(s, ix).items
  {
    ToggleExpand(s.(selected := Some(ix)), ix)
  }

  /** `item_sizes`: one height per item, each the item's total height. */
  method ItemSizes(s: ListState) returns (sizes: seq<nat>)
    ensures |sizes| == |s.items|
    ensures forall i :: 0 <= i < |sizes| ==> sizes[i] == TotalHeight(s.items[i])
  {
    sizes := [];
    for i := 0 to |s.items|
      invariant |sizes| == i
      invariant forall j :: 0 <= j < i ==> sizes[j] == TotalHeight(s.items[j])
    {
      sizes := sizes + [TotalHeight(s.items[i])];
    }
  }

  // ---------------------------------------------------------------------------
  // Properties
  // ---------------------------------------------------------------------------

  /** Toggling an item twice restores the list. */
  lemma ToggleExpandTwice(s: ListState, ix: nat)
    ensures ToggleExpand(ToggleExpand(s, ix), ix) == s
  {
    if Enabled(s, ix) {
      assert ToggleExpand(ToggleExpand(s, ix), ix).items == s.items;
    }
  }

  /** After "expand all" every enabled item is expanded; after "collapse all"
      none is. Both are idempotent. */
  lemma AllActions(s: ListState)
    ensures forall i :: 0 <= i < |s.items| && !s.items[i].disabled ==> ExpandAll(s).items[i].expanded
    ensures forall i :: 0 <= i < |s.items| ==> !CollapseAll(s).items[i].expanded
    ensures ExpandAll(ExpandAll(s)) == ExpandAll(s)
    ensures CollapseAll(CollapseAll(s)) == CollapseAll(s)
  {
    assert ExpandAll(ExpandAll(s)).items == ExpandAll(s).items;
    assert CollapseAll(CollapseAll(s)).items == CollapseAll(s).items;
  }

  /** The list unit test: three items, the second expanded, the third
      disabled; toggling, expand-all and collapse-all as the test drives them. */
  lemma ListStateScenario()
    ensures var s0 := ListState([NewItem("item-1", "Item 1"), NewItem("item-2", "Item 2").(expanded := true),
                                 NewItem("item-3", "Item 3").(disabled := true)], None);
      var s1 := ToggleExpand(s0, 0);
      var s2 := ToggleExpand(s1, 2);
      var s3 := ExpandAll(s2);
      var s4 := CollapseAll(s3);
      && s1.items[0].expanded
      && !s2.items[2].expanded
      && s3.items[0].expanded && s3.items[1].expanded && !s3.items[2].expanded
      && !s4.items[0].expanded && !s4.items[1].expanded
  {
  }
}

=== FILE: collapsible_story.dfy ===
/** The collapsible list story (crates/story/src/stories/collapsible_list_story.rs):
    a thousand generated sections and the Expand All / Collapse All buttons. */
module CollapsibleStory {
  import opened Wrappers
  import opened Text
  import opened CollapsibleList

  const SectionCount: nat := 1000

  /** Section `i`: 40 px header, 120 px content, every tenth one expanded and
      the ones at 25 modulo 50 disabled. */
  function Section(i: nat): (it: Item)
    ensures it.headerHeight == 40 && it.contentHeight == 120
    ensures it.expanded <==> i % 10 == 0
    ensures it.disabled <==> i % 50 == 25
  {
    NewItem("section-" + NatToString(i), "Section " + NatToString(i))
      .(headerHeight := 40, contentHeight := 120, expanded := i % 10 == 0, disabled := i % 50 == 25)
  }

  /** The story's initial list state. */
  function StoryState(): (s: ListState)
    ensures |s.items| == SectionCount && s.selected.None?
    ensures forall i :: 0 <= i < |s.items| ==> s.items[i] == Section(i)
  {
    NewListState().(items := seq(SectionCount, i requires 0 <= i < SectionCount => Section(i)))
  }

  /** No section starts both expanded and disabled, and the ids are distinct. */
  lemma SectionsWellFormed(i: nat, j: nat)
    ensures !(Section(i).expanded && Section(i).disabled)
    ensures Section(i).id == Section(j).id <==> i == j
  {
    if Section(i).id == Section(j).id {
      assert NatToString(i) == Section(i).id[8..];
      assert NatToString(j) == Section(j).id[8..];
      NatToStringInjective(i, j);
    }
  }

  /** The button group's click handler: a click list holding 0 expands all,
      otherwise one holding 1 collapses all, otherwise nothing happens. */
  function OnButtonsClick(s: ListState, clicks: seq<nat>): (r: ListState)
    ensures 0 in clicks ==> r == ExpandAll(s)
    ensures 0 !in clicks && 1 in clicks ==> r == CollapseAll(s)
    ensures 0 !in clicks && 1 !in clicks ==> r == s
  {
    if 0 in clicks then ExpandAll(s) else if 1 in clicks then CollapseAll(s) else s
  }

  /** After Expand All on the story, exactly the sections that are not at 25
      modulo 50 are expanded; after Collapse All none is. */
  lemma ExpandAllOnStory()
    ensures var r := OnButtonsClick(StoryState(), [0]);
      forall i :: 0 <= i < |r.items| ==> (r.items[i].expanded <==> i % 50 != 25)
    ensures var r := OnButtonsClick(StoryState(), [1]);
      forall i :: 0 <= i < |r.items| ==> !r.items[i].expanded
  {
    var s := StoryState();
    var r := OnButtonsClick(s, [0]);
    forall i | 0 <= i < |r.items|
      ensures r.items[i].expanded <==> i % 50 != 25
    {
      assert s.items[i] == Section(i);
    }
  }
}

=== FILE: context_collapse.dfy ===
/** Context collapsing of the multi-file diff
    (crates/story/examples/multi_file_diff.rs, `apply_context_collapsing` and
    `context_line_numbers`).

    The source walks the lines once with a buffer of unchanged lines and
    flushes that buffer whenever a change or the end is reached. The model
    states the same walk one run at a time: `Scan` jumps from one change to
    the next and hands each run of unchanged lines to `Leading`, `Middle` or
    `Trailing`, which make exactly the decisions the flush makes. The walk
    first produces a plan of line indices (`Piece`s); `Render` then turns the
    plan into display items. */
module ContextCollapse {
  import opened Wrappers
  import opened DiffLines

  datatype DisplayItem =
    | Line(line: DiffLine)
    | Collapsed(startOld: nat, startNew: nat, count: nat, startIndex: nat)

  /** A planned display item, by line index: one shown line, or `count`
      hidden lines starting at `start`. */
  datatype Piece = Shown(index: nat) | Folded(start: nat, count: nat)

  predicate IsChange(line: DiffLine) {
    line.kind != Unchanged
  }

  /** `context_line_numbers`: both numbers of a line, when it has both. */
  function ContextLineNumbers(line: DiffLine): (r: Option<(nat, nat)>)
    ensures WellFormed(line) && line.kind == Unchanged ==> r.Some?
    ensures r.Some? ==> line.oldLineNo == Some(r.value.0) && line.newLineNo == Some(r.value.1)
    ensures r.None? ==> line.oldLineNo.None? || line.newLineNo.None?
  {
    match (line.oldLineNo, line.newLineNo)
    case (Some(o), Some(n)) => Some((o, n))
    case _ => None
  }

  // ---------------------------------------------------------------------------
  // Index ranges
  // ---------------------------------------------------------------------------

  function Range(a: nat, b: nat): (r: seq<nat>)
    requires a <= b
    ensures |r| == b - a
    ensures forall i :: 0 <= i < |r| ==> r[i] == a + i
  {
    seq(b - a, i requires 0 <= i < b - a => a + i)
  }

  lemma RangeConcat(a: nat, b: nat, c: nat)
    requires a <= b <= c
    ensures Range(a, b) + Range(b, c) == Range(a, c)
  {
  }

  /** The lines a piece stands for. */
  function Covered(p: Piece): seq<nat> {
    match p
    case Shown(i) => [i]
    case Folded(s, c) => Range(s, s + c)
  }

  /** The line indices a plan stands for, in display order. */
  function Flatten(ps: seq<Piece>): seq<nat> {
    if ps == [] then [] else Covered(ps[0]) + Flatten(ps[1..])
  }

  lemma {:induction false} FlattenAppend(a: seq<Piece>, b: seq<Piece>)
    ensures Flatten(a + b) == Flatten(a) + Flatten(b)
    decreases |a|
  {
    if a == [] {
      assert a + b == b;
    } else {
      assert (a + b)[0] == a[0];
      assert (a + b)[1..] == a[1..] + b;
      FlattenAppend(a[1..], b);
    }
  }

  /** Every line from `a` up to `b`, shown. */
  function ShownRange(a: nat, b: nat): (r: seq<Piece>)
    requires a <= b
    ensures |r| == b - a
    ensures forall i :: 0 <= i < |r| ==> r[i] == Shown(a + i)
  {
    seq(b - a, i requires 0 <= i < b - a => Shown(a + i))
  }

  lemma {:induction false} FlattenShownRange(a: nat, b: nat)
    requires a <= b
    ensures Flatten(ShownRange(a, b)) == Range(a, b)
    decreases b - a
  {
    if a < b {
      assert ShownRange(a, b)[1..] == ShownRange(a + 1, b);
      FlattenShownRange(a + 1, b);
    }
  }

  // ---------------------------------------------------------------------------
  // Plans that can be rendered
  // ---------------------------------------------------------------------------

  /** Every piece is inside the diff; a folded piece hides at least one line,
      hides only unchanged lines, and starts at a line with both numbers. */
  predicate ValidPiece(lines: seq<DiffLine>, p: Piece) {
    match p
    case Shown(i) => i < |lines|
    case Folded(s, c) =>
      1 <= c && s + c <= |lines| && ContextLineNumbers(lines[s]).Some?
      && forall k :: s <= k < s + c ==> !IsChange(lines[k])
  }

  predicate ValidPlan(lines: seq<DiffLine>, ps: seq<Piece>) {
    forall i :: 0 <= i < |ps| ==> ValidPiece(lines, ps[i])
  }

  /** A run of lines in which nothing changed. */
  predicate Quiet(lines: seq<DiffLine>, a: nat, b: nat)
    requires a <= b <= |lines|
  {
    forall k :: a <= k < b ==> !IsChange(lines[k])
  }

  /** A run inside a quiet run is quiet. */
  lemma QuietWithin(lines: seq<DiffLine>, a: nat, b: nat, c: nat, d: nat)
    requires a <= c <= d <= b <= |lines| && Quiet(lines, a, b)
    ensures Quiet(lines, c, d)
  {
  }

  /** The fold `apply_context_collapsing` pushes for `count` lines from `s`:
      present only when the first hidden line has both numbers. */
  function Fold(lines: seq<DiffLine>, s: nat, count: nat): (r: seq<Piece>)
    requires 1 <= count && s + count <= |lines| && Quiet(lines, s, s + count)
    ensures |r| <= 1
  {
    if ContextLineNumbers(lines[s]).Some? then [Folded(s, count)] else []
  }

  /** Over well-formed lines a fold is always present. */
  lemma FoldAt(lines: seq<DiffLine>, s: nat, count: nat)
    requires AllWellFormed(lines)
    requires 1 <= count && s + count <= |lines| && Quiet(lines, s, s + count)
    ensures Fold(lines, s, count) == [Folded(s, count)]
  {
    assert WellFormed(lines[s]) && !IsChange(lines[s]);
  }

  /** A fold can be rendered, and over well-formed lines it stands for
      exactly the lines it was handed. */
  lemma FoldCovers(lines: seq<DiffLine>, s: nat, count: nat)
    requires 1 <= count && s + count <= |lines| && Quiet(lines, s, s + count)
    ensures ValidPlan(lines, Fold(lines, s, count))
    ensures AllWellFormed(lines) ==> Flatten(Fold(lines, s, count)) == Range(s, s + count)
  {
    if AllWellFormed(lines) {
      assert WellFormed(lines[s]) && !IsChange(lines[s]);
      FlattenFolded(s, s + count);
    }
  }

  // ---------------------------------------------------------------------------
  // The three kinds of unchanged runs
  // ---------------------------------------------------------------------------

  /** A run between two changes, lines `bs` up to `e`. It folds only when it
      is at least `2 * ctx + 1` long and its fold start `bs + ctx` is not
      expanded; it then keeps `ctx` lines on each side of the fold. */
  function Middle(lines: seq<DiffLine>, bs: nat, e: nat, ctx: nat, expanded: set<nat>): (r: seq<Piece>)
    requires bs < e <= |lines| && Quiet(lines, bs, e)
  {
    var len := e - bs;
    if len >= 2 * ctx + 1 then
      var count := len - 2 * ctx;
      var start := bs + ctx;
      if start in expanded || count == 0 then ShownRange(bs, e)
      else ShownRange(bs, start) + Fold(lines, start, count) + ShownRange(e - ctx, e)
    else ShownRange(bs, e)
  }

  lemma FlattenFolded(a: nat, b: nat)
    requires a <= b
    ensures Flatten([Folded(a, b - a)]) == Range(a, b)
  {
    assert [Folded(a, b - a)][1..] == [];
  }

  lemma ShownShown(a: nat, b: nat, c: nat)
    requires a <= b <= c
    ensures Flatten(ShownRange(a, b) + ShownRange(b, c)) == Range(a, c)
  {
    FlattenAppend(ShownRange(a, b), ShownRange(b, c));
    FlattenShownRange(a, b);
    FlattenShownRange(b, c);
    RangeConcat(a, b, c);
  }

  lemma FoldedShown(a: nat, b: nat, c: nat)
    requires a <= b <= c
    ensures Flatten([Folded(a, b - a)] + ShownRange(b, c)) == Range(a, c)
  {
    FlattenAppend([Folded(a, b - a)], ShownRange(b, c));
    FlattenFolded(a, b);
    FlattenShownRange(b, c);
    RangeConcat(a, b, c);
  }

  lemma ShownFolded(a: nat, b: nat, c: nat)
    requires a <= b <= c
    ensures Flatten(ShownRange(a, b) + [Folded(b, c - b)]) == Range(a, c)
  {
    FlattenAppend(ShownRange(a, b), [Folded(b, c - b)]);
    FlattenFolded(b, c);
    FlattenShownRange(a, b);
    RangeConcat(a, b, c);
  }

  lemma ShownFoldedShown(a: nat, b: nat, c: nat, d: nat)
    requires a <= b <= c <= d
    ensures Flatten(ShownRange(a, b) + [Folded(b, c - b)] + ShownRange(c, d)) == Range(a, d)
  {
    FlattenAppend(ShownRange(a, b) + [Folded(b, c - b)], ShownRange(c, d));
    ShownFolded(a, b, c);
    FlattenShownRange(c, d);
    RangeConcat(a, c, d);
  }

  /** A middle run long enough to fold, whose fold start is not expanded:
      `ctx` shown lines, the fold, and `ctx` shown lines. */
  lemma MiddleFoldShape(lines: seq<DiffLine>, bs: nat, e: nat, ctx: nat, expanded: set<nat>, b: nat, c: nat)
    requires AllWellFormed(lines)
    requires bs < e <= |lines| && Quiet(lines, bs, e)
    requires e - bs >= 2 * ctx + 1 && bs + ctx !in expanded
    requires b == bs + ctx && c == e - ctx
    ensures Middle(lines, bs, e, ctx, expanded) == ShownRange(bs, b) + [Folded(b, c - b)] + ShownRange(c, e)
  {
    var n := e - bs - 2 * ctx;
    MiddleUnfold(lines, bs, e, ctx, expanded, b, c, n);
    FoldAt(lines, b, n);
    assert c - b == n;
  }

  /** The folding case of `Middle`, term for term. */
  lemma MiddleUnfold(lines: seq<DiffLine>, bs: nat, e: nat, ctx: nat, expanded: set<nat>, b: nat, c: nat, n: nat)
    requires bs < e <= |lines| && Quiet(lines, bs, e)
    requires e - bs >= 2 * ctx + 1 && bs + ctx !in expanded
    requires b == bs + ctx && c == e - ctx && n == e - bs - 2 * ctx
    ensures 1 <= n && b + n <= |lines| && Quiet(lines, b, b + n)
    ensures Middle(lines, bs, e, ctx, expanded) == ShownRange(bs, b) + Fold(lines, b, n) + ShownRange(c, e)
  {
  }

  /** A middle run that does not fold shows every line. */
  lemma MiddleShowsAll(lines: seq<DiffLine>, bs: nat, e: nat, ctx: nat, expanded: set<nat>)
    requires bs < e <= |lines| && Quiet(lines, bs, e)
    requires !(e - bs >= 2 * ctx + 1 && bs + ctx !in expanded)
    ensures Middle(lines, bs, e, ctx, expanded) == ShownRange(bs, e)
  {
  }

  /** A middle run displays each of its lines exactly once, in order. */
  lemma MiddleCovers(lines: seq<DiffLine>, bs: nat, e: nat, ctx: nat, expanded: set<nat>)
    requires AllWellFormed(lines)
    requires bs < e <= |lines| && Quiet(lines, bs, e)
    ensures Flatten(Middle(lines, bs, e, ctx, expanded)) == Range(bs, e)
  {
    if e - bs >= 2 * ctx + 1 && bs + ctx !in expanded {
      MiddleCoversFolded(lines, bs, e, ctx, expanded);
    } else {
      MiddleShowsAll(lines, bs, e, ctx, expanded);
      FlattenShownRange(bs, e);
    }
  }

  lemma MiddleCoversFolded(lines: seq<DiffLine>, bs: nat, e: nat, ctx: nat, expanded: set<nat>)
    requires AllWellFormed(lines)
    requires bs < e <= |lines| && Quiet(lines, bs, e)
    requires e - bs >= 2 * ctx + 1 && bs + ctx !in expanded
    ensures Flatten(Middle(lines, bs, e, ctx, expanded)) == Range(bs, e)
  {
    var b, c := bs + ctx, e - ctx;
    MiddleFoldShape(lines, bs, e, ctx, expanded, b, c);
    ShownFoldedShown(bs, b, c, e);
  }

  /** A middle run holds a fold exactly when it is at least `2 * ctx + 1`
      lines long and its fold start is not expanded; that fold starts `ctx`
      lines into the run and hides all but `ctx` lines at each end. */
  lemma MiddleFolds(lines: seq<DiffLine>, bs: nat, e: nat, ctx: nat, expanded: set<nat>)
    requires AllWellFormed(lines)
    requires bs < e <= |lines| && Quiet(lines, bs, e)
    ensures (exists k :: 0 <= k < |Middle(lines, bs, e, ctx, expanded)| && Middle(lines, bs, e, ctx, expanded)[k].Folded?)
        <==> e - bs >= 2 * ctx + 1 && bs + ctx !in expanded
    ensures e - bs >= 2 * ctx + 1 && bs + ctx !in expanded ==>
      Middle(lines, bs, e, ctx, expanded)[ctx] == Folded(bs + ctx, e - bs - 2 * ctx)
  {
    var r := Middle(lines, bs, e, ctx, expanded);
    var len := e - bs;
    var start := bs + ctx;
    if len >= 2 * ctx + 1 && start !in expanded {
      var count := len - 2 * ctx;
      assert Fold(lines, start, count) == [Folded(start, count)];
      assert r[ctx] == Folded(start, count);
    } else {
      assert r == ShownRange(bs, e);
    }
  }

  /** The run before the first change, lines `bs` up to `e`. When it is longer
      than `ctx`, its last `ctx` lines stay; the rest folds when edge folding
      is on (unless expanded, which shows the whole run) and disappears when
      it is off. */
  function Leading(lines: seq<DiffLine>, bs: nat, e: nat, ctx: nat, showEdge: bool, expanded: set<nat>): (r: seq<Piece>)
    requires bs < e <= |lines| && Quiet(lines, bs, e)
  {
    var len := e - bs;
    if len > ctx then
      (if showEdge then (if bs in expanded then ShownRange(bs, e) else Fold(lines, bs, len - ctx)) else [])
      + (if !showEdge || bs !in expanded then ShownRange(e - ctx, e) else [])
    else ShownRange(bs, e)
  }

  /** A leading run displays its lines in order: all of them with edge folding
      on or when it is at most `ctx` long, otherwise only its last `ctx`. */
  lemma LeadingCovers(lines: seq<DiffLine>, bs: nat, e: nat, ctx: nat, showEdge: bool, expanded: set<nat>)
    requires AllWellFormed(lines)
    requires bs < e <= |lines| && Quiet(lines, bs, e)
    ensures Flatten(Leading(lines, bs, e, ctx, showEdge, expanded))
      == Range(if showEdge || e - bs <= ctx then bs else e - ctx, e)
  {
    if e - bs <= ctx || (showEdge && bs in expanded) {
      LeadingShownCovers(lines, bs, e, ctx, showEdge, expanded);
    } else if showEdge {
      LeadingFoldedCovers(lines, bs, e, ctx, expanded);
    } else {
      LeadingDroppedCovers(lines, bs, e, ctx, expanded);
    }
  }

  lemma LeadingShownCovers(lines: seq<DiffLine>, bs: nat, e: nat, ctx: nat, showEdge: bool, expanded: set<nat>)
    requires bs < e <= |lines| && Quiet(lines, bs, e)
    requires e - bs <= ctx || (showEdge && bs in expanded)
    ensures Flatten(Leading(lines, bs, e, ctx, showEdge, expanded)) == Range(bs, e)
  {
    LeadingShown(lines, bs, e, ctx, showEdge, expanded);
    FlattenShownRange(bs, e);
  }

  lemma LeadingFoldedCovers(lines: seq<DiffLine>, bs: nat, e: nat, ctx: nat, expanded: set<nat>)
    requires AllWellFormed(lines)
    requires bs < e <= |lines| && Quiet(lines, bs, e)
    requires e - bs > ctx && bs !in expanded
    ensures Flatten(Leading(lines, bs, e, ctx, true, expanded)) == Range(bs, e)
  {
    var m := e - ctx;
    LeadingFolded(lines, bs, e, ctx, expanded, m);
    FoldedShown(bs, m, e);
  }

  lemma LeadingDroppedCovers(lines: seq<DiffLine>, bs: nat, e: nat, ctx: nat, expanded: set<nat>)
    requires bs < e <= |lines| && Quiet(lines, bs, e)
    requires e - bs > ctx
    ensures Flatten(Leading(lines, bs, e, ctx, false, expanded)) == Range(e - ctx, e)
  {
    LeadingDropped(lines, bs, e, ctx, expanded);
    FlattenShownRange(e - ctx, e);
  }

  lemma LeadingShown(lines: seq<DiffLine>, bs: nat, e: nat, ctx: nat, showEdge: bool, expanded: set<nat>)
    requires bs < e <= |lines| && Quiet(lines, bs, e)
    requires e - bs <= ctx || (showEdge && bs in expanded)
    ensures Leading(lines, bs, e, ctx, showEdge, expanded) == ShownRange(bs, e)
  {
    if e - bs > ctx {
      assert ShownRange(bs, e) + [] == ShownRange(bs, e);
    }
  }

  lemma LeadingFolded(lines: seq<DiffLine>, bs: nat, e: nat, ctx: nat, expanded: set<nat>, m: nat)
    requires AllWellFormed(lines)
    requires bs < e <= |lines| && Quiet(lines, bs, e)
    requires e - bs > ctx && bs !in expanded
    requires m == e - ctx
    ensures Leading(lines, bs, e, ctx, true, expanded) == [Folded(bs, m - bs)] + ShownRange(m, e)
  {
    var n := e - bs - ctx;
    assert m - bs == n;
    LeadingUnfold(lines, bs, e, ctx, expanded, m, n);
    FoldAt(lines, bs, n);
    calc {
      Leading(lines, bs, e, ctx, true, expanded);
      Fold(lines, bs, n) + ShownRange(m, e);
      [Folded(bs, m - bs)] + ShownRange(m, e);
    }
  }

  /** The folding case of `Leading`, term for term. */
  lemma LeadingUnfold(lines: seq<DiffLine>, bs: nat, e: nat, ctx: nat, expanded: set<nat>, m: nat, n: nat)
    requires bs < e <= |lines| && Quiet(lines, bs, e)
    requires e - bs > ctx && bs !in expanded
    requires m == e - ctx && n == e - bs - ctx
    ensures 1 <= n && bs + n <= |lines| && Quiet(lines, bs, bs + n)
    ensures Leading(lines, bs, e, ctx, true, expanded) == Fold(lines, bs, n) + ShownRange(m, e)
  {
    QuietWithin(lines, bs, e, bs, bs + n);
    assert e - bs > ctx && n == e - bs - ctx;
    assert Leading(lines, bs, e, ctx, true, expanded) == Fold(lines, bs, e - bs - ctx) + ShownRange(e - ctx, e);
  }

  lemma LeadingDropped(lines: seq<DiffLine>, bs: nat, e: nat, ctx: nat, expanded: set<nat>)
    requires bs < e <= |lines| && Quiet(lines, bs, e)
    requires e - bs > ctx
    ensures Leading(lines, bs, e, ctx, false, expanded) == ShownRange(e - ctx, e)
  {
    assert [] + ShownRange(e - ctx, e) == ShownRange(e - ctx, e);
  }

  /** The run after the last change, lines `bs` to the end. When it is longer
      than `ctx`, its first `ctx` lines stay; the rest folds when edge folding
      is on (unless expanded, which shows the whole run) and disappears when
      it is off. */
  function Trailing(lines: seq<DiffLine>, bs: nat, ctx: nat, showEdge: bool, expanded: set<nat>): (r: seq<Piece>)
    requires bs < |lines| && Quiet(lines, bs, |lines|)
  {
    var n := |lines|;
    var len := n - bs;
    if len > ctx then
      ShownRange(bs, bs + ctx)
      + (if showEdge then (if bs + ctx in expanded then ShownRange(bs + ctx, n) else Fold(lines, bs + ctx, len - ctx)) else [])
    else ShownRange(bs, n)
  }

  /** A trailing run displays its lines in order: all of them with edge
      folding on or when it is at most `ctx` long, otherwise only its first
      `ctx`. */
  lemma TrailingCovers(lines: seq<DiffLine>, bs: nat, ctx: nat, showEdge: bool, expanded: set<nat>)
    requires AllWellFormed(lines)
    requires bs < |lines| && Quiet(lines, bs, |lines|)
    ensures Flatten(Trailing(lines, bs, ctx, showEdge, expanded))
      == Range(bs, if showEdge || |lines| - bs <= ctx then |lines| else bs + ctx)
  {
    if |lines| - bs <= ctx {
      TrailingShortCovers(lines, bs, ctx, showEdge, expanded);
    } else if !showEdge {
      TrailingDroppedCovers(lines, bs, ctx, expanded);
    } else if bs + ctx in expanded {
      TrailingExpandedCovers(lines, bs, ctx, expanded);
    } else {
      TrailingFoldedCovers(lines, bs, ctx, expanded);
    }
  }

  lemma TrailingShortCovers(lines: seq<DiffLine>, bs: nat, ctx: nat, showEdge: bool, expanded: set<nat>)
    requires bs < |lines| && Quiet(lines, bs, |lines|)
    requires |lines| - bs <= ctx
    ensures Flatten(Trailing(lines, bs, ctx, showEdge, expanded)) == Range(bs, |lines|)
  {
    assert Trailing(lines, bs, ctx, showEdge, expanded) == ShownRange(bs, |lines|);
    FlattenShownRange(bs, |lines|);
  }

  lemma TrailingExpandedCovers(lines: seq<DiffLine>, bs: nat, ctx: nat, expanded: set<nat>)
    requires bs < |lines| && Quiet(lines, bs, |lines|)
    requires |lines| - bs > ctx && bs + ctx in expanded
    ensures Flatten(Trailing(lines, bs, ctx, true, expanded)) == Range(bs, |lines|)
  {
    assert Trailing(lines, bs, ctx, true, expanded) == ShownRange(bs, bs + ctx) + ShownRange(bs + ctx, |lines|);
    ShownShown(bs, bs + ctx, |lines|);
  }

  lemma TrailingFoldedCovers(lines: seq<DiffLine>, bs: nat, ctx: nat, expanded: set<nat>)
    requires AllWellFormed(lines)
    requires bs < |lines| && Quiet(lines, bs, |lines|)
    requires |lines| - bs > ctx && bs + ctx !in expanded
    ensures Flatten(Trailing(lines, bs, ctx, true, expanded)) == Range(bs, |lines|)
  {
    var b := bs + ctx;
    calc {
      Flatten(Trailing(lines, bs, ctx, true, expanded));
      { TrailingFolded(lines, bs, ctx, expanded, b); }
      Flatten(ShownRange(bs, b) + [Folded(b, |lines| - b)]);
      { ShownFolded(bs, b, |lines|); }
      Range(bs, |lines|);
    }
  }

  lemma TrailingDroppedCovers(lines: seq<DiffLine>, bs: nat, ctx: nat, expanded: set<nat>)
    requires bs < |lines| && Quiet(lines, bs, |lines|)
    requires |lines| - bs > ctx
    ensures Flatten(Trailing(lines, bs, ctx, false, expanded)) == Range(bs, bs + ctx)
  {
    TrailingDropped(lines, bs, ctx, expanded);
    FlattenShownRange(bs, bs + ctx);
  }

  lemma TrailingFolded(lines: seq<DiffLine>, bs: nat, ctx: nat, expanded: set<nat>, b: nat)
    requires AllWellFormed(lines)
    requires bs < |lines| && Quiet(lines, bs, |lines|)
    requires |lines| - bs > ctx && bs + ctx !in expanded
    requires b == bs + ctx
    ensures Trailing(lines, bs, ctx, true, expanded) == ShownRange(bs, b) + [Folded(b, |lines| - b)]
  {
    var n := |lines| - bs - ctx;
    assert |lines| - b == n;
    TrailingUnfold(lines, bs, ctx, expanded, b, n);
    FoldAt(lines, b, n);
    calc {
      Trailing(lines, bs, ctx, true, expanded);
      ShownRange(bs, b) + Fold(lines, b, n);
      ShownRange(bs, b) + [Folded(b, |lines| - b)];
    }
  }

  /** The folding case of `Trailing`, term for term. */
  lemma TrailingUnfold(lines: seq<DiffLine>, bs: nat, ctx: nat, expanded: set<nat>, b: nat, n: nat)
    requires bs < |lines| && Quiet(lines, bs, |lines|)
    requires |lines| - bs > ctx && bs + ctx !in expanded
    requires b == bs + ctx && n == |lines| - bs - ctx
    ensures 1 <= n && b + n <= |lines| && Quiet(lines, b, b + n)
    ensures Trailing(lines, bs, ctx, true, expanded) == ShownRange(bs, b) + Fold(lines, b, n)
  {
    QuietWithin(lines, bs, |lines|, b, b + n);
  }

  lemma TrailingDropped(lines: seq<DiffLine>, bs: nat, ctx: nat, expanded: set<nat>)
    requires bs < |lines| && Quiet(lines, bs, |lines|)
    requires |lines| - bs > ctx
    ensures Trailing(lines, bs, ctx, false, expanded) == ShownRange(bs, bs + ctx)
  {
    assert ShownRange(bs, bs + ctx) + [] == ShownRange(bs, bs + ctx);
  }

  // ---------------------------------------------------------------------------
  // The walk
  // ---------------------------------------------------------------------------

  /** The first change at or after `i`, or `|lines|` when there is none. */
  function NextChange(lines: seq<DiffLine>, i: nat): (j: nat)
    requires i <= |lines|
    ensures i <= j <= |lines|
    ensures j < |lines| ==> IsChange(lines[j])
    ensures Quiet(lines, i, j)
    decreases |lines| - i
  {
    if i == |lines| then i else if IsChange(lines[i]) then i else NextChange(lines, i + 1)
  }

  /** `has_changes`: some line is added or removed. */
  predicate HasChanges(lines: seq<DiffLine>) {
    exists k :: 0 <= k < |lines| && IsChange(lines[k])
  }

  /** The unchanged run before the change at `j`, which started at `bs`;
      `seen` tells whether an earlier change exists. */
  function Gap(lines: seq<DiffLine>, bs: nat, j: nat, seen: bool, ctx: nat, showEdge: bool, expanded: set<nat>): (r: seq<Piece>)
    requires bs <= j <= |lines| && Quiet(lines, bs, j)
  {
    if bs == j then []
    else if seen then Middle(lines, bs, j, ctx, expanded)
    else Leading(lines, bs, j, ctx, showEdge, expanded)
  }

  /** The walk from `bs`, the line after the last change seen (or 0). */
  function Scan(lines: seq<DiffLine>, bs: nat, seen: bool, ctx: nat, showEdge: bool, expanded: set<nat>): (r: seq<Piece>)
    requires bs <= |lines|
    decreases |lines| - bs
  {
    var j := NextChange(lines, bs);
    if j == |lines| then
      (if bs < j then Trailing(lines, bs, ctx, showEdge, expanded) else [])
    else
      Gap(lines, bs, j, seen, ctx, showEdge, expanded) + [Shown(j)] + Scan(lines, j + 1, true, ctx, showEdge, expanded)
  }

  /** The plan of `apply_context_collapsing`: every line shown when `show_all`
      is set or nothing changed, otherwise the walk. */
  function Plan(lines: seq<DiffLine>, ctx: nat, showEdge: bool, expanded: set<nat>, showAll: bool): (r: seq<Piece>)
    ensures ValidPlan(lines, r)
    ensures showAll || !HasChanges(lines) ==> |r| == |lines| && forall i :: 0 <= i < |r| ==> r[i] == Shown(i)
  {
    if showAll || !HasChanges(lines) then ShownRange(0, |lines|)
    else
      ScanValid(lines, 0, false, ctx, showEdge, expanded);
      Scan(lines, 0, false, ctx, showEdge, expanded)
  }

  lemma ValidPlanAround(lines: seq<DiffLine>, g: seq<Piece>, j: nat, rest: seq<Piece>)
    requires ValidPlan(lines, g) && j < |lines| && ValidPlan(lines, rest)
    ensures ValidPlan(lines, g + [Shown(j)] + rest)
  {
  }

  lemma ValidPlanAppend(lines: seq<DiffLine>, a: seq<Piece>, b: seq<Piece>)
    requires ValidPlan(lines, a) && ValidPlan(lines, b)
    ensures ValidPlan(lines, a + b)
  {
  }

  lemma ShownRangeValid(lines: seq<DiffLine>, a: nat, b: nat)
    requires a <= b <= |lines|
    ensures ValidPlan(lines, ShownRange(a, b))
  {
  }

  lemma MiddleValid(lines: seq<DiffLine>, bs: nat, e: nat, ctx: nat, expanded: set<nat>)
    requires bs < e <= |lines| && Quiet(lines, bs, e)
    ensures ValidPlan(lines, Middle(lines, bs, e, ctx, expanded))
  {
    if e - bs >= 2 * ctx + 1 && bs + ctx !in expanded {
      MiddleFoldValid(lines, bs, e, ctx, expanded);
    } else {
      MiddleShowsAll(lines, bs, e, ctx, expanded);
      ShownRangeValid(lines, bs, e);
    }
  }

  lemma MiddleFoldValid(lines: seq<DiffLine>, bs: nat, e: nat, ctx: nat, expanded: set<nat>)
    requires bs < e <= |lines| && Quiet(lines, bs, e)
    requires e - bs >= 2 * ctx + 1 && bs + ctx !in expanded
    ensures ValidPlan(lines, Middle(lines, bs, e, ctx, expanded))
  {
    var b, c, n := bs + ctx, e - ctx, e - bs - 2 * ctx;
    MiddleUnfold(lines, bs, e, ctx, expanded, b, c, n);
    ShownRangeValid(lines, bs, b);
    FoldCovers(lines, b, n);
    ShownRangeValid(lines, c, e);
    ValidPlanAppend(lines, ShownRange(bs, b), Fold(lines, b, n));
    ValidPlanAppend(lines, ShownRange(bs, b) + Fold(lines, b, n), ShownRange(c, e));
  }

  lemma LeadingValid(lines: seq<DiffLine>, bs: nat, e: nat, ctx: nat, showEdge: bool, expanded: set<nat>)
    requires bs < e <= |lines| && Quiet(lines, bs, e)
    ensures ValidPlan(lines, Leading(lines, bs, e, ctx, showEdge, expanded))
  {
    if e - bs <= ctx || (showEdge && bs in expanded) {
      LeadingShown(lines, bs, e, ctx, showEdge, expanded);
      ShownRangeValid(lines, bs, e);
    } else if showEdge {
      LeadingFoldValid(lines, bs, e, ctx, expanded);
    } else {
      LeadingDropped(lines, bs, e, ctx, expanded);
      ShownRangeValid(lines, e - ctx, e);
    }
  }

  lemma LeadingFoldValid(lines: seq<DiffLine>, bs: nat, e: nat, ctx: nat, expanded: set<nat>)
    requires bs < e <= |lines| && Quiet(lines, bs, e)
    requires e - bs > ctx && bs !in expanded
    ensures ValidPlan(lines, Leading(lines, bs, e, ctx, true, expanded))
  {
    var m, n := e - ctx, e - bs - ctx;
    LeadingUnfold(lines, bs, e, ctx, expanded, m, n);
    FoldCovers(lines, bs, n);
    ShownRangeValid(lines, m, e);
    ValidPlanAppend(lines, Fold(lines, bs, n), ShownRange(m, e));
  }

  lemma TrailingValid(lines: seq<DiffLine>, bs: nat, ctx: nat, showEdge: bool, expanded: set<nat>)
    requires bs < |lines| && Quiet(lines, bs, |lines|)
    ensures ValidPlan(lines, Trailing(lines, bs, ctx, showEdge, expanded))
  {
    if |lines| - bs <= ctx {
      assert Trailing(lines, bs, ctx, showEdge, expanded) == ShownRange(bs, |lines|);
      ShownRangeValid(lines, bs, |lines|);
    } else if !showEdge {
      TrailingDropped(lines, bs, ctx, expanded);
      ShownRangeValid(lines, bs, bs + ctx);
    } else if bs + ctx in expanded {
      assert Trailing(lines, bs, ctx, true, expanded) == ShownRange(bs, bs + ctx) + ShownRange(bs + ctx, |lines|);
      ShownRangeValid(lines, bs, bs + ctx);
      ShownRangeValid(lines, bs + ctx, |lines|);
      ValidPlanAppend(lines, ShownRange(bs, bs + ctx), ShownRange(bs + ctx, |lines|));
    } else {
      TrailingFoldValid(lines, bs, ctx, expanded);
    }
  }

  lemma TrailingFoldValid(lines: seq<DiffLine>, bs: nat, ctx: nat, expanded: set<nat>)
    requires bs < |lines| && Quiet(lines, bs, |lines|)
    requires |lines| - bs > ctx && bs + ctx !in expanded
    ensures ValidPlan(lines, Trailing(lines, bs, ctx, true, expanded))
  {
    var b, n := bs + ctx, |lines| - bs - ctx;
    TrailingUnfold(lines, bs, ctx, expanded, b, n);
    ShownRangeValid(lines, bs, b);
    FoldCovers(lines, b, n);
    ValidPlanAppend(lines, ShownRange(bs, b), Fold(lines, b, n));
  }

  /** The run before a change can be rendered. */
  lemma GapValid(lines: seq<DiffLine>, bs: nat, j: nat, seen: bool, ctx: nat, showEdge: bool, expanded: set<nat>)
    requires bs <= j <= |lines| && Quiet(lines, bs, j)
    ensures ValidPlan(lines, Gap(lines, bs, j, seen, ctx, showEdge, expanded))
  {
    if bs < j {
      if seen {
        MiddleValid(lines, bs, j, ctx, expanded);
      } else {
        LeadingValid(lines, bs, j, ctx, showEdge, expanded);
      }
    }
  }

  lemma ScanValidStep(lines: seq<DiffLine>, bs: nat, seen: bool, ctx: nat, showEdge: bool, expanded: set<nat>, j: nat)
    requires bs <= |lines| && j == NextChange(lines, bs) < |lines|
    requires ValidPlan(lines, Scan(lines, j + 1, true, ctx, showEdge, expanded))
    ensures ValidPlan(lines, Scan(lines, bs, seen, ctx, showEdge, expanded))
  {
    GapValid(lines, bs, j, seen, ctx, showEdge, expanded);
    ScanAtChange(lines, bs, seen, ctx, showEdge, expanded, j);
    ValidPlanAround(lines, Gap(lines, bs, j, seen, ctx, showEdge, expanded), j, Scan(lines, j + 1, true, ctx, showEdge, expanded));
  }

  /** The walk only plans pieces that can be rendered. */
  lemma {:induction false} ScanValid(lines: seq<DiffLine>, bs: nat, seen: bool, ctx: nat, showEdge: bool, expanded: set<nat>)
    requires bs <= |lines|
    ensures ValidPlan(lines, Scan(lines, bs, seen, ctx, showEdge, expanded))
    decreases |lines| - bs
  {
    var j := NextChange(lines, bs);
    if j == |lines| {
      if bs < j {
        TrailingValid(lines, bs, ctx, showEdge, expanded);
      }
    } else {
      ScanValid(lines, j + 1, true, ctx, showEdge, expanded);
      ScanValidStep(lines, bs, seen, ctx, showEdge, expanded, j);
    }
  }

  function RenderPiece(lines: seq<DiffLine>, p: Piece): DisplayItem
    requires ValidPiece(lines, p)
  {
    match p
    case Shown(i) => Line(lines[i])
    case Folded(s, c) =>
      var nums := ContextLineNumbers(lines[s]).value;
      Collapsed(nums.0, nums.1, c, s)
  }

  function Render(lines: seq<DiffLine>, ps: seq<Piece>): (items: seq<DisplayItem>)
    requires ValidPlan(lines, ps)
    ensures |items| == |ps|
  {
    seq(|ps|, i requires 0 <= i < |ps| => RenderPiece(lines, ps[i]))
  }

  /** `apply_context_collapsing`. */
  function ApplyContextCollapsing(lines: seq<DiffLine>, ctx: nat, showEdge: bool, expanded: set<nat>, showAll: bool): (items: seq<DisplayItem>)
    ensures showAll || !HasChanges(lines) ==>
      |items| == |lines| && forall i :: 0 <= i < |lines| ==> items[i] == Line(lines[i])
    ensures forall i :: 0 <= i < |items| && items[i].Collapsed? ==>
      var c := items[i];
      1 <= c.count && c.startIndex + c.count <= |lines|
      && lines[c.startIndex].oldLineNo == Some(c.startOld)
      && lines[c.startIndex].newLineNo == Some(c.startNew)
      && forall k :: c.startIndex <= k < c.startIndex + c.count ==> lines[k].kind == Unchanged
  {
    Render(lines, Plan(lines, ctx, showEdge, expanded, showAll))
  }

  // ---------------------------------------------------------------------------
  // What the walk covers
  // ---------------------------------------------------------------------------

  /** The index after the last change, or 0 when nothing changed. */
  function LastEnd(lines: seq<DiffLine>): (e: nat)
    ensures e <= |lines|
    ensures Quiet(lines, e, |lines|)
    ensures e > 0 ==> IsChange(lines[e - 1])
  {
    if lines == [] then 0
    else if IsChange(lines[|lines| - 1]) then |lines|
    else
      var e := LastEnd(lines[..|lines| - 1]);
      assert forall k :: e <= k < |lines| - 1 ==> lines[..|lines| - 1][k] == lines[k];
      e
  }

  /** First line the plan displays (shown or folded). */
  function VisibleFrom(lines: seq<DiffLine>, ctx: nat, showEdge: bool, showAll: bool): nat {
    if showAll || !HasChanges(lines) || showEdge then 0
    else
      var first := NextChange(lines, 0);
      if first <= ctx then 0 else first - ctx
  }

  /** One past the last line the plan displays (shown or folded). */
  function VisibleTo(lines: seq<DiffLine>, ctx: nat, showEdge: bool, showAll: bool): nat {
    if showAll || !HasChanges(lines) || showEdge then |lines|
    else
      var e := LastEnd(lines);
      if |lines| - e <= ctx then |lines| else e + ctx
  }

  lemma LastEndAt(lines: seq<DiffLine>, bs: nat)
    requires 1 <= bs <= |lines| && IsChange(lines[bs - 1]) && Quiet(lines, bs, |lines|)
    ensures LastEnd(lines) == bs
  {
  }

  lemma LastEndAfter(lines: seq<DiffLine>, j: nat)
    requires j < |lines| && IsChange(lines[j])
    ensures j + 1 <= LastEnd(lines)
  {
  }

  /** Where the display of the walk from `bs` starts. */
  function CoverStart(lines: seq<DiffLine>, bs: nat, seen: bool, ctx: nat, showEdge: bool): nat {
    if seen || showEdge then bs
    else
      var first := NextChange(lines, 0);
      if first <= ctx then bs else first - ctx
  }

  /** Where the display of the walk ends. */
  function CoverEnd(lines: seq<DiffLine>, ctx: nat, showEdge: bool): nat {
    var e := LastEnd(lines);
    if showEdge || |lines| - e <= ctx then |lines| else e + ctx
  }

  lemma GapCovers(lines: seq<DiffLine>, bs: nat, j: nat, seen: bool, ctx: nat, showEdge: bool, expanded: set<nat>)
    requires AllWellFormed(lines)
    requires bs <= j < |lines| && Quiet(lines, bs, j) && IsChange(lines[j])
    requires !seen ==> bs == 0 && j == NextChange(lines, 0)
    ensures CoverStart(lines, bs, seen, ctx, showEdge) <= j
    ensures Flatten(Gap(lines, bs, j, seen, ctx, showEdge, expanded)) == Range(CoverStart(lines, bs, seen, ctx, showEdge), j)
  {
    if bs < j {
      if seen {
        MiddleCovers(lines, bs, j, ctx, expanded);
      } else {
        LeadingCovers(lines, bs, j, ctx, showEdge, expanded);
      }
    }
  }

  lemma AroundChange(g: seq<Piece>, j: nat, rest: seq<Piece>, lo: nat, hi: nat)
    requires lo <= j < hi
    requires Flatten(g) == Range(lo, j) && Flatten(rest) == Range(j + 1, hi)
    ensures Flatten(g + [Shown(j)] + rest) == Range(lo, hi)
  {
    assert Flatten(g + [Shown(j)]) == Range(lo, j + 1) by {
      FlattenAppend(g, [Shown(j)]);
      assert Flatten([Shown(j)]) == [j];
      RangeConcat(lo, j, j + 1);
    }
    assert Flatten(g + [Shown(j)] + rest) == Range(lo, hi) by {
      FlattenAppend(g + [Shown(j)], rest);
      RangeConcat(lo, j + 1, hi);
    }
  }

  /** Before a change, the walk is the run up to it, the change, and the walk after it. */
  lemma ScanAtChange(lines: seq<DiffLine>, bs: nat, seen: bool, ctx: nat, showEdge: bool, expanded: set<nat>, j: nat)
    requires bs <= |lines| && j == NextChange(lines, bs) < |lines|
    ensures Scan(lines, bs, seen, ctx, showEdge, expanded)
      == Gap(lines, bs, j, seen, ctx, showEdge, expanded) + [Shown(j)] + Scan(lines, j + 1, true, ctx, showEdge, expanded)
  {
  }

  /** The walk after the last change displays the trailing run. */
  lemma ScanCoversEnd(lines: seq<DiffLine>, bs: nat, ctx: nat, showEdge: bool, expanded: set<nat>)
    requires AllWellFormed(lines)
    requires 1 <= bs <= |lines| && IsChange(lines[bs - 1])
    requires NextChange(lines, bs) == |lines|
    ensures bs <= CoverEnd(lines, ctx, showEdge)
    ensures Flatten(Scan(lines, bs, true, ctx, showEdge, expanded)) == Range(bs, CoverEnd(lines, ctx, showEdge))
  {
    LastEndAt(lines, bs);
    if bs < |lines| {
      assert Scan(lines, bs, true, ctx, showEdge, expanded) == Trailing(lines, bs, ctx, showEdge, expanded);
      TrailingCovers(lines, bs, ctx, showEdge, expanded);
    } else {
      assert Scan(lines, bs, true, ctx, showEdge, expanded) == [];
    }
  }

  /** The walk from `bs` displays the lines from `CoverStart` up to
      `CoverEnd`, each exactly once and in order. */
  predicate ScanCovered(lines: seq<DiffLine>, bs: nat, seen: bool, ctx: nat, showEdge: bool, expanded: set<nat>)
    requires bs <= |lines|
  {
    && CoverStart(lines, bs, seen, ctx, showEdge) <= CoverEnd(lines, ctx, showEdge)
    && Flatten(Scan(lines, bs, seen, ctx, showEdge, expanded))
      == Range(CoverStart(lines, bs, seen, ctx, showEdge), CoverEnd(lines, ctx, showEdge))
  }

  /** The walk from the line after the last change. */
  lemma ScanCoversLast(lines: seq<DiffLine>, bs: nat, seen: bool, ctx: nat, showEdge: bool, expanded: set<nat>)
    requires AllWellFormed(lines)
    requires bs <= |lines| && NextChange(lines, bs) == |lines|
    requires seen ==> 1 <= bs && IsChange(lines[bs - 1])
    requires !seen ==> bs == 0 && NextChange(lines, 0) < |lines|
    ensures ScanCovered(lines, bs, seen, ctx, showEdge, expanded)
  {
    assert seen;
    ScanCoversEnd(lines, bs, ctx, showEdge, expanded);
  }

  /** One step of the walk: when the walk after the next change displays
      everything up to `CoverEnd`, so does the walk from `bs`. */
  lemma ScanCoversStep(lines: seq<DiffLine>, bs: nat, seen: bool, ctx: nat, showEdge: bool, expanded: set<nat>, j: nat)
    requires AllWellFormed(lines)
    requires bs <= |lines| && j == NextChange(lines, bs) < |lines|
    requires seen ==> 1 <= bs && IsChange(lines[bs - 1])
    requires !seen ==> bs == 0
    requires ScanCovered(lines, j + 1, true, ctx, showEdge, expanded)
    ensures ScanCovered(lines, bs, seen, ctx, showEdge, expanded)
  {
    var lo := CoverStart(lines, bs, seen, ctx, showEdge);
    var hi := CoverEnd(lines, ctx, showEdge);
    var g := Gap(lines, bs, j, seen, ctx, showEdge, expanded);
    var rest := Scan(lines, j + 1, true, ctx, showEdge, expanded);
    assert CoverStart(lines, j + 1, true, ctx, showEdge) == j + 1;
    assert Flatten(rest) == Range(j + 1, hi);
    GapCovers(lines, bs, j, seen, ctx, showEdge, expanded);
    assert Flatten(g) == Range(lo, j);
    AroundChange(g, j, rest, lo, hi);
    ScanAtChange(lines, bs, seen, ctx, showEdge, expanded, j);
  }

  /** With well-formed lines, the walk from `bs` displays every line from
      `CoverStart` to `CoverEnd`, each exactly once and in order. */
  lemma {:induction false} ScanCovers(lines: seq<DiffLine>, bs: nat, seen: bool, ctx: nat, showEdge: bool, expanded: set<nat>)
    requires AllWellFormed(lines)
    requires bs <= |lines|
    requires seen ==> 1 <= bs && IsChange(lines[bs - 1])
    requires !seen ==> bs == 0 && NextChange(lines, 0) < |lines|
    ensures ScanCovered(lines, bs, seen, ctx, showEdge, expanded)
    decreases |lines| - bs
  {
    if NextChange(lines, bs) == |lines| {
      ScanCoversLast(lines, bs, seen, ctx, showEdge, expanded);
    } else {
      var j := NextChange(lines, bs);
      ScanCovers(lines, j + 1, true, ctx, showEdge, expanded);
      ScanCoversStep(lines, bs, seen, ctx, showEdge, expanded, j);
    }
  }

  /** The plan displays the lines from `VisibleFrom` up to `VisibleTo`, each
      exactly once and in their order in the diff. With edge folding on, that
      is every line; with it off, everything from `ctx` lines before the first
      change to `ctx` lines after the last one. */
  lemma PlanCovers(lines: seq<DiffLine>, ctx: nat, showEdge: bool, expanded: set<nat>, showAll: bool)
    requires AllWellFormed(lines)
    ensures VisibleFrom(lines, ctx, showEdge, showAll) <= VisibleTo(lines, ctx, showEdge, showAll) <= |lines|
    ensures Flatten(Plan(lines, ctx, showEdge, expanded, showAll))
      == Range(VisibleFrom(lines, ctx, showEdge, showAll), VisibleTo(lines, ctx, showEdge, showAll))
  {
    if showAll || !HasChanges(lines) {
      FlattenShownRange(0, |lines|);
    } else {
      var k :| 0 <= k < |lines| && IsChange(lines[k]);
      assert NextChange(lines, 0) <= k;
      ScanCovers(lines, 0, false, ctx, showEdge, expanded);
      LastEndAfter(lines, NextChange(lines, 0));
    }
  }

  // ---------------------------------------------------------------------------
  // Weight of the display
  // ---------------------------------------------------------------------------

  /** Lines an item stands for: one for a line, `count` for a collapsed block. */
  function Weight(items: seq<DisplayItem>): nat {
    if items == [] then 0
    else (match items[0] case Line(_) => 1 case Collapsed(_, _, c, _) => c) + Weight(items[1..])
  }

  lemma {:induction false} WeightOfRender(lines: seq<DiffLine>, ps: seq<Piece>)
    requires ValidPlan(lines, ps)
    ensures Weight(Render(lines, ps)) == |Flatten(ps)|
    decreases |ps|
  {
    if ps != [] {
      assert Render(lines, ps)[1..] == Render(lines, ps[1..]);
      WeightOfRender(lines, ps[1..]);
    }
  }

  /** With edge folding on, every line of the diff is accounted for exactly
      once: the display items' weights add up to the number of diff lines. */
  lemma CollapsingAccountsForEveryLine(lines: seq<DiffLine>, ctx: nat, expanded: set<nat>, showAll: bool)
    requires AllWellFormed(lines)
    ensures Weight(ApplyContextCollapsing(lines, ctx, true, expanded, showAll)) == |lines|
  {
    PlanCovers(lines, ctx, true, expanded, showAll);
    WeightOfRender(lines, Plan(lines, ctx, true, expanded, showAll));
  }

  /** The walk from `bs` displays line `k` as a line of its own. */
  predicate ShowsLine(lines: seq<DiffLine>, bs: nat, seen: bool, ctx: nat, showEdge: bool, expanded: set<nat>, k: nat)
    requires bs <= |lines|
  {
    Shown(k) in Scan(lines, bs, seen, ctx, showEdge, expanded)
  }

  /** Every added or removed line is displayed as a line of its own. */
  lemma {:induction false} ScanShowsChanges(lines: seq<DiffLine>, bs: nat, seen: bool, ctx: nat, showEdge: bool, expanded: set<nat>, k: nat)
    requires bs <= k < |lines| && IsChange(lines[k])
    ensures ShowsLine(lines, bs, seen, ctx, showEdge, expanded, k)
    decreases |lines| - bs
  {
    var j := NextChange(lines, bs);
    NextChangeAtMost(lines, bs, k);
    if j < k {
      ScanShowsChanges(lines, j + 1, true, ctx, showEdge, expanded, k);
    }
    ScanShowsChangesStep(lines, bs, seen, ctx, showEdge, expanded, k, j);
  }

  lemma ScanShowsChangesStep(lines: seq<DiffLine>, bs: nat, seen: bool, ctx: nat, showEdge: bool, expanded: set<nat>, k: nat, j: nat)
    requires bs <= |lines| && j == NextChange(lines, bs) <= k < |lines|
    requires j < k ==> ShowsLine(lines, j + 1, true, ctx, showEdge, expanded, k)
    ensures ShowsLine(lines, bs, seen, ctx, showEdge, expanded, k)
  {
    ScanAtChange(lines, bs, seen, ctx, showEdge, expanded, j);
    InAround(Gap(lines, bs, j, seen, ctx, showEdge, expanded), Shown(j), Scan(lines, j + 1, true, ctx, showEdge, expanded), Shown(k));
  }

  /** The next change from `i` comes no later than any change at or after `i`. */
  lemma {:induction false} NextChangeAtMost(lines: seq<DiffLine>, i: nat, k: nat)
    requires i <= k < |lines| && IsChange(lines[k])
    ensures NextChange(lines, i) <= k
    decreases k - i
  {
    if !IsChange(lines[i]) {
      NextChangeAtMost(lines, i + 1, k);
    }
  }

  lemma InAround<T>(g: seq<T>, p: T, rest: seq<T>, x: T)
    requires x == p || x in rest
    ensures x in g + [p] + rest
  {
    var s := g + [p] + rest;
    if x == p {
      assert s[|g|] == p;
    } else {
      var i :| 0 <= i < |rest| && rest[i] == x;
      assert s[|g| + 1 + i] == x;
    }
  }

  /** The collapsed view never hides a change. */
  lemma CollapsingShowsChanges(lines: seq<DiffLine>, ctx: nat, showEdge: bool, expanded: set<nat>, showAll: bool, k: nat)
    requires k < |lines| && IsChange(lines[k])
    ensures Line(lines[k]) in ApplyContextCollapsing(lines, ctx, showEdge, expanded, showAll)
  {
    var ps := Plan(lines, ctx, showEdge, expanded, showAll);
    if showAll || !HasChanges(lines) {
      assert ps[k] == Shown(k);
    } else {
      ScanShowsChanges(lines, 0, false, ctx, showEdge, expanded, k);
    }
    var i :| 0 <= i < |ps| && ps[i] == Shown(k);
    assert Render(lines, ps)[i] == Line(lines[k]);
  }

  // ---------------------------------------------------------------------------
  // Expanded blocks
  // ---------------------------------------------------------------------------

  /** No folded piece starts at an expanded index. */
  predicate NoExpandedFold(ps: seq<Piece>, expanded: set<nat>) {
    forall i :: 0 <= i < |ps| && ps[i].Folded? ==> ps[i].start !in expanded
  }

  lemma NoExpandedFoldAppend(a: seq<Piece>, b: seq<Piece>, expanded: set<nat>)
    requires NoExpandedFold(a, expanded) && NoExpandedFold(b, expanded)
    ensures NoExpandedFold(a + b, expanded)
  {
    forall i | 0 <= i < |a + b| && (a + b)[i].Folded?
      ensures (a + b)[i].start !in expanded
    {
      if i >= |a| {
        assert (a + b)[i] == b[i - |a|];
      }
    }
  }

  lemma ShownKeepsExpanded(a: nat, b: nat, expanded: set<nat>)
    requires a <= b
    ensures NoExpandedFold(ShownRange(a, b), expanded)
  {
  }

  lemma FoldKeepsExpanded(lines: seq<DiffLine>, s: nat, count: nat, expanded: set<nat>)
    requires 1 <= count && s + count <= |lines| && Quiet(lines, s, s + count)
    requires s !in expanded
    ensures NoExpandedFold(Fold(lines, s, count), expanded)
  {
  }

  lemma MiddleKeepsExpanded(lines: seq<DiffLine>, bs: nat, e: nat, ctx: nat, expanded: set<nat>)
    requires bs < e <= |lines| && Quiet(lines, bs, e)
    ensures NoExpandedFold(Middle(lines, bs, e, ctx, expanded), expanded)
  {
    var len := e - bs;
    var start := bs + ctx;
    if len >= 2 * ctx + 1 && start !in expanded {
      var f := Fold(lines, start, len - 2 * ctx);
      assert Middle(lines, bs, e, ctx, expanded) == ShownRange(bs, start) + f + ShownRange(e - ctx, e);
      ShownKeepsExpanded(bs, start, expanded);
      FoldKeepsExpanded(lines, start, len - 2 * ctx, expanded);
      ShownKeepsExpanded(e - ctx, e, expanded);
      NoExpandedFoldAppend(ShownRange(bs, start), f, expanded);
      NoExpandedFoldAppend(ShownRange(bs, start) + f, ShownRange(e - ctx, e), expanded);
    } else {
      MiddleShowsAll(lines, bs, e, ctx, expanded);
      ShownKeepsExpanded(bs, e, expanded);
    }
  }

  lemma LeadingKeepsExpanded(lines: seq<DiffLine>, bs: nat, e: nat, ctx: nat, showEdge: bool, expanded: set<nat>)
    requires bs < e <= |lines| && Quiet(lines, bs, e)
    ensures NoExpandedFold(Leading(lines, bs, e, ctx, showEdge, expanded), expanded)
  {
    var len := e - bs;
    if len > ctx {
      var a := if showEdge then (if bs in expanded then ShownRange(bs, e) else Fold(lines, bs, len - ctx)) else [];
      var b := if !showEdge || bs !in expanded then ShownRange(e - ctx, e) else [];
      assert Leading(lines, bs, e, ctx, showEdge, expanded) == a + b;
      if showEdge && bs in expanded {
        ShownKeepsExpanded(bs, e, expanded);
      } else if showEdge {
        FoldKeepsExpanded(lines, bs, len - ctx, expanded);
      }
      if !showEdge || bs !in expanded {
        ShownKeepsExpanded(e - ctx, e, expanded);
      }
      NoExpandedFoldAppend(a, b, expanded);
    } else {
      ShownKeepsExpanded(bs, e, expanded);
    }
  }

  /** Every run checks the fold start against the expanded set. */
  lemma GapKeepsExpanded(lines: seq<DiffLine>, bs: nat, j: nat, seen: bool, ctx: nat, showEdge: bool, expanded: set<nat>)
    requires bs <= j <= |lines| && Quiet(lines, bs, j)
    ensures NoExpandedFold(Gap(lines, bs, j, seen, ctx, showEdge, expanded), expanded)
  {
    if bs < j && seen {
      MiddleKeepsExpanded(lines, bs, j, ctx, expanded);
    } else if bs < j {
      LeadingKeepsExpanded(lines, bs, j, ctx, showEdge, expanded);
    }
  }

  lemma TrailingKeepsExpanded(lines: seq<DiffLine>, bs: nat, ctx: nat, showEdge: bool, expanded: set<nat>)
    requires bs < |lines| && Quiet(lines, bs, |lines|)
    ensures NoExpandedFold(Trailing(lines, bs, ctx, showEdge, expanded), expanded)
  {
    var n := |lines|;
    if n - bs > ctx {
      var b := if showEdge then (if bs + ctx in expanded then ShownRange(bs + ctx, n) else Fold(lines, bs + ctx, n - bs - ctx)) else [];
      NoExpandedFoldAppend(ShownRange(bs, bs + ctx), b, expanded);
    }
  }

  lemma ScanKeepsExpandedLast(lines: seq<DiffLine>, bs: nat, seen: bool, ctx: nat, showEdge: bool, expanded: set<nat>)
    requires bs <= |lines| && NextChange(lines, bs) == |lines|
    ensures NoExpandedFold(Scan(lines, bs, seen, ctx, showEdge, expanded), expanded)
  {
    if bs < |lines| {
      TrailingKeepsExpanded(lines, bs, ctx, showEdge, expanded);
    }
  }

  lemma ScanKeepsExpandedStep(lines: seq<DiffLine>, bs: nat, seen: bool, ctx: nat, showEdge: bool, expanded: set<nat>)
    requires bs <= |lines| && NextChange(lines, bs) < |lines|
    requires NoExpandedFold(Scan(lines, NextChange(lines, bs) + 1, true, ctx, showEdge, expanded), expanded)
    ensures NoExpandedFold(Scan(lines, bs, seen, ctx, showEdge, expanded), expanded)
  {
    var j := NextChange(lines, bs);
    var g := Gap(lines, bs, j, seen, ctx, showEdge, expanded);
    var rest := Scan(lines, j + 1, true, ctx, showEdge, expanded);
    GapKeepsExpanded(lines, bs, j, seen, ctx, showEdge, expanded);
    NoExpandedFoldAppend(g, [Shown(j)], expanded);
    NoExpandedFoldAppend(g + [Shown(j)], rest, expanded);
    ScanAtChange(lines, bs, seen, ctx, showEdge, expanded, j);
  }

  lemma {:induction false} ScanKeepsExpanded(lines: seq<DiffLine>, bs: nat, seen: bool, ctx: nat, showEdge: bool, expanded: set<nat>)
    requires bs <= |lines|
    ensures NoExpandedFold(Scan(lines, bs, seen, ctx, showEdge, expanded), expanded)
    decreases |lines| - bs
  {
    if NextChange(lines, bs) == |lines| {
      ScanKeepsExpandedLast(lines, bs, seen, ctx, showEdge, expanded);
    } else {
      ScanKeepsExpanded(lines, NextChange(lines, bs) + 1, true, ctx, showEdge, expanded);
      ScanKeepsExpandedStep(lines, bs, seen, ctx, showEdge, expanded);
    }
  }

  /** A block the user expanded stays open: no collapsed item starts at an
      index in the expanded set. */
  lemma ExpandedBlocksStayOpen(lines: seq<DiffLine>, ctx: nat, showEdge: bool, expanded: set<nat>, showAll: bool)
    ensures var items := ApplyContextCollapsing(lines, ctx, showEdge, expanded, showAll);
      forall i :: 0 <= i < |items| && items[i].Collapsed? ==> items[i].startIndex !in expanded
  {
    var ps := Plan(lines, ctx, showEdge, expanded, showAll);
    if !(showAll || !HasChanges(lines)) {
      ScanKeepsExpanded(lines, 0, false, ctx, showEdge, expanded);
    }
    var items := Render(lines, ps);
    forall i | 0 <= i < |items| && items[i].Collapsed?
      ensures items[i].startIndex !in expanded
    {
      assert items[i] == RenderPiece(lines, ps[i]);
    }
  }
}

=== FILE: diff_lines.dfy ===
/** Numbered diff lines, as built by `compute_diff` in both diff examples
    (crates/story/examples/diff.rs and multi_file_diff.rs), together with the
    statistics, the unified text and the unified line-number gutter.

    The Patience line diff itself comes from the `similar` crate; here its
    output is an input: the sequence of changes, each an Equal, Delete or
    Insert tag with the line's text. */
module DiffLines {
  import opened Wrappers
  import opened Text

  datatype ChangeTag = Equal | Delete | Insert

  /** One change from `iter_all_changes`. */
  datatype Change = Change(tag: ChangeTag, text: string)

  datatype DiffLineKind = Unchanged | Added | Removed

  datatype DiffLine = DiffLine(
    kind: DiffLineKind,
    oldLineNo: Option<nat>,
    newLineNo: Option<nat>,
    text: string)

  /** The line numbers a line carries depend only on its kind: an unchanged
      line has both, a removed line only the old one, an added line only the
      new one. */
  predicate WellFormed(line: DiffLine) {
    match line.kind
    case Unchanged => line.oldLineNo.Some? && line.newLineNo.Some?
    case Removed => line.oldLineNo.Some? && line.newLineNo.None?
    case Added => line.oldLineNo.None? && line.newLineNo.Some?
  }

  predicate AllWellFormed(lines: seq<DiffLine>) {
    forall i :: 0 <= i < |lines| ==> WellFormed(lines[i])
  }

  // ---------------------------------------------------------------------------
  // Numbering
  // ---------------------------------------------------------------------------

  /** How many changes in `cs` consume a line of the old text. */
  function OldSeen(cs: seq<Change>): nat {
    if cs == [] then 0 else OldSeen(cs[..|cs| - 1]) + (if cs[|cs| - 1].tag != Insert then 1 else 0)
  }

  /** How many changes in `cs` consume a line of the new text. */
  function NewSeen(cs: seq<Change>): nat {
    if cs == [] then 0 else NewSeen(cs[..|cs| - 1]) + (if cs[|cs| - 1].tag != Delete then 1 else 0)
  }

  /** The line a change becomes when the counters stand at `oldNo` and `newNo`. */
  function LineFor(c: Change, oldNo: nat, newNo: nat): DiffLine {
    match c.tag
    case Equal => DiffLine(Unchanged, Some(oldNo), Some(newNo), c.text)
    case Delete => DiffLine(Removed, Some(oldNo), None, c.text)
    case Insert => DiffLine(Added, None, Some(newNo), c.text)
  }

  /** Closed form of the numbering: change `i` is numbered by how many old and
      new lines the changes before it consumed, counting from 1. */
  function NumberedLines(cs: seq<Change>): (lines: seq<DiffLine>)
    ensures |lines| == |cs|
  {
    seq(|cs|, i requires 0 <= i < |cs| => LineFor(cs[i], 1 + OldSeen(cs[..i]), 1 + NewSeen(cs[..i])))
  }

  /** `compute_diff`: walks the changes with two counters that start at 1. */
  method ComputeDiff(cs: seq<Change>) returns (lines: seq<DiffLine>)
    ensures lines == NumberedLines(cs)
  {
    lines := [];
    var oldNo, newNo := 1, 1;
    for i := 0 to |cs|
      invariant lines == NumberedLines(cs[..i])
      invariant oldNo == 1 + OldSeen(cs[..i]) && newNo == 1 + NewSeen(cs[..i])
    {
      assert cs[..i + 1][..i] == cs[..i];
      NumberedLinesPrefix(cs[..i + 1], i);
      assert NumberedLines(cs[..i + 1]) == lines + [LineFor(cs[i], oldNo, newNo)];
      match cs[i].tag {
        case Equal =>
          lines := lines + [DiffLine(Unchanged, Some(oldNo), Some(newNo), cs[i].text)];
          oldNo := oldNo + 1;
          newNo := newNo + 1;
        case Delete =>
          lines := lines + [DiffLine(Removed, Some(oldNo), None, cs[i].text)];
          oldNo := oldNo + 1;
        case Insert =>
          lines := lines + [DiffLine(Added, None, Some(newNo), cs[i].text)];
          newNo := newNo + 1;
      }
    }
    assert cs[..|cs|] == cs;
  }

  /** Change `i` keeps its text; its old number is one more than the old lines
      consumed before it (none for an insert), and likewise for the new number
      (none for a delete). */
  lemma NumberedLinesNumbers(cs: seq<Change>, i: nat)
    requires i < |cs|
    ensures NumberedLines(cs)[i].text == cs[i].text
    ensures NumberedLines(cs)[i].oldLineNo == (if cs[i].tag == Insert then None else Some(1 + OldSeen(cs[..i])))
    ensures NumberedLines(cs)[i].newLineNo == (if cs[i].tag == Delete then None else Some(1 + NewSeen(cs[..i])))
  {
  }

  /** Every numbered line carries exactly the numbers its kind calls for. */
  lemma NumberedLinesWellFormed(cs: seq<Change>)
    ensures AllWellFormed(NumberedLines(cs))
  {
  }

  lemma NumberedLineAt(cs: seq<Change>, i: nat)
    requires i < |cs|
    ensures NumberedLines(cs)[i] == LineFor(cs[i], 1 + OldSeen(cs[..i]), 1 + NewSeen(cs[..i]))
  {
  }

  lemma NumberedLinesPrefix(cs: seq<Change>, k: nat)
    requires k <= |cs|
    ensures NumberedLines(cs)[..k] == NumberedLines(cs[..k])
  {
    var a := NumberedLines(cs)[..k];
    var b := NumberedLines(cs[..k]);
    forall i | 0 <= i < k
      ensures a[i] == b[i]
    {
      NumberedLinePrefixAt(cs, k, i);
    }
    assert |a| == |b| == k;
  }

  lemma NumberedLinePrefixAt(cs: seq<Change>, k: nat, i: nat)
    requires i < k <= |cs|
    ensures NumberedLines(cs)[i] == NumberedLines(cs[..k])[i]
  {
    var p := cs[..k];
    assert p[..i] == cs[..i] && p[i] == cs[i];
    NumberedLineAt(cs, i);
    NumberedLineAt(p, i);
  }

  /** The old line numbers present, in order. */
  function OldNumbers(lines: seq<DiffLine>): seq<nat> {
    if lines == [] then []
    else
      var last := lines[|lines| - 1];
      OldNumbers(lines[..|lines| - 1]) + (if last.oldLineNo.Some? then [last.oldLineNo.value] else [])
  }

  /** The new line numbers present, in order. */
  function NewNumbers(lines: seq<DiffLine>): seq<nat> {
    if lines == [] then []
    else
      var last := lines[|lines| - 1];
      NewNumbers(lines[..|lines| - 1]) + (if last.newLineNo.Some? then [last.newLineNo.value] else [])
  }

  /** `n` consecutive numbers starting at `start`. */
  function Iota(start: nat, n: nat): (r: seq<nat>)
    ensures |r| == n
  {
    seq(n, i requires 0 <= i < n => start + i)
  }

  lemma IotaSnoc(start: nat, n: nat)
    ensures Iota(start, n) + [start + n] == Iota(start, n + 1)
  {
  }

  /** Numbering one more change adds its numbers at the end. */
  lemma NumbersStep(cs: seq<Change>)
    requires cs != []
    ensures var k := |cs| - 1;
      OldNumbers(NumberedLines(cs)) == OldNumbers(NumberedLines(cs[..k]))
        + (if cs[k].tag != Insert then [1 + OldSeen(cs[..k])] else [])
    ensures var k := |cs| - 1;
      NewNumbers(NumberedLines(cs)) == NewNumbers(NumberedLines(cs[..k]))
        + (if cs[k].tag != Delete then [1 + NewSeen(cs[..k])] else [])
  {
    var k := |cs| - 1;
    var lines := NumberedLines(cs);
    NumberedLinesPrefix(cs, k);
    assert lines[..|lines| - 1] == NumberedLines(cs[..k]);
    assert lines[|lines| - 1] == LineFor(cs[k], 1 + OldSeen(cs[..k]), 1 + NewSeen(cs[..k]));
  }

  /** The old numbers of the numbered lines run 1, 2, 3, ... with no gap or
      repetition, one per old line consumed. */
  lemma {:induction false} OldNumbersRun(cs: seq<Change>)
    ensures OldNumbers(NumberedLines(cs)) == Iota(1, OldSeen(cs))
    decreases |cs|
  {
    if cs != [] {
      var k := |cs| - 1;
      NumbersStep(cs);
      OldNumbersRun(cs[..k]);
      IotaSnoc(1, OldSeen(cs[..k]));
    }
  }

  /** The same for the new numbers. */
  lemma {:induction false} NewNumbersRun(cs: seq<Change>)
    ensures NewNumbers(NumberedLines(cs)) == Iota(1, NewSeen(cs))
    decreases |cs|
  {
    if cs != [] {
      var k := |cs| - 1;
      NumbersStep(cs);
      NewNumbersRun(cs[..k]);
      IotaSnoc(1, NewSeen(cs[..k]));
    }
  }

  // ---------------------------------------------------------------------------
  // Statistics
  // ---------------------------------------------------------------------------

  datatype DiffStats = DiffStats(added: nat, removed: nat)

  /** How many lines are of kind `k`. */
  function KindCount(lines: seq<DiffLine>, k: DiffLineKind): (n: nat)
    ensures n <= |lines|
  {
    if lines == [] then 0
    else KindCount(lines[..|lines| - 1], k) + (if lines[|lines| - 1].kind == k then 1 else 0)
  }

  /** Lines of two different kinds are counted apart. */
  lemma {:induction false} KindCountsDisjoint(lines: seq<DiffLine>, a: DiffLineKind, b: DiffLineKind)
    requires a != b
    ensures KindCount(lines, a) + KindCount(lines, b) <= |lines|
    decreases |lines|
  {
    if lines != [] {
      KindCountsDisjoint(lines[..|lines| - 1], a, b);
    }
  }

  /** Counting distributes over concatenation. */
  lemma {:induction false} KindCountAppend(a: seq<DiffLine>, b: seq<DiffLine>, k: DiffLineKind)
    ensures KindCount(a + b, k) == KindCount(a, k) + KindCount(b, k)
    decreases |b|
  {
    if b == [] {
      assert a + b == a;
    } else {
      KindCountAppend(a, b[..|b| - 1], k);
      assert (a + b)[..|a + b| - 1] == a + b[..|b| - 1];
    }
  }

  /** `compute_stats`: counts the added and the removed lines. */
  method ComputeStats(lines: seq<DiffLine>) returns (stats: DiffStats)
    ensures stats.added == KindCount(lines, Added)
    ensures stats.removed == KindCount(lines, Removed)
    ensures stats.added + stats.removed <= |lines|
  {
    var added, removed := 0, 0;
    for i := 0 to |lines|
      invariant added == KindCount(lines[..i], Added)
      invariant removed == KindCount(lines[..i], Removed)
    {
      assert lines[..i + 1][..i] == lines[..i];
      match lines[i].kind {
        case Added => added := added + 1;
        case Removed => removed := removed + 1;
        case Unchanged =>
      }
    }
    assert lines[..|lines|] == lines;
    KindCountsDisjoint(lines, Added, Removed);
    stats := DiffStats(added, removed);
  }

  /** How many changes carry `tag`. */
  function TagCount(cs: seq<Change>, tag: ChangeTag): nat {
    if cs == [] then 0 else TagCount(cs[..|cs| - 1], tag) + (if cs[|cs| - 1].tag == tag then 1 else 0)
  }

  /** The kind of line a change tag produces. */
  function KindOfTag(tag: ChangeTag): DiffLineKind {
    match tag
    case Equal => Unchanged
    case Delete => Removed
    case Insert => Added
  }

  lemma {:induction false} KindCountMatchesTags(cs: seq<Change>, tag: ChangeTag)
    ensures KindCount(NumberedLines(cs), KindOfTag(tag)) == TagCount(cs, tag)
    decreases |cs|
  {
    if cs != [] {
      var k := |cs| - 1;
      NumberedLinesPrefix(cs, k);
      KindCountMatchesTags(cs[..k], tag);
      var lines := NumberedLines(cs);
      assert lines[..|lines| - 1] == NumberedLines(cs[..k]);
      assert lines[k].kind == KindOfTag(cs[k].tag);
    }
  }

  /** The added lines are the inserts, the removed lines the deletes and the
      unchanged lines the equal changes. */
  lemma StatsMatchTags(cs: seq<Change>)
    ensures KindCount(NumberedLines(cs), Added) == TagCount(cs, Insert)
    ensures KindCount(NumberedLines(cs), Removed) == TagCount(cs, Delete)
    ensures KindCount(NumberedLines(cs), Unchanged) == TagCount(cs, Equal)
  {
    KindCountMatchesTags(cs, Insert);
    KindCountMatchesTags(cs, Delete);
    KindCountMatchesTags(cs, Equal);
  }

  // ---------------------------------------------------------------------------
  // Unified text (diff.rs `build_unified_text`)
  // ---------------------------------------------------------------------------

  /** The two-character marker that opens a unified line. */
  function Prefix(kind: DiffLineKind): (p: string)
    ensures |p| == 2
  {
    match kind
    case Added => "+ "
    case Removed => "- "
    case Unchanged => "  "
  }

  /** The marker of a line followed by its text. */
  function Segments(lines: seq<DiffLine>): (r: seq<string>)
    ensures |r| == |lines|
  {
    seq(|lines|, i requires 0 <= i < |lines| => Prefix(lines[i].kind) + lines[i].text)
  }

  /** `build_unified_text`: each line's marker and text, concatenated with no
      separator (the texts keep their own line endings). Built up from the
      last line, it is the source's `join("")` of the segments. */
  function UnifiedText(lines: seq<DiffLine>): (r: string)
    ensures r == Join(Segments(lines), "")
    ensures |r| >= 2 * |lines|
  {
    if lines == [] then ""
    else
      var init := lines[..|lines| - 1];
      var r := UnifiedText(init) + Prefix(lines[|lines| - 1].kind) + lines[|lines| - 1].text;
      assert Segments(lines) == Segments(init) + [Prefix(lines[|lines| - 1].kind) + lines[|lines| - 1].text];
      JoinSnoc(Segments(init), Prefix(lines[|lines| - 1].kind) + lines[|lines| - 1].text);
      r
  }

  /** Where line `i`'s marker starts in the unified text. */
  function UnifiedOffset(lines: seq<DiffLine>, i: nat): nat
    requires i <= |lines|
  {
    |UnifiedText(lines[..i])|
  }

  lemma {:induction false} UnifiedTextPrefix(lines: seq<DiffLine>, k: nat)
    requires k <= |lines|
    ensures StartsWith(UnifiedText(lines), UnifiedText(lines[..k]))
    decreases |lines|
  {
    if k < |lines| {
      var n := |lines| - 1;
      assert lines[..n][..k] == lines[..k];
      UnifiedTextPrefix(lines[..n], k);
    } else {
      assert lines[..k] == lines;
    }
  }

  /** Line `i` occupies its own slice of the unified text, in order: its marker
      followed by its text. */
  lemma UnifiedTextSegment(lines: seq<DiffLine>, i: nat)
    requires i < |lines|
    ensures UnifiedOffset(lines, i + 1) == UnifiedOffset(lines, i) + 2 + |lines[i].text|
    ensures UnifiedOffset(lines, i + 1) <= |UnifiedText(lines)|
    ensures UnifiedText(lines)[UnifiedOffset(lines, i)..UnifiedOffset(lines, i + 1)]
            == Prefix(lines[i].kind) + lines[i].text
  {
    var pre := UnifiedText(lines[..i]);
    var seg := Prefix(lines[i].kind) + lines[i].text;
    assert lines[..i + 1][..i] == lines[..i];
    assert UnifiedText(lines[..i + 1]) == pre + seg;
    UnifiedTextPrefix(lines, i + 1);
    var full := UnifiedText(lines);
    assert full[..|pre| + |seg|] == pre + seg;
    assert full[|pre|..|pre| + |seg|] == (pre + seg)[|pre|..];
  }

  // ---------------------------------------------------------------------------
  // Unified line-number gutter (multi_file_diff.rs `format_unified_line_numbers`)
  // ---------------------------------------------------------------------------

  /** One gutter column: the number right-aligned in four characters, or four blanks. */
  function GutterCell(no: Option<nat>): (cell: string)
    ensures |cell| >= 4
    ensures no.None? ==> |cell| == 4 && forall i :: 0 <= i < 4 ==> cell[i] == ' '
    ensures no.Some? ==> EndsWith(cell, NatToString(no.value))
    ensures no.Some? ==> forall i :: 0 <= i < |cell| - |NatToString(no.value)| ==> cell[i] == ' '
  {
    match no
    case Some(n) => PadLeft(NatToString(n), 4)
    case None => "    "
  }

  /** `format_unified_line_numbers`: old cell, a blank, new cell, two blanks. */
  function UnifiedLineNumbers(line: DiffLine): (r: string)
    ensures |r| >= 11
  {
    GutterCell(line.oldLineNo) + " " + GutterCell(line.newLineNo) + "  "
  }

  /** Trimming blanks put in front of a text that does not start with
      whitespace gives the text back. */
  lemma TrimStartBlanks(k: nat, s: string)
    requires s == [] || !IsWhitespace(s[0])
    ensures TrimStart(Blanks(k) + s) == s
  {
    var t := Blanks(k) + s;
    var r := TrimStart(t);
    var j := |t| - |r|;
    assert forall i :: 0 <= i < k ==> t[i] == ' ';
    assert s != [] ==> t[k] == s[0];
    assert r != [] ==> r[0] == t[j];
    assert j == k;
    assert t[k..] == s;
  }

  /** A cell for a number below 10000 reads back as that number, and a cell for
      a missing number is blank. */
  lemma GutterCellRoundTrip(no: Option<nat>)
    requires no.Some? ==> no.value < 10000
    ensures |GutterCell(no)| == 4
    ensures no.None? ==> forall i :: 0 <= i < 4 ==> GutterCell(no)[i] == ' '
    ensures no.Some? ==> ParseNat(TrimStart(GutterCell(no))) == Some(no.value)
  {
    if no.Some? {
      var n := no.value;
      var d := NatToString(n);
      NatToStringShort(n);
      TrimStartBlanks(4 - |d|, d);
      ParseNatToString(n);
    }
  }

  lemma NatToStringShort(n: nat)
    requires n < 10000
    ensures |NatToString(n)| <= 4
  {
    if n >= 10 {
      assert NatToString(n) == NatToString(n / 10) + [DigitChar(n % 10)];
      if n / 10 >= 10 {
        assert NatToString(n / 10) == NatToString(n / 100) + [DigitChar((n / 10) % 10)];
        if n / 100 >= 10 {
          assert NatToString(n / 100) == NatToString(n / 1000) + [DigitChar((n / 100) % 10)];
        }
      }
    }
  }

  /** For numbers below 10000 the gutter is eleven characters wide and each
      column reads back as the line's number. */
  lemma UnifiedLineNumbersColumns(line: DiffLine)
    requires line.oldLineNo.Some? ==> line.oldLineNo.value < 10000
    requires line.newLineNo.Some? ==> line.newLineNo.value < 10000
    ensures |UnifiedLineNumbers(line)| == 11
    ensures UnifiedLineNumbers(line)[..4] == GutterCell(line.oldLineNo)
    ensures UnifiedLineNumbers(line)[5..9] == GutterCell(line.newLineNo)
    ensures line.oldLineNo.Some? ==> ParseNat(TrimStart(UnifiedLineNumbers(line)[..4])) == line.oldLineNo
    ensures line.newLineNo.Some? ==> ParseNat(TrimStart(UnifiedLineNumbers(line)[5..9])) == line.newLineNo
  {
    GutterCellRoundTrip(line.oldLineNo);
    GutterCellRoundTrip(line.newLineNo);
    var a := GutterCell(line.oldLineNo);
    var b := GutterCell(line.newLineNo);
    CellsOfConcat(a, " ", b, "  ");
  }

  /** The first and third parts of `a + s + b + z` sit at their offsets. */
  lemma CellsOfConcat(a: string, s: string, b: string, z: string)
    ensures (a + s + b + z)[..|a|] == a
    ensures (a + s + b + z)[|a| + |s|..|a| + |s| + |b|] == b
  {
    var r := a + s + b + z;
    assert forall i :: 0 <= i < |a| ==> r[i] == a[i];
    assert forall i :: 0 <= i < |b| ==> r[|a| + |s| + i] == b[i];
  }
}

=== FILE: geometry.dfy ===
/** Sizes of list items, in whole pixels (gpui's `Size<Pixels>` with the
    float pixels rounded to integers). */
module Geometry {
  datatype Size = Size(width: nat, height: nat)
}

=== FILE: git_history.dfy ===
/** The git history table (crates/story/examples/git_history.rs): commits,
    the uncommitted-changes entry, and the expandable row whose file tree is
    shown as extra table rows under it. */
module GitHistory {
  import opened Wrappers
  import opened Text
  import opened GitTree

  datatype GitCommit = GitCommit(
    id: string,
    shortId: string,
    description: string,
    author: string,
    date: string,
    branch: Option<string>,
    isUncommitted: bool,
    uncommittedFiles: seq<UncommittedFile>)

  /** `GitCommit::new`: the short id is the first seven characters of the id. */
  function NewCommit(id: string, description: string, author: string, date: string, branch: Option<string>): (c: GitCommit)
    ensures c.shortId == TakeChars(id, 7) && |c.shortId| == if |id| < 7 then |id| else 7
    ensures c.shortId == id[..|c.shortId|]
    ensures !c.isUncommitted && c.uncommittedFiles == []
  {
    GitCommit(id, TakeChars(id, 7), description, author, date, branch, false, [])
  }

  const UncommittedPrefix := "Uncommitted Changes ("

  /** `GitCommit::uncommitted`: empty ids and a description counting the files. */
  function UncommittedCommit(files: seq<UncommittedFile>): (c: GitCommit)
    ensures c.id == [] && c.shortId == [] && c.isUncommitted && c.uncommittedFiles == files
    ensures c.author == "*" && c.branch.None?
    ensures StartsWith(c.description, UncommittedPrefix) && EndsWith(c.description, ")")
  {
    GitCommit([], [], UncommittedPrefix + NatToString(|files|) + ")", "*", "22 Dec 2025 17:48", None, true, files)
  }

  /** The file count can be read back from the description. */
  lemma UncommittedCountReadable(files: seq<UncommittedFile>)
    ensures var d := UncommittedCommit(files).description;
      |d| > |UncommittedPrefix| && ParseNat(d[|UncommittedPrefix|..|d| - 1]) == Some(|files|)
  {
    var d := UncommittedCommit(files).description;
    assert d[|UncommittedPrefix|..|d| - 1] == NatToString(|files|);
    ParseNatToString(|files|);
  }

  // ---------------------------------------------------------------------------
  // The table delegate
  // ---------------------------------------------------------------------------

  datatype Delegate = Delegate(commits: seq<GitCommit>, expandedRow: Option<nat>, fileTreeCache: Option<seq<FlatTreeNode>>)

  /** `GitHistoryDelegate::new`: nothing expanded. */
  function NewDelegate(commits: seq<GitCommit>): (d: Delegate)
    ensures d.commits == commits && d.expandedRow.None? && d.fileTreeCache.None?
  {
    Delegate(commits, None, None)
  }

  /** The rows of a commit's file tree. */
  function TreeRows(c: GitCommit): (rows: seq<FlatTreeNode>)
    ensures |rows| == NodeCount(BuildFileTree(c.uncommittedFiles))
    ensures Unflatten(rows, 0) == BuildFileTree(c.uncommittedFiles)
  {
    var tree := BuildFileTree(c.uncommittedFiles);
    FlattenShape(tree, 0);
    UnflattenFlatten(tree, 0);
    Flatten(tree, 0)
  }

  /** `toggle_row`: the expanded row collapses and drops the cache; another
      row becomes the expanded one, and the cache is rebuilt only when that
      row is an uncommitted entry (otherwise the old cache stays). */
  function ToggleRow(d: Delegate, row: nat): (r: Delegate)
    ensures r.commits == d.commits
    ensures d.expandedRow == Some(row) ==> r.expandedRow.None? && r.fileTreeCache.None?
    ensures d.expandedRow != Some(row) ==> r.expandedRow == Some(row)
    ensures d.expandedRow != Some(row) && row < |d.commits| && d.commits[row].isUncommitted ==>
      r.fileTreeCache == Some(TreeRows(d.commits[row]))
    ensures d.expandedRow != Some(row) && !(row < |d.commits| && d.commits[row].isUncommitted) ==>
      r.fileTreeCache == d.fileTreeCache
  {
    if d.expandedRow == Some(row) then d.(expandedRow := None, fileTreeCache := None)
    else
      var cache := if row < |d.commits| && d.commits[row].isUncommitted then Some(TreeRows(d.commits[row])) else d.fileTreeCache;
      d.(expandedRow := Some(row), fileTreeCache := cache)
  }

  /** The cache holds exactly the expanded commit's tree, and only
      uncommitted entries are expanded (the expand button exists only on
      them). */
  predicate CacheMatches(d: Delegate) {
    match d.expandedRow
    case None => d.fileTreeCache.None?
    case Some(e) => e < |d.commits| && d.commits[e].isUncommitted && d.fileTreeCache == Some(TreeRows(d.commits[e]))
  }

  /** Toggling an uncommitted entry keeps the cache in step with the
      expanded row; toggling twice collapses again. */
  lemma ToggleKeepsCache(d: Delegate, row: nat)
    requires CacheMatches(d) && row < |d.commits| && d.commits[row].isUncommitted
    ensures CacheMatches(ToggleRow(d, row))
    ensures d.expandedRow.None? ==> ToggleRow(ToggleRow(d, row), row) == d
  {
  }

  /** `get_expanded_row_count`. */
  function ExpandedRowCount(d: Delegate): (n: nat)
    ensures d.expandedRow.None? || d.fileTreeCache.None? ==> n == 0
    ensures CacheMatches(d) && d.expandedRow.Some? ==> n == NodeCount(BuildFileTree(d.commits[d.expandedRow.value].uncommittedFiles))
  {
    if d.expandedRow.Some? && d.fileTreeCache.Some? then |d.fileTreeCache.value| else 0
  }

  /** `rows_count`: one row per commit plus the expanded tree rows. */
  function RowsCount(d: Delegate): (n: nat)
    ensures n >= |d.commits|
    ensures n == |d.commits| + ExpandedRowCount(d)
  {
    |d.commits| + ExpandedRowCount(d)
  }

  /** What a table row shows. */
  datatype Target = CommitRow(commit: nat) | TreeRow(node: nat)

  /** The row mapping of `render_td`: rows after the expanded commit show its
      tree, later rows shift back by the tree's size, earlier rows are
      commits. Without an expanded row the first expanded row is
      `usize::MAX`, which no row exceeds. */
  function RowTarget(d: Delegate, row: nat): (t: Target)
    ensures t.TreeRow? <==> d.expandedRow.Some? && d.expandedRow.value < row <= d.expandedRow.value + ExpandedRowCount(d)
    ensures t.TreeRow? ==> row == d.expandedRow.value + 1 + t.node
    ensures t.CommitRow? && d.expandedRow.Some? && row > d.expandedRow.value ==> row == t.commit + ExpandedRowCount(d)
    ensures t.CommitRow? && (d.expandedRow.None? || row <= d.expandedRow.value) ==> row == t.commit
  {
    var count := ExpandedRowCount(d);
    match d.expandedRow
    case None => CommitRow(row)
    case Some(e) =>
      if e < row <= e + count then TreeRow(row - e - 1)
      else if row > e then CommitRow(row - count)
      else CommitRow(row)
  }

  /** The table row that shows a target. */
  function RowFor(d: Delegate, t: Target): (row: nat)
    requires d.expandedRow.Some? || t.CommitRow?
    ensures t.TreeRow? ==> d.expandedRow.value < row
    ensures t.CommitRow? ==> t.commit <= row <= t.commit + ExpandedRowCount(d)
    ensures t.CommitRow? && (d.expandedRow.None? || t.commit <= d.expandedRow.value) ==> row == t.commit
    ensures t.CommitRow? && d.expandedRow.Some? && t.commit > d.expandedRow.value ==> row == t.commit + ExpandedRowCount(d)
  {
    var count := ExpandedRowCount(d);
    match t
    case TreeRow(j) => d.expandedRow.value + 1 + j
    case CommitRow(i) => if d.expandedRow.Some? && i > d.expandedRow.value then i + count else i
  }

  /** The expanded row is a commit. */
  predicate ValidDelegate(d: Delegate) {
    d.expandedRow.Some? ==> d.expandedRow.value < |d.commits|
  }

  /** A target that exists. */
  predicate ValidTarget(d: Delegate, t: Target) {
    match t
    case CommitRow(i) => i < |d.commits|
    case TreeRow(j) => d.expandedRow.Some? && j < ExpandedRowCount(d)
  }

  /** Every table row shows an existing commit or tree node, and that target
      maps back to the row. */
  lemma RowTargetInRange(d: Delegate, row: nat)
    requires ValidDelegate(d) && row < RowsCount(d)
    ensures ValidTarget(d, RowTarget(d, row))
    ensures RowFor(d, RowTarget(d, row)) == row
  {
  }

  /** Every commit and every tree node is shown by exactly one row: the row
      that `RowFor` names. */
  lemma RowForInRange(d: Delegate, t: Target)
    requires ValidDelegate(d) && ValidTarget(d, t)
    ensures RowFor(d, t) < RowsCount(d)
    ensures RowTarget(d, RowFor(d, t)) == t
  {
  }
}

=== FILE: git_tree.dfy ===
/** The file tree of the uncommitted changes in the git history example
    (crates/story/examples/git_history.rs, `build_file_tree`,
    `build_tree_recursive` and `flatten_tree`).

    The source groups paths by their next component in a `HashMap` and then
    sorts the nodes, so the order of the map never shows: the model groups
    in order of first occurrence and sorts the same way. Grouping keys are
    distinct, so the sorted order is fully determined. */
module GitTree {
  import opened Text

  datatype UncommittedFile = UncommittedFile(path: string, added: nat, removed: nat)

  datatype FileTreeNode =
    | Folder(name: string, children: seq<FileTreeNode>)
    | File(name: string, added: nat, removed: nat)

  /** A path still to be placed, as its remaining components, and the file it
      belongs to. */
  datatype Entry = Entry(parts: seq<string>, file: UncommittedFile)

  // ---------------------------------------------------------------------------
  // Ordering: folders first, then by name
  // ---------------------------------------------------------------------------

  /** The comparator of both `sort_by` calls, as "a may come before b". */
  predicate NodeLe(a: FileTreeNode, b: FileTreeNode) {
    (a.Folder? && b.File?) || (a.Folder? == b.Folder? && LexLe(a.name, b.name))
  }

  predicate Sorted(ns: seq<FileTreeNode>) {
    forall i :: 0 <= i < |ns| - 1 ==> NodeLe(ns[i], ns[i + 1])
  }

  /** Inserts after every node that may come before it (a stable insertion). */
  function Insert(x: FileTreeNode, ns: seq<FileTreeNode>): (r: seq<FileTreeNode>)
    requires Sorted(ns)
    ensures Sorted(r) && multiset(r) == multiset(ns) + multiset{x}
    ensures |r| == |ns| + 1
    ensures r != [] && (r[0] == x || (ns != [] && r[0] == ns[0]))
  {
    if ns == [] then [x]
    else if NodeLe(ns[0], x) then
      var tail := Insert(x, ns[1..]);
      assert ns == [ns[0]] + ns[1..];
      [ns[0]] + tail
    else
      LexLeTotal(ns[0].name, x.name);
      [x] + ns
  }

  /** `sort_by` with the folders-first comparator. */
  function Sort(ns: seq<FileTreeNode>): (r: seq<FileTreeNode>)
    ensures Sorted(r) && multiset(r) == multiset(ns) && |r| == |ns|
  {
    if ns == [] then []
    else
      assert ns == ns[..|ns| - 1] + [ns[|ns| - 1]];
      Insert(ns[|ns| - 1], Sort(ns[..|ns| - 1]))
  }

  // ---------------------------------------------------------------------------
  // Grouping
  // ---------------------------------------------------------------------------

  /** The first components of some entries. */
  function HeadSet(items: seq<Entry>): set<string>
    requires forall i :: 0 <= i < |items| ==> items[i].parts != []
  {
    set i | 0 <= i < |items| :: items[i].parts[0]
  }

  /** The distinct first components, in order of first occurrence. */
  function Heads(items: seq<Entry>): (ks: seq<string>)
    requires forall i :: 0 <= i < |items| ==> items[i].parts != []
    ensures forall i, j :: 0 <= i < j < |ks| ==> ks[i] != ks[j]
    ensures (set k | k in ks) == HeadSet(items)
  {
    if items == [] then []
    else
      var init := items[..|items| - 1];
      var rest := Heads(init);
      var k := items[|items| - 1].parts[0];
      assert HeadSet(items)
        == HeadSet(init) + {k} by {
        forall x | x in HeadSet(items)
          ensures x in HeadSet(init) + {k}
        {
          var i :| 0 <= i < |items| && items[i].parts[0] == x;
          if i < |init| {
            assert init[i] == items[i];
          }
        }
        forall x | x in HeadSet(init)
          ensures x in HeadSet(items)
        {
          var i :| 0 <= i < |init| && init[i].parts[0] == x;
          assert items[i] == init[i];
        }
      }
      if k in rest then rest else rest + [k]
  }

  /** The entries whose first component is `k`, in order. */
  function WithHead(items: seq<Entry>, k: string): (r: seq<Entry>)
    requires forall i :: 0 <= i < |items| ==> items[i].parts != []
    ensures forall i :: 0 <= i < |r| ==> r[i] in items && r[i].parts[0] == k
    ensures forall i :: 0 <= i < |items| && items[i].parts[0] == k ==> items[i] in r
  {
    if items == [] then []
    else WithHead(items[..|items| - 1], k) + (if items[|items| - 1].parts[0] == k then [items[|items| - 1]] else [])
  }

  /** The entries that go deeper, with their first component dropped. */
  function Tails(items: seq<Entry>): (r: seq<Entry>)
    ensures forall i :: 0 <= i < |r| ==> r[i].parts != []
    ensures forall i :: 0 <= i < |r| ==> exists j :: 0 <= j < |items| && |items[j].parts| > 1 && r[i] == Entry(items[j].parts[1..], items[j].file)
    ensures forall j :: 0 <= j < |items| && |items[j].parts| > 1 ==> Entry(items[j].parts[1..], items[j].file) in r
  {
    if items == [] then []
    else
      var init, e := items[..|items| - 1], items[|items| - 1];
      assert forall j :: 0 <= j < |init| ==> init[j] == items[j];
      var rest := Tails(init);
      var r := rest + (if |e.parts| > 1 then [Entry(e.parts[1..], e.file)] else []);
      assert forall i :: 0 <= i < |rest| ==> r[i] == rest[i];
      assert |r| > |rest| ==> r[|rest|] == Entry(items[|items| - 1].parts[1..], items[|items| - 1].file);
      r
  }

  /** Every entry has between 1 and `bound` components. */
  predicate Bounded(items: seq<Entry>, bound: nat) {
    forall i :: 0 <= i < |items| ==> 1 <= |items[i].parts| <= bound
  }

  /** Every entry ends here. */
  predicate AllSingle(items: seq<Entry>) {
    forall i :: 0 <= i < |items| ==> |items[i].parts| == 1
  }

  /** `build_tree_recursive`: a file when every entry ends here (taking the
      first entry's counts), otherwise a folder of the deeper entries, grouped
      by their next component; entries that end here are then dropped.
      `bound` only limits the depth of the recursion. */
  function BuildNode(name: string, items: seq<Entry>, bound: nat): (n: FileTreeNode)
    requires Bounded(items, bound)
    ensures n.name == name
    ensures n.File? <==> AllSingle(items) && items != []
    ensures n.File? ==> n.added == items[0].file.added && n.removed == items[0].file.removed
    ensures n.Folder? ==> Sorted(n.children) && Names(n.children) == HeadSet(Tails(items))
    decreases bound, 0
  {
    if AllSingle(items) && items != [] then File(name, items[0].file.added, items[0].file.removed)
    else if bound == 0 then Folder(name, [])
    else Folder(name, Group(Tails(items), bound - 1))
  }

  /** The names of some nodes. */
  function Names(ns: seq<FileTreeNode>): set<string> {
    set i | 0 <= i < |ns| :: ns[i].name
  }

  /** One level of the tree: a node per distinct first component, sorted. */
  function Group(items: seq<Entry>, bound: nat): (ns: seq<FileTreeNode>)
    requires Bounded(items, bound)
    ensures Sorted(ns)
    ensures |ns| == |Heads(items)|
    ensures Names(ns) == HeadSet(items)
    decreases bound, 1
  {
    var ks := Heads(items);
    var built := seq(|ks|, i requires 0 <= i < |ks| => BuildNode(ks[i], WithHead(items, ks[i]), bound));
    var ns := Sort(built);
    assert Names(built) == set k | k in ks by {
      forall k | k in ks
        ensures k in Names(built)
      {
        var i :| 0 <= i < |ks| && ks[i] == k;
        assert built[i].name == k;
      }
    }
    SameNames(built, ns);
    ns
  }

  /** Reordering keeps the set of names. */
  lemma SameNames(a: seq<FileTreeNode>, b: seq<FileTreeNode>)
    requires multiset(a) == multiset(b)
    ensures Names(a) == Names(b)
  {
    forall k | k in Names(a)
      ensures k in Names(b)
    {
      var i :| 0 <= i < |a| && a[i].name == k;
      assert a[i] in multiset(b);
      var j :| 0 <= j < |b| && b[j] == a[i];
    }
    forall k | k in Names(b)
      ensures k in Names(a)
    {
      var i :| 0 <= i < |b| && b[i].name == k;
      assert b[i] in multiset(a);
      var j :| 0 <= j < |a| && a[j] == b[i];
    }
  }

  /** The longest path, counted in components. */
  function MaxParts(items: seq<Entry>): (m: nat)
    ensures forall i :: 0 <= i < |items| ==> |items[i].parts| <= m
  {
    if items == [] then 0
    else
      var m := MaxParts(items[..|items| - 1]);
      var n := |items[|items| - 1].parts|;
      if n > m then n else m
  }

  /** The entries of the files, one per path split at `/`. */
  function EntriesOf(files: seq<UncommittedFile>): (items: seq<Entry>)
    ensures |items| == |files|
    ensures forall i :: 0 <= i < |items| ==> items[i] == Entry(Split(files[i].path, '/'), files[i])
  {
    seq(|files|, i requires 0 <= i < |files| => Entry(Split(files[i].path, '/'), files[i]))
  }

  /** `build_file_tree`: the top level of the tree, one node per distinct
      first path component, folders first and then by name. */
  function BuildFileTree(files: seq<UncommittedFile>): (tree: seq<FileTreeNode>)
    ensures Sorted(tree)
    ensures Names(tree) == set j | 0 <= j < |files| :: Split(files[j].path, '/')[0]
  {
    var items := EntriesOf(files);
    var tree := Group(items, MaxParts(items));
    assert HeadSet(items) == set j | 0 <= j < |files| :: Split(files[j].path, '/')[0];
    tree
  }

  // ---------------------------------------------------------------------------
  // Flattening
  // ---------------------------------------------------------------------------

  /** `FlatTreeNode`: one table row of the tree. */
  datatype FlatTreeNode = FlatTreeNode(name: string, depth: nat, isFolder: bool, added: nat, removed: nat)

  /** The row of one node; a folder shows no counts. */
  function RowOf(n: FileTreeNode, depth: nat): (row: FlatTreeNode)
    ensures row.name == n.name && row.depth == depth && row.isFolder == n.Folder?
    ensures row.isFolder ==> row.added == 0 && row.removed == 0
  {
    match n
    case Folder(name, _) => FlatTreeNode(name, depth, true, 0, 0)
    case File(name, a, r) => FlatTreeNode(name, depth, false, a, r)
  }

  /** `flatten_tree`: pre-order, each folder followed by its children one
      level deeper. */
  function Flatten(nodes: seq<FileTreeNode>, depth: nat): (rows: seq<FlatTreeNode>)
    ensures nodes != [] ==> rows != [] && rows[0] == RowOf(nodes[0], depth)
    decreases nodes
  {
    if nodes == [] then []
    else
      [RowOf(nodes[0], depth)]
      + (if nodes[0].Folder? then Flatten(nodes[0].children, depth + 1) else [])
      + Flatten(nodes[1..], depth)
  }

  /** Nodes of a forest, folders and files alike. */
  function NodeCount(nodes: seq<FileTreeNode>): nat
    decreases nodes
  {
    if nodes == [] then 0
    else 1 + (if nodes[0].Folder? then NodeCount(nodes[0].children) else 0) + NodeCount(nodes[1..])
  }

  /** One row per node; every row is at least as deep as the forest. */
  lemma {:induction false} FlattenShape(nodes: seq<FileTreeNode>, depth: nat)
    ensures |Flatten(nodes, depth)| == NodeCount(nodes)
    ensures forall i :: 0 <= i < |Flatten(nodes, depth)| ==> Flatten(nodes, depth)[i].depth >= depth
    decreases nodes
  {
    if nodes != [] {
      if nodes[0].Folder? {
        FlattenShape(nodes[0].children, depth + 1);
      }
      FlattenShape(nodes[1..], depth);
    }
  }

  /** The first row at or above `depth`, or `|rows|`. */
  function EndOfBlock(rows: seq<FlatTreeNode>, depth: nat): (k: nat)
    ensures k <= |rows|
    ensures forall i :: 0 <= i < k ==> rows[i].depth > depth
    ensures k < |rows| ==> rows[k].depth <= depth
  {
    if rows == [] then 0 else if rows[0].depth <= depth then 0 else 1 + EndOfBlock(rows[1..], depth)
  }

  /** Rebuilds a forest from its rows: each row is a node, and the rows below
      a folder that are deeper than it are its children. */
  function Unflatten(rows: seq<FlatTreeNode>, depth: nat): seq<FileTreeNode>
    decreases |rows|
  {
    if rows == [] then []
    else
      var r := rows[0];
      var k := 1 + EndOfBlock(rows[1..], depth);
      var node := if r.isFolder then Folder(r.name, Unflatten(rows[1..k], depth + 1)) else File(r.name, r.added, r.removed);
      [node] + Unflatten(rows[k..], depth)
  }

  /** A block of deeper rows ends where the next sibling starts. */
  lemma EndOfDeeper(a: seq<FlatTreeNode>, b: seq<FlatTreeNode>, depth: nat)
    requires forall i :: 0 <= i < |a| ==> a[i].depth > depth
    requires b != [] ==> b[0].depth <= depth
    ensures EndOfBlock(a + b, depth) == |a|
    decreases |a|
  {
    if a != [] {
      assert (a + b)[1..] == a[1..] + b;
      EndOfDeeper(a[1..], b, depth);
    } else {
      assert a + b == b;
    }
  }

  /** One step of `Unflatten`, for rows that start with a node followed by a
      block of deeper rows. */
  lemma UnflattenStep(r: FlatTreeNode, below: seq<FlatTreeNode>, rest: seq<FlatTreeNode>, depth: nat)
    requires forall i :: 0 <= i < |below| ==> below[i].depth > depth
    requires rest != [] ==> rest[0].depth <= depth
    ensures Unflatten([r] + below + rest, depth)
      == [if r.isFolder then Folder(r.name, Unflatten(below, depth + 1)) else File(r.name, r.added, r.removed)]
         + Unflatten(rest, depth)
  {
    var rows := [r] + below + rest;
    assert rows[1..] == below + rest;
    EndOfDeeper(below, rest, depth);
    assert rows[1..1 + |below|] == below;
    assert rows[1 + |below|..] == rest;
  }

  /** Flattening loses nothing: the rows give the tree back. */
  lemma {:induction false} UnflattenFlatten(nodes: seq<FileTreeNode>, depth: nat)
    ensures Unflatten(Flatten(nodes, depth), depth) == nodes
    decreases nodes
  {
    if nodes != [] {
      var n := nodes[0];
      var below := if n.Folder? then Flatten(n.children, depth + 1) else [];
      var rest := Flatten(nodes[1..], depth);
      if n.Folder? {
        FlattenShape(n.children, depth + 1);
        UnflattenFlatten(n.children, depth + 1);
      }
      if nodes[1..] != [] {
        assert rest[0] == RowOf(nodes[1], depth);
      }
      UnflattenStep(RowOf(n, depth), below, rest, depth);
      UnflattenFlatten(nodes[1..], depth);
      assert nodes == [n] + nodes[1..];
    }
  }
}

=== FILE: inline_markdown.dfy ===
/** The inline markdown scanner of the WYSIWYG editor
    (examples/wysiwyg_editor/src/main.rs, `parse_inline_segments`).

    The source walks the characters with a peekable iterator, a text buffer
    and one `current` segment whose four flags toggle at markers. The model
    is the same walk as a function of the unread input: `Walk` consumes one
    marker, one link or one plain character per step. */
module InlineMarkdown {
  import opened Wrappers
  import opened Text

  datatype Style = Style(bold: bool, italic: bool, code: bool, strikethrough: bool)

  /** `InlineSegment`: a run of text with its style and, for a link, its URL. */
  datatype Segment = Segment(text: string, style: Style, link: Option<string>)

  /** The style of `InlineSegment::default()`. */
  const Plain := Style(false, false, false, false)

  /** Characters that can start markup. */
  predicate IsMarker(c: char) {
    c == '*' || c == '_' || c == '`' || c == '~' || c == '['
  }

  /** Pushes the buffer as a segment when it is not empty. */
  function Flush(segs: seq<Segment>, buf: string, st: Style): (r: seq<Segment>)
    ensures buf == [] ==> r == segs
    ensures buf != [] ==> r == segs + [Segment(buf, st, None)]
  {
    if buf == [] then segs else segs + [Segment(buf, st, None)]
  }

  /** What follows a `[`: a link segment, or literal text for the buffer;
      either way with the input left unread. */
  datatype Bracket = Linked(seg: Segment, rest: string) | Literal(text: string, rest: string)

  /** Reads up to the closing `]` and, when a `(` follows it, up to the
      closing `)` (or the end). Without a `]` the whole rest is literal. */
  function ReadBracket(t: string, st: Style): (r: Bracket)
    ensures |r.rest| <= |t|
  {
    var k := IndexOf(t, ']');
    if k == |t| then Literal(['['] + t, [])
    else
      var caption := t[..k];
      var after := t[k + 1..];
      if after != [] && after[0] == '(' then
        var u := IndexOf(after[1..], ')');
        var url := after[1..][..u];
        Linked(Segment(caption, st, Some(url)), if u < |after[1..]| then after[1..][u + 1..] else [])
      else Literal(['['] + caption + [']'], after)
  }

  /** The scanning loop, from the unread input `s` with style `st`, text
      buffer `buf` and the segments `segs` pushed so far. */
  function Walk(s: string, st: Style, buf: string, segs: seq<Segment>): seq<Segment>
    decreases |s|
  {
    if s == [] then Flush(segs, buf, st)
    else
      var c := s[0];
      var t := s[1..];
      if c == '*' || c == '_' then
        if t != [] && t[0] == c then Walk(t[1..], st.(bold := !st.bold), [], Flush(segs, buf, st))
        else Walk(t, st.(italic := !st.italic), [], Flush(segs, buf, st))
      else if c == '`' then Walk(t, st.(code := !st.code), [], Flush(segs, buf, st))
      else if c == '~' && t != [] && t[0] == '~' then
        Walk(t[1..], st.(strikethrough := !st.strikethrough), [], Flush(segs, buf, st))
      else if c == '[' then
        match ReadBracket(t, st)
        case Linked(seg, rest) => Walk(rest, st, [], Flush(segs, buf, st) + [seg])
        case Literal(lit, rest) => Walk(rest, st, lit, Flush(segs, buf, st))
      else Walk(t, st, buf + [c], segs)
  }

  /** The segments whose text is not empty, in order. */
  function NonEmpty(segs: seq<Segment>): (r: seq<Segment>)
    ensures |r| <= |segs|
    ensures forall i :: 0 <= i < |r| ==> r[i].text != [] && r[i] in segs
    ensures forall i :: 0 <= i < |segs| && segs[i].text != [] ==> segs[i] in r
  {
    if segs == [] then []
    else (if segs[0].text != [] then [segs[0]] else []) + NonEmpty(segs[1..])
  }

  /** `parse_inline_segments`. */
  function ParseInlineSegments(text: string): (r: seq<Segment>)
    ensures |r| >= 1
    ensures r == [Segment(text, Plain, None)] || forall i :: 0 <= i < |r| ==> r[i].text != []
  {
    var kept := NonEmpty(Walk(text, Plain, [], []));
    if kept == [] then [Segment(text, Plain, None)] else kept
  }

  // ---------------------------------------------------------------------------
  // Properties
  // ---------------------------------------------------------------------------

  /** Text without markers goes straight into the buffer. */
  lemma {:induction false} WalkPlain(p: string, s: string, st: Style, buf: string, segs: seq<Segment>)
    requires forall i :: 0 <= i < |p| ==> !IsMarker(p[i])
    ensures Walk(p + s, st, buf, segs) == Walk(s, st, buf + p, segs)
    decreases |p|
  {
    if p != [] {
      assert (p + s)[0] == p[0] && (p + s)[1..] == p[1..] + s;
      WalkPlain(p[1..], s, st, buf + [p[0]], segs);
      assert buf + [p[0]] + p[1..] == buf + p;
    } else {
      assert p + s == s && buf + p == buf;
    }
  }

  /** Text without markers is one plain segment holding the whole text. */
  lemma PlainTextIsOneSegment(text: string)
    requires forall i :: 0 <= i < |text| ==> !IsMarker(text[i])
    ensures ParseInlineSegments(text) == [Segment(text, Plain, None)]
  {
    WalkPlain(text, [], Plain, [], []);
    assert text + [] == text && [] + text == text;
  }

  /** A doubled `*` or `_` flushes the buffer and toggles bold. */
  lemma DoubleMarkerTogglesBold(c: char, s: string, st: Style, buf: string, segs: seq<Segment>)
    requires c == '*' || c == '_'
    ensures Walk([c, c] + s, st, buf, segs) == Walk(s, st.(bold := !st.bold), [], Flush(segs, buf, st))
  {
    assert ([c, c] + s)[1..][1..] == s;
  }

  /** A single `*` or `_` flushes the buffer and toggles italic. */
  lemma SingleMarkerTogglesItalic(c: char, s: string, st: Style, buf: string, segs: seq<Segment>)
    requires c == '*' || c == '_'
    requires s == [] || s[0] != c
    ensures Walk([c] + s, st, buf, segs) == Walk(s, st.(italic := !st.italic), [], Flush(segs, buf, st))
  {
    assert ([c] + s)[1..] == s;
  }

  /** `~~` toggles strikethrough; a lone `~` is ordinary text. */
  lemma TildeRules(s: string, st: Style, buf: string, segs: seq<Segment>)
    ensures Walk("~~" + s, st, buf, segs) == Walk(s, st.(strikethrough := !st.strikethrough), [], Flush(segs, buf, st))
    ensures s == [] || s[0] != '~' ==> Walk("~" + s, st, buf, segs) == Walk(s, st, buf + "~", segs)
  {
    assert ("~~" + s)[1..][1..] == s;
    assert ("~" + s)[1..] == s;
  }

  /** One step of the walk at a `[`. */
  lemma WalkAtBracket(t: string, st: Style, buf: string, segs: seq<Segment>)
    ensures Walk(['['] + t, st, buf, segs) ==
      match ReadBracket(t, st)
      case Linked(seg, rest) => Walk(rest, st, [], Flush(segs, buf, st) + [seg])
      case Literal(lit, rest) => Walk(rest, st, lit, Flush(segs, buf, st))
  {
    assert (['['] + t)[1..] == t;
  }

  /** `[caption](url)` becomes one segment with the caption as text, the URL
      as link and the current style; nothing of the URL reaches a text. */
  lemma LinkSegment(caption: string, url: string, s: string, st: Style, buf: string, segs: seq<Segment>)
    requires ']' !in caption && ')' !in url
    ensures Walk("[" + caption + "](" + url + ")" + s, st, buf, segs)
      == Walk(s, st, [], Flush(segs, buf, st) + [Segment(caption, st, Some(url))])
  {
    var t := caption + "](" + url + ")" + s;
    assert "[" + caption + "](" + url + ")" + s == ['['] + t;
    WalkAtBracket(t, st, buf, segs);
    ReadLink(caption, url, s, st);
  }

  lemma ReadLink(caption: string, url: string, s: string, st: Style)
    requires ']' !in caption && ')' !in url
    ensures ReadBracket(caption + "](" + url + ")" + s, st) == Linked(Segment(caption, st, Some(url)), s)
  {
    var t := caption + "](" + url + ")" + s;
    var k := |caption|;
    IndexOfAt(t, caption, ']');
    assert t[..k] == caption;
    var after := t[k + 1..];
    assert after == "(" + url + ")" + s;
    var u := url + ")" + s;
    assert after[1..] == u;
    IndexOfAt(u, url, ')');
    assert u[..|url|] == url;
    assert u[|url| + 1..] == s;
  }

  /** `[caption]` not followed by `(` stays literal text. */
  lemma BracketWithoutUrlIsLiteral(caption: string, s: string, st: Style, buf: string, segs: seq<Segment>)
    requires ']' !in caption
    requires s == [] || s[0] != '('
    ensures Walk("[" + caption + "]" + s, st, buf, segs) == Walk(s, st, "[" + caption + "]", Flush(segs, buf, st))
  {
    var t := caption + "]" + s;
    assert "[" + caption + "]" + s == ['['] + t;
    WalkAtBracket(t, st, buf, segs);
    assert ReadBracket(t, st) == Literal("[" + caption + "]", s) by {
      IndexOfAt(t, caption, ']');
      assert t[..|caption|] == caption;
      assert t[|caption| + 1..] == s;
    }
  }

  /** An unclosed `[` keeps itself and all the rest as literal text. */
  lemma UnclosedBracketIsLiteral(s: string, st: Style, buf: string, segs: seq<Segment>)
    requires ']' !in s
    ensures Walk("[" + s, st, buf, segs) == Flush(segs, buf, st) + [Segment("[" + s, st, None)]
  {
    assert ("[" + s)[1..] == s;
  }

  /** Where `c` first occurs right after a prefix free of `c`. */
  lemma IndexOfAt(s: string, prefix: string, c: char)
    requires c !in prefix && |prefix| < |s| && s[..|prefix|] == prefix && s[|prefix|] == c
    ensures IndexOf(s, c) == |prefix|
  {
    assert forall i :: 0 <= i < |prefix| ==> s[i] == prefix[i];
  }

  /** Worked example: plain text, then a bold run. */
  lemma BoldExample()
    ensures ParseInlineSegments("a **b**") == [Segment("a ", Plain, None), Segment("b", Plain.(bold := true), None)]
  {
    var bold := Plain.(bold := true);
    var first := [Segment("a ", Plain, None)];
    var both := first + [Segment("b", bold, None)];
    assert "a **b**" == "a " + "**b**";
    WalkPlain("a ", "**b**", Plain, [], []);
    assert "**b**" == ['*', '*'] + "b**";
    DoubleMarkerTogglesBold('*', "b**", Plain, "a ", []);
    assert "b**" == "b" + "**";
    WalkPlain("b", "**", bold, [], first);
    assert "**" == ['*', '*'] + [];
    DoubleMarkerTogglesBold('*', [], bold, "b", first);
    assert [] + "a " == "a " && [] + "b" == "b";
    assert Flush([], "a ", Plain) == first;
    assert Flush(first, "b", bold) == both;
    assert Walk([], Plain, [], both) == both;
    assert Walk("a **b**", Plain, [], []) == both;
    assert NonEmpty(both) == both by {
      assert both[1..] == [Segment("b", bold, None)];
    }
  }

  /** Worked example: markers alone leave no text, so the whole input comes
      back as one plain segment. */
  lemma FallbackExample()
    ensures ParseInlineSegments("**") == [Segment("**", Plain, None)]
  {
    assert "**" == ['*', '*'] + [];
    DoubleMarkerTogglesBold('*', [], Plain, [], []);
    assert Walk("**", Plain, [], []) == [];
  }
}

=== FILE: input_group.dfy ===
/** Input groups (crates/ui/src/input/input_group.rs): the alignment of an
    addon decides its padding and whether it spans the full width; the group
    carries a disabled flag. Styles and children are not modelled; padding is
    in whole pixels. */
module InputGroup {

  datatype Align = InlineStart | InlineEnd | BlockStart | BlockEnd

  /** The alignment `Default` gives and `InputGroupAddon::new` starts with. */
  const DefaultAlign: Align := InlineStart

  /** The padding unit of an addon. */
  const AddonPadding: nat := 12

  datatype Padding = Padding(left: nat, right: nat, top: nat, bottom: nat)

  /** `InputGroupAlign::padding`: inline alignments pad only the side they sit
      on; block alignments pad both sides and the edge facing away from the
      input. */
  function PaddingOf(a: Align): (p: Padding)
    ensures p.left in {0, AddonPadding} && p.right in {0, AddonPadding}
    ensures p.top in {0, AddonPadding} && p.bottom in {0, AddonPadding}
    ensures p.left == AddonPadding <==> a != InlineEnd
    ensures p.right == AddonPadding <==> a != InlineStart
    ensures p.top == AddonPadding <==> a == BlockStart
    ensures p.bottom == AddonPadding <==> a == BlockEnd
  {
    match a
    case InlineStart => Padding(AddonPadding, 0, 0, 0)
    case InlineEnd => Padding(0, AddonPadding, 0, 0)
    case BlockStart => Padding(AddonPadding, AddonPadding, AddonPadding, 0)
    case BlockEnd => Padding(AddonPadding, AddonPadding, 0, AddonPadding)
  }

  /** `is_full_width`: the block alignments. */
  predicate IsFullWidth(a: Align) {
    a == BlockStart || a == BlockEnd
  }

  /** A full-width addon is exactly one padded on both sides, and the padding
      tells the alignment apart. */
  lemma PaddingDeterminesAlign(a: Align, b: Align)
    ensures IsFullWidth(a) <==> PaddingOf(a).left > 0 && PaddingOf(a).right > 0
    ensures PaddingOf(a) == PaddingOf(b) <==> a == b
  {
  }

  datatype Addon = Addon(align: Align, children: nat)

  /** `InputGroupAddon::new` and `Default`. */
  function NewAddon(): (r: Addon)
    ensures r.align == InlineStart && r.children == 0 && !IsFullWidth(r.align)
  {
    Addon(DefaultAlign, 0)
  }

  /** `align` and its four shorthands set the alignment and nothing else. */
  function WithAlign(x: Addon, a: Align): (r: Addon)
    ensures r.align == a && r.children == x.children
  {
    x.(align := a)
  }

  function BlockEndOf(x: Addon): (r: Addon)
    ensures r == WithAlign(x, BlockEnd)
  {
    x.(align := BlockEnd)
  }

  function BlockStartOf(x: Addon): (r: Addon)
    ensures r == WithAlign(x, BlockStart)
  {
    x.(align := BlockStart)
  }

  function InlineEndOf(x: Addon): (r: Addon)
    ensures r == WithAlign(x, InlineEnd)
  {
    x.(align := InlineEnd)
  }

  function InlineStartOf(x: Addon): (r: Addon)
    ensures r == WithAlign(x, InlineStart)
  {
    x.(align := InlineStart)
  }

  /** The last alignment builder wins. */
  lemma LastAlignWins(x: Addon, a: Align, b: Align)
    ensures WithAlign(WithAlign(x, a), b) == WithAlign(x, b)
    ensures InlineStartOf(x) == x <==> x.align == DefaultAlign
  {
  }

  datatype Group = Group(children: nat, disabled: bool)

  /** `InputGroup::new`: enabled, no children. */
  function NewGroup(): (g: Group)
    ensures !g.disabled && g.children == 0
  {
    Group(0, false)
  }

  /** `disabled(b)`. */
  function SetDisabled(g: Group, b: bool): (r: Group)
    ensures r.disabled == b && r.children == g.children
  {
    g.(disabled := b)
  }
}

=== FILE: knowledge_hub.dfy ===
/** The knowledge hub story (crates/story/examples/knowledge_hub.rs): quick
    tiles laid out two to a row and a list of recent items served by a
    list delegate. Icons and colours are left out. */
module KnowledgeHub {
  import opened Wrappers
  import opened Text

  datatype QuickTile = QuickTile(id: string, title: string)

  datatype RecentItem = RecentItem(id: string, title: string, meta: string, showPlay: bool)

  /** A position in a list: gpui-component's `IndexPath`. */
  datatype IndexPath = IndexPath(section: nat, row: nat)

  datatype RecentList = RecentList(items: seq<RecentItem>, selected: Option<IndexPath>)

  /** `RecentListDelegate::new`: nothing selected. */
  function NewRecentList(items: seq<RecentItem>): (d: RecentList)
    ensures d.items == items && d.selected.None?
  {
    RecentList(items, None)
  }

  /** `items_count`: the same count for every section. */
  function ItemsCount(d: RecentList, section: nat): (n: nat)
    ensures n == |d.items|
  {
    |d.items|
  }

  /** `render_item`: the row's item, or nothing past the end. The section
      is not consulted. */
  function RenderItem(d: RecentList, ix: IndexPath): (r: Option<(IndexPath, RecentItem)>)
    ensures r.Some? <==> ix.row < |d.items|
    ensures r.Some? ==> r.value == (ix, d.items[ix.row])
  {
    if ix.row < |d.items| then Some((ix, d.items[ix.row])) else None
  }

  /** `set_selected_index`: stores what it is given, clearing included. */
  function SetSelectedIndex(d: RecentList, ix: Option<IndexPath>): (r: RecentList)
    ensures r.selected == ix && r.items == d.items
  {
    d.(selected := ix)
  }

  /** Height of one recent row, in pixels. */
  const RowHeight := 64

  /** `render_recent_list`: room for every row, and for one when empty. */
  function ListHeight(d: RecentList): (h: nat)
    ensures h >= RowHeight
    ensures d.items != [] ==> h == RowHeight * |d.items|
    ensures d.items == [] ==> h == RowHeight
  {
    RowHeight * (if |d.items| < 1 then 1 else |d.items|)
  }

  /** `render_tiles`: `chunks(2)`, in order. */
  function TileRows(tiles: seq<QuickTile>): (rows: seq<seq<QuickTile>>)
    ensures |rows| == (|tiles| + 1) / 2
    ensures forall i :: 0 <= i < |rows| ==> 1 <= |rows[i]| <= 2
    ensures forall i :: 0 <= i < |rows| - 1 ==> |rows[i]| == 2
    decreases |tiles|
  {
    if |tiles| <= 2 then (if tiles == [] then [] else [tiles])
    else
      var rest := TileRows(tiles[2..]);
      assert forall i :: 1 <= i < |rest| + 1 ==> ([tiles[..2]] + rest)[i] == rest[i - 1];
      [tiles[..2]] + rest
  }

  /** Where the `i`-th chunk of two ends among `n` tiles. */
  function ChunkEnd(i: nat, n: nat): nat {
    if 2 * i + 2 <= n then 2 * i + 2 else n
  }

  function Flatten(rows: seq<seq<QuickTile>>): seq<QuickTile> {
    if rows == [] then [] else rows[0] + Flatten(rows[1..])
  }

  // ---------------------------------------------------------------------------
  // Properties
  // ---------------------------------------------------------------------------

  /** Reading the tile rows back gives the tiles in order. */
  lemma {:induction false} TileRowsKeepOrder(tiles: seq<QuickTile>)
    ensures Flatten(TileRows(tiles)) == tiles
    decreases |tiles|
  {
    if |tiles| > 2 {
      TileRowsKeepOrder(tiles[2..]);
      assert TileRows(tiles)[1..] == TileRows(tiles[2..]);
      assert tiles == tiles[..2] + tiles[2..];
    } else if tiles != [] {
      assert Flatten([tiles]) == tiles + Flatten([]);
    }
  }

  /** Row `i` holds exactly tiles `2i` and `2i + 1`, or tile `2i` alone
      when it is the last one: the rows are the chunks of two. */
  lemma TileRowsAreChunks(tiles: seq<QuickTile>)
    ensures forall i :: 0 <= i < |TileRows(tiles)| ==> TileRows(tiles)[i] == tiles[2 * i .. ChunkEnd(i, |tiles|)]
  {
    forall i | 0 <= i < |TileRows(tiles)| ensures TileRows(tiles)[i] == tiles[2 * i .. ChunkEnd(i, |tiles|)] {
      ChunkAt(tiles, i);
    }
  }

  lemma {:induction false} ChunkAt(tiles: seq<QuickTile>, i: nat)
    requires i < |TileRows(tiles)|
    ensures TileRows(tiles)[i] == tiles[2 * i .. ChunkEnd(i, |tiles|)]
    decreases i
  {
    if i > 0 {
      assert |tiles| > 2;
      var rest := tiles[2..];
      assert TileRows(tiles) == [tiles[..2]] + TileRows(rest);
      ChunkAt(rest, i - 1);
      var end := ChunkEnd(i - 1, |rest|);
      assert ChunkEnd(i, |tiles|) == end + 2;
      DropSlice(tiles, 2, 2 * i - 2, end);
    }
  }

  /** Every row the list asks for, `0 .. items_count`, renders, and nothing
      beyond; selection does not change what renders. */
  lemma RowsRender(d: RecentList, section: nat, ix: Option<IndexPath>)
    ensures forall row: nat :: RenderItem(d, IndexPath(section, row)).Some? <==> row < ItemsCount(d, section)
    ensures forall p :: RenderItem(SetSelectedIndex(d, ix), p) == RenderItem(d, p)
  {
  }
}

=== FILE: markdown_cache.dfy ===
/** The markdown state wrapper and its keyed cache
    (crates/ui/src/text/markdown_view.rs). A `MarkdownState` is a handle on
    a text-view entity; the model keeps the text the entity holds, and the
    cache is a map from keys to those states. Parsing, which the entity does
    asynchronously, is not modelled. */
module MarkdownCache {

  datatype MarkdownState = MarkdownState(text: string)

  type Cache = map<string, MarkdownState>

  /** `MarkdownState::new`. */
  function NewState(text: string): (s: MarkdownState)
    ensures s.text == text
  {
    MarkdownState(text)
  }

  /** `set_text`: the content becomes `text`. */
  function SetText(s: MarkdownState, text: string): (r: MarkdownState)
    ensures r.text == text
  {
    s.(text := text)
  }

  /** `push_str`: `text` is appended to the content (streaming output). */
  function PushStr(s: MarkdownState, text: string): (r: MarkdownState)
    ensures |r.text| == |s.text| + |text|
    ensures r.text[..|s.text|] == s.text && r.text[|s.text|..] == text
  {
    s.(text := s.text + text)
  }

  /** Pushing two chunks is pushing their concatenation; setting after
      pushing forgets what was pushed. */
  lemma PushStrAssociates(s: MarkdownState, a: string, b: string, t: string)
    ensures PushStr(PushStr(s, a), b) == PushStr(s, a + b)
    ensures SetText(PushStr(s, a), t) == SetText(s, t)
    ensures PushStr(SetText(s, ""), t) == NewState(t)
  {
    assert s.text + a + b == s.text + (a + b);
    assert "" + t == t;
  }

  datatype Lookup = Lookup(cache: Cache, state: MarkdownState)

  /** `get_or_create_markdown_state`: a cached key returns its state and
      leaves the cache alone; a missing key gets a new state from `text`. */
  function GetOrCreate(cache: Cache, key: string, text: string): (r: Lookup)
    ensures key in cache ==> r.cache == cache && r.state == cache[key]
    ensures key !in cache ==> r.state.text == text && r.cache == cache[key := r.state]
    ensures key in r.cache && r.cache[key] == r.state
    ensures r.cache.Keys == cache.Keys + {key}
  {
    if key in cache then Lookup(cache, cache[key])
    else
      var state := NewState(text);
      Lookup(cache[key := state], state)
  }

  /** `update_markdown_state`: a cached key gets the new text; a missing key
      is not created. */
  function Update(cache: Cache, key: string, text: string): (r: Cache)
    ensures r.Keys == cache.Keys
    ensures key in cache ==> r[key].text == text
    ensures forall k :: k in cache && k != key ==> r[k] == cache[k]
  {
    if key in cache then cache[key := SetText(cache[key], text)] else cache
  }

  /** `remove_markdown_state`. */
  function Remove(cache: Cache, key: string): (r: Cache)
    ensures r.Keys == cache.Keys - {key}
    ensures forall k :: k in r ==> r[k] == cache[k]
  {
    cache - {key}
  }

  /** `clear_markdown_states`. */
  function Clear(cache: Cache): (r: Cache)
    ensures |r| == 0
  {
    map[]
  }

  /** A second lookup returns the state the first one created or found, and
      the text passed the second time is ignored. */
  lemma GetOrCreateStable(cache: Cache, key: string, text1: string, text2: string)
    ensures var first := GetOrCreate(cache, key, text1);
      GetOrCreate(first.cache, key, text2) == first
  {
  }

  /** After an update, a lookup sees the new text; after a removal, a lookup
      creates a fresh state from the text it is given. */
  lemma LookupAfterUpdateAndRemove(cache: Cache, key: string, text: string, other: string)
    requires key in cache
    ensures GetOrCreate(Update(cache, key, text), key, other).state.text == text
    ensures GetOrCreate(Remove(cache, key), key, other).state == NewState(other)
  {
  }
}

=== FILE: mixed_list.dfy ===
/** The mixed-content virtual list example (examples/mixed_virtual_list/src/main.rs):
    seven kinds of item with an estimated height each, one hundred sample
    items, a markdown state per markdown item, collapsible items toggled
    open and shut, and the render step that re-measures what changed.
    Layout is the `measure` parameter. */
module MixedList {
  import opened Wrappers
  import opened Text
  import opened MarkdownCache
  import opened Geometry

  datatype Content =
    | Collapsible(title: string, content: string, expanded: bool)
    | Markdown(source: string)
    | TextCard(title: string, description: string)
    | ImageCard(title: string, imageUrl: string)
    | CodeBlock(language: string, code: string)
    | Divider
    | StatsCard(title: string, value: string, change: string, positive: bool)

  /** At least one line, as `lines().count().max(1)`. */
  function LineCount(s: string): (n: nat)
    ensures n >= 1 && n >= |Lines(s)|
    ensures n == 1 <==> |Lines(s)| <= 1
  {
    if |Lines(s)| < 1 then 1 else |Lines(s)|
  }

  /** `ContentType::estimated_height`. */
  function EstimatedHeight(c: Content): (h: nat)
    ensures h >= 20
    ensures c.Collapsible? ==> h == if c.expanded then 180 else 60
    ensures c.Markdown? ==> h == 60 + 24 * LineCount(c.source)
    ensures c.CodeBlock? ==> h == 80 + 20 * LineCount(c.code)
    ensures c.TextCard? || c.StatsCard? ==> h == 100
    ensures c.ImageCard? ==> h == 200
    ensures c.Divider? ==> h == 20
  {
    match c
    case Collapsible(_, _, expanded) => if expanded then 180 else 60
    case Markdown(source) => 60 + 24 * LineCount(source)
    case TextCard(_, _) => 100
    case ImageCard(_, _) => 200
    case CodeBlock(_, code) => 80 + 20 * LineCount(code)
    case Divider => 20
    case StatsCard(_, _, _, _) => 100
  }

  /** `estimate_sizes`: one zero-width size per item, in order. */
  method EstimateSizes(items: seq<Content>) returns (sizes: seq<Size>)
    ensures |sizes| == |items|
    ensures forall i :: 0 <= i < |items| ==> sizes[i] == Size(0, EstimatedHeight(items[i]))
  {
    sizes := [];
    for i := 0 to |items|
      invariant |sizes| == i
      invariant forall j :: 0 <= j < i ==> sizes[j] == Size(0, EstimatedHeight(items[j]))
    {
      sizes := sizes + [Size(0, EstimatedHeight(items[i]))];
    }
  }

  // ---------------------------------------------------------------------------
  // Sample data
  // ---------------------------------------------------------------------------

  const SampleCount := 100

  /** A signed decimal, as `format!("{}", z)`. */
  function IntToString(z: int): (s: string)
    ensures z >= 0 ==> s == NatToString(z)
    ensures z < 0 ==> s == "-" + NatToString(-z)
  {
    if z < 0 then "-" + NatToString(-z) else NatToString(z)
  }

  /** The texts of the sample items, numbered from one. */
  function SectionTitle(n: string): string { "Section " + n + " - Click to expand" }
  const SectionBodyEnd := ".\nIt can contain multiple lines of text.\nThe collapsible component is great for FAQs."
  function SectionBody(n: string): string {
    "This is the expanded content for section " + n + SectionBodyEnd
  }
  const MarkdownSampleEnd := "\n\nThis is **bold** and *italic* text. Here's some `inline code`.\n\n- List item 1\n- List item 2\n- List item 3"
  function MarkdownSample(n: string): string {
    "## Markdown Content " + n + MarkdownSampleEnd
  }
  const CardDescription := "A simple card with title and description. Great for displaying brief information."
  const ImageUrl := "https://pub.lbkrs.com/files/202503/vEnnmgUM6bo362ya/sdk.svg"
  const CodeSampleMiddle := "() {\n    println!(\"Hello, World!\");\n    let x = "
  function CodeSample(n: string, x: string): string {
    "fn example_" + n + CodeSampleMiddle + x + ";\n}"
  }

  /** The position of an item's kind in the cycle of the sample data. */
  function Kind(c: Content): nat {
    match c
    case Collapsible(_, _, _) => 0
    case Markdown(_) => 1
    case TextCard(_, _) => 2
    case ImageCard(_, _) => 3
    case CodeBlock(_, _) => 4
    case StatsCard(_, _, _, _) => 5
    case Divider => 6
  }

  /** The sample item of each kind for index `i`, its number being `i + 1`. */
  function CollapsibleSample(i: nat, expanded: bool): (c: Content)
    ensures c.Collapsible? && c.expanded == expanded
  {
    var n := NatToString(i + 1);
    Collapsible(SectionTitle(n), SectionBody(n), expanded)
  }
  function MarkdownItem(i: nat): (c: Content) ensures c.Markdown? {
    Markdown(MarkdownSample(NatToString(i + 1)))
  }
  function TextCardSample(i: nat): (c: Content) ensures c.TextCard? {
    TextCard("Text Card " + NatToString(i + 1), CardDescription)
  }
  function ImageCardSample(i: nat): (c: Content) ensures c.ImageCard? {
    ImageCard("Image Card " + NatToString(i + 1), ImageUrl)
  }
  function CodeBlockSample(i: nat): (c: Content) ensures c.CodeBlock? {
    CodeBlock("rust", CodeSample(NatToString(i + 1), NatToString(i * 10)))
  }
  function StatsCardSample(i: nat): (c: Content) ensures c.StatsCard? {
    StatsCard("Metric " + NatToString(i + 1), NatToString((i + 1) * 123), IntToString(i * 7 % 20 - 10) + "%", i % 2 == 0)
  }

  /** The item of kind `k` (the remainder `i % 7`) for index `i`. */
  function SampleOfKind(k: nat, i: nat): (c: Content)
    requires k < 7
    ensures Kind(c) == k
    ensures c.Collapsible? ==> (c.expanded <==> i % 14 == 0)
  {
    if k == 0 then CollapsibleSample(i, i % 14 == 0)
    else if k == 1 then MarkdownItem(i)
    else if k == 2 then TextCardSample(i)
    else if k == 3 then ImageCardSample(i)
    else if k == 4 then CodeBlockSample(i)
    else if k == 5 then StatsCardSample(i)
    else Divider
  }

  /** Item `i` of `generate_sample_data`: its kind cycles with `i % 7`
      (collapsible, markdown, text card, image card, code block, stats card,
      divider), and a collapsible starts expanded when `i` is a multiple
      of 14. */
  function SampleItem(i: nat): (c: Content)
    ensures Kind(c) == i % 7
    ensures c.Collapsible? ==> (c.expanded <==> i % 14 == 0)
  {
    SampleOfKind(i % 7, i)
  }

  /** `generate_sample_data`. */
  function SampleData(): (items: seq<Content>)
    ensures |items| == SampleCount
    ensures forall i :: 0 <= i < |items| ==> items[i] == SampleItem(i)
  {
    seq(SampleCount, i requires 0 <= i => SampleItem(i))
  }

  // ---------------------------------------------------------------------------
  // View state
  // ---------------------------------------------------------------------------

  datatype ListView = ListView(
    items: seq<Content>,
    sizes: seq<Size>,
    measured: bool,
    lastWidth: Option<nat>,
    pending: seq<nat>,
    markdownStates: map<string, MarkdownState>,
    markdownNeedsRemeasure: bool)

  /** The keys `new` gives the markdown items: their indices in decimal. */
  function MarkdownKeys(items: seq<Content>): (keys: set<string>)
    ensures forall i :: 0 <= i < |items| && items[i].Markdown? ==> NatToString(i) in keys
  {
    if items == [] then {}
    else
      var n := |items| - 1;
      assert forall i :: 0 <= i < n ==> items[..n][i] == items[i];
      MarkdownKeys(items[..n]) + (if items[n].Markdown? then {NatToString(n)} else {})
  }

  /** A key is in `MarkdownKeys` only for a markdown item. */
  lemma {:induction false} MarkdownKeysOnly(items: seq<Content>, i: nat)
    requires NatToString(i) in MarkdownKeys(items)
    ensures i < |items| && items[i].Markdown?
    decreases |items|
  {
    var n := |items| - 1;
    if NatToString(i) in MarkdownKeys(items[..n]) {
      MarkdownKeysOnly(items[..n], i);
      assert items[..n][i] == items[i];
    } else {
      NatToStringInjective(i, n);
    }
  }

  /** The markdown states are keyed by exactly the indices of the markdown
      items, each holding its item's source. */
  predicate StatesMirror(items: seq<Content>, states: map<string, MarkdownState>) {
    && states.Keys == MarkdownKeys(items)
    && (forall i :: 0 <= i < |items| && items[i].Markdown? ==> states[NatToString(i)] == NewState(items[i].source))
  }

  /** A state exists for item `i` exactly when it is a markdown item. */
  lemma StateIffMarkdown(items: seq<Content>, states: map<string, MarkdownState>, i: nat)
    requires StatesMirror(items, states) && i < |items|
    ensures NatToString(i) in states <==> items[i].Markdown?
  {
    if NatToString(i) in states { MarkdownKeysOnly(items, i); }
  }

  /** The loop of `new` that creates a markdown state per markdown item. */
  method MarkdownStates(items: seq<Content>) returns (states: map<string, MarkdownState>)
    ensures StatesMirror(items, states)
  {
    states := map[];
    for ix := 0 to |items|
      invariant states.Keys == MarkdownKeys(items[..ix])
      invariant forall i :: 0 <= i < ix && items[i].Markdown? ==> states[NatToString(i)] == NewState(items[i].source)
    {
      assert items[..ix + 1][..ix] == items[..ix];
      if items[ix].Markdown? {
        states := states[NatToString(ix) := NewState(items[ix].source)];
        forall i | 0 <= i < ix && items[i].Markdown?
          ensures states[NatToString(i)] == NewState(items[i].source)
        {
          NatToStringInjective(i, ix);
        }
      }
    }
    assert items[..|items|] == items;
  }

  /** `MixedVirtualListView::new`. */
  method NewListView() returns (v: ListView)
    ensures v.items == SampleData() && |v.sizes| == SampleCount
    ensures forall i :: 0 <= i < SampleCount ==> v.sizes[i].height == EstimatedHeight(SampleItem(i))
    ensures !v.measured && v.lastWidth.None? && v.pending == [] && !v.markdownNeedsRemeasure
    ensures StatesMirror(v.items, v.markdownStates)
  {
    var items := SampleData();
    var sizes := EstimateSizes(items);
    var states := MarkdownStates(items);
    v := ListView(items, sizes, false, None, [], states, false);
  }

  /** `toggle_collapsible`: flips a collapsible item's flag and queues it
      for re-measurement once; any other kind of item is left alone. */
  function ToggleCollapsible(v: ListView, index: nat): (r: ListView)
    requires index < |v.items|
    ensures !v.items[index].Collapsible? ==> r == v
    ensures v.items[index].Collapsible? ==>
      && r.items == v.items[index := v.items[index].(expanded := !v.items[index].expanded)]
      && index in r.pending
      && (index in v.pending ==> r.pending == v.pending)
      && (index !in v.pending ==> r.pending == v.pending + [index])
    ensures r.sizes == v.sizes && r.markdownStates == v.markdownStates && r.measured == v.measured
    ensures r.lastWidth == v.lastWidth && r.markdownNeedsRemeasure == v.markdownNeedsRemeasure
  {
    match v.items[index]
    case Collapsible(t, c, e) =>
      var pending := if index in v.pending then v.pending else v.pending + [index];
      v.(items := v.items[index := Collapsible(t, c, !e)], pending := pending)
    case _ => v
  }

  /** Indices appear at most once. */
  predicate NoDup(xs: seq<nat>) {
    forall i, j :: 0 <= i < j < |xs| ==> xs[i] != xs[j]
  }

  /** Toggling keeps the pending queue free of duplicates, and toggling
      twice restores the items. */
  lemma ToggleTwice(v: ListView, index: nat)
    requires index < |v.items|
    ensures NoDup(v.pending) ==> NoDup(ToggleCollapsible(v, index).pending)
    ensures ToggleCollapsible(ToggleCollapsible(v, index), index).items == v.items
    ensures ToggleCollapsible(ToggleCollapsible(v, index), index).pending == ToggleCollapsible(v, index).pending
  {
    var once := ToggleCollapsible(v, index);
    if v.items[index].Collapsible? {
      assert once.items[index].Collapsible?;
      assert once.items[index := once.items[index].(expanded := !once.items[index].expanded)] == v.items;
    }
  }

  // ---------------------------------------------------------------------------
  // Render
  // ---------------------------------------------------------------------------

  const MeasureWidth := 800

  /** Re-measures the items at the given indices, leaving every other size. */
  function Remeasure(v: ListView, indices: seq<nat>, width: nat,
                     measure: (Content, nat, nat, Option<MarkdownState>) -> Size): (sizes: seq<Size>)
    requires |v.sizes| == |v.items|
    requires forall k :: 0 <= k < |indices| ==> indices[k] < |v.items|
    ensures |sizes| == |v.sizes|
    ensures forall i :: 0 <= i < |sizes| && i in indices ==> sizes[i] == MeasureAt(v, i, width, measure)
    ensures forall i :: 0 <= i < |sizes| && i !in indices ==> sizes[i] == v.sizes[i]
    decreases |indices|
  {
    if indices == [] then v.sizes
    else
      var ix := indices[|indices| - 1];
      var rest := Remeasure(v, indices[..|indices| - 1], width, measure);
      assert forall i :: i in indices <==> i in indices[..|indices| - 1] || i == ix by {
        assert indices == indices[..|indices| - 1] + [ix];
      }
      rest[ix := MeasureAt(v, ix, width, measure)]
  }

  /** The size of item `ix` laid out at `width`, with its markdown state. */
  function MeasureAt(v: ListView, ix: nat, width: nat, measure: (Content, nat, nat, Option<MarkdownState>) -> Size): Size
    requires ix < |v.items|
  {
    var key := NatToString(ix);
    measure(v.items[ix], ix, width, if key in v.markdownStates then Some(v.markdownStates[key]) else None)
  }

  /** Indices of the markdown items. */
  function MarkdownIndices(items: seq<Content>): (r: seq<nat>)
    ensures forall k :: 0 <= k < |r| ==> r[k] < |items| && items[r[k]].Markdown?
    ensures forall i :: 0 <= i < |items| && items[i].Markdown? ==> i in r
  {
    if items == [] then []
    else
      var rest := MarkdownIndices(items[..|items| - 1]);
      assert forall i :: 0 <= i < |items| - 1 ==> items[..|items| - 1][i] == items[i];
      if items[|items| - 1].Markdown? then rest + [|items| - 1] else rest
  }

  /** `render`'s measuring: all items at 800 when unmeasured (or measured
      at another width); every markdown item when a parse finished; then
      the queued ones, emptying the queue. */
  function Render(v: ListView, measure: (Content, nat, nat, Option<MarkdownState>) -> Size): (r: ListView)
    requires |v.sizes| == |v.items| && StatesMirror(v.items, v.markdownStates)
    requires forall k :: 0 <= k < |v.pending| ==> v.pending[k] < |v.items|
    ensures r.items == v.items && r.markdownStates == v.markdownStates
    ensures r.measured && r.lastWidth == Some(MeasureWidth)
    ensures r.pending == [] && !r.markdownNeedsRemeasure
    ensures |r.sizes| == |v.items|
    ensures forall i :: 0 <= i < |v.items| && (!v.measured || v.lastWidth != Some(MeasureWidth) || i in v.pending || (v.markdownNeedsRemeasure && v.items[i].Markdown?)) ==>
      r.sizes[i] == MeasureAt(v, i, MeasureWidth, measure)
    ensures v.measured && v.lastWidth == Some(MeasureWidth) ==>
      forall i :: 0 <= i < |v.items| && i !in v.pending && !(v.markdownNeedsRemeasure && v.items[i].Markdown?) ==> r.sizes[i] == v.sizes[i]
  {
    var all := seq(|v.items|, i requires 0 <= i < |v.items| => MeasureAt(v, i, MeasureWidth, measure));
    var t := if !v.measured || v.lastWidth != Some(MeasureWidth)
      then v.(sizes := all, measured := true, lastWidth := Some(MeasureWidth))
      else v;
    var t := if v.markdownNeedsRemeasure
      then t.(sizes := Remeasure(t, MarkdownIndices(t.items), MeasureWidth, measure), markdownNeedsRemeasure := false)
      else t;
    t.(sizes := Remeasure(t, t.pending, MeasureWidth, measure), pending := [])
  }

  /** After one render, a second one measures nothing. */
  lemma RenderSettles(v: ListView, measure: (Content, nat, nat, Option<MarkdownState>) -> Size)
    requires |v.sizes| == |v.items| && StatesMirror(v.items, v.markdownStates)
    requires forall k :: 0 <= k < |v.pending| ==> v.pending[k] < |v.items|
    ensures Render(Render(v, measure), measure) == Render(v, measure)
  {
    var once := Render(v, measure);
    assert Remeasure(once, [], MeasureWidth, measure) == once.sizes;
  }

  /** The estimated heights of the sample data: 180 or 60 for a collapsible,
      100 for a card, 200 for an image, 20 for a divider. */
  lemma SampleHeights(i: nat)
    requires i < SampleCount && i % 7 != 1 && i % 7 != 4
    ensures EstimatedHeight(SampleItem(i)) == (match i % 7
      case 0 => if i % 14 == 0 then 180 else 60
      case 2 => 100
      case 3 => 200
      case 5 => 100
      case _ => 20)
  {
  }
}

=== FILE: multi_file_diff.dfy ===
/** The multi-file diff view (crates/story/examples/multi_file_diff.rs): a
    list of file diffs that share one context-line setting, with per-file
    open/closed state and expandable collapsed blocks.

    The line diff of a file's two texts comes from an external diff library;
    the model takes its result, the change sequence, as the file's input. */
module MultiFileDiff {
  import opened DiffLines
  import opened ContextCollapse
  import opened SideBySide

  /** `MAX_CONTEXT_LINES`. */
  const MaxContextLines: nat := 10

  /** The context-line setting the view starts with. */
  const InitialContextLines: nat := 3

  datatype ViewMode = SideBySideMode | UnifiedMode

  datatype FileDiff = FileDiff(
    path: string,
    diffLines: seq<DiffLine>,
    displayItems: seq<DisplayItem>,
    rows: seq<DisplayRow>,
    expanded: set<nat>,
    showAll: bool,
    open: bool)

  /** One entry of `FILE_SPECS`, with the texts already diffed. */
  datatype FileSpec = FileSpec(path: string, changes: seq<Change>, open: bool)

  datatype Example = Example(files: seq<FileDiff>, viewMode: ViewMode, contextLines: nat, showEdge: bool)

  /** The derived fields of a file agree with its lines and its expansion state. */
  predicate Consistent(f: FileDiff, ctx: nat, showEdge: bool) {
    && AllWellFormed(f.diffLines)
    && f.displayItems == ApplyContextCollapsing(f.diffLines, ctx, showEdge, f.expanded, f.showAll)
    && f.rows == RowsOfItems(f.displayItems)
  }

  /** Every file is consistent with the shared settings. */
  predicate Valid(e: Example) {
    forall i :: 0 <= i < |e.files| ==> Consistent(e.files[i], e.contextLines, e.showEdge)
  }

  /** `FileDiff::recompute`. */
  function Recompute(f: FileDiff, ctx: nat, showEdge: bool): (r: FileDiff)
    requires AllWellFormed(f.diffLines)
    ensures Consistent(r, ctx, showEdge)
    ensures r.(displayItems := f.displayItems, rows := f.rows) == f
  {
    var items := ApplyContextCollapsing(f.diffLines, ctx, showEdge, f.expanded, f.showAll);
    f.(displayItems := items, rows := RowsOfItems(items))
  }

  /** `FileDiff::new`: nothing expanded, `show_all` off. */
  function NewFile(spec: FileSpec, ctx: nat, showEdge: bool): (f: FileDiff)
    ensures Consistent(f, ctx, showEdge)
    ensures f.diffLines == NumberedLines(spec.changes)
    ensures f.path == spec.path && f.open == spec.open
    ensures f.expanded == {} && !f.showAll
  {
    NumberedLinesWellFormed(spec.changes);
    Recompute(FileDiff(spec.path, NumberedLines(spec.changes), [], [], {}, false, spec.open), ctx, showEdge)
  }

  /** `MultiFileDiffExample::new`: three context lines, edge folding on,
      side-by-side view. */
  function NewExample(specs: seq<FileSpec>): (e: Example)
    ensures Valid(e)
    ensures |e.files| == |specs| && e.contextLines == InitialContextLines && e.showEdge
    ensures e.viewMode == SideBySideMode
    ensures forall i :: 0 <= i < |specs| ==>
      e.files[i].path == specs[i].path && e.files[i].open == specs[i].open
      && e.files[i].diffLines == NumberedLines(specs[i].changes)
  {
    Example(seq(|specs|, i requires 0 <= i < |specs| => NewFile(specs[i], InitialContextLines, true)),
      SideBySideMode, InitialContextLines, true)
  }

  // ---------------------------------------------------------------------------
  // Toolbar state
  // ---------------------------------------------------------------------------

  /** `has_collapsed`: some file displays a collapsed block; the "Expand"
      button is disabled otherwise. */
  predicate HasCollapsed(e: Example) {
    exists i, j :: 0 <= i < |e.files| && 0 <= j < |e.files[i].displayItems| && e.files[i].displayItems[j].Collapsed?
  }

  /** `can_collapse`: some file shows everything or has an expanded block;
      the "Collapse" button is disabled otherwise. */
  predicate CanCollapse(e: Example) {
    exists i :: 0 <= i < |e.files| && (e.files[i].showAll || e.files[i].expanded != {})
  }

  /** A freshly built view has nothing to collapse. */
  lemma NewExampleCannotCollapse(specs: seq<FileSpec>)
    ensures !CanCollapse(NewExample(specs))
  {
  }

  // ---------------------------------------------------------------------------
  // Actions
  // ---------------------------------------------------------------------------

  /** `toggle_file`: flips one file's open state; an index past the end does nothing. */
  function ToggleFile(e: Example, index: nat): (r: Example)
    ensures index >= |e.files| ==> r == e
    ensures |r.files| == |e.files| && r.contextLines == e.contextLines && r.showEdge == e.showEdge
    ensures index < |e.files| ==>
      r.files[index].open == !e.files[index].open && r.files[index].(open := e.files[index].open) == e.files[index]
    ensures forall i :: 0 <= i < |e.files| && i != index ==> r.files[i] == e.files[i]
    ensures Valid(e) ==> Valid(r)
  {
    if index < |e.files| then
      e.(files := e.files[index := e.files[index].(open := !e.files[index].open)])
    else e
  }

  /** Toggling a file twice restores the view. */
  lemma ToggleFileTwice(e: Example, index: nat)
    ensures ToggleFile(ToggleFile(e, index), index) == e
  {
    if index < |e.files| {
      assert ToggleFile(ToggleFile(e, index), index).files == e.files;
    }
  }

  /** `expand_collapsed`: opens the collapsed block starting at `startIndex`
      in one file, turning `show_all` off for that file. */
  function ExpandCollapsed(e: Example, fileIndex: nat, startIndex: nat): (r: Example)
    requires Valid(e)
    ensures Valid(r)
    ensures fileIndex >= |e.files| ==> r == e
    ensures |r.files| == |e.files| && r.contextLines == e.contextLines && r.showEdge == e.showEdge
    ensures r.viewMode == e.viewMode
    ensures fileIndex < |e.files| ==>
      r.files[fileIndex].expanded == e.files[fileIndex].expanded + {startIndex}
      && r.files[fileIndex].path == e.files[fileIndex].path
      && !r.files[fileIndex].showAll
      && r.files[fileIndex].diffLines == e.files[fileIndex].diffLines
      && r.files[fileIndex].open == e.files[fileIndex].open
    ensures forall i :: 0 <= i < |e.files| && i != fileIndex ==> r.files[i] == e.files[i]
  {
    if fileIndex < |e.files| then
      var f := e.files[fileIndex];
      var g := Recompute(f.(showAll := false, expanded := f.expanded + {startIndex}), e.contextLines, e.showEdge);
      e.(files := e.files[fileIndex := g])
    else e
  }

  /** After expanding, no collapsed block of that file starts at `startIndex`. */
  lemma ExpandCollapsedOpensBlock(e: Example, fileIndex: nat, startIndex: nat)
    requires Valid(e) && fileIndex < |e.files|
    ensures var items := ExpandCollapsed(e, fileIndex, startIndex).files[fileIndex].displayItems;
      forall j :: 0 <= j < |items| && items[j].Collapsed? ==> items[j].startIndex != startIndex
  {
    var f := ExpandCollapsed(e, fileIndex, startIndex).files[fileIndex];
    ExpandedBlocksStayOpen(f.diffLines, e.contextLines, e.showEdge, f.expanded, f.showAll);
  }

  /** Every file reset to `showAll` with nothing expanded, recomputed for the
      context setting `ctx`. */
  function ResetFiles(files: seq<FileDiff>, ctx: nat, showEdge: bool, showAll: bool): (r: seq<FileDiff>)
    requires forall i :: 0 <= i < |files| ==> AllWellFormed(files[i].diffLines)
    ensures |r| == |files|
    ensures forall i :: 0 <= i < |r| ==>
      Consistent(r[i], ctx, showEdge) && r[i].showAll == showAll && r[i].expanded == {}
      && r[i].diffLines == files[i].diffLines && r[i].path == files[i].path && r[i].open == files[i].open
  {
    seq(|files|, i requires 0 <= i < |files| => Recompute(files[i].(showAll := showAll, expanded := {}), ctx, showEdge))
  }

  /** What the three toolbar resets promise: the context setting becomes
      `ctx`, the view mode and the edge setting are kept, and every file
      keeps its path, lines and open state while its expansions are
      cleared and its `showAll` flag set to `showAll`. */
  predicate ResetFrom(e: Example, r: Example, ctx: nat, showAll: bool) {
    && r.viewMode == e.viewMode && r.showEdge == e.showEdge && r.contextLines == ctx
    && |r.files| == |e.files|
    && forall i :: 0 <= i < |r.files| ==>
      && r.files[i].path == e.files[i].path && r.files[i].diffLines == e.files[i].diffLines
      && r.files[i].open == e.files[i].open && r.files[i].showAll == showAll && r.files[i].expanded == {}
  }

  /** `expand_all`: every file shows all its lines. */
  function ExpandAll(e: Example): (r: Example)
    requires Valid(e)
    ensures Valid(r) && ResetFrom(e, r, e.contextLines, true)
    ensures !HasCollapsed(r)
    ensures |e.files| > 0 ==> CanCollapse(r)
  {
    var r := e.(files := ResetFiles(e.files, e.contextLines, e.showEdge, true));
    assert |e.files| > 0 ==> r.files[0].showAll;
    r
  }

  /** `collapse_all`: every file back to the collapsed view with nothing expanded. */
  function CollapseAll(e: Example): (r: Example)
    requires Valid(e)
    ensures Valid(r) && ResetFrom(e, r, e.contextLines, false)
    ensures !CanCollapse(r)
  {
    e.(files := ResetFiles(e.files, e.contextLines, e.showEdge, false))
  }

  /** `set_context_lines`: takes the new setting and resets every file as
      "Collapse" does. */
  function SetContextLines(e: Example, ctx: nat): (r: Example)
    requires Valid(e)
    ensures Valid(r) && ResetFrom(e, r, ctx, false)
    ensures !CanCollapse(r)
  {
    var e' := e.(contextLines := ctx);
    e'.(files := ResetFiles(e.files, ctx, e.showEdge, false))
  }

  /** A reset is fully determined: two consistent views that both reset
      the same view the same way are equal, since the display items and
      rows of a file follow from its lines and settings. */
  lemma ResetDetermined(e: Example, r1: Example, r2: Example, ctx: nat, showAll: bool)
    requires Valid(r1) && ResetFrom(e, r1, ctx, showAll)
    requires Valid(r2) && ResetFrom(e, r2, ctx, showAll)
    ensures r1 == r2
  {
    forall i | 0 <= i < |r1.files| ensures r1.files[i] == r2.files[i] {
      assert Consistent(r1.files[i], ctx, r1.showEdge);
      assert Consistent(r2.files[i], ctx, r2.showEdge);
    }
    assert r1.files == r2.files;
  }

  /** After "expand all" every file shows each of its lines as it is, and
      nothing is folded. */
  lemma ExpandAllShowsEveryLine(e: Example, i: nat)
    requires Valid(e) && i < |e.files|
    ensures var f := ExpandAll(e).files[i];
      |f.displayItems| == |e.files[i].diffLines|
      && forall k :: 0 <= k < |f.displayItems| ==> f.displayItems[k] == Line(e.files[i].diffLines[k])
  {
    var f := ExpandAll(e).files[i];
    assert f.showAll && f.diffLines == e.files[i].diffLines;
    assert Consistent(f, e.contextLines, e.showEdge);
  }

  /** The "-" button: one context line fewer, never below zero. */
  function DecreaseContext(e: Example): (r: Example)
    requires Valid(e)
    ensures Valid(r)
    ensures r.contextLines == if e.contextLines > 0 then e.contextLines - 1 else 0
  {
    if e.contextLines > 0 then SetContextLines(e, e.contextLines - 1) else e
  }

  /** The "+" button: one context line more, never above `MaxContextLines`. */
  function IncreaseContext(e: Example): (r: Example)
    requires Valid(e)
    ensures Valid(r)
    ensures r.contextLines == if e.contextLines < MaxContextLines then e.contextLines + 1 else e.contextLines
    ensures e.contextLines <= MaxContextLines ==> r.contextLines <= MaxContextLines
  {
    if e.contextLines < MaxContextLines then SetContextLines(e, e.contextLines + 1) else e
  }

  /** Collapsing after expanding everything is the same as collapsing. */
  lemma CollapseUndoesExpandAll(e: Example)
    requires Valid(e)
    ensures CollapseAll(ExpandAll(e)) == CollapseAll(e)
  {
    assert CollapseAll(ExpandAll(e)).files == CollapseAll(e).files;
  }

  /** Collapsing forgets any block expanded before. */
  lemma CollapseUndoesExpandCollapsed(e: Example, fileIndex: nat, startIndex: nat)
    requires Valid(e)
    ensures CollapseAll(ExpandCollapsed(e, fileIndex, startIndex)) == CollapseAll(e)
  {
    assert CollapseAll(ExpandCollapsed(e, fileIndex, startIndex)).files == CollapseAll(e).files;
  }

  /** A freshly built view is already collapsed. */
  lemma NewExampleIsCollapsed(specs: seq<FileSpec>)
    ensures CollapseAll(NewExample(specs)) == NewExample(specs)
  {
    var e := NewExample(specs);
    assert CollapseAll(e).files == e.files;
  }

  /** "+" then "-" returns to the setting and the collapsed view. */
  lemma ContextButtonsRoundTrip(e: Example)
    requires Valid(e) && e.contextLines < MaxContextLines
    ensures DecreaseContext(IncreaseContext(e)) == CollapseAll(e)
  {
    var up := IncreaseContext(e);
    var r := DecreaseContext(up);
    assert ResetFrom(e, r, e.contextLines, false);
    ResetDetermined(e, r, CollapseAll(e), e.contextLines, false);
  }

  // ---------------------------------------------------------------------------
  // Totals
  // ---------------------------------------------------------------------------

  /** All diff lines of the files, one file after another. */
  function AllLines(files: seq<FileDiff>): seq<DiffLine> {
    if files == [] then [] else AllLines(files[..|files| - 1]) + files[|files| - 1].diffLines
  }

  /** `total_stats`: the added and removed lines of all files together. */
  method TotalStats(e: Example) returns (stats: DiffStats)
    ensures stats.added == KindCount(AllLines(e.files), Added)
    ensures stats.removed == KindCount(AllLines(e.files), Removed)
  {
    var added, removed := 0, 0;
    for i := 0 to |e.files|
      invariant added == KindCount(AllLines(e.files[..i]), Added)
      invariant removed == KindCount(AllLines(e.files[..i]), Removed)
    {
      var s := ComputeStats(e.files[i].diffLines);
      assert e.files[..i + 1][..i] == e.files[..i];
      KindCountAppend(AllLines(e.files[..i]), e.files[i].diffLines, Added);
      KindCountAppend(AllLines(e.files[..i]), e.files[i].diffLines, Removed);
      added := added + s.added;
      removed := removed + s.removed;
    }
    assert e.files[..|e.files|] == e.files;
    stats := DiffStats(added, removed);
  }
}

=== FILE: notebook_lm.dfy ===
/** The NotebookLM-style story (crates/story/examples/notebook_lm.rs):
    notebooks split into a featured and a recent section, a grid/list
    switch and a three-tab bar. Colours are left out. */
module NotebookLm {
  import opened Wrappers
  import opened Text

  datatype Notebook = Notebook(
    id: string,
    title: string,
    category: string,
    date: string,
    sources: nat,
    isFeatured: bool)

  datatype ViewMode = Grid | List

  datatype TabFilter = All | MyNotebooks | Featured

  datatype Story = Story(notebooks: seq<Notebook>, viewMode: ViewMode, activeTab: nat)

  /** `TabFilter::label`. */
  function Label(t: TabFilter): (r: string)
    ensures t == All ==> r == "全部"
    ensures t == MyNotebooks ==> r == "我的笔记本"
    ensures t == Featured ==> r == "精选笔记本"
  {
    match t
    case All => "全部"
    case MyNotebooks => "我的笔记本"
    case Featured => "精选笔记本"
  }

  /** The tabs of `render_tab_bar`, left to right. */
  const Tabs: seq<TabFilter> := [All, MyNotebooks, Featured]

  /** The labels `render_tab_bar` writes, left to right. */
  const TabLabels: seq<string> := ["全部", "我的笔记本", "精选笔记本"]

  /** `new`: grid view on the first tab. */
  function NewStory(notebooks: seq<Notebook>): (s: Story)
    ensures s.notebooks == notebooks && s.viewMode == Grid && s.activeTab == 0
  {
    Story(notebooks, Grid, 0)
  }

  /** `set_view_mode`. */
  function SetViewMode(s: Story, mode: ViewMode): (r: Story)
    ensures r.viewMode == mode
    ensures r == s.(viewMode := r.viewMode)
  {
    s.(viewMode := mode)
  }

  /** `set_active_tab`: stores the clicked index as given. */
  function SetActiveTab(s: Story, ix: nat): (r: Story)
    ensures r.activeTab == ix
    ensures r == s.(activeTab := r.activeTab)
  {
    s.(activeTab := ix)
  }

  /** The notebooks whose featured flag is `featured`, in order. */
  function Section(notebooks: seq<Notebook>, featured: bool): (r: seq<Notebook>)
    ensures |r| <= |notebooks|
    ensures forall n :: n in r <==> n in notebooks && n.isFeatured == featured
  {
    if notebooks == [] then []
    else
      var rest := Section(notebooks[1..], featured);
      assert forall n :: n in notebooks <==> n == notebooks[0] || n in notebooks[1..];
      if notebooks[0].isFeatured == featured then [notebooks[0]] + rest else rest
  }

  /** `render_featured_section`'s notebooks. */
  function FeaturedSection(s: Story): (r: seq<Notebook>)
    ensures forall n :: n in r <==> n in s.notebooks && n.isFeatured
    ensures Subsequence(r, s.notebooks)
  {
    SectionKeepsOrder(s.notebooks, true);
    Section(s.notebooks, true)
  }

  /** `render_recent_section`'s notebooks. */
  function RecentSection(s: Story): (r: seq<Notebook>)
    ensures forall n :: n in r <==> n in s.notebooks && !n.isFeatured
    ensures Subsequence(r, s.notebooks)
  {
    SectionKeepsOrder(s.notebooks, false);
    Section(s.notebooks, false)
  }

  // ---------------------------------------------------------------------------
  // Properties
  // ---------------------------------------------------------------------------

  /** The two sections split the notebooks: together they hold each
      notebook as often as the story does. */
  lemma {:induction false} SectionsPartition(notebooks: seq<Notebook>)
    ensures |Section(notebooks, true)| + |Section(notebooks, false)| == |notebooks|
    ensures multiset(Section(notebooks, true)) + multiset(Section(notebooks, false)) == multiset(notebooks)
    decreases |notebooks|
  {
    if notebooks != [] {
      SectionsPartition(notebooks[1..]);
      assert notebooks == [notebooks[0]] + notebooks[1..];
    }
  }

  /** Each section keeps the story's order. */
  lemma {:induction false} SectionKeepsOrder(notebooks: seq<Notebook>, featured: bool)
    ensures Subsequence(Section(notebooks, featured), notebooks)
    decreases |notebooks|
  {
    if notebooks != [] {
      SectionKeepsOrder(notebooks[1..], featured);
      var rest := Section(notebooks[1..], featured);
      if notebooks[0].isFeatured == featured {
        assert ([notebooks[0]] + rest)[1..] == rest;
      }
    }
  }

  /** The tab bar's labels are `TabFilter::label` of the three filters, in
      declaration order. */
  lemma TabLabelsAreLabels()
    ensures |TabLabels| == |Tabs|
    ensures forall i :: 0 <= i < |Tabs| ==> TabLabels[i] == Label(Tabs[i])
  {
  }

  /** Switching the view mode or the tab never changes either section. */
  lemma SwitchesKeepSections(s: Story, mode: ViewMode, ix: nat)
    ensures FeaturedSection(SetViewMode(s, mode)) == FeaturedSection(s)
    ensures RecentSection(SetActiveTab(s, ix)) == RecentSection(s)
  {
  }
}

=== FILE: presentation.dfy ===
/** Slide navigation and zoom of the presentation preview
    (crates/story/examples/presentation_preview.rs). The zoom level is a
    float in the source stepping by 0.1; here it is a whole number of
    tenths, so 1.0 is 10 and the bounds 0.5 and 2.0 are 5 and 20. */
module Presentation {
  import opened Wrappers
  import opened Text

  datatype Slide = Slide(id: nat, title: string, imageUrl: string)

  datatype Preview = Preview(
    slides: seq<Slide>,
    selected: nat,
    zoomTenths: int,
    feedback: Option<bool>)

  const MinZoom := 5
  const MaxZoom := 20
  const DefaultZoom := 10

  /** The keyboard actions of the preview. */
  datatype Action = NextSlide | PrevSlide | ZoomIn | ZoomOut | ResetZoom | FirstSlide | LastSlide

  /** The selection points at a slide and the zoom is within its bounds. */
  predicate Wf(p: Preview) {
    p.selected < |p.slides| && MinZoom <= p.zoomTenths <= MaxZoom
  }

  /** `new`: the first slide, zoom 1.0, no feedback. */
  function NewPreview(slides: seq<Slide>): (p: Preview)
    ensures p.slides == slides && p.selected == 0 && p.feedback.None?
    ensures p.zoomTenths == DefaultZoom
    ensures slides != [] ==> Wf(p)
  {
    Preview(slides, 0, DefaultZoom, None)
  }

  /** `select_slide`: moves only to an index that names a slide. */
  function SelectSlide(p: Preview, index: nat): (r: Preview)
    ensures index < |p.slides| ==> r == p.(selected := index)
    ensures index >= |p.slides| ==> r == p
  {
    if index < |p.slides| then p.(selected := index) else p
  }

  /** `next_slide`: one forward, stopping at the last slide. The source
      computes `len - 1` on an unsigned length, which overflows (a panic in
      a debug build) on an empty deck. */
  function Next(p: Preview): (r: Result<Preview, string>)
    ensures p.slides == [] <==> r.Err?
    ensures r.Ok? ==> r.value == p.(selected := if p.selected + 1 < |p.slides| then p.selected + 1 else |p.slides| - 1)
  {
    if |p.slides| == 0 then Err("attempt to subtract with overflow")
    else
      var target := if p.selected + 1 < |p.slides| - 1 then p.selected + 1 else |p.slides| - 1;
      Ok(SelectSlide(p, target))
  }

  /** `prev_slide`: one back, stopping at the first slide. */
  function Prev(p: Preview): (r: Preview)
    ensures p.selected <= |p.slides| && p.slides != [] ==> r == p.(selected := if p.selected == 0 then 0 else p.selected - 1)
    ensures p.slides == [] || p.selected > |p.slides| ==> r == p
  {
    SelectSlide(p, if p.selected == 0 then 0 else p.selected - 1)
  }

  /** `zoom_in`, `zoom_out`, `reset_zoom`. */
  function Zoom(p: Preview, a: Action): (r: Preview)
    requires a == ZoomIn || a == ZoomOut || a == ResetZoom
    ensures r == p.(zoomTenths := r.zoomTenths)
    ensures a == ResetZoom ==> r.zoomTenths == DefaultZoom
    ensures a == ZoomIn ==> r.zoomTenths == if p.zoomTenths + 1 < MaxZoom then p.zoomTenths + 1 else MaxZoom
    ensures a == ZoomOut ==> r.zoomTenths == if p.zoomTenths - 1 > MinZoom then p.zoomTenths - 1 else MinZoom
  {
    match a
    case ZoomIn => p.(zoomTenths := Min(p.zoomTenths + 1, MaxZoom))
    case ZoomOut => p.(zoomTenths := Max(p.zoomTenths - 1, MinZoom))
    case ResetZoom => p.(zoomTenths := DefaultZoom)
  }

  function Min(a: int, b: int): int { if a < b then a else b }
  function Max(a: int, b: int): int { if a > b then a else b }

  /** The action handlers of `render`; LastSlide selects `len - 1`,
      saturating at zero. */
  function Apply(p: Preview, a: Action): (r: Result<Preview, string>)
    ensures r.Err? <==> a == NextSlide && p.slides == []
    ensures r.Ok? ==> r.value.slides == p.slides && r.value.feedback == p.feedback
    ensures r.Ok? && a == FirstSlide && p.slides != [] ==> r.value.selected == 0
    ensures r.Ok? && a == LastSlide && p.slides != [] ==> r.value.selected == |p.slides| - 1
  {
    match a
    case NextSlide => Next(p)
    case PrevSlide => Ok(Prev(p))
    case FirstSlide => Ok(SelectSlide(p, 0))
    case LastSlide => Ok(SelectSlide(p, if |p.slides| == 0 then 0 else |p.slides| - 1))
    case _ => Ok(Zoom(p, a))
  }

  /** `set_feedback`. */
  function SetFeedback(p: Preview, good: bool): (r: Preview)
    ensures r.feedback == Some(good)
    ensures r == p.(feedback := r.feedback)
  {
    p.(feedback := Some(good))
  }

  /** The key bindings of `init`. */
  function KeyAction(key: string): (r: Option<Action>)
    ensures r == Some(NextSlide) <==> key == "down" || key == "right"
    ensures r == Some(PrevSlide) <==> key == "up" || key == "left"
    ensures r == Some(FirstSlide) <==> key == "home"
    ensures r == Some(LastSlide) <==> key == "end"
    ensures r == Some(ZoomIn) <==> key == "="
    ensures r == Some(ZoomOut) <==> key == "-"
    ensures r == Some(ResetZoom) <==> key == "0"
    ensures r.None? <==> key !in {"down", "right", "up", "left", "=", "-", "0", "home", "end"}
  {
    if key == "down" || key == "right" then Some(NextSlide)
    else if key == "up" || key == "left" then Some(PrevSlide)
    else if key == "=" then Some(ZoomIn)
    else if key == "-" then Some(ZoomOut)
    else if key == "0" then Some(ResetZoom)
    else if key == "home" then Some(FirstSlide)
    else if key == "end" then Some(LastSlide)
    else None
  }

  /** What the preview pane shows about navigation. */
  datatype NavBar = NavBar(prevDisabled: bool, nextDisabled: bool, indicator: string)

  /** `render_main_preview`'s button states and "n / len" indicator. */
  function Nav(p: Preview): (n: NavBar)
    requires Wf(p)
    ensures n.prevDisabled <==> p.selected == 0
    ensures n.nextDisabled <==> p.selected + 1 == |p.slides|
    ensures n.indicator == NatToString(p.selected + 1) + " / " + NatToString(|p.slides|)
  {
    NavBar(p.selected == 0, p.selected == |p.slides| - 1,
      NatToString(p.selected + 1) + " / " + NatToString(|p.slides|))
  }

  // ---------------------------------------------------------------------------
  // Properties
  // ---------------------------------------------------------------------------

  /** Every action keeps a well-formed preview well-formed. */
  lemma ApplyKeepsWf(p: Preview, a: Action)
    requires Wf(p)
    ensures Apply(p, a).Ok? && Wf(Apply(p, a).value)
  {
  }

  /** Every action keeps the preview well-formed over any run of actions,
      and no run fails on a non-empty deck. */
  function Run(p: Preview, actions: seq<Action>): (r: Preview)
    requires Wf(p)
    ensures Wf(r) && r.slides == p.slides && r.feedback == p.feedback
    decreases |actions|
  {
    if actions == [] then p
    else
      ApplyKeepsWf(p, actions[0]);
      Run(Apply(p, actions[0]).value, actions[1..])
  }

  /** Next and Prev undo each other away from the ends. */
  lemma NextPrevInverse(p: Preview)
    requires Wf(p)
    ensures p.selected + 1 < |p.slides| ==> Prev(Next(p).value) == p
    ensures p.selected > 0 ==> Next(Prev(p)).value == p
  {
  }

  /** The next button is disabled exactly where Next changes nothing, and
      the previous button exactly where Prev changes nothing. */
  lemma DisabledIffNoMove(p: Preview)
    requires Wf(p)
    ensures Nav(p).nextDisabled <==> Next(p).value == p
    ensures Nav(p).prevDisabled <==> Prev(p) == p
  {
  }

  /** Zooming in and then out restores a zoom below the maximum, and out
      then in one above the minimum. */
  lemma ZoomInverse(p: Preview)
    requires Wf(p)
    ensures p.zoomTenths < MaxZoom ==> Zoom(Zoom(p, ZoomIn), ZoomOut) == p
    ensures p.zoomTenths > MinZoom ==> Zoom(Zoom(p, ZoomOut), ZoomIn) == p
  {
  }

  /** Enough Next actions reach the last slide and stay there. */
  lemma {:induction false} NextReachesLast(p: Preview, k: nat)
    requires Wf(p) && p.selected + k >= |p.slides| - 1
    ensures Run(p, seq(k, _ => NextSlide)).selected == |p.slides| - 1
    decreases k
  {
    if k > 0 {
      var q := Apply(p, NextSlide).value;
      assert seq(k, _ => NextSlide)[1..] == seq(k - 1, _ => NextSlide);
      if q.selected + (k - 1) >= |p.slides| - 1 {
        NextReachesLast(q, k - 1);
      }
    }
  }
}

=== FILE: scroll_sync.dfy ===
/** The two-pane scroll synchronisation of the side-by-side diff
    (crates/story/examples/diff.rs, `sync_scroll`). The scroll handles are
    reduced to their offsets; a point of `Pixels` becomes a point of integers. */
module ScrollSync {

  datatype Point = Point(x: int, y: int)

  /** Current offsets of both panes and the offsets remembered from the last sync. */
  datatype Panes = Panes(oldOffset: Point, newOffset: Point, lastOld: Point, lastNew: Point)

  /** Both panes show the same offset and both remembered offsets equal it. */
  predicate Aligned(p: Panes) {
    p.oldOffset == p.newOffset && p.lastOld == p.oldOffset && p.lastNew == p.oldOffset
  }

  /** `sync_scroll`: the old pane wins when it moved since the last sync and
      differs from the new pane; otherwise the new pane wins on the same terms;
      otherwise nothing changes. */
  function SyncScroll(p: Panes): (r: Panes)
    ensures r == p || Aligned(r)
    ensures p.oldOffset != p.lastOld && p.oldOffset != p.newOffset ==>
      Aligned(r) && r.oldOffset == p.oldOffset
    ensures ((p.oldOffset == p.lastOld || p.oldOffset == p.newOffset) && p.newOffset != p.lastNew && p.newOffset != p.oldOffset)
      ==> Aligned(r) && r.newOffset == p.newOffset
    ensures r != p ==> p.oldOffset != p.newOffset
    ensures (p.oldOffset == p.lastOld || p.oldOffset == p.newOffset) && (p.newOffset == p.lastNew || p.newOffset == p.oldOffset) ==> r == p
  {
    if p.oldOffset != p.lastOld && p.oldOffset != p.newOffset then
      Panes(p.oldOffset, p.oldOffset, p.oldOffset, p.oldOffset)
    else if p.newOffset != p.lastNew && p.newOffset != p.oldOffset then
      Panes(p.newOffset, p.newOffset, p.newOffset, p.newOffset)
    else p
  }

  /** A sync never moves the pane that the user scrolled: the result shows one
      of the two offsets the panes had. */
  lemma SyncKeepsAnOffset(p: Panes)
    ensures SyncScroll(p).oldOffset in {p.oldOffset, p.newOffset}
    ensures SyncScroll(p).newOffset in {p.oldOffset, p.newOffset}
  {
  }

  /** Syncing twice is the same as syncing once. */
  lemma SyncIdempotent(p: Panes)
    ensures SyncScroll(SyncScroll(p)) == SyncScroll(p)
  {
  }

  /** Panes that show the same offset are never touched. */
  lemma SyncLeavesEqualPanes(p: Panes)
    requires p.oldOffset == p.newOffset
    ensures SyncScroll(p) == p
  {
  }
}

=== FILE: side_by_side.dfy ===
/** Side-by-side rows of both diff examples: `build_side_by_side_rows` in
    crates/story/examples/diff.rs (over diff lines) and in
    crates/story/examples/multi_file_diff.rs (over display items, where a
    collapsed block passes through as a row of its own).

    A removed line directly followed by an added line is shown as one
    modified row; every other line gets a row to itself. The source walks an
    index that advances by one or two; the model recurses on the rest of the
    sequence, which is the same walk. */
module SideBySide {
  import opened Wrappers
  import opened DiffLines
  import opened ContextCollapse

  datatype SideBySideRow = SideBySideRow(
    oldLineNo: Option<nat>,
    oldText: Option<string>,
    oldKind: DiffLineKind,
    newLineNo: Option<nat>,
    newText: Option<string>,
    newKind: DiffLineKind)

  datatype DisplayRow =
    | RowLine(row: SideBySideRow)
    | RowCollapsed(startOld: nat, startNew: nat, count: nat, startIndex: nat)

  /** An unchanged line: the same text on both sides. */
  function UnchangedRow(line: DiffLine): SideBySideRow {
    SideBySideRow(line.oldLineNo, Some(line.text), Unchanged, line.newLineNo, Some(line.text), Unchanged)
  }

  /** A removed line paired with the added line that follows it. */
  function PairRow(removed: DiffLine, added: DiffLine): SideBySideRow {
    SideBySideRow(removed.oldLineNo, Some(removed.text), Removed, added.newLineNo, Some(added.text), Added)
  }

  /** A removed line on its own: the new side is empty. */
  function RemovedRow(line: DiffLine): SideBySideRow {
    SideBySideRow(line.oldLineNo, Some(line.text), Removed, None, None, Unchanged)
  }

  /** An added line on its own: the old side is empty. */
  function AddedRow(line: DiffLine): SideBySideRow {
    SideBySideRow(None, None, Unchanged, line.newLineNo, Some(line.text), Added)
  }

  /** The row a line gets when it is not paired. */
  function LineRow(line: DiffLine): SideBySideRow {
    match line.kind
    case Unchanged => UnchangedRow(line)
    case Removed => RemovedRow(line)
    case Added => AddedRow(line)
  }

  /** diff.rs `build_side_by_side_rows`. */
  function RowsOfLines(lines: seq<DiffLine>): (rows: seq<SideBySideRow>)
    ensures |rows| <= |lines|
    ensures lines != [] ==> |rows| >= 1
    decreases |lines|
  {
    if lines == [] then []
    else
      match lines[0].kind
      case Unchanged => [UnchangedRow(lines[0])] + RowsOfLines(lines[1..])
      case Removed =>
        if |lines| > 1 && lines[1].kind == Added then [PairRow(lines[0], lines[1])] + RowsOfLines(lines[2..])
        else [RemovedRow(lines[0])] + RowsOfLines(lines[1..])
      case Added => [AddedRow(lines[0])] + RowsOfLines(lines[1..])
  }

  /** A row pairs a removed and an added line. */
  predicate Merged(row: SideBySideRow) {
    row.oldKind == Removed && row.newKind == Added
  }

  /** The lines a row was built from, read back off the row. */
  function LinesOfRow(row: SideBySideRow): seq<DiffLine> {
    if Merged(row) then
      [DiffLine(Removed, row.oldLineNo, None, row.oldText.UnwrapOr("")),
       DiffLine(Added, None, row.newLineNo, row.newText.UnwrapOr(""))]
    else if row.oldKind == Removed then [DiffLine(Removed, row.oldLineNo, None, row.oldText.UnwrapOr(""))]
    else if row.newKind == Added then [DiffLine(Added, None, row.newLineNo, row.newText.UnwrapOr(""))]
    else [DiffLine(Unchanged, row.oldLineNo, row.newLineNo, row.oldText.UnwrapOr(""))]
  }

  function LinesOfRows(rows: seq<SideBySideRow>): seq<DiffLine> {
    if rows == [] then [] else LinesOfRow(rows[0]) + LinesOfRows(rows[1..])
  }

  /** The rows of a removed line followed by an added one: their pair, then
      the rows of the rest. */
  lemma RowsOfLinesPair(lines: seq<DiffLine>)
    requires |lines| > 1 && lines[0].kind == Removed && lines[1].kind == Added
    ensures RowsOfLines(lines) == [PairRow(lines[0], lines[1])] + RowsOfLines(lines[2..])
  {
  }

  /** Any other first line gets a row to itself. */
  lemma RowsOfLinesSingle(lines: seq<DiffLine>)
    requires lines != [] && !(|lines| > 1 && lines[0].kind == Removed && lines[1].kind == Added)
    ensures RowsOfLines(lines) == [LineRow(lines[0])] + RowsOfLines(lines[1..])
  {
  }

  lemma LinesOfRowsCons(row: SideBySideRow, rows: seq<SideBySideRow>)
    ensures LinesOfRows([row] + rows) == LinesOfRow(row) + LinesOfRows(rows)
  {
    assert ([row] + rows)[1..] == rows;
  }

  lemma {:induction false} RoundTripPair(lines: seq<DiffLine>)
    requires AllWellFormed(lines)
    requires |lines| > 1 && lines[0].kind == Removed && lines[1].kind == Added
    requires LinesOfRows(RowsOfLines(lines[2..])) == lines[2..]
    ensures LinesOfRows(RowsOfLines(lines)) == lines
  {
    RowsOfLinesPair(lines);
    LinesOfRowsCons(PairRow(lines[0], lines[1]), RowsOfLines(lines[2..]));
    assert WellFormed(lines[0]) && WellFormed(lines[1]);
    assert LinesOfRow(PairRow(lines[0], lines[1])) == [lines[0], lines[1]];
    assert lines == [lines[0], lines[1]] + lines[2..];
  }

  lemma {:induction false} RoundTripSingle(lines: seq<DiffLine>)
    requires AllWellFormed(lines)
    requires lines != [] && !(|lines| > 1 && lines[0].kind == Removed && lines[1].kind == Added)
    requires LinesOfRows(RowsOfLines(lines[1..])) == lines[1..]
    ensures LinesOfRows(RowsOfLines(lines)) == lines
  {
    RowsOfLinesSingle(lines);
    LinesOfRowsCons(LineRow(lines[0]), RowsOfLines(lines[1..]));
    LineRowRoundTrip(lines[0]);
    assert lines == [lines[0]] + lines[1..];
  }

  lemma LineRowRoundTrip(line: DiffLine)
    requires WellFormed(line)
    ensures LinesOfRow(LineRow(line)) == [line]
  {
  }

  /** Every well-formed line lands in exactly one row, in order: reading the
      lines back off the rows gives the diff lines again. */
  lemma {:induction false} RowsOfLinesRoundTrip(lines: seq<DiffLine>)
    requires AllWellFormed(lines)
    ensures LinesOfRows(RowsOfLines(lines)) == lines
    decreases |lines|
  {
    if lines != [] {
      if |lines| > 1 && lines[0].kind == Removed && lines[1].kind == Added {
        RowsOfLinesRoundTrip(lines[2..]);
        RoundTripPair(lines);
      } else {
        RowsOfLinesRoundTrip(lines[1..]);
        RoundTripSingle(lines);
      }
    }
  }

  /** How many rows pair two lines. */
  function MergedCount(rows: seq<SideBySideRow>): nat {
    if rows == [] then 0 else (if Merged(rows[0]) then 1 else 0) + MergedCount(rows[1..])
  }

  /** Row count = line count - merged pairs. */
  lemma {:induction false} RowsOfLinesCount(lines: seq<DiffLine>)
    ensures |RowsOfLines(lines)| + MergedCount(RowsOfLines(lines)) == |lines|
    decreases |lines|
  {
    if lines != [] {
      var rows := RowsOfLines(lines);
      if lines[0].kind == Removed && |lines| > 1 && lines[1].kind == Added {
        RowsOfLinesCount(lines[2..]);
        assert rows[1..] == RowsOfLines(lines[2..]);
      } else {
        RowsOfLinesCount(lines[1..]);
        assert rows[1..] == RowsOfLines(lines[1..]);
      }
    }
  }

  /** Row `i` of a well-formed diff that is not merged shows one line; an
      unchanged one shows the same text on both sides with both numbers. */
  lemma UnchangedRowsAgree(lines: seq<DiffLine>, i: nat)
    requires AllWellFormed(lines) && i < |RowsOfLines(lines)|
    requires RowsOfLines(lines)[i].oldKind == Unchanged && RowsOfLines(lines)[i].newKind == Unchanged
    ensures RowsOfLines(lines)[i].oldText == RowsOfLines(lines)[i].newText
    ensures RowsOfLines(lines)[i].oldText.Some?
    ensures RowsOfLines(lines)[i].oldLineNo.Some? && RowsOfLines(lines)[i].newLineNo.Some?
    decreases |lines|
  {
    var rows := RowsOfLines(lines);
    if i > 0 {
      if lines[0].kind == Removed && |lines| > 1 && lines[1].kind == Added {
        assert rows[1..] == RowsOfLines(lines[2..]);
        assert rows[i] == RowsOfLines(lines[2..])[i - 1];
        UnchangedRowsAgree(lines[2..], i - 1);
      } else {
        assert rows[1..] == RowsOfLines(lines[1..]);
        assert rows[i] == RowsOfLines(lines[1..])[i - 1];
        UnchangedRowsAgree(lines[1..], i - 1);
      }
    }
  }

  // ---------------------------------------------------------------------------
  // Over display items (multi_file_diff.rs)
  // ---------------------------------------------------------------------------

  /** multi_file_diff.rs `build_side_by_side_rows`. */
  function RowsOfItems(items: seq<DisplayItem>): (rows: seq<DisplayRow>)
    ensures |rows| <= |items|
    decreases |items|
  {
    if items == [] then []
    else
      match items[0]
      case Collapsed(so, sn, c, si) => [RowCollapsed(so, sn, c, si)] + RowsOfItems(items[1..])
      case Line(line) =>
        match line.kind
        case Unchanged => [RowLine(UnchangedRow(line))] + RowsOfItems(items[1..])
        case Removed =>
          if |items| > 1 && items[1].Line? && items[1].line.kind == Added then
            [RowLine(PairRow(line, items[1].line))] + RowsOfItems(items[2..])
          else [RowLine(RemovedRow(line))] + RowsOfItems(items[1..])
        case Added => [RowLine(AddedRow(line))] + RowsOfItems(items[1..])
  }

  function ItemsOfRow(row: DisplayRow): seq<DisplayItem> {
    match row
    case RowCollapsed(so, sn, c, si) => [Collapsed(so, sn, c, si)]
    case RowLine(r) => seq(|LinesOfRow(r)|, i requires 0 <= i < |LinesOfRow(r)| => Line(LinesOfRow(r)[i]))
  }

  function ItemsOfRows(rows: seq<DisplayRow>): seq<DisplayItem> {
    if rows == [] then [] else ItemsOfRow(rows[0]) + ItemsOfRows(rows[1..])
  }

  /** The lines of a display are well-formed. */
  predicate ItemsWellFormed(items: seq<DisplayItem>) {
    forall i :: 0 <= i < |items| && items[i].Line? ==> WellFormed(items[i].line)
  }

  /** The rows of a removed line followed by an added one, as items. */
  lemma RowsOfItemsPair(items: seq<DisplayItem>)
    requires |items| > 1 && items[0].Line? && items[0].line.kind == Removed
    requires items[1].Line? && items[1].line.kind == Added
    ensures RowsOfItems(items) == [RowLine(PairRow(items[0].line, items[1].line))] + RowsOfItems(items[2..])
  {
  }

  /** Any other first item gets a row to itself. */
  lemma RowsOfItemsSingle(items: seq<DisplayItem>)
    requires items != []
    requires !(|items| > 1 && items[0].Line? && items[0].line.kind == Removed && items[1].Line? && items[1].line.kind == Added)
    ensures RowsOfItems(items) == [ItemRow(items[0])] + RowsOfItems(items[1..])
  {
  }

  /** The row an item gets when it is not paired. */
  function ItemRow(item: DisplayItem): DisplayRow {
    match item
    case Collapsed(so, sn, c, si) => RowCollapsed(so, sn, c, si)
    case Line(line) => RowLine(LineRow(line))
  }

  lemma ItemRowRoundTrip(item: DisplayItem)
    requires item.Line? ==> WellFormed(item.line)
    ensures ItemsOfRow(ItemRow(item)) == [item]
  {
    if item.Line? {
      LineRowRoundTrip(item.line);
      assert ItemsOfRow(ItemRow(item))[0] == item;
    }
  }

  lemma ItemsOfRowsCons(row: DisplayRow, rows: seq<DisplayRow>)
    ensures ItemsOfRows([row] + rows) == ItemsOfRow(row) + ItemsOfRows(rows)
  {
    assert ([row] + rows)[1..] == rows;
  }

  lemma {:induction false} ItemsRoundTripPair(items: seq<DisplayItem>)
    requires ItemsWellFormed(items)
    requires |items| > 1 && items[0].Line? && items[0].line.kind == Removed
    requires items[1].Line? && items[1].line.kind == Added
    requires ItemsOfRows(RowsOfItems(items[2..])) == items[2..]
    ensures ItemsOfRows(RowsOfItems(items)) == items
  {
    var row := RowLine(PairRow(items[0].line, items[1].line));
    RowsOfItemsPair(items);
    ItemsOfRowsCons(row, RowsOfItems(items[2..]));
    assert WellFormed(items[0].line) && WellFormed(items[1].line);
    assert LinesOfRow(row.row) == [items[0].line, items[1].line];
    assert ItemsOfRow(row) == [items[0], items[1]];
    assert items == [items[0], items[1]] + items[2..];
  }

  lemma {:induction false} ItemsRoundTripSingle(items: seq<DisplayItem>)
    requires ItemsWellFormed(items)
    requires items != []
    requires !(|items| > 1 && items[0].Line? && items[0].line.kind == Removed && items[1].Line? && items[1].line.kind == Added)
    requires ItemsOfRows(RowsOfItems(items[1..])) == items[1..]
    ensures ItemsOfRows(RowsOfItems(items)) == items
  {
    RowsOfItemsSingle(items);
    ItemsOfRowsCons(ItemRow(items[0]), RowsOfItems(items[1..]));
    ItemRowRoundTrip(items[0]);
    assert items == [items[0]] + items[1..];
  }

  /** Reading the items back off the rows gives the display items again:
      collapsed blocks pass through unchanged and every line lands in exactly
      one row, in order. */
  lemma {:induction false} RowsOfItemsRoundTrip(items: seq<DisplayItem>)
    requires ItemsWellFormed(items)
    ensures ItemsOfRows(RowsOfItems(items)) == items
    decreases |items|
  {
    if items != [] {
      if |items| > 1 && items[0].Line? && items[0].line.kind == Removed && items[1].Line? && items[1].line.kind == Added {
        RowsOfItemsRoundTrip(items[2..]);
        ItemsRoundTripPair(items);
      } else {
        RowsOfItemsRoundTrip(items[1..]);
        ItemsRoundTripSingle(items);
      }
    }
  }

  /** Diff lines as display items, each shown as a line. */
  function AsItems(lines: seq<DiffLine>): (items: seq<DisplayItem>)
    ensures |items| == |lines|
    ensures forall i :: 0 <= i < |lines| ==> items[i] == Line(lines[i])
  {
    if lines == [] then [] else [Line(lines[0])] + AsItems(lines[1..])
  }

  /** Side-by-side rows as display rows. */
  function AsRows(rows: seq<SideBySideRow>): (r: seq<DisplayRow>)
    ensures |r| == |rows|
    ensures forall i :: 0 <= i < |rows| ==> r[i] == RowLine(rows[i])
  {
    if rows == [] then [] else [RowLine(rows[0])] + AsRows(rows[1..])
  }

  lemma AsRowsCons(row: SideBySideRow, rows: seq<SideBySideRow>)
    ensures AsRows([row] + rows) == [RowLine(row)] + AsRows(rows)
  {
    assert ([row] + rows)[1..] == rows;
  }

  lemma AsItemsCons(lines: seq<DiffLine>)
    requires lines != []
    ensures AsItems(lines) == [Line(lines[0])] + AsItems(lines[1..])
  {
  }

  lemma AsItemsCons2(lines: seq<DiffLine>)
    requires |lines| > 1
    ensures AsItems(lines) == [Line(lines[0]), Line(lines[1])] + AsItems(lines[2..])
  {
    AsItemsCons(lines);
    AsItemsCons(lines[1..]);
    assert lines[1..][1..] == lines[2..];
  }

  lemma RowsOfItemsPairCons(x: DiffLine, y: DiffLine, rest: seq<DisplayItem>)
    requires x.kind == Removed && y.kind == Added
    ensures RowsOfItems([Line(x), Line(y)] + rest) == [RowLine(PairRow(x, y))] + RowsOfItems(rest)
  {
    var items := [Line(x), Line(y)] + rest;
    assert items[2..] == rest;
    RowsOfItemsPair(items);
  }

  lemma RowsOfItemsSingleCons(x: DiffLine, rest: seq<DisplayItem>)
    requires !(x.kind == Removed && rest != [] && rest[0].Line? && rest[0].line.kind == Added)
    ensures RowsOfItems([Line(x)] + rest) == [RowLine(LineRow(x))] + RowsOfItems(rest)
  {
    var items := [Line(x)] + rest;
    assert items[1..] == rest;
    RowsOfItemsSingle(items);
  }

  lemma {:induction false} RowsAgreePair(lines: seq<DiffLine>)
    requires |lines| > 1 && lines[0].kind == Removed && lines[1].kind == Added
    requires RowsOfItems(AsItems(lines[2..])) == AsRows(RowsOfLines(lines[2..]))
    ensures RowsOfItems(AsItems(lines)) == AsRows(RowsOfLines(lines))
  {
    AsItemsCons2(lines);
    RowsOfItemsPairCons(lines[0], lines[1], AsItems(lines[2..]));
    RowsOfLinesPair(lines);
    AsRowsCons(PairRow(lines[0], lines[1]), RowsOfLines(lines[2..]));
  }

  lemma {:induction false} RowsAgreeSingle(lines: seq<DiffLine>)
    requires lines != [] && !(|lines| > 1 && lines[0].kind == Removed && lines[1].kind == Added)
    requires RowsOfItems(AsItems(lines[1..])) == AsRows(RowsOfLines(lines[1..]))
    ensures RowsOfItems(AsItems(lines)) == AsRows(RowsOfLines(lines))
  {
    AsItemsCons(lines);
    RowsOfItemsSingleCons(lines[0], AsItems(lines[1..]));
    RowsOfLinesSingle(lines);
    AsRowsCons(LineRow(lines[0]), RowsOfLines(lines[1..]));
  }

  /** The two copies agree: on a display without collapsed blocks, the
      multi-file rows are the single-file rows. */
  lemma {:induction false} RowsAgree(lines: seq<DiffLine>)
    ensures RowsOfItems(AsItems(lines)) == AsRows(RowsOfLines(lines))
    decreases |lines|
  {
    if lines != [] {
      if |lines| > 1 && lines[0].kind == Removed && lines[1].kind == Added {
        RowsAgree(lines[2..]);
        RowsAgreePair(lines);
      } else {
        RowsAgree(lines[1..]);
        RowsAgreeSingle(lines);
      }
    }
  }
}

=== FILE: skills_page.dfy ===
/** The skills page story (crates/story/examples/skills_page.rs): two
    thread folders that fold open and shut by name, a user menu, and the
    recommended skills laid out two to a row. Icons and colours are left
    out. */
module SkillsPage {

  datatype Skill = Skill(id: string, title: string, description: string)

  datatype Thread = Thread(title: string, time: string, selected: bool)

  datatype Page = Page(
    installed: seq<Skill>,
    recommended: seq<Skill>,
    threads: seq<Thread>,
    agentStudioExpanded: bool,
    teleagentExpanded: bool,
    userMenuOpen: bool)

  /** `new`: agent-studio open, teleagent shut, menu closed. */
  function NewPage(installed: seq<Skill>, recommended: seq<Skill>, threads: seq<Thread>): (p: Page)
    ensures p.installed == installed && p.recommended == recommended && p.threads == threads
    ensures p.agentStudioExpanded && !p.teleagentExpanded && !p.userMenuOpen
  {
    Page(installed, recommended, threads, true, false, false)
  }

  /** The click handler of `render_folder_header`: flips the named folder;
      any other name does nothing. */
  function ClickFolder(p: Page, name: string): (r: Page)
    ensures name == "agent-studio" ==> r == p.(agentStudioExpanded := !p.agentStudioExpanded)
    ensures name == "teleagent" ==> r == p.(teleagentExpanded := !p.teleagentExpanded)
    ensures name != "agent-studio" && name != "teleagent" ==> r == p
  {
    if name == "agent-studio" then p.(agentStudioExpanded := !p.agentStudioExpanded)
    else if name == "teleagent" then p.(teleagentExpanded := !p.teleagentExpanded)
    else p
  }

  /** The popover's `on_open_change`. */
  function SetMenuOpen(p: Page, open: bool): (r: Page)
    ensures r.userMenuOpen == open
    ensures r == p.(userMenuOpen := r.userMenuOpen)
  {
    p.(userMenuOpen := open)
  }

  /** `render_folder_group`: the threads listed under a folder, which are
      the page's threads only when it is open and has threads. */
  function FolderThreads(p: Page, expanded: bool, hasThreads: bool): (r: seq<Thread>)
    ensures r == [] || r == p.threads
    ensures r == p.threads <== expanded && hasThreads
    ensures !(expanded && hasThreads) ==> r == []
  {
    if expanded && hasThreads then p.threads else []
  }

  /** `render_threads_section`: agent-studio has threads, teleagent none. */
  function ThreadsSection(p: Page): (r: (seq<Thread>, seq<Thread>))
    ensures r.0 == (if p.agentStudioExpanded then p.threads else [])
    ensures r.1 == []
  {
    (FolderThreads(p, p.agentStudioExpanded, true), FolderThreads(p, p.teleagentExpanded, false))
  }

  // ---------------------------------------------------------------------------
  // Recommended cards
  // ---------------------------------------------------------------------------

  /** A row of the recommended section: its cards, and a spacer when a
      lone card would otherwise stretch across the row. */
  datatype Row = Row(cards: seq<Skill>, spacer: bool)

  /** `render_recommended_section`: `chunks(2)` with a spacer on a row of one. */
  function RecommendedRows(skills: seq<Skill>): (rows: seq<Row>)
    ensures |rows| == (|skills| + 1) / 2
    ensures forall i :: 0 <= i < |rows| ==> 1 <= |rows[i].cards| <= 2 && (rows[i].spacer <==> |rows[i].cards| == 1)
    decreases |skills|
  {
    if skills == [] then []
    else if |skills| == 1 then [Row(skills, true)]
    else [Row(skills[..2], false)] + RecommendedRows(skills[2..])
  }

  /** The cards of the rows, row by row. */
  function Cards(rows: seq<Row>): seq<Skill> {
    if rows == [] then [] else rows[0].cards + Cards(rows[1..])
  }

  // ---------------------------------------------------------------------------
  // Properties
  // ---------------------------------------------------------------------------

  /** Reading the rows back gives the recommended skills in order. */
  lemma {:induction false} RowsKeepOrder(skills: seq<Skill>)
    ensures Cards(RecommendedRows(skills)) == skills
    decreases |skills|
  {
    if |skills| >= 2 {
      RowsKeepOrder(skills[2..]);
      assert RecommendedRows(skills)[1..] == RecommendedRows(skills[2..]);
      assert skills == skills[..2] + skills[2..];
    }
  }

  /** Only the last row can hold a single card, and it does exactly when
      the number of skills is odd. */
  lemma {:induction false} SpacerOnlyLast(skills: seq<Skill>)
    ensures forall i :: 0 <= i < |RecommendedRows(skills)| - 1 ==> !RecommendedRows(skills)[i].spacer
    ensures RecommendedRows(skills) != [] ==>
      (RecommendedRows(skills)[|RecommendedRows(skills)| - 1].spacer <==> |skills| % 2 == 1)
    decreases |skills|
  {
    if |skills| >= 2 {
      SpacerOnlyLast(skills[2..]);
      var rows := RecommendedRows(skills);
      assert rows[1..] == RecommendedRows(skills[2..]);
      assert forall i :: 1 <= i < |rows| ==> rows[i] == rows[1..][i - 1];
    }
  }

  /** Clicking a folder twice restores the page. */
  lemma ClickTwice(p: Page, name: string)
    ensures ClickFolder(ClickFolder(p, name), name) == p
  {
  }

  /** Clicking teleagent never lists a thread: it has none. */
  lemma TeleagentNeverListsThreads(p: Page)
    ensures ThreadsSection(ClickFolder(p, "teleagent")).1 == []
    ensures ThreadsSection(ClickFolder(p, "teleagent")).0 == ThreadsSection(p).0
  {
  }
}

=== FILE: text.dfy ===
/** The handful of Rust `str` operations the modelled code relies on.
    A Rust `String` is a sequence of Unicode scalar values, which is what a
    Dafny `string` is, so `chars()` is the sequence itself and byte lengths
    are computed from each character's UTF-8 width. */
module Text {
  import opened Wrappers

  // ---------------------------------------------------------------------------
  // Decimal numbers (`usize::to_string` and `str::parse::<usize>`)
  // ---------------------------------------------------------------------------

  predicate IsDigit(c: char) {
    '0' <= c <= '9'
  }

  predicate AllDigits(s: string) {
    forall i :: 0 <= i < |s| ==> IsDigit(s[i])
  }

  function DigitChar(d: nat): (c: char)
    requires d < 10
    ensures IsDigit(c)
  {
    ('0' as int + d) as char
  }

  function DigitValue(c: char): (d: nat)
    requires IsDigit(c)
    ensures d < 10 && DigitChar(d) == c
  {
    c as int - '0' as int
  }

  /** `n.to_string()`: the shortest decimal spelling of `n`. */
  function NatToString(n: nat): (s: string)
    ensures 1 <= |s| && AllDigits(s)
    ensures s[0] == '0' ==> n == 0 && |s| == 1
    decreases n
  {
    if n < 10 then [DigitChar(n)] else NatToString(n / 10) + [DigitChar(n % 10)]
  }

  /** The value of a run of decimal digits, most significant first. */
  function DigitsValue(s: string): nat
    requires AllDigits(s)
  {
    if s == [] then 0 else DigitsValue(s[..|s| - 1]) * 10 + DigitValue(s[|s| - 1])
  }

  /** `s.parse::<usize>()`: an optional `+` and then at least one ASCII digit.
      The `usize` upper bound is not modelled. */
  function ParseNat(s: string): (r: Option<nat>)
    ensures r.Some? <==> (|s| > 0 && AllDigits(s)) || (|s| > 1 && s[0] == '+' && AllDigits(s[1..]))
  {
    if |s| > 0 && s[0] == '+' then
      if |s| > 1 && AllDigits(s[1..]) then Some(DigitsValue(s[1..])) else None
    else if |s| > 0 && AllDigits(s) then Some(DigitsValue(s))
    else None
  }

  lemma {:induction false} DigitsValueOfNatToString(n: nat)
    ensures DigitsValue(NatToString(n)) == n
    decreases n
  {
    if n >= 10 {
      var s := NatToString(n);
      assert s[..|s| - 1] == NatToString(n / 10);
      DigitsValueOfNatToString(n / 10);
    }
  }

  /** Parsing what `to_string` printed gives the number back. */
  lemma ParseNatToString(n: nat)
    ensures ParseNat(NatToString(n)) == Some(n)
  {
    DigitsValueOfNatToString(n);
  }

  /** Distinct numbers have distinct spellings, so decimal keys never collide. */
  lemma NatToStringInjective(a: nat, b: nat)
    ensures NatToString(a) == NatToString(b) <==> a == b
  {
    if NatToString(a) == NatToString(b) {
      ParseNatToString(a);
      ParseNatToString(b);
    }
  }

  // ---------------------------------------------------------------------------
  // Searching and splitting
  // ---------------------------------------------------------------------------

  /** Position of the first `c` in `s`, or `|s|` when there is none. */
  function IndexOf(s: string, c: char): (k: nat)
    ensures k <= |s|
    ensures k < |s| ==> s[k] == c
    ensures forall i :: 0 <= i < k ==> s[i] != c
  {
    if s == [] then 0 else if s[0] == c then 0 else 1 + IndexOf(s[1..], c)
  }

  /** `parts.join(sep)`. */
  function Join(parts: seq<string>, sep: string): string {
    if |parts| == 0 then ""
    else if |parts| == 1 then parts[0]
    else parts[0] + sep + Join(parts[1..], sep)
  }

  /** Joining with no separator: one more part appends it. */
  lemma {:induction false} JoinSnoc(parts: seq<string>, p: string)
    ensures Join(parts + [p], "") == Join(parts, "") + p
  {
    if |parts| == 0 {
      assert parts + [p] == [p];
    } else if |parts| == 1 {
      assert parts + [p] == [parts[0], p];
      assert [parts[0], p][1..] == [p];
    } else {
      assert (parts + [p])[1..] == parts[1..] + [p];
      JoinSnoc(parts[1..], p);
    }
  }

  /** `s.split(c)`: never empty, and no piece contains the separator. */
  function Split(s: string, c: char): (parts: seq<string>)
    ensures |parts| >= 1
    ensures forall i :: 0 <= i < |parts| ==> c !in parts[i]
    decreases |s|
  {
    var k := IndexOf(s, c);
    if k == |s| then [s] else [s[..k]] + Split(s[k + 1..], c)
  }

  /** Joining the pieces of a split with the separator gives the text back. */
  lemma {:induction false} JoinSplit(s: string, c: char)
    ensures Join(Split(s, c), [c]) == s
    decreases |s|
  {
    var k := IndexOf(s, c);
    if k < |s| {
      JoinSplit(s[k + 1..], c);
      var rest := Split(s[k + 1..], c);
      var parts := [s[..k]] + rest;
      assert Split(s, c) == parts;
      assert parts[1..] == rest;
      assert Join(parts, [c]) == s[..k] + [c] + Join(rest, [c]);
      assert s == s[..k] + [c] + s[k + 1..];
    }
  }

  /** Drops one `\r` that ends a line. */
  function StripCr(line: string): (r: string)
    ensures r == line || (line == r + ['\r'])
  {
    if |line| > 0 && line[|line| - 1] == '\r' then line[..|line| - 1] else line
  }

  /** `s.lines()`: split at each `\n`, drop a `\r` just before a `\n`, and
      produce no empty final line for a text that ends with `\n`. */
  function Lines(s: string): (ls: seq<string>)
    ensures |ls| == 0 <==> s == []
    ensures forall i :: 0 <= i < |ls| ==> '\n' !in ls[i]
    decreases |s|
  {
    if s == [] then []
    else
      var k := IndexOf(s, '\n');
      if k == |s| then [s] else [StripCr(s[..k])] + Lines(s[k + 1..])
  }

  /** A first line free of line-break characters stays the first line. */
  lemma LinesOfFirstAndRest(first: string, rest: string)
    requires '\n' !in first && '\r' !in first
    ensures Lines(first + "\n" + rest) == [first] + Lines(rest)
  {
    var s := first + "\n" + rest;
    assert IndexOf(s, '\n') == |first| by {
      assert s[|first|] == '\n';
      assert forall i :: 0 <= i < |first| ==> s[i] == first[i];
    }
    assert s[..|first|] == first && s[|first| + 1..] == rest;
    assert StripCr(first) == first by {
      if |first| > 0 {
        assert first[|first| - 1] in first;
      }
    }
  }

  /** Lines of a text whose last line is not empty: the pieces of the split
      at `\n`, when no `\r` needs stripping. */
  lemma {:induction false} LinesOfBodyAndLast(body: string, last: string)
    requires '\r' !in body && '\n' !in last && last != []
    ensures Lines(body + "\n" + last) == Split(body, '\n') + [last]
    decreases |body|
  {
    var k := IndexOf(body, '\n');
    assert Lines(last) == [last];
    if k == |body| {
      LinesOfFirstAndRest(body, last);
    } else {
      var first, rest := body[..k], body[k + 1..];
      assert body == first + "\n" + rest;
      assert '\r' !in first && '\r' !in rest by {
        assert forall x :: x in first || x in rest ==> x in body;
      }
      assert body + "\n" + last == first + "\n" + (rest + "\n" + last);
      LinesOfFirstAndRest(first, rest + "\n" + last);
      LinesOfBodyAndLast(rest, last);
    }
  }

  /** Number of occurrences of `c` in `s`. */
  function Count(s: string, c: char): nat {
    if s == [] then 0 else (if s[0] == c then 1 else 0) + Count(s[1..], c)
  }

  lemma {:induction false} CountAppend(a: string, b: string, c: char)
    ensures Count(a + b, c) == Count(a, c) + Count(b, c)
    decreases |a|
  {
    if a != [] {
      assert (a + b)[1..] == a[1..] + b;
      assert (a + b)[0] == a[0];
      CountAppend(a[1..], b, c);
    } else {
      assert a + b == b;
    }
  }

  lemma {:induction false} CountNone(s: string, c: char)
    requires c !in s
    ensures Count(s, c) == 0
  {
    if s != [] {
      CountNone(s[1..], c);
    }
  }

  /** A text has one line per `\n`, plus one for a non-empty unterminated tail. */
  lemma {:induction false} LinesCount(s: string)
    ensures |Lines(s)| == Count(s, '\n') + (if s != [] && s[|s| - 1] != '\n' then 1 else 0)
    decreases |s|
  {
    if s != [] {
      var k := IndexOf(s, '\n');
      if k == |s| {
        CountNone(s, '\n');
      } else {
        var t := s[k + 1..];
        LinesCount(t);
        assert Lines(s) == [StripCr(s[..k])] + Lines(t);
        assert '\n' !in s[..k] by {
          assert forall i :: 0 <= i < k ==> s[..k][i] == s[i];
        }
        CountAt(s, k, '\n');
        assert Count(s, '\n') == 1 + Count(t, '\n');
        assert t != [] ==> s[|s| - 1] == t[|t| - 1];
      }
    }
  }

  /** Splitting a text at position `k` splits its count of `c`. */
  lemma CountAt(s: string, k: nat, c: char)
    requires k < |s| && c !in s[..k] && s[k] == c
    ensures Count(s, c) == 1 + Count(s[k + 1..], c)
  {
    assert s == s[..k] + ([s[k]] + s[k + 1..]);
    CountAppend(s[..k], [s[k]] + s[k + 1..], c);
    CountNone(s[..k], c);
    assert ([s[k]] + s[k + 1..])[1..] == s[k + 1..];
  }

  /** `a <= b` in the order of Rust's `str::cmp`: lexicographic by code
      point (the byte order of UTF-8 is the code-point order). */
  predicate LexLe(a: string, b: string) {
    a == [] || (b != [] && (a[0] < b[0] || (a[0] == b[0] && LexLe(a[1..], b[1..]))))
  }

  /** Any two strings are ordered one way or the other. */
  lemma {:induction false} LexLeTotal(a: string, b: string)
    ensures LexLe(a, b) || LexLe(b, a)
    decreases |a|
  {
    if a != [] && b != [] && a[0] == b[0] {
      LexLeTotal(a[1..], b[1..]);
    }
  }

  /** Strings ordered both ways are equal. */
  lemma {:induction false} LexLeAntisymmetric(a: string, b: string)
    requires LexLe(a, b) && LexLe(b, a)
    ensures a == b
    decreases |a|
  {
    if a != [] {
      LexLeAntisymmetric(a[1..], b[1..]);
      assert a == [a[0]] + a[1..] && b == [b[0]] + b[1..];
    }
  }

  /** The order is transitive. */
  lemma {:induction false} LexLeTransitive(a: string, b: string, c: string)
    requires LexLe(a, b) && LexLe(b, c)
    ensures LexLe(a, c)
    decreases |a|
  {
    if a != [] && a[0] == b[0] && b[0] == c[0] {
      LexLeTransitive(a[1..], b[1..], c[1..]);
    }
  }

  /** `a < b` in the same order. */
  predicate LexLt(a: string, b: string) {
    LexLe(a, b) && a != b
  }

  predicate StartsWith(s: string, prefix: string) {
    |prefix| <= |s| && s[..|prefix|] == prefix
  }

  predicate EndsWith(s: string, suffix: string) {
    |suffix| <= |s| && s[|s| - |suffix|..] == suffix
  }

  /** `sub` occurs in `s` starting at position `i`. */
  predicate OccursAt(s: string, sub: string, i: int) {
    0 <= i <= |s| - |sub| && s[i..i + |sub|] == sub
  }

  /** `s.contains(sub)`. */
  function Contains(s: string, sub: string): bool
    decreases |s|
  {
    StartsWith(s, sub) || (|s| > 0 && Contains(s[1..], sub))
  }

  /** `Contains` holds exactly when `sub` occurs at some position of `s`. */
  lemma {:induction false} ContainsIff(s: string, sub: string)
    ensures Contains(s, sub) <==> exists i :: OccursAt(s, sub, i)
    decreases |s|
  {
    if StartsWith(s, sub) {
      assert OccursAt(s, sub, 0);
    }
    if |s| > 0 {
      ContainsIff(s[1..], sub);
      if exists i :: OccursAt(s, sub, i) {
        var i :| OccursAt(s, sub, i);
        if i > 0 {
          assert OccursAt(s[1..], sub, i - 1);
        }
      }
      if Contains(s[1..], sub) {
        var j :| OccursAt(s[1..], sub, j);
        assert OccursAt(s, sub, j + 1);
      }
    } else if exists i :: OccursAt(s, sub, i) {
      var i :| OccursAt(s, sub, i);
      assert StartsWith(s, sub);
    }
  }

  // ---------------------------------------------------------------------------
  // Whitespace, case and truncation
  // ---------------------------------------------------------------------------

  /** `char::is_whitespace`: the Unicode White_Space property. */
  predicate IsWhitespace(c: char) {
    c == ' ' || ('\U{0009}' <= c <= '\U{000D}') || c == '\U{0085}' || c == '\U{00A0}'
    || c == '\U{1680}' || ('\U{2000}' <= c <= '\U{200A}') || c == '\U{2028}' || c == '\U{2029}'
    || c == '\U{202F}' || c == '\U{205F}' || c == '\U{3000}'
  }

  /** `s.trim_end()`: the longest prefix that does not end in whitespace. */
  function TrimEnd(s: string): (r: string)
    ensures |r| <= |s| && r == s[..|r|]
    ensures r == [] || !IsWhitespace(r[|r| - 1])
    ensures forall i :: |r| <= i < |s| ==> IsWhitespace(s[i])
  {
    if s != [] && IsWhitespace(s[|s| - 1]) then TrimEnd(s[..|s| - 1]) else s
  }

  /** `s.trim_start()`: the longest suffix that does not start with whitespace. */
  function TrimStart(s: string): (r: string)
    ensures |r| <= |s| && r == s[|s| - |r|..]
    ensures r == [] || !IsWhitespace(r[0])
    ensures forall i :: 0 <= i < |s| - |r| ==> IsWhitespace(s[i])
  {
    if s != [] && IsWhitespace(s[0]) then TrimStart(s[1..]) else s
  }

  /** `s.trim()`. */
  function Trim(s: string): (r: string)
    ensures r == [] || (!IsWhitespace(r[0]) && !IsWhitespace(r[|r| - 1]))
    ensures exists i :: OccursAt(s, r, i)
    ensures r == [] <==> forall i :: 0 <= i < |s| ==> IsWhitespace(s[i])
  {
    var e := TrimEnd(s);
    var r := TrimStart(e);
    assert OccursAt(s, r, |e| - |r|);
    r
  }

  /** `char::to_ascii_lowercase`. */
  function LowerChar(c: char): char {
    if 'A' <= c <= 'Z' then (c as int + 32) as char else c
  }

  /** Lower-cases ASCII letters and keeps every other character. */
  function LowerAscii(s: string): (r: string)
    ensures |r| == |s|
    ensures forall i :: 0 <= i < |s| ==> r[i] == LowerChar(s[i])
  {
    seq(|s|, i requires 0 <= i < |s| => LowerChar(s[i]))
  }

  /** `s.chars().take(n)`. */
  function TakeChars(s: string, n: nat): (r: string)
    ensures |r| == if n < |s| then n else |s|
    ensures StartsWith(s, r)
  {
    if n < |s| then s[..n] else s
  }

  /** Number of bytes the UTF-8 encoding of `c` takes. */
  function Utf8Width(c: char): (w: nat)
    ensures 1 <= w <= 4
  {
    if c as int < 0x80 then 1
    else if c as int < 0x800 then 2
    else if c as int < 0x10000 then 3
    else 4
  }

  /** `s.len()`: the UTF-8 byte length. */
  function ByteLen(s: string): (n: nat)
    ensures |s| <= n <= 4 * |s|
  {
    if s == [] then 0 else Utf8Width(s[0]) + ByteLen(s[1..])
  }

  lemma {:induction false} ByteLenAppend(a: string, b: string)
    ensures ByteLen(a + b) == ByteLen(a) + ByteLen(b)
    decreases |a|
  {
    if a != [] {
      assert (a + b)[1..] == a[1..] + b;
      assert (a + b)[0] == a[0];
      ByteLenAppend(a[1..], b);
    } else {
      assert a + b == b;
    }
  }

  /** A text in which every character is ASCII has one byte per character. */
  lemma {:induction false} ByteLenAscii(s: string)
    requires forall i :: 0 <= i < |s| ==> s[i] as int < 0x80
    ensures ByteLen(s) == |s|
    decreases |s|
  {
    if s != [] {
      ByteLenAscii(s[1..]);
    }
  }

  /** `k` spaces. */
  function Blanks(k: nat): (r: string)
    ensures |r| == k
    ensures forall i :: 0 <= i < k ==> r[i] == ' '
  {
    if k == 0 then [] else [' '] + Blanks(k - 1)
  }

  /** `format!("{:>w}", s)`: right-aligned in a field of `w` characters. */
  function PadLeft(s: string, w: nat): (r: string)
    ensures |r| == if |s| < w then w else |s|
    ensures EndsWith(r, s)
    ensures forall i :: 0 <= i < |r| - |s| ==> r[i] == ' '
  {
    if |s| < w then Blanks(w - |s|) + s else s
  }

  // ---------------------------------------------------------------------------
  // Sequences
  // ---------------------------------------------------------------------------

  /** `xs` appears in `ys` in order, possibly with gaps. */
  predicate Subsequence<T(==)>(xs: seq<T>, ys: seq<T>)
    decreases |ys|
  {
    xs == [] || (ys != [] && ((xs[0] == ys[0] && Subsequence(xs[1..], ys[1..])) || Subsequence(xs, ys[1..])))
  }

  /** A slice of a suffix is a slice of the whole, shifted. */
  lemma DropSlice<T>(s: seq<T>, d: nat, a: nat, b: nat)
    requires d <= |s| && a <= b <= |s| - d
    ensures s[d..][a..b] == s[a + d .. b + d]
  {
    assert forall k :: 0 <= k < b - a ==> s[d..][a..b][k] == s[a + d + k];
  }
}

=== FILE: wechat.dfy ===
/** The login window of the WeChat-style example (examples/wechat/src/main.rs):
    a login page and a network-settings page, a proxy switch, and the
    window size each click asks for. The chat window it opens is not
    part of this model. */
module Wechat {
  import opened Geometry

  datatype LoginView = LoginView(showNetworkSettings: bool, proxyEnabled: bool)

  /** What a click asks of the window. */
  datatype WindowEffect =
    | Resize(size: Size)
    | CloseWindow
    | OpenChat(size: Size)

  /** `compact_window_size` and `expanded_window_size`. */
  const Compact := Size(283, 379)
  const Expanded := Size(283, 440)
  /** The size `open_chat_window` centres the chat window at. */
  const ChatWindow := Size(900, 640)

  /** The clickable controls of both pages. */
  datatype Click =
    | SettingsButton
    | CloseButton
    | EnterChat
    | BackButton
    | NetworkClose
    | ProxySwitch(checked: bool)

  /** `LoginView::new`: login page, proxy on. `main` opens it compact. */
  const Initial := LoginView(false, true)
  const InitialSize := Compact

  /** The page `render` shows: the network settings when asked for. */
  datatype Page = Login | NetworkSettings

  function PageOf(v: LoginView): (p: Page)
    ensures p == NetworkSettings <==> v.showNetworkSettings
  {
    if v.showNetworkSettings then NetworkSettings else Login
  }

  /** The network page shows the proxy fields only with the proxy on, and
      pushes its confirm button down 41 pixels instead of 24 without them. */
  function ConfirmMargin(v: LoginView): (m: nat)
    ensures v.proxyEnabled <==> m == 24
    ensures !v.proxyEnabled <==> m == 41
  {
    if v.proxyEnabled then 24 else 41
  }

  /** The controls each page renders. */
  predicate OnPage(v: LoginView, c: Click) {
    match c
    case SettingsButton | CloseButton | EnterChat => !v.showNetworkSettings
    case BackButton | NetworkClose | ProxySwitch(_) => v.showNetworkSettings
  }

  /** The click handlers: the new view and what is asked of the window. */
  function OnClick(v: LoginView, c: Click): (r: (LoginView, WindowEffect))
    ensures c == SettingsButton ==>
      r.0 == v.(showNetworkSettings := true) && r.1 == Resize(if v.proxyEnabled then Expanded else Compact)
    ensures c == BackButton ==> r.0 == v.(showNetworkSettings := false) && r.1 == Resize(Compact)
    ensures c.ProxySwitch? ==>
      r.0 == v.(proxyEnabled := c.checked) && r.1 == Resize(if c.checked then Expanded else Compact)
    ensures c == CloseButton || c == NetworkClose ==> r == (v, CloseWindow)
    ensures c == EnterChat ==> r == (v, OpenChat(ChatWindow))
  {
    match c
    case SettingsButton => (v.(showNetworkSettings := true), Resize(if v.proxyEnabled then Expanded else Compact))
    case BackButton => (v.(showNetworkSettings := false), Resize(Compact))
    case ProxySwitch(checked) => (v.(proxyEnabled := checked), Resize(if checked then Expanded else Compact))
    case CloseButton => (v, CloseWindow)
    case NetworkClose => (v, CloseWindow)
    case EnterChat => (v, OpenChat(ChatWindow))
  }

  /** The size the page needs: taller only for the network page with its
      proxy fields. */
  function Fit(v: LoginView): (s: Size)
    ensures s == Expanded <==> v.showNetworkSettings && v.proxyEnabled
    ensures s == Compact <==> !(v.showNetworkSettings && v.proxyEnabled)
  {
    if v.showNetworkSettings && v.proxyEnabled then Expanded else Compact
  }

  /** A run of clicks on the login window: the view and the window size,
      until a click closes the window or opens the chat. */
  datatype Window = Window(view: LoginView, size: Size, open: bool)

  function Step(w: Window, c: Click): (r: Window)
    ensures !w.open || !OnPage(w.view, c) ==> r == w
  {
    if !w.open || !OnPage(w.view, c) then w
    else
      var (v, effect) := OnClick(w.view, c);
      match effect
      case Resize(s) => Window(v, s, true)
      case _ => Window(v, w.size, false)
  }

  function Run(w: Window, clicks: seq<Click>): Window
    decreases |clicks|
  {
    if clicks == [] then w else Run(Step(w, clicks[0]), clicks[1..])
  }

  // ---------------------------------------------------------------------------
  // Properties
  // ---------------------------------------------------------------------------

  /** Every click a page offers sizes the window to fit the page it leads
      to. */
  lemma StepKeepsFit(w: Window, c: Click)
    requires w.open ==> w.size == Fit(w.view)
    ensures Step(w, c).open ==> Step(w, c).size == Fit(Step(w, c).view)
  {
  }

  /** The window opens fitted to the login page and stays fitted to its page
      whatever is clicked. */
  lemma {:induction false} AlwaysFits(w: Window, clicks: seq<Click>)
    requires w.open ==> w.size == Fit(w.view)
    ensures Run(w, clicks).open ==> Run(w, clicks).size == Fit(Run(w, clicks).view)
    decreases |clicks|
  {
    if clicks != [] {
      StepKeepsFit(w, clicks[0]);
      AlwaysFits(Step(w, clicks[0]), clicks[1..]);
    }
  }

  /** The initial window fits the initial page. */
  lemma InitialFits()
    ensures Fit(Initial) == InitialSize && PageOf(Initial) == Login
  {
  }

  /** Settings then Back returns to the login page at the compact size,
      leaving the proxy choice alone. */
  lemma SettingsThenBack(v: LoginView)
    requires !v.showNetworkSettings
    ensures OnClick(OnClick(v, SettingsButton).0, BackButton) == (v, Resize(Compact))
  {
  }
}

=== FILE: workspace_sidebar.dfy ===
/** The workspace sidebar story (crates/story/examples/workspace_sidebar.rs):
    projects holding worktrees, a tree view whose project headers fold
    open and shut, and a timeline view that splits every worktree into
    Today and Older by its "time ago" label. */
module WorkspaceSidebar {
  import opened Wrappers
  import opened Text

  datatype WorkspaceStatus = Ready | Conflict | Archive | NoStatus

  datatype Worktree = Worktree(
    id: string,
    branchName: string,
    baseBranch: string,
    additions: nat,
    deletions: nat,
    status: WorkspaceStatus,
    shortcut: Option<string>,
    timeAgo: Option<string>)

  datatype Project = Project(
    id: string,
    name: string,
    worktrees: seq<Worktree>,
    isExpanded: bool,
    hasMoreIcon: bool)

  datatype ViewMode = Tree | Timeline

  datatype Sidebar = Sidebar(projects: seq<Project>, selectedWorktree: Option<string>, viewMode: ViewMode)

  /** `new`: the first worktree selected, tree view. */
  function NewSidebar(projects: seq<Project>): (s: Sidebar)
    ensures s.projects == projects && s.selectedWorktree == Some("1-1") && s.viewMode == Tree
  {
    Sidebar(projects, Some("1-1"), Tree)
  }

  // ---------------------------------------------------------------------------
  // Tree view
  // ---------------------------------------------------------------------------

  /** The index of the first project with the given id, or the count. */
  function FindProject(projects: seq<Project>, id: string): (k: nat)
    ensures k <= |projects|
    ensures k < |projects| ==> projects[k].id == id
    ensures forall j :: 0 <= j < k ==> projects[j].id != id
  {
    if projects == [] then 0
    else if projects[0].id == id then 0
    else 1 + FindProject(projects[1..], id)
  }

  /** `toggle_project`: flips the first project with that id. */
  function ToggleProject(s: Sidebar, id: string): (r: Sidebar)
    ensures r.selectedWorktree == s.selectedWorktree && r.viewMode == s.viewMode
    ensures |r.projects| == |s.projects|
    ensures (forall j :: 0 <= j < |s.projects| ==> s.projects[j].id != id) ==> r == s
    ensures forall j :: 0 <= j < |s.projects| && s.projects[j].id == id ==>
      var k := FindProject(s.projects, id);
      && k <= j
      && r.projects[k] == s.projects[k].(isExpanded := !s.projects[k].isExpanded)
      && forall i :: 0 <= i < |s.projects| && i != k ==> r.projects[i] == s.projects[i]
  {
    var k := FindProject(s.projects, id);
    if k < |s.projects| then
      s.(projects := s.projects[k := s.projects[k].(isExpanded := !s.projects[k].isExpanded)])
    else s
  }

  /** A project header folds only when there is something to show or hide. */
  predicate CanExpand(p: Project) {
    p.worktrees != [] || p.isExpanded
  }

  /** A click on a project's header in the tree view. */
  function ClickHeader(s: Sidebar, index: nat): (r: Sidebar)
    requires index < |s.projects|
    ensures !CanExpand(s.projects[index]) ==> r == s
    ensures CanExpand(s.projects[index]) ==> r == ToggleProject(s, s.projects[index].id)
  {
    var p := s.projects[index];
    if CanExpand(p) then ToggleProject(s, p.id) else s
  }

  /** `select_worktree`. */
  function SelectWorktree(s: Sidebar, id: string): (r: Sidebar)
    ensures r.selectedWorktree == Some(id)
    ensures r == s.(selectedWorktree := r.selectedWorktree)
  {
    s.(selectedWorktree := Some(id))
  }

  /** `set_view_mode`. */
  function SetViewMode(s: Sidebar, mode: ViewMode): (r: Sidebar)
    ensures r.viewMode == mode
    ensures r == s.(viewMode := r.viewMode)
  {
    s.(viewMode := mode)
  }

  /** `render_git_stats`: "+n" when something was added, "-n" when
      something was removed. */
  function GitStats(additions: nat, deletions: nat): (r: seq<string>)
    ensures |r| == (if additions > 0 then 1 else 0) + (if deletions > 0 then 1 else 0)
    ensures additions > 0 ==> r[0] == "+" + NatToString(additions)
    ensures deletions > 0 ==> r[|r| - 1] == "-" + NatToString(deletions)
  {
    (if additions > 0 then ["+" + NatToString(additions)] else [])
    + (if deletions > 0 then ["-" + NatToString(deletions)] else [])
  }

  /** `render_status_badge`'s text. */
  function StatusText(status: WorkspaceStatus): (r: Option<string>)
    ensures r.None? <==> status == NoStatus
  {
    match status
    case Ready => Some("Ready to merge")
    case Conflict => Some("Merge conflicts")
    case Archive => Some("Archive")
    case NoStatus => None
  }

  // ---------------------------------------------------------------------------
  // Timeline view
  // ---------------------------------------------------------------------------

  /** The words of a label that counts minutes or hours. */
  const TimeWords: seq<string> := ["min", "hour", "分钟", "小时"]

  /** `is_today`: no label, or a label counting minutes or hours. */
  function IsToday(timeAgo: Option<string>): (today: bool)
    ensures today <==> timeAgo.None? || exists i :: 0 <= i < |TimeWords| && Contains(LowerAscii(timeAgo.value), TimeWords[i])
  {
    assert |TimeWords| == 4 && TimeWords[0] == "min" && TimeWords[1] == "hour" && TimeWords[2] == "分钟" && TimeWords[3] == "小时";
    match timeAgo
    case None => true
    case Some(t) =>
      var lower := LowerAscii(t);
      Contains(lower, "min") || Contains(lower, "hour") || Contains(lower, "分钟") || Contains(lower, "小时")
  }

  datatype Entry = Entry(projectName: string, worktree: Worktree)

  /** How many worktrees the projects hold together. */
  function WorktreeCount(projects: seq<Project>): nat {
    if projects == [] then 0 else |projects[0].worktrees| + WorktreeCount(projects[1..])
  }

  /** One project's worktrees, each with the project's name. */
  function ProjectEntries(p: Project): (r: seq<Entry>)
    ensures |r| == |p.worktrees|
    ensures forall i :: 0 <= i < |r| ==> r[i] == Entry(p.name, p.worktrees[i])
  {
    seq(|p.worktrees|, i requires 0 <= i < |p.worktrees| => Entry(p.name, p.worktrees[i]))
  }

  /** The projects' entries, one project after the other. */
  function Timeline(projects: seq<Project>): (r: seq<Entry>)
    ensures |r| == WorktreeCount(projects)
  {
    if projects == [] then [] else ProjectEntries(projects[0]) + Timeline(projects[1..])
  }

  /** Every worktree with its project's name, project by project. */
  function AllWorktrees(projects: seq<Project>): (r: seq<Entry>)
    ensures |r| == WorktreeCount(projects)
    ensures forall e :: e in r <==> exists j :: 0 <= j < |projects| && e.projectName == projects[j].name && e.worktree in projects[j].worktrees
  {
    TimelineMembers(projects);
    Timeline(projects)
  }

  /** The entries whose worktree is (or is not) from today, in their order. */
  function Keep(entries: seq<Entry>, today: bool): (r: seq<Entry>)
    ensures |r| <= |entries|
    ensures forall e :: e in r <==> e in entries && IsToday(e.worktree.timeAgo) == today
    ensures Subsequence(r, entries)
  {
    if entries == [] then []
    else
      var rest := Keep(entries[1..], today);
      assert forall e :: e in entries <==> e == entries[0] || e in entries[1..];
      if IsToday(entries[0].worktree.timeAgo) == today then
        assert ([entries[0]] + rest)[1..] == rest;
        [entries[0]] + rest
      else rest
  }

  /** `render_timeline_view`'s Today group, in timeline order. */
  function TodayGroup(projects: seq<Project>): (r: seq<Entry>)
    ensures forall e :: e in r <==>
      (exists j :: 0 <= j < |projects| && e.projectName == projects[j].name && e.worktree in projects[j].worktrees)
      && IsToday(e.worktree.timeAgo)
    ensures Subsequence(r, AllWorktrees(projects))
  {
    Keep(AllWorktrees(projects), true)
  }

  /** `render_timeline_view`'s Older group, in timeline order. */
  function OlderGroup(projects: seq<Project>): (r: seq<Entry>)
    ensures forall e :: e in r <==>
      (exists j :: 0 <= j < |projects| && e.projectName == projects[j].name && e.worktree in projects[j].worktrees)
      && !IsToday(e.worktree.timeAgo)
    ensures Subsequence(r, AllWorktrees(projects))
  {
    Keep(AllWorktrees(projects), false)
  }

  // ---------------------------------------------------------------------------
  // Properties
  // ---------------------------------------------------------------------------

  /** The two filters of the timeline split every run of entries: together
      they hold each entry once, and each entry is in exactly one. */
  lemma {:induction false} KeepPartitions(entries: seq<Entry>)
    ensures |Keep(entries, true)| + |Keep(entries, false)| == |entries|
    ensures multiset(Keep(entries, true)) + multiset(Keep(entries, false)) == multiset(entries)
    decreases |entries|
  {
    if entries != [] {
      KeepPartitions(entries[1..]);
      assert entries == [entries[0]] + entries[1..];
    }
  }

  /** An entry is on the timeline exactly when its worktree belongs to a
      project of that name. */
  lemma {:induction false} TimelineMembers(projects: seq<Project>)
    ensures forall e :: e in Timeline(projects) <==> exists j :: 0 <= j < |projects| && e.projectName == projects[j].name && e.worktree in projects[j].worktrees
    decreases |projects|
  {
    if projects != [] {
      var p := projects[0];
      var head := ProjectEntries(p);
      TimelineMembers(projects[1..]);
      assert forall e: Entry :: e in head <==> e.projectName == p.name && e.worktree in p.worktrees by {
        forall e: Entry | e.projectName == p.name && e.worktree in p.worktrees ensures e in head {
          var i :| 0 <= i < |p.worktrees| && p.worktrees[i] == e.worktree;
          assert head[i] == e;
        }
      }
      assert forall j :: 1 <= j < |projects| ==> projects[1..][j - 1] == projects[j];
    }
  }

  /** How many worktrees the projects before project `j` hold. */
  function Offset(projects: seq<Project>, j: nat): nat
    requires j <= |projects|
  {
    if j == 0 then 0 else |projects[0].worktrees| + Offset(projects[1..], j - 1)
  }

  /** Worktree `i` of project `j` sits at `Offset(projects, j) + i`. */
  lemma {:induction false} TimelineAt(projects: seq<Project>, j: nat, i: nat)
    requires j < |projects| && i < |projects[j].worktrees|
    ensures Offset(projects, j) + i < |Timeline(projects)|
    ensures Timeline(projects)[Offset(projects, j) + i] == Entry(projects[j].name, projects[j].worktrees[i])
    decreases j
  {
    var head, tail := ProjectEntries(projects[0]), projects[1..];
    assert Timeline(projects) == head + Timeline(tail);
    if j == 0 {
      assert Timeline(projects)[i] == head[i];
    } else {
      assert tail[j - 1] == projects[j];
      TimelineAt(tail, j - 1, i);
      var x := Offset(tail, j - 1) + i;
      assert Timeline(projects)[|head| + x] == Timeline(tail)[x];
    }
  }

  /** The timeline lists the worktrees project by project: worktree `i` of
      project `j` comes right after the worktrees of the projects before
      `j` and the first `i` of its own. */
  lemma AllWorktreesAt(projects: seq<Project>, j: nat, i: nat)
    requires j < |projects| && i < |projects[j].worktrees|
    ensures Offset(projects, j) + i < |AllWorktrees(projects)|
    ensures AllWorktrees(projects)[Offset(projects, j) + i] == Entry(projects[j].name, projects[j].worktrees[i])
  {
    TimelineAt(projects, j, i);
  }

  /** Today and Older partition all worktrees of the sidebar. */
  lemma TimelinePartition(projects: seq<Project>)
    ensures multiset(TodayGroup(projects)) + multiset(OlderGroup(projects)) == multiset(AllWorktrees(projects))
    ensures forall e :: e in AllWorktrees(projects) ==> (e in TodayGroup(projects) <==> e !in OlderGroup(projects))
  {
    KeepPartitions(AllWorktrees(projects));
  }

  /** The source's Today filter, `time_ago.is_none() || is_today(time_ago)`,
      and its Older filter, `time_ago.is_some() && !is_today(time_ago)`,
      are `IsToday` and its negation. */
  lemma FiltersComplement(t: Option<string>)
    ensures (t.None? || IsToday(t)) <==> IsToday(t)
    ensures (t.Some? && !IsToday(t)) <==> !IsToday(t)
  {
  }

  /** A string that lacks the first character of `sub` does not contain it. */
  lemma {:induction false} LacksFirstChar(s: string, sub: string)
    requires sub != [] && sub[0] !in s
    ensures !Contains(s, sub)
    decreases |s|
  {
    if s != [] {
      assert s[1..] == s[1..] && forall c :: c in s[1..] ==> c in s;
      LacksFirstChar(s[1..], sub);
    }
  }

  /** A label counted in minutes is today, in either case. */
  lemma MinutesAreToday()
    ensures IsToday(Some("5 MIN ago"))
  {
    assert LowerAscii("5 MIN ago")[2..5] == "min";
    assert OccursAt(LowerAscii("5 MIN ago"), "min", 2);
    ContainsIff(LowerAscii("5 MIN ago"), "min");
  }

  /** A label in which no letter starts one of the four time words, in
      either case, is older: "2 days ago", "yesterday", "3 weeks". */
  lemma OlderWithoutTimeWords(t: string)
    requires forall i :: 0 <= i < |t| ==> LowerChar(t[i]) != 'm' && LowerChar(t[i]) != 'h' && t[i] != '分' && t[i] != '小'
    ensures !IsToday(Some(t))
  {
    var l := LowerAscii(t);
    assert forall i :: 0 <= i < |l| ==> l[i] != 'm' && l[i] != 'h' && l[i] != '分' && l[i] != '小';
    LacksFirstChar(l, "min");
    LacksFirstChar(l, "hour");
    LacksFirstChar(l, "分钟");
    LacksFirstChar(l, "小时");
  }

  /** Toggling a project twice restores the sidebar. */
  lemma ToggleTwice(s: Sidebar, id: string)
    ensures ToggleProject(ToggleProject(s, id), id) == s
  {
    var k := FindProject(s.projects, id);
    if k < |s.projects| {
      var r := ToggleProject(s, id);
      FindProjectSameIds(s.projects, r.projects, id);
      assert r.projects[k := r.projects[k].(isExpanded := !r.projects[k].isExpanded)] == s.projects;
    }
  }

  /** `FindProject` looks only at ids. */
  lemma {:induction false} FindProjectSameIds(a: seq<Project>, b: seq<Project>, id: string)
    requires |a| == |b| && forall i :: 0 <= i < |a| ==> a[i].id == b[i].id
    ensures FindProject(a, id) == FindProject(b, id)
    decreases |a|
  {
    if a != [] {
      FindProjectSameIds(a[1..], b[1..], id);
    }
  }

  /** A project without worktrees, once folded, stays folded: its header
      no longer reacts. */
  lemma EmptyProjectFoldsOnce(s: Sidebar, index: nat)
    requires index < |s.projects| && s.projects[index].worktrees == [] && s.projects[index].isExpanded
    requires FindProject(s.projects, s.projects[index].id) == index
    ensures !ClickHeader(s, index).projects[index].isExpanded
    ensures ClickHeader(ClickHeader(s, index), index) == ClickHeader(s, index)
  {
  }
}

=== FILE: wrappers.dfy ===
/** Failure-compatible wrappers shared by every module of the model. */
module Wrappers {

  /** Rust's `Option<T>`. */
  datatype Option<+T> = None | Some(value: T) {

    /** Rust's `unwrap_or`. */
    function UnwrapOr(default: T): T {
      match this
      case Some(v) => v
      case None => default
    }
  }

  /** Rust's `Result<T, E>`. */
  datatype Result<+T, +E> = Ok(value: T) | Err(error: E)
}

=== FILE: wysiwyg_editor.dfy ===
/** Block editing in the WYSIWYG editor (examples/wysiwyg_editor/src/main.rs):
    a click opens one block's source in an input; finishing splices the edited
    text back into the document and re-parses it. The block parser is the
    external markdown library, so it is a parameter here. Block spans are
    character indices into the source sequence; the source's spans are UTF-8
    byte offsets, which agree with them on ASCII text. */
module WysiwygEditor {
  import opened Wrappers
  import opened Text

  datatype BlockSpan = BlockSpan(start: nat, end: nat)

  datatype BlockType =
    | Paragraph
    | Heading(depth: nat)
    | CodeBlock(lang: Option<string>)
    | List(ordered: bool)
    | Blockquote
    | Table
    | ThematicBreak

  datatype ParsedBlock = ParsedBlock(span: BlockSpan, blockType: BlockType, source: string)

  /** The editor: the document, its blocks, the block being edited and the
      current text of the block input. */
  datatype Editor = Editor(source: string, blocks: seq<ParsedBlock>, editingBlock: Option<nat>, inputValue: string)

  /** A span that can be sliced out of `src`. */
  predicate SpanIn(span: BlockSpan, src: string) {
    span.start <= span.end <= |src|
  }

  /** The blocks are what `node_to_block` produces: each span lies in the
      document and the block's source is that slice. */
  predicate BlocksOf(src: string, blocks: seq<ParsedBlock>) {
    forall i :: 0 <= i < |blocks| ==>
      SpanIn(blocks[i].span, src) && blocks[i].source == src[blocks[i].span.start..blocks[i].span.end]
  }

  /** `start_editing`: only an existing block can be opened; the input then
      holds that block's source. */
  function StartEditing(e: Editor, index: nat): (r: Editor)
    ensures index >= |e.blocks| ==> r == e
    ensures index < |e.blocks| ==> r.editingBlock == Some(index) && r.inputValue == e.blocks[index].source
    ensures r.source == e.source && r.blocks == e.blocks
  {
    if index < |e.blocks| then e.(editingBlock := Some(index), inputValue := e.blocks[index].source) else e
  }

  /** The block being edited, when it exists. */
  predicate Editing(e: Editor) {
    e.editingBlock.Some? && e.editingBlock.value < |e.blocks|
  }

  /** `finish_editing`: replaces the edited block's span by the input text and
      re-parses; always leaves editing. Slicing outside the document panics
      in the source, so the span must lie in it. */
  function FinishEditing(e: Editor, parse: string -> seq<ParsedBlock>): (r: Editor)
    requires Editing(e) ==> SpanIn(e.blocks[e.editingBlock.value].span, e.source)
    ensures r.editingBlock.None? && r.inputValue == e.inputValue
    ensures e.editingBlock.None? ==> r == e
    ensures e.editingBlock.Some? && !Editing(e) ==> r == e.(editingBlock := None)
    ensures Editing(e) ==>
      var span := e.blocks[e.editingBlock.value].span;
      && |r.source| == |e.source| - (span.end - span.start) + |e.inputValue|
      && r.source[..span.start] == e.source[..span.start]
      && r.source[span.start..span.start + |e.inputValue|] == e.inputValue
      && r.source[span.start + |e.inputValue|..] == e.source[span.end..]
      && r.blocks == parse(r.source)
  {
    match e.editingBlock
    case None => e
    case Some(i) =>
      if i < |e.blocks| then
        var span := e.blocks[i].span;
        var src := e.source[..span.start] + e.inputValue + e.source[span.end..];
        Editor(src, parse(src), None, e.inputValue)
      else e.(editingBlock := None)
  }

  /** Opening a block and finishing without changing the text leaves the
      document as it was. */
  lemma FinishWithoutEditKeepsSource(e: Editor, index: nat, parse: string -> seq<ParsedBlock>)
    requires BlocksOf(e.source, e.blocks) && index < |e.blocks|
    ensures FinishEditing(StartEditing(e, index), parse).source == e.source
  {
    var span := e.blocks[index].span;
    assert e.source == e.source[..span.start] + e.source[span.start..span.end] + e.source[span.end..];
  }

  /** Opening a block, typing `text` and finishing puts `text` in place of
      the block. */
  lemma EditReplacesBlock(e: Editor, index: nat, text: string, parse: string -> seq<ParsedBlock>)
    requires BlocksOf(e.source, e.blocks) && index < |e.blocks|
    ensures var span := e.blocks[index].span;
      FinishEditing(StartEditing(e, index).(inputValue := text), parse).source
        == e.source[..span.start] + text + e.source[span.end..]
  {
  }

  // ---------------------------------------------------------------------------
  // Code blocks
  // ---------------------------------------------------------------------------

  /** The code shown by `render_code_block`: without the first and last lines
      when there are more than two, otherwise the source as it is. */
  function CodeBody(source: string): (code: string)
    ensures |Lines(source)| <= 2 ==> code == source
  {
    var lines := Lines(source);
    if |lines| > 2 then Join(lines[1..|lines| - 1], "\n") else source
  }

  /** A fenced block loses exactly its two fence lines. */
  lemma FencesAreStripped(open: string, body: string, close: string)
    requires '\n' !in open && '\r' !in open
    requires '\r' !in body
    requires '\n' !in close && close != []
    ensures CodeBody(open + "\n" + body + "\n" + close) == body
  {
    var s := open + "\n" + body + "\n" + close;
    var rest := body + "\n" + close;
    assert s == open + "\n" + rest;
    LinesOfFirstAndRest(open, rest);
    LinesOfBodyAndLast(body, close);
    var parts := Split(body, '\n');
    assert Lines(s) == [open] + parts + [close];
    assert Lines(s)[1..|Lines(s)| - 1] == parts;
    JoinSplit(body, '\n');
  }
}
